=== FILE: README.md ===
# MonetDB MAPI client, modelled in Dafny

This project models the core of a .NET client for the MonetDB server. The
client speaks MAPI, MonetDB's line-oriented wire protocol, and exposes it
through ADO.NET classes. Every part is written as pure functions over
`string`, `seq<byte>` and `seq<string>`, or as a small immutable state record
with explicit transitions. The parts are:

- **Block framing** (`BlockStream`). This is the MAPI stream. Messages travel
  in blocks of at most 32767 bytes, each behind a 2-byte header that holds the
  length and a "last block" bit. A reader turns the last block of a message
  into readable text by appending a newline and a prompt line.
- **NeedMore flag** (`NeedMoreFlag`). A read-once flag that keeps a flush from
  marking a block as last.
- **Session** (`Session`). The socket's protocol logic:
  - the query write plan: an `s` prefix, 1020-character chunks and one
    closing `;`;
  - the challenge check and the handshake reply loop;
  - redirects, waiting for the prompt, and control commands;
  - the cancel policy.
- **Reply decoding.**
  - `ResultDecoder` is the state machine over reply lines that yields result
    sets. It dispatches on the first character of each line: `!`, `%`/`#`,
    `&`, `[`, or anything else.
  - `QueryResponse` holds the result-set description and its `ColumnCount`
    fallback, and turns a reply line into that description.
  - `Lexer` is the row tokenizer. `LexerQuirks` and `LexerRoundTrip` state
    what it rejects, what it lets through, and which rows it reads back.
- **Connection pool** (`Pool`). An idle queue and a busy list, topped up
  between a minimum and a maximum. The registry of pools is `Factory`.
- **ADO.NET adapter.**
  - `Connection`: connection-string parsing, `ChangeDatabase`, the Open/Close
    states, and the reply-size control command sent before a query.
  - `Command`: parameter substitution into the command text, and
    `ExecuteNonQuery` and `ExecuteScalar`.
  - `Parameter`: SQL literal quoting and the name-keyed parameter list.
  - `DataReader`: reading the result sets of a reply.
  - `Transaction`: the command trace of a transaction.

Exceptions are values. Every fallible operation returns a `Result` whose
failure carries the .NET exception the C# code would raise (`Wrappers`).

Several parts of the program are outside this model; each becomes a
parameter:

- socket creation and the server's answers (`Pool.Connector`,
  `Connection.SocketSource`, `Connection.Peers`);
- the hash-based challenge response (`respond` in `Session.Connect`);
- `System.Uri` (`parse` in `Session.FollowRedirect`).

Seven places where the code does not do what it evidently intends are modelled
twice, and the Findings section below lists them. Six go through a `Policy`
argument, which selects the code as written (`AsWritten`) or the evident
intent (`Corrected`): the four parameter-substitution faults, the pool key
and the stored isolation level. The seventh, `ConnectionPool.Clear`, has two
separate functions instead: `Pool.Clear` as written and `Pool.ClearDequeuing`
corrected.

## Model

| member | source | states |
|---|---|---|
| BlockStream.DecodeHeader | MonetDb.Mapi/Helpers/Mapi/Stream.cs:143-146 | The length is the upper 15 bits of the two header bytes (low 7 bits from byte 0 above its flag bit, high 8 bits from byte 1), so it never exceeds 32767, and the block is last exactly when bit 0 of byte 0 is set |
| BlockStream.EncodeHeader | MonetDb.Mapi/Helpers/Mapi/Stream.cs:179-188 | A header is two bytes, and bit 0 of the first is set exactly when the block is marked last |
| BlockStream.HeaderRoundTrip | MonetDb.Mapi/Helpers/Mapi/Stream.cs:143-146 | Decoding an encoded header gives back every length from 0 to 32767 and the last flag |
| BlockStream.HeaderBytesRoundTrip | MonetDb.Mapi/Helpers/Mapi/Stream.cs:179-188 | Every pair of header bytes is the encoding of its own decoding, so the header format has no redundant forms |
| BlockStream.EncodeBlock | MonetDb.Mapi/Helpers/Mapi/Stream.cs:190-191 | A block on the wire is its 2 header bytes followed by exactly its payload |
| BlockStream.Blocks | MonetDb.Mapi/Helpers/Mapi/Stream.cs:134-151 | Cutting a byte stream into blocks by their headers yields only blocks that fit the 32767-byte limit |
| BlockStream.BlocksOfFrame | MonetDb.Mapi/Helpers/Mapi/Stream.cs:134-151 | Cutting the framing of any sequence of fitting blocks gives that sequence back |
| BlockStream.FrameOfBlocks | MonetDb.Mapi/Helpers/Mapi/Stream.cs:134-151 | A stream that cuts cleanly into blocks is exactly the framing of those blocks |
| BlockStream.Readable | MonetDb.Mapi/Helpers/Mapi/Stream.cs:155-164 | A non-last block reads as its payload; a last block reads as its payload, then a newline if the payload is non-empty (and lacks one), then the prompt byte and a newline |
| BlockStream.NewReader | MonetDb.Mapi/Helpers/Mapi/Stream.cs:61-89 | A fresh reader has nothing buffered and has not yet seen a last block |
| BlockStream.FetchBlock | MonetDb.Mapi/Helpers/Mapi/Stream.cs:134-165 | Fetching a block fails with "Error reading data from MonetDB server" exactly when fewer than 2 header bytes remain; on success it consumes transport bytes and restarts the buffer at position 0 |
| BlockStream.FetchKeepsPending | MonetDb.Mapi/Helpers/Mapi/Stream.cs:134-165 | Fetching a block when the buffer is empty does not change the bytes still to be read |
| BlockStream.FetchKeepsMessageRest | MonetDb.Mapi/Helpers/Mapi/Stream.cs:134-165 | Fetching within a message does not change what remains of the current message |
| BlockStream.Refill | MonetDb.Mapi/Helpers/Mapi/Stream.cs:84-86 | Refilling keeps the reader well-formed and keeps its prompt byte |
| BlockStream.RefillKeeps | MonetDb.Mapi/Helpers/Mapi/Stream.cs:84-86 | Refilling an empty buffer at the end of a non-last block changes neither the pending bytes nor the rest of the message |
| BlockStream.Copy | MonetDb.Mapi/Helpers/Mapi/Stream.cs:67-88 | The copy loop returns at most `count` bytes, and fewer only when the buffer is left empty after the last refill, and those bytes followed by what is still pending equal what was pending before |
| BlockStream.Read | MonetDb.Mapi/Helpers/Mapi/Stream.cs:61-89 | `offset + count` beyond the buffer raises ArgumentOutOfRangeException; otherwise at most `count` bytes come back, fewer only when the buffer is left empty, in stream order, never past the end of the current message (the message of the block fetched first when the buffer was empty on entry); when `count` bytes are already buffered they are exactly those bytes |
| BlockStream.NewWriter | MonetDb.Mapi/Helpers/Mapi/Stream.cs:101-129 | A fresh writer has an empty 32767-byte buffer, a clear NeedMore flag and nothing on the wire |
| BlockStream.EmitBlock | MonetDb.Mapi/Helpers/Mapi/Stream.cs:172-196 | A buffer of at most 32767 bytes goes out as one block, marked last only when asked for and NeedMore is clear; the flag is read, and so cleared, only when `last` is asked for (the `&&` short-circuits); a longer buffer fails |
| BlockStream.Flush | MonetDb.Mapi/Helpers/Mapi/Stream.cs:50-53 | After a flush the buffer is empty and the NeedMore flag is clear |
| BlockStream.WriteLoop | MonetDb.Mapi/Helpers/Mapi/Stream.cs:107-128 | Filling the buffer and sending full blocks never reads the NeedMore flag |
| BlockStream.Write | MonetDb.Mapi/Helpers/Mapi/Stream.cs:101-129 | `offset + count` beyond the buffer raises ArgumentOutOfRangeException; a write leaves the NeedMore flag alone |
| BlockStream.MessageBlocks | MonetDb.Mapi/Helpers/Mapi/Stream.cs:107-128 | Splitting a message yields a non-empty list of blocks that all fit |
| BlockStream.MessageBlocksShape | MonetDb.Mapi/Helpers/Mapi/Stream.cs:107-128 | N bytes split into N div 32767 full non-last blocks and one closing block of N mod 32767 bytes (possibly empty), whose payloads concatenate back to the message |
| BlockStream.WriteThenFlush | MonetDb.Mapi/Helpers/Mapi/Stream.cs:101-129 | One Write of a whole message on an empty writer, then Flush, puts exactly the framed message blocks on the wire, with the closing block last unless NeedMore was set; the flag ends clear |
| BlockStream.ReadableMessage | MonetDb.Mapi/Helpers/Mapi/Stream.cs:155-164 | A message split into blocks reads back as the message followed by its trailer (newline if needed, prompt, newline) |
| BlockStream.ReadBack | MonetDb.Mapi/Helpers/Mapi/Stream.cs:61-89 | A reader over a written message has exactly the message and its trailer pending, all of it in the current message |
| BlockStream.SecondWriteOverwrites | MonetDb.Mapi/Helpers/Mapi/Stream.cs:113-121 | A second Write before a flush overwrites the start of the buffer instead of appending, because the write position never advances |
| BlockStream.TwoWritesOverrun | MonetDb.Mapi/Helpers/Mapi/Stream.cs:113-121 | Two Writes that together exceed one block make the flush fail with the array-bounds ArgumentException |
| BlockStream.Seek | MonetDb.Mapi/Helpers/Mapi/Stream.cs:91-94 | Seeking always raises InvalidOperationException |
| BlockStream.SetLength | MonetDb.Mapi/Helpers/Mapi/Stream.cs:96-99 | Setting the length always raises InvalidOperationException |
| NeedMoreFlag.FromBool | MonetDb.Mapi/Helpers/Mapi/NeedMore.cs:18-21 | Converting a boolean gives a flag holding that boolean |
| NeedMoreFlag.Consume | MonetDb.Mapi/Helpers/Mapi/NeedMore.cs:7-16 | Reading the flag returns whether it was raised and leaves it clear |
| NeedMoreFlag.ConsumeClear | MonetDb.Mapi/Helpers/Mapi/NeedMore.cs:15 | Reading a clear flag returns false and changes nothing |
| NeedMoreFlag.ReadOnce | MonetDb.Mapi/Helpers/Mapi/NeedMore.cs:7-21 | Two reads after setting the flag from `b` return `b`, then false |
| Session.Chunks | MonetDb.Mapi/Helpers/Mapi/Socket.cs:189-206 | The chunk plan is empty exactly when nothing of the query remains |
| Session.ExecuteSql | MonetDb.Mapi/Helpers/Mapi/Socket.cs:181-210 | Sending a query clears the socket's NeedMore flag and resets the process id to 0; an empty query sends nothing and appends the `s` prefix (if any) to what the writer already holds; a non-empty one leaves nothing buffered |
| Session.ChunksText | MonetDb.Mapi/Helpers/Mapi/Socket.cs:189-206 | The chunks, concatenated, are the query itself when its length is a multiple of 1020 (no terminator is then written); otherwise its last partial chunk loses its trailing `;` and gains one `;` and a newline |
| Session.ChunksShape | MonetDb.Mapi/Helpers/Mapi/Socket.cs:189-206 | There are ceil(n/1020) chunks; every chunk but the last is the next 1020 characters sent as non-final; the last is non-final exactly when the length is a multiple of 1020 |
| Session.ExecuteSqlText | MonetDb.Mapi/Helpers/Mapi/Socket.cs:181-206 | Everything sent, plus what remains buffered, is the previous buffer, then `s` exactly when NeedMore was clear, then the query body |
| Session.ExecuteSqlBlocks | MonetDb.Mapi/Helpers/Mapi/Socket.cs:189-206 | Sending a query of n characters flushes ceil(n/1020) times, all non-final except the last, which is final unless n is a multiple of 1020 |
| Session.ShortQuery | MonetDb.Mapi/Helpers/Mapi/Socket.cs:181-210 | A short query without a trailing `;` goes out as one final flush of `s`, the query, `;` and a newline |
| Session.CheckChallenge | MonetDb.Mapi/Helpers/Mapi/Socket.cs:274-292 | A challenge is accepted exactly when it has more than 4 `:`-separated tokens and token 2 is an integer naming a registered protocol (8 or 9); otherwise MonetDbException |
| Session.ChallengeAccepted | MonetDb.Mapi/Helpers/Mapi/Socket.cs:274-292 | A challenge whose fields hold version 8 or 9 in position 2 is accepted with those fields and that version |
| Session.ChallengeTooShort | MonetDb.Mapi/Helpers/Mapi/Socket.cs:276-281 | A challenge of at most 4 fields is refused |
| Session.ReplyLoop | MonetDb.Mapi/Helpers/Mapi/Socket.cs:116-140 | The handshake loop never drops a warning or redirect already collected, and fails only with MonetDbException |
| Session.ReplyLoopCollects | MonetDb.Mapi/Helpers/Mapi/Socket.cs:116-140 | Up to the `.` line, the payloads of the info lines become the warnings and those of the redirect lines the redirects, in order |
| Session.ReplyLoopLost | MonetDb.Mapi/Helpers/Mapi/Socket.cs:120-123 | Running out of lines before `.` raises "Connection to the server was lost" |
| Session.QueryDatabase | MonetDb.Mapi/Helpers/Mapi/Socket.cs:319-323 | The database chosen from the query pairs never contains `=`; the only failure is IndexOutOfRangeException, from a `database` pair without `=` |
| Session.QueryDatabaseFirst | MonetDb.Mapi/Helpers/Mapi/Socket.cs:319-323 | The first `database=` pair wins, whatever follows it |
| Session.QueryDatabaseAbsent | MonetDb.Mapi/Helpers/Mapi/Socket.cs:319-323 | Without a `database` pair no database is chosen |
| Session.FollowRedirect | MonetDb.Mapi/Helpers/Mapi/Socket.cs:307-328 | Only the first redirect counts, and it must start with `mapi:`, otherwise "Unknown Mapi redirect"; the host comes from the URI; a `merovingian` scheme keeps the current port and reuses the connection |
| Session.RedirectDatabase | MonetDb.Mapi/Helpers/Mapi/Socket.cs:319-323 | The redirect's database is the first `database=` query value, else the current database |
| Session.WaitForPrompt | MonetDb.Mapi/Helpers/Mapi/Socket.cs:226-245 | Waiting stops just after the first line whose first byte is the prompt, having skipped only non-empty lines that are neither prompt nor error; it fails only with "Connection to server lost!" when lines run out, IndexOutOfRangeException on an empty line, or MonetDbException on an error line |
| Session.WaitForPromptFinds | MonetDb.Mapi/Helpers/Mapi/Socket.cs:226-245 | The wait returns right after the first prompt line |
| Session.WaitForPromptError | MonetDb.Mapi/Helpers/Mapi/Socket.cs:241-242 | An error line before the prompt raises MonetDbException with the rest of that line |
| Session.WideErrorLine | MonetDb.Mapi/Helpers/Mapi/Socket.cs:236 | The line kind is read through a byte cast, so a character such as U+0121 counts as the error mark `!` |
| Session.ExecuteControlSql | MonetDb.Mapi/Helpers/Mapi/Socket.cs:247-253 | A control command goes out after anything the writer holds as `X`, the command and a newline in one final flush, leaving the writer empty; then the socket waits for the prompt |
| Session.Connect | MonetDb.Mapi/Helpers/Mapi/Socket.cs:105-153 | A handshake succeeds only after a usable challenge and a prompt, and answers with the protocol's response and a newline in one final flush |
| Session.ConnectWarnings | MonetDb.Mapi/Helpers/Mapi/Socket.cs:105-151 | With no redirects, a handshake returns exactly the info lines' payloads as warnings |
| Session.CancelRequest | MonetDb.Mapi/Helpers/Mapi/Socket.cs:212-224 | Under TerminateSession a cancel removes the socket from its pool and then disposes it; under any other strategy it raises NotImplementedException |
| QueryResponse.ColumnCount | MonetDb.Mapi/Helpers/Mapi/QueryResponseInfo.cs:10-35 | Once set, the column count is the set value; unset, it is the number of columns, or 0 when there are none |
| QueryResponse.SetColumnCount | MonetDb.Mapi/Helpers/Mapi/QueryResponseInfo.cs:26-34 | Setting the column count changes no other field |
| QueryResponse.SetThenGet | MonetDb.Mapi/Helpers/Mapi/QueryResponseInfo.cs:10-35 | A set column count is read back whatever the columns become later |
| QueryResponse.UnsetFollowsColumns | MonetDb.Mapi/Helpers/Mapi/QueryResponseInfo.cs:14-24 | An unset column count follows the column list, and is 0 without one |
| QueryResponse.ToQueryResponseInfo | MonetDb.Mapi/Extensions/MonetExt.cs:7-25 | An empty line raises ArgumentOutOfRangeException; otherwise the description is read from the line without its first character, split on single spaces |
| QueryResponse.FromParts | MonetDb.Mapi/Extensions/MonetExt.cs:9-24 | A decoded description never reports affected records |
| QueryResponse.FromPartsMeaning | MonetDb.Mapi/Extensions/MonetExt.cs:9-24 | Kinds 1 and 5 read id, tuple count, column count and row count from parts 1 to 4 and fail exactly when one is missing or not an int; any other kind gives the default description |
| QueryResponse.CountedRead | MonetDb.Mapi/Extensions/MonetExt.cs:13-21 | When parts 1 to 4 parse, a kind 1 or 5 line describes exactly those numbers |
| QueryResponse.CountedRefused | MonetDb.Mapi/Extensions/MonetExt.cs:17-20 | When one of parts 1 to 4 is missing or not an int, a kind 1 or 5 line fails with the parse's exception |
| QueryResponse.FromPartsAlike | MonetDb.Mapi/Extensions/MonetExt.cs:13-14 | Only whether the kind is 1 or 5 matters, not which |
| QueryResponse.InfoLineRoundTrip | MonetDb.Mapi/Extensions/MonetExt.cs:7-25 | A reply line written from four 32-bit numbers decodes back to exactly those numbers |
| QueryResponse.KindsAlike | MonetDb.Mapi/Extensions/MonetExt.cs:13-14 | A line of kind 1 and the same line of kind 5 decode identically |
| QueryResponse.RowLineInfo | MonetDb.Mapi/Helpers/Mapi/ResultEnumerator.cs:138 | A `[` row line, which is what the decoder passes in, always decodes to the default description |
| ResultDecoder.SplitCommaTabs | MonetDb.Mapi/Helpers/Mapi/ResultEnumerator.cs:43-46 | The header text splits on `,` into as many values as pieces, each trimmed of spaces and tabs |
| ResultDecoder.ValuesList | MonetDb.Mapi/Helpers/Mapi/ResultEnumerator.cs:48-53 | The values are the text strictly between the first `%` and the first `#`, split and trimmed; without a `#` after the `%` the Substring length is negative and raises ArgumentOutOfRangeException |
| ResultDecoder.HeaderLine | MonetDb.Mapi/Helpers/Mapi/ResultEnumerator.cs:55-58 | A header line gives its key and a non-empty list of values exactly when its values can be read |
| ResultDecoder.HeaderLineRoundTrip | MonetDb.Mapi/Helpers/Mapi/ResultEnumerator.cs:43-58 | A header line rendered from values and a key reads back as the trimmed values and the trimmed key |
| ResultDecoder.HeaderOf | MonetDb.Mapi/Helpers/Mapi/ResultEnumerator.cs:48-58 | `%body#key` reads as the trimmed key and the split body |
| ResultDecoder.ServerHeaderLine | MonetDb.Mapi/Helpers/Mapi/ResultEnumerator.cs:43-58 | A header line laid out as the server writes it (values padded with spaces and tabs) reads back as exactly the values |
| ResultDecoder.Assign | MonetDb.Mapi/Helpers/Mapi/ResultEnumerator.cs:75-94 | Keys `table_name`, `name` and `type` set that field; `length` sets the length through an int parse that can fail; any other key changes nothing |
| ResultDecoder.ApplyLine | MonetDb.Mapi/Helpers/Mapi/ResultEnumerator.cs:71-95 | A header line assigns its i-th value to the i-th column and leaves other columns alone; unknown keys change nothing; with a known key, more values than columns fails |
| ResultDecoder.Columns | MonetDb.Mapi/Helpers/Mapi/ResultEnumerator.cs:65-97 | No header lines give no columns; a successful build from header lines has as many columns as the first header line has values |
| ResultDecoder.ColumnsWise | MonetDb.Mapi/Helpers/Mapi/ResultEnumerator.cs:65-97 | When every header line has n values, column j is a fresh column overlaid, line by line, with the j-th value of each known key |
| ResultDecoder.ErrorBlock | MonetDb.Mapi/Helpers/Mapi/ResultEnumerator.cs:114-125 | An error block always ends in a MonetDbException, or in the exception a missing or empty line causes |
| ResultDecoder.ErrorBlockMessage | MonetDb.Mapi/Helpers/Mapi/ResultEnumerator.cs:114-125 | The error message is the first line joined by newlines with every following line minus its first character, up to the `.` line |
| ResultDecoder.RowRun | MonetDb.Mapi/Helpers/Mapi/ResultEnumerator.cs:28-41 | A row run stays within the reply; when no row fails, it has read only `[` lines, stops at the first line that is not one, and produced one row per `[` line |
| ResultDecoder.RowRunParsed | MonetDb.Mapi/Helpers/Mapi/ResultEnumerator.cs:28-41 | Each row of the run is that line's tokens from `Lexer.Parse(line, '[', ']')` |
| ResultDecoder.Describe | MonetDb.Mapi/Helpers/Mapi/ResultEnumerator.cs:135-141 | A yielded result set always has a column list and never reports affected records |
| ResultDecoder.DescribeMeaning | MonetDb.Mapi/Helpers/Mapi/ResultEnumerator.cs:135-141 | A result set's description is the `[` line's decoded info with the columns built from the buffered header lines; either failure is passed on |
| ResultDecoder.HeaderStep | MonetDb.Mapi/Helpers/Mapi/ResultEnumerator.cs:127-130 | A `%` or `#` line is buffered as header |
| ResultDecoder.SkipStep | MonetDb.Mapi/Helpers/Mapi/ResultEnumerator.cs:132-133 | An `&` line is ignored, and so is any other line when it is the first line read |
| ResultDecoder.DrainedStep | MonetDb.Mapi/Helpers/Mapi/ResultEnumerator.cs:135-141 | With rows drained, a `[` line yields one result set with its row run, and decoding resumes after the line that ended the run, which is never examined |
| ResultDecoder.UndrainedStep | MonetDb.Mapi/Helpers/Mapi/ResultEnumerator.cs:135-141 | With rows left unread, a `[` line yields a result set and decoding resumes at the next line |
| ResultDecoder.ResultsYield | MonetDb.Mapi/Helpers/Mapi/ResultEnumerator.cs:99-165 | Every result set the decoder yields has columns and no affected records, and a batch that ends without error yields at least one result set |
| ResultDecoder.DecodeYield | MonetDb.Mapi/Helpers/Mapi/ResultEnumerator.cs:99-165 | Decoding a whole reply yields only described result sets, and at least one unless it fails |
| ResultDecoder.HeaderBuffered | MonetDb.Mapi/Helpers/Mapi/ResultEnumerator.cs:127-130 | A run of header lines is buffered in order |
| ResultDecoder.StatementReply | MonetDb.Mapi/Helpers/Mapi/ResultEnumerator.cs:143-161 | A reply whose first line is skipped (`&` or plain text) and whose second line is plain text yields exactly one empty result set and ends the batch |
| ResultDecoder.ErrorReply | MonetDb.Mapi/Helpers/Mapi/ResultEnumerator.cs:114-125 | A reply that opens with `!` yields nothing and raises MonetDbException with "Error! " and the error block's lines |
| ResultDecoder.QueryReplyDrainedWith | MonetDb.Mapi/Helpers/Mapi/ResultEnumerator.cs:99-165 | Header, rows and a closing line, with rows drained, yield one result set with all rows; then the outer loop reads past the swallowed closing line and hits "Unexpected end of stream" |
| ResultDecoder.QueryReplyDrained | MonetDb.Mapi/Helpers/Mapi/ResultEnumerator.cs:99-165 | The same, with the description built from the first row line and the header columns |
| ResultDecoder.UnreadRows | MonetDb.Mapi/Helpers/Mapi/ResultEnumerator.cs:135-161 | With rows left unread, each further `[` line becomes a result set of its own, and the closing line ends the batch without error |
| ResultDecoder.QueryReplyUndrainedWith | MonetDb.Mapi/Helpers/Mapi/ResultEnumerator.cs:99-165 | Header, rows and a closing line, with rows unread, yield one result set per row line, only the first having the header's columns |
| ResultDecoder.QueryReplyUndrained | MonetDb.Mapi/Helpers/Mapi/ResultEnumerator.cs:99-165 | The same, with each description read from its own row line |
| ResultDecoder.UndrainedShape | MonetDb.Mapi/Helpers/Mapi/ResultEnumerator.cs:135-141 | The undrained result sets are built from the row lines' infos, only the first with the header columns |
| Lexer.KeywordFor | MonetDb.Mapi/Helpers/Mapi/Lexer.cs:49-74 | The keyword sniffed from its first letter is `true`, `TRUE`, `false`, `FALSE`, `null` or `NULL`, starting with that letter, or none |
| Lexer.SkipToStart | MonetDb.Mapi/Helpers/Mapi/Lexer.cs:18-25 | Scanning begins just after the first start character; without one nothing remains |
| Lexer.ReadQuoted | MonetDb.Mapi/Helpers/Mapi/Lexer.cs:89-110 | Reading a quoted string only extends the token and only consumes input |
| Lexer.ReadPattern | MonetDb.Mapi/Helpers/Mapi/Lexer.cs:223-239 | A fixed pattern consumes exactly its length of input into the token; input that matches but runs out raises "Enumeration already finished" |
| Lexer.ReadPatternSucceeds | MonetDb.Mapi/Helpers/Mapi/Lexer.cs:223-239 | A pattern read succeeds exactly when the input is long enough and matches character by character |
| Lexer.ReadDate | MonetDb.Mapi/Helpers/Mapi/Lexer.cs:182-221 | A date continuation only extends the token and consumes at least one character |
| Lexer.NumberLoop | MonetDb.Mapi/Helpers/Mapi/Lexer.cs:125-174 | The number loop only extends the token and only consumes input |
| Lexer.ReadNumber | MonetDb.Mapi/Helpers/Mapi/Lexer.cs:125-174 | A number token starts with its first character and always consumes input |
| Lexer.Scan | MonetDb.Mapi/Helpers/Mapi/Lexer.cs:27-122 | Scanning only appends tokens, and every token it yields is non-empty and is a keyword, a quoted string (kept with its opening `"`) or starts like a number |
| Lexer.Parse | MonetDb.Mapi/Helpers/Mapi/Lexer.cs:16-123 | Without the start character the row is empty; every token parsed is non-empty and is a keyword, a quoted string or starts like a number |
| Lexer.PrefixIgnored | MonetDb.Mapi/Helpers/Mapi/Lexer.cs:18-25 | Characters before the first start character do not affect the parse |
| LexerQuirks.NumberRejected | MonetDb.Mapi/Helpers/Mapi/Lexer.cs:83-87 | A number the number reader refuses makes the whole row fail with the same exception |
| LexerQuirks.SecondDotRejected | MonetDb.Mapi/Helpers/Mapi/Lexer.cs:137-145 | A second `.` in a number raises ArgumentException "Unrecognized char sequence" naming the number read so far |
| LexerQuirks.SecondExponentRejected | MonetDb.Mapi/Helpers/Mapi/Lexer.cs:146-161 | A second exponent marker in a number raises ArgumentException "Unrecognized char sequence" naming the number read so far |
| LexerQuirks.SpaceInsideNumber | MonetDb.Mapi/Helpers/Mapi/Lexer.cs:167-171 | A space inside a number raises ArgumentException "Unrecognized char sequence" naming the digits and the space |
| LexerQuirks.CloseConsumedByNumber | MonetDb.Mapi/Helpers/Mapi/Lexer.cs:131-135 | The `]` that ends a number is consumed with it, so scanning goes on after the row's end |
| LexerQuirks.UnterminatedQuoteAccepted | MonetDb.Mapi/Helpers/Mapi/Lexer.cs:89-110 | A quoted string with no closing quote is accepted as a token |
| LexerQuirks.SeparatedParse | MonetDb.Mapi/Helpers/Mapi/Lexer.cs:182-221 | After a date, any separator other than a space or terminator is dropped before the time |
| LexerQuirks.TimeSeparatorDropped | MonetDb.Mapi/Helpers/Mapi/Lexer.cs:182-221 | A timestamp with any non-space separator reads as the date joined directly to the time |
| LexerQuirks.TruncatedKeyword | MonetDb.Mapi/Helpers/Mapi/Lexer.cs:49-74 | `[tru]`, a word that starts like a keyword but does not spell it, raises ArgumentException "Unrecognized char 't'" |
| LexerQuirks.KeywordAtEnd | MonetDb.Mapi/Helpers/Mapi/Lexer.cs:241-253 | `[true`, a keyword at the very end of the input with nothing after it, raises the same ArgumentException |
| LexerQuirks.UnknownCharacter | MonetDb.Mapi/Helpers/Mapi/Lexer.cs:112-115 | `[x]`, a character that starts no token, raises ArgumentException "Unrecognized char sequence ''" |
| LexerQuirks.ExponentAtEnd | MonetDb.Mapi/Helpers/Mapi/Lexer.cs:146-161 | `[1e`, an exponent marker at the end of the input, raises InvalidOperationException "Enumeration already finished." |
| LexerRoundTrip.ReadNumberLiteral | MonetDb.Mapi/Helpers/Mapi/Lexer.cs:125-174 | Every well-formed number literal (sign, digits, fraction, exponent) followed by a terminator reads back as exactly itself |
| LexerRoundTrip.ReadDateLiteral | MonetDb.Mapi/Helpers/Mapi/Lexer.cs:162-166 | Every well-formed date or timestamp followed by a terminator reads back as exactly itself; a plain date consumes the terminator, a timestamp leaves it |
| LexerRoundTrip.QuotedRun | MonetDb.Mapi/Helpers/Mapi/Lexer.cs:89-110 | An escaped string followed by `"` reads back as its content with the escapes removed, ending at that quote |
| LexerRoundTrip.ParseCommaJoined | MonetDb.Mapi/Helpers/Mapi/Lexer.cs:16-123 | Any list of well-formed literals joined by `,` in brackets parses back into one token per literal |
| LexerRoundTrip.ParseTabJoined | MonetDb.Mapi/Helpers/Mapi/Lexer.cs:16-123 | The same list joined by `\t,\t` inside `[\t`...`\t]` parses back the same way |
| LexerRoundTrip.TestLiteralsRender | UnitTests/UnitTest.cs:183-192 | Any list drawn from the unit test's nine literals is a list of well-formed literals that render, and tokenize, as themselves |
| LexerRoundTrip.TestLexerPermutations | UnitTests/UnitTest.cs:180-209 | Every permutation of the nine test literals parses back to exactly that list, comma-joined and tab-joined |
| Pool.Init | MonetDb.Mapi/Helpers/ConnectionPool.cs:95-111 | Topping up only appends freshly numbered sockets to the idle queue; success leaves nothing more wanted; a creation IOException becomes "Problem connecting to the MonetDB server.", and sockets already made stay |
| Pool.InitTotal | MonetDb.Mapi/Helpers/ConnectionPool.cs:97 | When every connection succeeds, the pool grows to the minimum, or by one when nothing is idle, and never above the maximum |
| Pool.NewPool | MonetDb.Mapi/Helpers/ConnectionPool.cs:24-35 | A new pool with 1 <= min <= max starts with exactly min idle sockets |
| Pool.InitWithinMax | MonetDb.Mapi/Helpers/ConnectionPool.cs:97 | Topping up never takes a pool within its maximum above it |
| Pool.InitValid | MonetDb.Mapi/Helpers/ConnectionPool.cs:95-111 | Topping up keeps the idle and busy lists duplicate-free and disjoint |
| Pool.Dequeue | MonetDb.Mapi/Helpers/ConnectionPool.cs:42-55 | Dequeue tops up, then moves the front idle socket to the end of the busy list and returns it; it returns none only when nothing is idle after topping up |
| Pool.DequeueNull | MonetDb.Mapi/Helpers/ConnectionPool.cs:42-55 | Dequeue returns none only when the pool already holds its maximum |
| Pool.DequeueValid | MonetDb.Mapi/Helpers/ConnectionPool.cs:42-55 | Dequeue keeps the lists duplicate-free and disjoint and the pool within its maximum |
| Pool.DequeueFromPairPool | UnitTests/ConnectionPoolTest.cs:71-76 | With min = max = 2, one Dequeue leaves exactly one idle and one busy socket |
| Pool.RemoveFirst | MonetDb.Mapi/Helpers/ConnectionPool.cs:66 | Removing a socket from a list takes out one copy if present and changes nothing otherwise |
| Pool.Free | MonetDb.Mapi/Helpers/ConnectionPool.cs:57-68 | Freeing fails with "Socket is not busy" exactly when the socket is not busy; otherwise it moves the socket to the back of the idle queue, keeping the total |
| Pool.FreeValid | MonetDb.Mapi/Helpers/ConnectionPool.cs:57-68 | Freeing keeps the lists duplicate-free and disjoint |
| Pool.DequeueThenFree | MonetDb.Mapi/Helpers/ConnectionPool.cs:42-68 | Dequeue then Free of the same socket rotates it from the front to the back of the idle queue |
| Pool.Clear | MonetDb.Mapi/Helpers/ConnectionPool.cs:70-85 | Clear never closes more sockets than the surplus over the minimum, every socket it closes is the front idle socket, and when the age test holds (`aged`) and one socket is idle it closes exactly the surplus |
| Pool.ClearDequeuing | MonetDb.Mapi/Helpers/ConnectionPool.cs:70-85 | Dequeuing before closing closes a prefix of the idle queue, keeps the busy list, and never takes the pool below its minimum |
| Pool.ClearOnceEach | MonetDb.Mapi/Helpers/ConnectionPool.cs:70-85 | With dequeuing, every socket is closed at most once and the pool stays well-formed |
| Pool.ClearRepeatsFront | MonetDb.Mapi/Helpers/ConnectionPool.cs:74-82 | As written, Clear on three idle sockets for which the age test holds (`aged` true: a creation time more than five minutes ahead of the clock) with min 1 closes socket 0 twice; dequeuing first, it closes 0 and 1 and keeps 2 |
| Pool.Dispose | MonetDb.Mapi/Helpers/ConnectionPool.cs:87-93 | Dispose closes and drops every idle socket and leaves the busy list alone |
| Pool.DisposeValid | MonetDb.Mapi/Helpers/ConnectionPool.cs:87-93 | Dispose keeps the pool well-formed |
| Factory.PoolKey | MonetDb.Mapi/MonetDbConnectionFactory.cs:104-107 | The key is host, port, user name and database joined by `_`, without the password; it splits back into those fields when none of them contains `_` |
| Factory.PoolKeyCollides | MonetDb.Mapi/MonetDbConnectionFactory.cs:104-107 | Different user/database pairs can produce the same key |
| Factory.IdentitySeparates | MonetDb.Mapi/MonetDbConnectionFactory.cs:104-107 | Two settings have the same identity exactly when host, port, user name and database agree |
| Factory.GetPool | MonetDb.Mapi/MonetDbConnectionFactory.cs:109-122 | A registered pool is returned unchanged; otherwise a new pool is initialised and registered, and a failed initialisation registers nothing |
| Factory.GetPoolReuses | MonetDb.Mapi/MonetDbConnectionFactory.cs:109-122 | A later request with the same key but another password or other bounds gets the first pool back, unchanged |
| Factory.OtherUsersPool | MonetDb.Mapi/MonetDbConnectionFactory.cs:104-122 | As written, user `a` on database `b_c` is handed the pool made for user `a_b` on database `c` |
| Factory.OwnPool | MonetDb.Mapi/MonetDbConnectionFactory.cs:109-122 | Keyed by identity, a registry only ever holds each pool under its own identity, and a request gets a pool with its own identity |
| Factory.GetConnection | MonetDb.Mapi/MonetDbConnectionFactory.cs:74-92 | minConn < 1, then maxConn < 1 raise ArgumentOutOfRangeException, then minConn > maxConn raises ArgumentException, all before any pool is touched; otherwise the result is the pool's Dequeue, and the dequeued pool is stored back |
| Factory.GetConnectionValid | MonetDb.Mapi/MonetDbConnectionFactory.cs:74-92 | Handing out a connection keeps every registered pool well-formed |
| Factory.GetConnectionOwnPool | MonetDb.Mapi/MonetDbConnectionFactory.cs:74-122 | Keyed by identity, the socket handed out is busy in a pool with the requester's own identity |
| Factory.FirstConnection | MonetDb.Mapi/MonetDbConnectionFactory.cs:74-122 | The first connection on an empty registry is socket 0, busy, with min - 1 sockets idle |
| Factory.CloseConnection | MonetDb.Mapi/MonetDbConnectionFactory.cs:94-97 | Without a pool nothing changes; otherwise it succeeds exactly when the socket is busy in that pool, changes only that pool, moves the socket to the back of its idle queue and keeps its total; failure changes nothing |
| Factory.GetThenClose | MonetDb.Mapi/MonetDbConnectionFactory.cs:74-97 | A socket handed out can be closed back into its pool, which then has it at the back of the idle queue and the same total |
| Factory.RemoveConnection | MonetDb.Mapi/MonetDbConnectionFactory.cs:99-102 | Without a pool nothing changes; otherwise the pool's answer to the removal decides the outcome, and only that pool changes |
| Connection.Store | MonetDb.Mapi/MonetDbConnection.cs:314-334 | Storing a text setting never touches the port or the pool bounds |
| Connection.ParseSettings | MonetDb.Mapi/MonetDbConnection.cs:303-364 | Parsing settings only raises the pool bounds, and fails only with ArgumentException |
| Connection.ParseConnectionString | MonetDb.Mapi/MonetDbConnection.cs:296-372 | A parse only raises the pool bounds; a successful parse has a non-empty database |
| Connection.ParseFourSettings | MonetDb.Mapi/MonetDbConnection.cs:296-372 | `host=…;username=…;password=…;database=…` with plain values parses into exactly those values, the default port 50000 and the old bounds |
| Connection.SettingsOf | MonetDb.Mapi/MonetDbConnection.cs:303-309 | Building settings gives one `key=value` text per key |
| Connection.TextSettings | MonetDb.Mapi/MonetDbConnection.cs:303-334 | Any list of text settings with plain values parses into those values stored in order, without error |
| Connection.FourSettings | MonetDb.Mapi/MonetDbConnection.cs:314-334 | The four text settings store exactly their values |
| Connection.LoneKeyRejected | MonetDb.Mapi/MonetDbConnection.cs:303-309 | A setting without `=` (such as `port`) raises "ConnectionString is not well-formed" |
| Connection.BoundsOnlyRise | MonetDb.Mapi/MonetDbConnection.cs:336-363 | Re-parsing never lowers the minimum pool size |
| Connection.SetConnectionString | MonetDb.Mapi/MonetDbConnection.cs:155-171 | An empty value raises ArgumentNullException and changes nothing; otherwise the text is stored, the state kept, and the fields and error come from parsing it |
| Connection.NewConnection | MonetDb.Mapi/MonetDbConnection.cs:70-77 | An empty string raises ArgumentNullException; construction succeeds exactly when the string parses, giving a Closed connection without a socket |
| Connection.OpenConnection | MonetDb.Mapi/MonetDbConnection.cs:178-196 | Opening an open connection raises InvalidOperationException; an unset string raises "ConnectionString has not been set" and leaves it Closed; a factory exception is passed on and leaves it Connecting; opening succeeds exactly when the string is set and the socket source answers without error, and leaves the state Open holding the socket it gave |
| Connection.CloseConnection | MonetDb.Mapi/MonetDbConnection.cs:141-149 | Closing frees the socket, if any, back to its pool; the state becomes Closed unless that release throws, in which case nothing changes |
| Connection.OpenThenClose | MonetDb.Mapi/MonetDbConnection.cs:141-196 | Open then Close ends Closed, having returned the socket to its pool |
| Connection.Rewrite | MonetDb.Mapi/MonetDbConnection.cs:122-128 | Every chunk starting with `database=` (ignoring case) becomes `database=<name>`; the others stay as they are |
| Connection.ChangedChunks | MonetDb.Mapi/MonetDbConnection.cs:121-130 | The rewritten string splits on `;` into the rewritten chunks |
| Connection.ChangedKeepsOthers | MonetDb.Mapi/MonetDbConnection.cs:121-130 | A string with no `database=` chunk is left as it is |
| Connection.ChangeDatabase | MonetDb.Mapi/MonetDbConnection.cs:112-136 | An open connection is closed first, and a failed close ends the call; then a connection that never had a string raises NullReferenceException; otherwise the rewritten string is set and, if that parses, the connection is reopened only if it was open |
| Connection.ChangeDatabaseReopens | MonetDb.Mapi/MonetDbConnection.cs:112-136 | On an open connection the socket goes back to its pool, the new fields come from the rewritten string, and the result succeeds exactly when reopening gets a socket |
| Connection.ChangeDatabaseUnset | MonetDb.Mapi/MonetDbConnection.cs:121 | On a fresh connection ChangeDatabase raises NullReferenceException and changes nothing |
| Connection.SpacedDatabaseKeyKept | MonetDb.Mapi/MonetDbConnection.cs:121-128 | A ` database=` chunk is parsed as the database, because the parser trims the key (MonetDbConnection.cs:311). ChangeDatabase does not rewrite it, because its prefix test does not trim |
| Connection.PrepareExecution | MonetDb.Mapi/MonetDbConnection.cs:374-381 | Nothing is sent when the sizes agree; otherwise, without a socket it raises NullReferenceException, and with one it sends `reply_size` with the current (old) size and records the new size only if that command succeeds; a failure changes nothing |
| Connection.PrepareOnce | MonetDb.Mapi/MonetDbConnection.cs:374-381 | After a successful preparation the next one sends nothing |
| Connection.RefusedPrepareRepeats | MonetDb.Mapi/MonetDbConnection.cs:374-381 | After a refused preparation the next one sends the same command again |
| Connection.FirstReplySizeIsStale | MonetDb.Mapi/MonetDbConnection.cs:374-381 | The first preparation sends `reply_size -1`, not the configured size (the field starts at -1, MonetDbConnection.cs:53) |
| Connection.ExecuteSql | MonetDb.Mapi/MonetDbConnection.cs:234-249 | The query goes out exactly when there is a socket, the preparation succeeds and the write does not raise. An IOException from the preparation or from the query write removes the socket from its pool and is rethrown, unless the removal itself throws. Other exceptions propagate unchanged. Only the current reply size changes, and only after a successful preparation |
| Connection.BrokenSocketRemoved | MonetDb.Mapi/MonetDbConnection.cs:234-249 | When the reply-size command fails with IOException, the socket is removed from its pool and the same IOException comes back |
| Connection.BrokenWriteRemoved | MonetDb.Mapi/MonetDbConnection.cs:234-249 | When writing the query fails with IOException, the socket is removed from its pool and the same IOException comes back, with the new reply size already recorded |
| Command.Track | MonetDb.Mapi/MonetDbCommand.cs:191-195 | As written, the scan stays outside quotes exactly until the first quote character and is frozen from then on; corrected, only a quote character can change the quoting state |
| Command.Scan | MonetDb.Mapi/MonetDbCommand.cs:188-213 | The scan never changes the text before its position, and fails only by running off the end (as written) or by running out of fuel |
| Command.ScanIsReplace | MonetDb.Mapi/MonetDbCommand.cs:188-213 | On quote-free text, the scan replaces every occurrence of the name left to right, exactly as `String.Replace` would |
| Command.AbsentNameUnchanged | MonetDb.Mapi/MonetDbCommand.cs:188-213 | A text that does not contain the name's first character is left as it is |
| Command.ApplyParameter | MonetDb.Mapi/MonetDbCommand.cs:182-216 | Substitution fails only by running off the end (as written) or running out of fuel |
| Command.PlainApplyIsReplace | MonetDb.Mapi/MonetDbCommand.cs:182-216 | On quote-free text and values, substituting a parameter is `String.Replace` of the name by the value |
| Command.ApplyAll | MonetDb.Mapi/MonetDbCommand.cs:175-179 | Without parameters the text is unchanged; applying them fails only by running off the end (as written) or running out of fuel |
| Command.ExecuteCommand | MonetDb.Mapi/MonetDbCommand.cs:170-180 | A missing or not-Open connection raises "Connection is closed" before anything is sent; otherwise a substitution failure or the connection's execution error is raised, and on success the sent SQL is the text with every parameter applied and the reply size is settled |
| Command.NoParametersVerbatim | MonetDb.Mapi/MonetDbCommand.cs:170-180 | Without parameters the command text is sent verbatim |
| Command.QuoteEndsScan | MonetDb.Mapi/MonetDbCommand.cs:191-195 | As written, nothing after a quote character is substituted |
| Command.LiteralStopsScan | MonetDb.Mapi/MonetDbCommand.cs:191-195 | As written, `'"' @p` keeps `@p`, because the double quote inside the literal stops the scan |
| Command.LiteralPassedOver | MonetDb.Mapi/MonetDbCommand.cs:191-195 | Corrected, a closed single-quoted literal is skipped and scanning resumes after it |
| Command.LiteralThenSubstituted | MonetDb.Mapi/MonetDbCommand.cs:191-195 | Corrected, `'"' @p` becomes `'"' 1` |
| Command.NoQuotedName | MonetDb.Mapi/MonetDbCommand.cs:215 | The closing `"name"` pass does not rescue that text, since it contains no `"@p"` |
| Command.PrefixNameRewritten | MonetDb.Mapi/MonetDbCommand.cs:198-210 | As written, `@p` also rewrites the front of `@p0` |
| Command.WholeNameOnly | MonetDb.Mapi/MonetDbCommand.cs:198-210 | Corrected, only whole names are rewritten |
| Command.TruncatedNameRaises | MonetDb.Mapi/MonetDbCommand.cs:198-203 | As written, a text ending in a prefix of the name raises IndexOutOfRangeException |
| Command.TruncatedNameAbsent | MonetDb.Mapi/MonetDbCommand.cs:198-203 | Corrected, such a text is left as it is |
| Command.EmptyNameNeverEnds | MonetDb.Mapi/MonetDbCommand.cs:198-210 | As written, an empty name matches everywhere and the scan never ends |
| Command.EmptyNameIgnored | MonetDb.Mapi/MonetDbCommand.cs:198-210 | Corrected, an empty name leaves the text as it is |
| Command.Wrap32 | MonetDb.Mapi/MonetDbCommand.cs:116 | A 32-bit sum wraps into the int range and agrees with the true sum modulo 2^32 |
| Command.WrapAdd | MonetDb.Mapi/MonetDbCommand.cs:113-117 | Wrapping after each addition equals wrapping once at the end |
| Command.ExecuteNonQuery | MonetDb.Mapi/MonetDbCommand.cs:109-120 | The result is the 32-bit sum of the affected records over all result sets; an error from the reply is raised; an empty reply raises NullReferenceException |
| Command.ExecuteNonQueryOn | MonetDb.Mapi/MonetDbCommand.cs:109-120 | On any decoded reply, ExecuteNonQuery returns 0 or the decoder's error, since no decoded result set reports affected records |
| Command.NoneAffected | MonetDb.Mapi/MonetDbCommand.cs:109-120 | Summing over result sets that report no affected records gives 0 |
| Command.ExecuteScalar | MonetDb.Mapi/MonetDbCommand.cs:127-133 | The scalar is `GetValue` of column 0 of the first row of the first result set, or null when that set has no rows; with no result set it is the reply's error or NullReferenceException |
| Command.ScalarNull | MonetDb.Mapi/MonetDbCommand.cs:127-133 | A `NULL` first value gives DBNull |
| Parameter.Doubled | MonetDb.Mapi/MonetDbParameter.cs:19 | Doubling quotes adds one character per `'` |
| Parameter.Render | MonetDb.Mapi/MonetDbParameter.cs:9-27 | DBNull renders as `NULL`; a string or date renders inside single quotes, and a string's literal is its length plus its quote count plus 2 |
| Parameter.DoubledIsReplace | MonetDb.Mapi/MonetDbParameter.cs:19 | Doubling is `Replace("'", "''")` |
| Parameter.DoubledShape | MonetDb.Mapi/MonetDbParameter.cs:19 | A doubled body has its quotes in pairs and undoubling gives the string back |
| Parameter.RenderRoundTrip | MonetDb.Mapi/MonetDbParameter.cs:17-20 | Stripping the outer quotes and collapsing each `''` gives the string back, and the body has no lone quote |
| Parameter.RenderInjective | MonetDb.Mapi/MonetDbParameter.cs:17-20 | Different strings render to different literals |
| Parameter.IndexOf | MonetDb.Mapi/MonetDbParameterCollection.cs:15-18 | The index is that of the first parameter with the name, or -1 exactly when there is none |
| Parameter.ContainsIndexOf | MonetDb.Mapi/MonetDbParameterCollection.cs:10-18 | Contains holds exactly when IndexOf is not negative |
| Parameter.RemoveNamed | MonetDb.Mapi/MonetDbParameterCollection.cs:20-27 | Removing by name is a no-op without a match; otherwise exactly the first match (as `IndexOf` finds it) goes, and the parameters before and after it keep their order |
| Parameter.RemoveNamedCounts | MonetDb.Mapi/MonetDbParameterCollection.cs:20-27 | Exactly one parameter with the name goes when there is one, and the count of every other name is unchanged |
| Parameter.Get | MonetDb.Mapi/MonetDbParameterCollection.cs:31-34 | The getter gives none exactly when no parameter has the name, and otherwise the first parameter with that name, the one `IndexOf` finds |
| Parameter.Set | MonetDb.Mapi/MonetDbParameterCollection.cs:35-46 | The setter keeps the length when the name is present and grows it by one otherwise |
| Parameter.SetThenGet | MonetDb.Mapi/MonetDbParameterCollection.cs:31-46 | After setting a parameter the getter returns it, and parameters with other names keep their places |
| Parameter.SetNewThenRemove | MonetDb.Mapi/MonetDbParameterCollection.cs:20-46 | Setting a new name and removing it restores the list |
| DataReader.Substring | MonetDb.Mapi/MonetDbDataReader.cs:466-474 | Substring succeeds exactly when start and length lie within the text, and gives that slice |
| DataReader.GetString | MonetDb.Mapi/MonetDbDataReader.cs:466-474 | `NULL` gives null; another token gives its text without its first and last character, and fails when shorter than 2 |
| DataReader.GetStringQuoted | MonetDb.Mapi/MonetDbDataReader.cs:466-474 | A quoted token gives its content |
| DataReader.LowercaseNullIsText | MonetDb.Mapi/MonetDbDataReader.cs:553-556 | The lexer's lowercase `null` is not DBNull, and GetString turns it into `ul` |
| DataReader.Field | MonetDb.Mapi/MonetDbDataReader.cs:481-486 | A field is read exactly when the index is within the row |
| DataReader.OrdinalIn | MonetDb.Mapi/MonetDbDataReader.cs:456-459 | The ordinal is the first column with exactly that name, or -1 exactly when there is none |
| DataReader.GetOrdinal | MonetDb.Mapi/MonetDbDataReader.cs:456-459 | Without column information GetOrdinal fails; otherwise it is the first exact match |
| DataReader.OrdinalOfUniqueName | MonetDb.Mapi/MonetDbDataReader.cs:456-459 | A uniquely named column is found at its own index |
| DataReader.AccessorTable | MonetDb.Mapi/MonetDbDataReader.cs:488-535 | Each type name selects its accessor per the switch, and exactly the unknown names fall back to GetString |
| DataReader.GetValue | MonetDb.Mapi/MonetDbDataReader.cs:481-536 | A `NULL` token gives DBNull before any type dispatch; a string result agrees with GetString |
| DataReader.GetValueDispatch | MonetDb.Mapi/MonetDbDataReader.cs:488-535 | For a non-null token, a `char`/`character` column gives the first character (an empty token raises IndexOutOfRangeException), an `int`/`integer` column gives `int.Parse` of the token, a column of unknown type gives GetString, and every other accessor receives the token unchanged |
| DataReader.IsDbNull | MonetDb.Mapi/MonetDbDataReader.cs:553-556 | A value is null exactly when its token is `NULL`; DbNullAgrees ties this to GetString and GetValue |
| DataReader.DbNullAgrees | MonetDb.Mapi/MonetDbDataReader.cs:466-486 | A token is `NULL` exactly when GetString gives null, and exactly when GetValue gives DBNull |
| DataReader.IntegerColumn | MonetDb.Mapi/MonetDbDataReader.cs:426-429 | An `int` column holding a printed 32-bit number gives back that number (dispatched by `GetValue`, MonetDbDataReader.cs:488-535) |
| DataReader.StringColumn | MonetDb.Mapi/MonetDbDataReader.cs:466-474 | A column of an unknown type gives a quoted token's content (dispatched by `GetValue`, MonetDbDataReader.cs:488-535) |
| DataReader.SplitTableName | MonetDb.Mapi/MonetDbDataReader.cs:123-136 | A missing table name fails; a name without `.` has an empty schema; a qualified name splits into two parts free of `.` |
| DataReader.SplitQualified | MonetDb.Mapi/MonetDbDataReader.cs:123-136 | `schema.table` splits into that schema and table |
| DataReader.ThirdSegmentDropped | MonetDb.Mapi/MonetDbDataReader.cs:123-136 | A third segment is silently dropped |
| DataReader.NextResult | MonetDb.Mapi/MonetDbDataReader.cs:225-237 | Advancing moves to the next result set, if any, before its first row; at the end it stays on the last set past its rows; it fails only past the end of a reply that failed or was empty |
| DataReader.Open | MonetDb.Mapi/MonetDbDataReader.cs:30-38 | A reader opens on the first result set, before its first row, exactly when there is one; otherwise it raises the reply's error or NullReferenceException |
| DataReader.CurrentRow | MonetDb.Mapi/MonetDbDataReader.cs:243-246 | The row the row enumerator stands on after `Read`; NextResultReports and ReadTimes say which row that is |
| DataReader.RecordsAffected | MonetDb.Mapi/MonetDbDataReader.cs:251-254 | The affected-record count of the current result set; NextResultReports says which set |
| DataReader.FieldCount | MonetDb.Mapi/MonetDbDataReader.cs:277-280 | The column count of the current result set; NextResultReports says which set |
| DataReader.NextResultReports | MonetDb.Mapi/MonetDbDataReader.cs:225-237 | After NextResult moves to a new set, RecordsAffected and FieldCount are that set's, and the first Read lands on its first row |
| DataReader.Read | MonetDb.Mapi/MonetDbDataReader.cs:243-246 | Read advances one row and returns true exactly when a row remains in the current result set |
| DataReader.ReadTimes | MonetDb.Mapi/MonetDbDataReader.cs:243-246 | After n reads from the start of a set, the current row is its n-th row |
| DataReader.ReadPastEnd | MonetDb.Mapi/MonetDbDataReader.cs:243-246 | Once the rows are used up, Read keeps returning false |
| DataReader.NextResultPastEnd | MonetDb.Mapi/MonetDbDataReader.cs:225-246 | NextResult past the last result set returns false, and Read then returns false |
| DataReader.Replay | MonetDb.Mapi/MonetDbDataReader.cs:30-38 | The reader's result sets are the decoder's, with the same descriptions and, when drained, the same rows |
| DataReader.ReplyOpens | MonetDb.Mapi/MonetDbDataReader.cs:30-38 | A reader opens on a decoded reply exactly when the decoder yields a result set, fails with the decoder's error otherwise, and no result set reports affected records |
| Transaction.LevelName | MonetDb.Mapi/MonetDbTransaction.cs:25-28 | An isolation level always has a non-empty name for the error message |
| Transaction.UnnamedLevel | MonetDb.Mapi/MonetDbTransaction.cs:25-28 | In that message a number that names no level, such as 0, appears as the number, and Serializable appears by its name |
| Transaction.CheckConnection | MonetDb.Mapi/MonetDbTransaction.cs:86-91 | A missing or not-Open connection raises "Connection unexpectedly disposed or closed" |
| Transaction.Statement | MonetDb.Mapi/MonetDbTransaction.cs:52-108 | A statement is sent exactly when the connection is Open and its execution succeeds; a missing or closed connection is refused with "Connection unexpectedly disposed or closed" |
| Transaction.Begin | MonetDb.Mapi/MonetDbTransaction.cs:22-34 | A level other than Serializable raises ArgumentException, then a missing connection ArgumentNullException; success issues exactly `START TRANSACTION;`, as `Start` does (MonetDbTransaction.cs:96-108) |
| Transaction.BeginDbTransaction | MonetDb.Mapi/MonetDbConnection.cs:256-268 | A closed connection raises "Connection is not open"; then only Serializable is accepted |
| Transaction.Commit | MonetDb.Mapi/MonetDbTransaction.cs:52-64 | Commit issues `COMMIT;` exactly when the connection is Open and the command runs |
| Transaction.Rollback | MonetDb.Mapi/MonetDbTransaction.cs:69-81 | Rollback issues `ROLLBACK;` exactly when the connection is Open and the command runs |
| Transaction.BeginThenCommit | MonetDb.Mapi/MonetDbTransaction.cs:22-64 | Begin on an open connection issues `START TRANSACTION;`. The Commit after it fails exactly when writing `COMMIT;` raises, and it sends no second reply-size command |
| Transaction.ClosedRefused | MonetDb.Mapi/MonetDbTransaction.cs:86-91 | On a closed connection begin, commit and rollback all fail |
| Transaction.IsolationNotKept | MonetDb.Mapi/MonetDbTransaction.cs:31 | As written, the transaction reports isolation level 0 instead of Serializable (read back at MonetDbTransaction.cs:44-47) |
| Transaction.IsolationKept | MonetDb.Mapi/MonetDbTransaction.cs:31 | Corrected, the transaction reports the level it was begun with, Serializable (read back at MonetDbTransaction.cs:44-47) |
| Text.Split | MonetDb.Mapi/Extensions/MonetExt.cs:9 | `String.Split` on one character gives one more piece than there are separators, none containing it |
| Text.JoinSplit | MonetDb.Mapi/MonetDbConnection.cs:121-130 | Joining the pieces of a split with the separator gives the text back |
| Text.SplitJoin | MonetDb.Mapi/MonetDbConnection.cs:121-130 | Splitting a join of separator-free pieces gives the pieces back |
| Text.ParseInt32 | MonetDb.Mapi/Extensions/MonetExt.cs:17-20 | `int.Parse` gives a 32-bit value or raises FormatException or OverflowException |
| Text.ParseIntToString | MonetDb.Mapi/Extensions/MonetExt.cs:17-20 | Every printed 32-bit integer parses back to itself |

## Left out

- Transport and encodings are not modelled: TCP sockets, `BufferedStream`, UTF-8 `StreamReader`/`StreamWriter`, timeouts and the finalizer. Streams are byte sequences and replies are line sequences.
- Locks and the `ConcurrentQueue` behaviour are not modelled. Each pool operation is one sequential step.
- The factory's maintenance timer (MonetDb.Mapi/MonetDbConnectionFactory.cs:33-61) and the wall clock are not modelled. `Pool.Clear` takes the age comparison as an argument.
- Challenge-response hashing (`MapiProtocolVersion8/9`, `MapiProtocolFactory`) is not part of this model. It is the `respond` parameter of `Session.Connect`, and versions 8 and 9 are taken as the registered ones.
- `System.Uri` is not modelled. It is the `parse` parameter of `Session.FollowRedirect`.
- The reader's float, double, decimal, DateTime, Guid and integer parsing is only dispatched. `GetValue` returns the chosen accessor with the raw token (`DataReader.Parsed`), except for `int` and `char`, which are modelled. These are library parses of floating-point and date values.
- `GetSchemaTable`, metadata, `HasRows`, `GetValues` and `Depth` are not modelled. They are wrappers over the same result sets.
- `MonetDbConnectionStringBuilder` is not modelled. It is reflection over a dictionary.
- The WebApi controller, the models and the enums are not modelled. They are outside the client core.
- `Command.Cancel` is not modelled separately. It only raises NotImplementedException (MonetDb.Mapi/MonetDbCommand.cs:99-102).
- `Command.Prepare` is not modelled. It does nothing (MonetDb.Mapi/MonetDbCommand.cs:138-140).
- The command and transaction models do not show what the server answers to the SQL they send. The transaction ignores the result sets.
- Version skew in the source: ConnectionPool.cs has a one-argument `Free` and no `Remove`, but the factory calls `Pool?.Free(socket, callback)` and `Pool?.Remove(...)`. The model uses the pool's own `Free` for a close and never runs the callback, so the connection keeps its socket id. Removal is a parameter of `Factory.RemoveConnection` and of `Connection.Peers`. The 5-argument `Connect` and the parameterless `Socket` constructor that the pool calls are covered by `Pool.Connector`.
- Command.ApplyParameter: a `fuel` bound stands for the source's unbounded loop. `OutOfFuel` is the model's name for a scan that never ends. The `int` position and quote counters are taken not to wrap.
- Command.ExecuteNonQuery: takes the reader's result sets as an argument. `Command.ExecuteNonQueryOn` connects it to the decoder.
- ResultDecoder.EnvironmentNewLine: fixed to "\n". `Environment.NewLine` is "\r\n" on Windows, where error messages would join with CR LF.
- Text.ToLower: uses ASCII lowering only. `ToLowerInvariant` also lowers non-ASCII letters.
- Text.ParseInt32: follows invariant-culture `int.Parse` over ASCII digits, signs and white space. Culture-specific signs and non-ASCII digits are not modelled. `Text.TryParseInt32` (`int.TryParse`) inherits the same grammar.
- Connection.StartsWithIgnoreCase: stands for `StartsWith("database=", StringComparison.InvariantCultureIgnoreCase)` (MonetDb.Mapi/MonetDbConnection.cs:124). The culture-aware comparison is reduced to ASCII case folding.
- Text.IndexOf: is ordinal, per character.
- Session.Connect: returns the redirect target as `Redirected` and does not run the second handshake. `Connect` on the target is the same function applied to the new line sequence.
- Session.FollowRedirect: takes a total `parse`, so `UriFormatException` from a malformed redirect is not modelled.
- Parameter.Render: has no null value and no null parameter name. The source raises NullReferenceException for a null value (MonetDb.Mapi/MonetDbParameter.cs:26) and for a null name (MonetDb.Mapi/MonetDbCommand.cs:186).
- Parameter.Render: renders `Other` values as already-converted text. `ToString()` of numbers is .NET formatting. A `Date` carries its formatted text instead of `ToString("yyyy-MM-dd HH:mm:ss")`.
- BlockStream.FetchBlock: its `TransportStalled` failure stands for the loop at MonetDb.Mapi/Helpers/Mapi/Stream.cs:150-151. That loop spins forever when the transport ends in the middle of a payload.
- BlockStream.EmitBlock: a buffer longer than one block fails without writing. The source has already written the 2 header bytes (MonetDb.Mapi/Helpers/Mapi/Stream.cs:190-191) when the payload write raises.
- BlockStream.Write: the write properties cover one Write per message, since the write position never advances (MonetDb.Mapi/Helpers/Mapi/Stream.cs:113, 121). Two Writes are shown only by `SecondWriteOverwrites` and `TwoWritesOverrun`.
- DataReader.Replay: the decoder is modelled at two extremes. Either every row is drained, or no row is read before the next result set. The source's lazy row iterator lets the number of rows read decide where the next result set starts, and intermediate mixes are not modelled.
- DataReader.Replay: an exception met while iterating rows is reported when the reader moves past the last result set, not at the row where it happened.
- DataReader.NextResult: past the end of the reply it stays on the last result set with no rows left. In the source the shared row iterator holds the terminating line, so Read then also returns false.
- Pool.Clear: `aged` is one answer per call to the age test. The source evaluates that comparison afresh on every pass of its loop. Its test `socket.Created > DateTime.Now.AddMinutes(5)` (MonetDb.Mapi/Helpers/ConnectionPool.cs:78) asks for a creation time in the future, so on a correct clock it is false. The model keeps the answer as the `aged` parameter rather than fixing it to false.
- Connection.ExecuteSql: whether writing the query raises is the `query` answer of `Connection.Peers`, not the byte-level `Session.ExecuteSql`. An IOException from that write goes to `RemoveConnection` just like one from the preparation (`Connection.BrokenWriteRemoved`). Reading the reply happens after the guarded block and is `ResultDecoder`'s.
- Connection.SetConnectionString: a null argument is not separate from `""`. The setter and the constructor refuse both alike (`string.IsNullOrEmpty`), so nothing is lost there. A `""` connection-string field stands for the never-set (null) field of `Connection.Blank`.

## Findings

| source | as written | input that shows it | evidently intended | confidence | as-written member | corrected member |
|---|---|---|---|---|---|---|
| MonetDb.Mapi/MonetDbCommand.cs:191-195 | The quote counters only grow, so no name after the first quote character is ever substituted, even after the literal closes | text `'"' @p`, parameter `@p` = `1`: the text stays `'"' @p` | names outside string literals are substituted (`'"' 1`), as UnitTests/UnitTest.cs:266-292 expects | not executed | Command.LiteralStopsScan | Command.LiteralThenSubstituted |
| MonetDb.Mapi/MonetDbCommand.cs:198-210 | A name matches as a bare prefix, so `@p` rewrites the front of `@p0` | text `@p0 @p`, parameter `@p` = `x`: result `x0 x` | only whole names are rewritten (`@p0 x`), as UnitTests/UnitTest.cs:336-366 expects | not executed | Command.PrefixNameRewritten | Command.WholeNameOnly |
| MonetDb.Mapi/MonetDbCommand.cs:198-203 | Matching runs past the end of the buffer when the text ends in a prefix of the name | text `@p`, parameter `@p0`: IndexOutOfRangeException | the text is left unchanged | not executed | Command.TruncatedNameRaises | Command.TruncatedNameAbsent |
| MonetDb.Mapi/MonetDbCommand.cs:198-210 | An empty parameter name matches at every position, and the scan resumes on the inserted value, so it never ends | text `a`, parameter `` = `1` | an empty name substitutes nothing | not executed | Command.EmptyNameNeverEnds | Command.EmptyNameIgnored |
| MonetDb.Mapi/MonetDbTransaction.cs:31 | `_isolation = IsolationLevel` assigns the field to itself through the getter, so the level is never stored | a Serializable transaction reports level 0 | the transaction reports Serializable | not executed | Transaction.IsolationNotKept | Transaction.IsolationKept |
| MonetDb.Mapi/MonetDbConnectionFactory.cs:104-118 | Pools are keyed by `host_port_username_database`, which is ambiguous when a field contains `_` | user `a_b` on database `c`, then user `a` on database `b_c`: the second gets the first's pool | each user and database gets its own pool | not executed | Factory.OtherUsersPool | Factory.GetConnectionOwnPool |
| MonetDb.Mapi/Helpers/ConnectionPool.cs:74-82 | Clear peeks at the front socket and closes it without dequeuing it, so it closes the same socket repeatedly | three idle sockets for which the age test holds (`aged` true: a creation time more than five minutes ahead of the clock), minimum 1: socket 0 is closed twice and sockets 1 and 2 stay | each surplus idle socket is dequeued and closed once | not executed | Pool.ClearRepeatsFront | Pool.ClearOnceEach |

=== FILE: block_stream.dfy ===
/**
 * The MAPI block stream. Every message to and from the server travels as a
 * run of blocks, each a 2-byte header followed by at most 32767 payload
 * bytes. The header holds the payload length in its upper 15 bits and a
 * "last block of the message" flag in bit 0 of the first byte.
 *
 * The reader turns blocks back into readable bytes and ends every message
 * with a synthetic prompt line; the writer cuts what it is given into
 * blocks and marks the block sent on `Flush` as last unless the `NeedMore`
 * flag asks for more.
 */
module BlockStream {
  import opened Wrappers
  import opened NeedMoreFlag

  newtype byte = x: int | 0 <= x < 256

  /** The largest payload: the size of the write buffer, `short.MaxValue`. */
  const MaxPayload: int := 32767

  const NewLine: byte := 10

  // ---------------------------------------------------------------------------
  // Block headers
  // ---------------------------------------------------------------------------

  datatype Header = Header(length: int, last: bool)

  /**
   * The header of a block as the reader decodes it: the first byte without
   * its low bit, or-ed with the second byte shifted left by 7. The two parts
   * occupy disjoint bits, so the or is a sum.
   */
  function DecodeHeader(b0: byte, b1: byte): (h: Header)
    ensures 0 <= h.length <= MaxPayload
    ensures h.length % 128 == b0 as int / 2 && h.length / 128 == b1 as int
    ensures h.last <==> b0 % 2 == 1
  {
    Header(b0 as int / 2 + b1 as int * 128, b0 % 2 == 1)
  }

  /**
   * The header the writer sends for a payload of `n` bytes: the length
   * shifted left by one, truncated to a byte, with the flag in bit 0, and
   * the length shifted right by 7.
   */
  function EncodeHeader(n: int, last: bool): (bs: seq<byte>)
    requires 0 <= n <= MaxPayload
    ensures |bs| == 2
    ensures (bs[0] % 2 == 1) <==> last
  {
    [((2 * n) % 256 + (if last then 1 else 0)) as byte, (n / 128) as byte]
  }

  /** Decoding an encoded header gives back the length and the flag. */
  lemma {:induction false} HeaderRoundTrip(n: int, last: bool)
    requires 0 <= n <= MaxPayload
    ensures var bs := EncodeHeader(n, last); DecodeHeader(bs[0], bs[1]) == Header(n, last)
  {
    var q, r := n / 128, n % 128;
    assert n == 128 * q + r;
    assert (2 * n) % 256 == 2 * r;
  }

  /** Every pair of bytes is the encoding of the header it decodes to. */
  lemma {:induction false} HeaderBytesRoundTrip(b0: byte, b1: byte)
    ensures var h := DecodeHeader(b0, b1); EncodeHeader(h.length, h.last) == [b0, b1]
  {
    var h := DecodeHeader(b0, b1);
    var n := h.length;
    assert n / 128 == b1 as int && n % 128 == b0 as int / 2;
    assert (2 * n) % 256 == 2 * (n % 128);
  }

  // ---------------------------------------------------------------------------
  // Blocks on the wire
  // ---------------------------------------------------------------------------

  datatype Block = Block(payload: seq<byte>, last: bool)

  predicate Fits(b: Block) { |b.payload| <= MaxPayload }

  predicate AllFit(bs: seq<Block>) { forall i :: 0 <= i < |bs| ==> Fits(bs[i]) }

  function EncodeBlock(b: Block): (w: seq<byte>)
    requires Fits(b)
    ensures |w| == 2 + |b.payload| && w[2..] == b.payload
  {
    EncodeHeader(|b.payload|, b.last) + b.payload
  }

  /** The bytes of a run of blocks. */
  function Frame(bs: seq<Block>): (w: seq<byte>)
    requires AllFit(bs)
  {
    if |bs| == 0 then [] else EncodeBlock(bs[0]) + Frame(bs[1..])
  }

  /** The blocks a byte sequence consists of, if it splits exactly into complete blocks. */
  function Blocks(w: seq<byte>): (r: Option<seq<Block>>)
    ensures r.Some? ==> AllFit(r.value)
    decreases |w|
  {
    if |w| == 0 then Some([])
    else if |w| < 2 then None
    else
      var h := DecodeHeader(w[0], w[1]);
      if |w| < 2 + h.length then None
      else
        var rest :- Blocks(w[2 + h.length..]);
        Some([Block(w[2..2 + h.length], h.last)] + rest)
  }

  lemma {:induction false} BlocksOfFrame(bs: seq<Block>)
    requires AllFit(bs)
    ensures Blocks(Frame(bs)) == Some(bs)
    decreases |bs|
  {
    if |bs| > 0 {
      var b := bs[0];
      var w := Frame(bs);
      assert w == EncodeBlock(b) + Frame(bs[1..]);
      HeaderRoundTrip(|b.payload|, b.last);
      assert w[0] == EncodeBlock(b)[0] && w[1] == EncodeBlock(b)[1];
      assert w[2..2 + |b.payload|] == b.payload;
      assert w[2 + |b.payload|..] == Frame(bs[1..]);
      BlocksOfFrame(bs[1..]);
      assert [b] + bs[1..] == bs;
    }
  }

  lemma {:induction false} FrameOfBlocks(w: seq<byte>)
    requires Blocks(w).Some?
    ensures Frame(Blocks(w).value) == w
    decreases |w|
  {
    if |w| > 0 {
      var h := DecodeHeader(w[0], w[1]);
      var b := Block(w[2..2 + h.length], h.last);
      var tail := w[2 + h.length..];
      var rest := Blocks(tail).value;
      var bs := Blocks(w).value;
      assert bs == [b] + rest;
      assert bs[1..] == rest;
      FrameOfBlocks(tail);
      LeadingBlock(w);
      assert Frame(bs) == EncodeBlock(b) + Frame(rest);
      TakeDrop(w, 2 + h.length);
    }
  }

  lemma {:induction false} TakeDrop<T>(s: seq<T>, k: nat)
    requires k <= |s|
    ensures s[..k] + s[k..] == s
  {
  }

  /** The header bytes and payload at the start of a byte sequence encode back to themselves. */
  lemma {:induction false} LeadingBlock(w: seq<byte>)
    requires |w| >= 2 && |w| >= 2 + DecodeHeader(w[0], w[1]).length
    ensures var h := DecodeHeader(w[0], w[1]);
            Fits(Block(w[2..2 + h.length], h.last)) && EncodeBlock(Block(w[2..2 + h.length], h.last)) == w[..2 + h.length]
  {
    var h := DecodeHeader(w[0], w[1]);
    HeaderBytesRoundTrip(w[0], w[1]);
    assert w[..2 + h.length] == [w[0], w[1]] + w[2..2 + h.length];
  }

  /** The payloads of a run of blocks, concatenated. */
  function Payloads(bs: seq<Block>): seq<byte>
  {
    if |bs| == 0 then [] else bs[0].payload + Payloads(bs[1..])
  }

  // ---------------------------------------------------------------------------
  // Reading
  // ---------------------------------------------------------------------------

  /**
   * What the reader makes of one block. A last block gains a newline, unless
   * its payload is empty or already ends with one, and then the prompt line:
   * the prompt byte and a newline.
   */
  function Readable(b: Block, prompt: byte): (c: seq<byte>)
    ensures b.payload <= c
    ensures !b.last ==> c == b.payload
    ensures b.last ==> |c| >= 2 && c[|c| - 2..] == [prompt, NewLine]
    ensures b.last && |b.payload| > 0 ==> |c| >= 3 && c[|c| - 3] == NewLine
    ensures b.last ==> |c| <= |b.payload| + 3
  {
    if !b.last then b.payload
    else
      var p := b.payload;
      var terminated := if |p| > 0 && p[|p| - 1] != NewLine then p + [NewLine] else p;
      terminated + [prompt, NewLine]
  }

  /** Everything a run of blocks makes readable. */
  function ReadableAll(bs: seq<Block>, prompt: byte): seq<byte>
  {
    if |bs| == 0 then [] else Readable(bs[0], prompt) + ReadableAll(bs[1..], prompt)
  }

  /**
   * The reading side: the current block's readable bytes, the read position
   * in it, whether it was the last block of its message, the bytes still to
   * come from the server, and the byte the prompt line starts with.
   */
  datatype Reader = Reader(buffer: seq<byte>, pos: int, last: bool, transport: seq<byte>, prompt: byte)
  {
    predicate Valid() { 0 <= pos <= |buffer| }

    function Available(): int
      requires Valid()
    {
      |buffer| - pos
    }
  }

  function NewReader(transport: seq<byte>, prompt: byte): (r: Reader)
    ensures r.Valid() && r.Available() == 0 && !r.last
  {
    Reader([], 0, false, transport, prompt)
  }

  const HeaderError := MonetDbException("Error reading data from MonetDB server")

  /**
   * `ReadNextBlock`: reads a header and its payload and makes the block
   * readable from position 0. Fewer than two header bytes is an error; a
   * payload the server never finishes sending leaves the source waiting
   * forever, which the model reports as `TransportStalled`.
   */
  function FetchBlock(r: Reader): (res: Result<Reader>)
    ensures res.Ok? ==> res.value.Valid() && res.value.pos == 0 && res.value.prompt == r.prompt
    ensures res.Ok? ==> |res.value.transport| < |r.transport|
    ensures |r.transport| < 2 <==> res == Fail(HeaderError)
  {
    var t := r.transport;
    if |t| < 2 then Fail(HeaderError)
    else
      var h := DecodeHeader(t[0], t[1]);
      if |t| < 2 + h.length then Fail(TransportStalled)
      else
        var b := Block(t[2..2 + h.length], h.last);
        Ok(Reader(Readable(b, r.prompt), 0, h.last, t[2 + h.length..], r.prompt))
  }

  /** The transport holds complete blocks only. */
  predicate Framed(r: Reader) { Blocks(r.transport).Some? }

  /** The bytes a reader will hand out from now on. */
  function Pending(r: Reader): seq<byte>
    requires r.Valid() && Framed(r)
  {
    r.buffer[r.pos..] + ReadableAll(Blocks(r.transport).value, r.prompt)
  }

  /** The number of blocks up to and including the first last block, or all of them. */
  function FirstLast(bs: seq<Block>): (k: nat)
    ensures k <= |bs|
    ensures forall i :: 0 <= i < k - 1 ==> !bs[i].last
    ensures k < |bs| ==> k > 0 && bs[k - 1].last
  {
    if |bs| == 0 then 0
    else if bs[0].last then 1
    else 1 + FirstLast(bs[1..])
  }

  /** The bytes a reader will hand out before the end of the current message. */
  function MessageRest(r: Reader): seq<byte>
    requires r.Valid() && Framed(r)
  {
    if r.last then r.buffer[r.pos..]
    else
      var bs := Blocks(r.transport).value;
      r.buffer[r.pos..] + ReadableAll(bs[..FirstLast(bs)], r.prompt)
  }

  /** The first block of a framed transport, as `FetchBlock` reads it. */
  lemma {:induction false} FetchFirst(r: Reader)
    requires r.Valid() && Framed(r) && FetchBlock(r).Ok?
    ensures var bs := Blocks(r.transport).value; var r1 := FetchBlock(r).value;
            |bs| > 0 && Framed(r1) && Blocks(r1.transport).value == bs[1..]
            && r1.buffer == Readable(bs[0], r.prompt) && r1.last == bs[0].last
  {
    var t := r.transport;
    var h := DecodeHeader(t[0], t[1]);
    assert Blocks(t).value == [Block(t[2..2 + h.length], h.last)] + Blocks(t[2 + h.length..]).value;
  }

  /** Fetching a block moves bytes from the transport into the buffer without losing any. */
  lemma {:induction false} FetchKeepsPending(r: Reader)
    requires r.Valid() && r.Available() == 0 && Framed(r) && FetchBlock(r).Ok?
    ensures Framed(FetchBlock(r).value) && Pending(FetchBlock(r).value) == Pending(r)
  {
    FetchFirst(r);
    var bs := Blocks(r.transport).value;
    var r1 := FetchBlock(r).value;
    assert ReadableAll(bs, r.prompt) == Readable(bs[0], r.prompt) + ReadableAll(bs[1..], r.prompt);
    assert r.buffer[r.pos..] == [];
    assert r1.buffer[r1.pos..] == r1.buffer;
  }

  /** Fetching the next block inside a message keeps the rest of the message. */
  lemma {:induction false} FetchKeepsMessageRest(r: Reader)
    requires r.Valid() && !r.last && r.Available() == 0 && Framed(r) && FetchBlock(r).Ok?
    ensures Framed(FetchBlock(r).value) && MessageRest(FetchBlock(r).value) == MessageRest(r)
  {
    FetchFirst(r);
    var bs := Blocks(r.transport).value;
    var r1 := FetchBlock(r).value;
    var b := bs[0];
    assert r.buffer[r.pos..] == [];
    assert r1.buffer[r1.pos..] == Readable(b, r.prompt);
    var k := FirstLast(bs);
    if b.last {
      assert k == 1 && bs[..k] == [b];
      assert ReadableAll(bs[..k], r.prompt) == Readable(b, r.prompt) + ReadableAll([], r.prompt);
    } else {
      var rest := bs[1..];
      assert k == 1 + FirstLast(rest);
      assert bs[..k] == [b] + rest[..FirstLast(rest)];
      assert ReadableAll(bs[..k], r.prompt) == Readable(b, r.prompt) + ReadableAll(rest[..FirstLast(rest)], r.prompt);
    }
  }

  /**
   * The end of each pass of `Read`'s loop: when the buffer has run dry and
   * the block was not the last of its message, the next block is fetched.
   */
  function Refill(r: Reader): (res: Result<Reader>)
    requires r.Valid()
    ensures res.Ok? ==> res.value.Valid() && res.value.prompt == r.prompt
  {
    if !r.last && r.Available() == 0 then FetchBlock(r) else Ok(r)
  }

  lemma {:induction false} RefillKeeps(r: Reader)
    requires r.Valid() && Framed(r) && Refill(r).Ok?
    ensures Framed(Refill(r).value)
    ensures Pending(Refill(r).value) == Pending(r)
    ensures MessageRest(Refill(r).value) == MessageRest(r)
  {
    if !r.last && r.Available() == 0 {
      FetchKeepsPending(r);
      FetchKeepsMessageRest(r);
    }
  }

  /** Moving the read position hands out the bytes passed over. */
  lemma {:induction false} Advance(r: Reader, length: int)
    requires r.Valid() && Framed(r) && 0 <= length <= r.Available()
    ensures var r0 := r.(pos := r.pos + length);
            Framed(r0)
            && Pending(r) == r.buffer[r.pos..r.pos + length] + Pending(r0)
            && MessageRest(r) == r.buffer[r.pos..r.pos + length] + MessageRest(r0)
  {
    AdvancePending(r, length);
    AdvanceRest(r, length);
  }

  lemma {:induction false} AdvancePending(r: Reader, length: int)
    requires r.Valid() && Framed(r) && 0 <= length <= r.Available()
    ensures var r0 := r.(pos := r.pos + length);
            Framed(r0) && Pending(r) == r.buffer[r.pos..r.pos + length] + Pending(r0)
  {
    var r0 := r.(pos := r.pos + length);
    var tail := ReadableAll(Blocks(r.transport).value, r.prompt);
    assert Pending(r) == r.buffer[r.pos..] + tail;
    assert Pending(r0) == r.buffer[r.pos + length..] + tail;
    SliceFront(r.buffer, r.pos, length, tail);
  }

  lemma {:induction false} AdvanceRest(r: Reader, length: int)
    requires r.Valid() && Framed(r) && 0 <= length <= r.Available()
    ensures var r0 := r.(pos := r.pos + length);
            Framed(r0) && MessageRest(r) == r.buffer[r.pos..r.pos + length] + MessageRest(r0)
  {
    var r0 := r.(pos := r.pos + length);
    var bs := Blocks(r.transport).value;
    var tail := if r.last then [] else ReadableAll(bs[..FirstLast(bs)], r.prompt);
    assert MessageRest(r) == r.buffer[r.pos..] + tail;
    assert MessageRest(r0) == r.buffer[r.pos + length..] + tail;
    SliceFront(r.buffer, r.pos, length, tail);
  }

  /** The bytes from `p` are the `length` bytes from `p`, then the bytes after those. */
  lemma {:induction false} SliceFront(b: seq<byte>, p: nat, length: nat, tail: seq<byte>)
    requires p + length <= |b|
    ensures b[p..] + tail == b[p..p + length] + (b[p + length..] + tail)
  {
    assert b[p..] == b[p..p + length] + b[p + length..];
  }

  /** One pass of the copy loop hands out bytes and keeps the rest pending, within the message. */
  lemma {:induction false} PumpStep(r: Reader, length: int)
    requires r.Valid() && Framed(r) && 0 < length <= r.Available()
    requires Refill(r.(pos := r.pos + length)).Ok?
    ensures var r1 := Refill(r.(pos := r.pos + length)).value;
            Framed(r1)
            && Pending(r) == r.buffer[r.pos..r.pos + length] + Pending(r1)
            && MessageRest(r) == r.buffer[r.pos..r.pos + length] + MessageRest(r1)
  {
    Advance(r, length);
    RefillKeeps(r.(pos := r.pos + length));
  }

  lemma {:induction false} AppendAssoc<T>(a: seq<T>, b: seq<T>, c: seq<T>)
    ensures (a + b) + c == a + (b + c)
  {
  }

  /**
   * The copy loop of `Read`: copies from the buffer while bytes are
   * available and fewer than `count` have been copied, and refills the
   * buffer at the end of every pass unless the block was the last of its
   * message.
   */
  method Copy(start: Reader, offset: int, count: int) returns (res: Result<(Reader, seq<byte>)>)
    requires start.Valid()
    ensures res.Ok? ==> res.value.0.Valid() && res.value.0.prompt == start.prompt
    ensures res.Ok? ==> |res.value.1| <= if count < 0 then 0 else count
    ensures res.Ok? && count >= 0 ==> |res.value.1| == count || res.value.0.Available() == 0
    ensures res.Ok? && Framed(start) ==> Framed(res.value.0)
    ensures res.Ok? && Framed(start) ==> res.value.1 + Pending(res.value.0) == Pending(start)
    ensures res.Ok? && Framed(start) ==> res.value.1 + MessageRest(res.value.0) == MessageRest(start)
    ensures 0 <= offset && 0 < count <= start.Available() ==>
              var after := Refill(start.(pos := start.pos + count));
              res == if after.Fail? then Fail(after.error) else Ok((after.value, start.buffer[start.pos..start.pos + count]))
  {
    var cur, out, dest := start, [], offset;
    while cur.Available() > 0 && |out| < count
      invariant cur.Valid() && cur.prompt == start.prompt
      invariant |out| <= if count < 0 then 0 else count
      invariant dest == offset + |out|
      invariant Framed(start) ==> Framed(cur) && out + Pending(cur) == Pending(start)
      invariant Framed(start) ==> out + MessageRest(cur) == MessageRest(start)
      invariant 0 < count <= start.Available() ==>
                  (out == [] && cur == start)
                  || (out == start.buffer[start.pos..start.pos + count] && Refill(start.(pos := start.pos + count)) == Ok(cur))
      decreases count - |out|
    {
      if dest < 0 {
        return Fail(ArgumentOutOfRangeException("destinationIndex"));
      }
      var length := if count - |out| > cur.Available() then cur.Available() else count - |out|;
      var next := Refill(cur.(pos := cur.pos + length));
      if next.Fail? {
        return Fail(next.error);
      }
      var chunk := cur.buffer[cur.pos..cur.pos + length];
      if Framed(start) {
        PumpStep(cur, length);
        AppendAssoc(out, chunk, Pending(next.value));
        AppendAssoc(out, chunk, MessageRest(next.value));
      }
      out := out + chunk;
      dest := dest + length;
      cur := next.value;
    }
    return Ok((cur, out));
  }

  /**
   * `Read(buffer, offset, count)` on a buffer of `bufferLength` bytes: the
   * reader afterwards and the bytes copied into the buffer at `offset`.
   *
   * An empty buffer on entry is refilled first, whether or not the last
   * block of a message has been read. `Read` neither loses nor invents
   * bytes, never reads past the end of the message it started in, and
   * serves a request the buffer can satisfy without fetching, unless the
   * request empties a block that is not the last of its message: then the
   * next block is fetched before `Read` returns.
   */
  method Read(r: Reader, bufferLength: int, offset: int, count: int) returns (res: Result<(Reader, seq<byte>)>)
    requires r.Valid()
    ensures offset + count > bufferLength ==> res.Fail? && res.error.ArgumentOutOfRangeException?
    ensures res.Ok? ==> res.value.0.Valid() && |res.value.1| <= if count < 0 then 0 else count
    ensures res.Ok? && count >= 0 ==> |res.value.1| == count || res.value.0.Available() == 0
    ensures res.Ok? && Framed(r) ==> Framed(res.value.0) && res.value.1 + Pending(res.value.0) == Pending(r)
    ensures res.Ok? && Framed(r) && r.Available() > 0 ==> res.value.1 <= MessageRest(r)
    ensures res.Ok? && Framed(r) && r.Available() == 0 ==>
              FetchBlock(r).Ok? && Framed(FetchBlock(r).value) && res.value.1 <= MessageRest(FetchBlock(r).value)
    ensures 0 <= offset && 0 < count <= r.Available() && offset + count <= bufferLength ==>
              var after := Refill(r.(pos := r.pos + count));
              res == if after.Fail? then Fail(after.error) else Ok((after.value, r.buffer[r.pos..r.pos + count]))
  {
    if offset + count > bufferLength {
      return Fail(ArgumentOutOfRangeException("offset + count cannot be greater than the size of the buffer"));
    }
    var start := r;
    if r.Available() == 0 {
      var fetched := FetchBlock(r);
      if fetched.Fail? {
        return Fail(fetched.error);
      }
      start := fetched.value;
      if Framed(r) {
        FetchKeepsPending(r);
      }
    }
    res := Copy(start, offset, count);
  }

  // ---------------------------------------------------------------------------
  // Writing
  // ---------------------------------------------------------------------------

  /**
   * The writing side: the block buffer, the number of bytes to send from
   * it, the stream's `NeedMore` flag, and everything sent to the server so
   * far. The source's write position is never advanced, so every copy into
   * the buffer starts at offset 0.
   */
  datatype Writer = Writer(block: seq<byte>, length: int, needMore: NeedMore, wire: seq<byte>)
  {
    predicate Valid() { |block| == MaxPayload && 0 <= length }
  }

  function Zeros(n: nat): (z: seq<byte>)
    ensures |z| == n && forall i :: 0 <= i < n ==> z[i] == 0
  {
    seq(n, _ => 0)
  }

  function NewWriter(): (w: Writer)
    ensures w.Valid() && w.length == 0 && !w.needMore.raised && w.wire == []
  {
    Writer(Zeros(MaxPayload), 0, Clear, [])
  }

  /** Sending more bytes than the block buffer holds fails in the underlying stream. */
  const BufferOverrun := ArgumentException("Offset and length were out of bounds for the array or count is greater than the number of elements from index to the end of the source collection.")

  /**
   * `WriteNextBlock(last)`: sends the buffered bytes as one block. The block
   * is marked last only when `last` holds and the `NeedMore` flag is clear;
   * the flag is read, and so cleared, only when `last` holds.
   */
  function EmitBlock(w: Writer, last: bool): (res: Result<Writer>)
    requires w.Valid()
    ensures res.Ok? <==> w.length <= MaxPayload
    ensures res.Ok? ==> res.value.Valid() && res.value.length == 0 && res.value.block == w.block
    ensures res.Ok? ==> res.value.needMore == if last then Clear else w.needMore
    ensures res.Ok? ==> res.value.wire
                        == w.wire + Frame([Block(w.block[..w.length], last && !w.needMore.raised)])
  {
    var (flag, needMore) :=
      if last then var c := Consume(w.needMore); (!c.0, c.1) else (false, w.needMore);
    if w.length > MaxPayload then Fail(BufferOverrun)
    else
      var b := Block(w.block[..w.length], flag);
      assert Frame([b]) == EncodeBlock(b) + Frame([]);
      Ok(Writer(w.block, 0, needMore, w.wire + EncodeBlock(b)))
  }

  /** `Flush`: sends the buffered bytes as the block that ends the message. */
  function Flush(w: Writer): (res: Result<Writer>)
    requires w.Valid()
    ensures res.Ok? ==> res.value.length == 0 && !res.value.needMore.raised
  {
    EmitBlock(w, true)
  }

  /** The copy loop of `Write`, for `count` bytes of `buffer` from `offset`. */
  function WriteLoop(w: Writer, buffer: seq<byte>, offset: int, count: int): (res: Result<Writer>)
    requires w.Valid() && offset + count <= |buffer|
    ensures res.Ok? ==> res.value.Valid() && res.value.needMore == w.needMore
    decreases count
  {
    if count <= 0 then Ok(w)
    else if offset < 0 then Fail(ArgumentOutOfRangeException("sourceIndex"))
    else if count < MaxPayload then
      Ok(w.(block := buffer[offset..offset + count] + w.block[count..], length := w.length + count))
    else
      var w1 := w.(block := buffer[offset..offset + MaxPayload], length := w.length + MaxPayload);
      var w2 :- EmitBlock(w1, false);
      WriteLoop(w2, buffer, offset + MaxPayload, count - MaxPayload)
  }

  /** `Write(buffer, offset, count)`. */
  function Write(w: Writer, buffer: seq<byte>, offset: int, count: int): (res: Result<Writer>)
    requires w.Valid()
    ensures offset + count > |buffer| ==> res.Fail? && res.error.ArgumentOutOfRangeException?
    ensures res.Ok? ==> res.value.Valid() && res.value.needMore == w.needMore
  {
    if offset + count > |buffer| then
      Fail(ArgumentOutOfRangeException("offset + count cannot be greater than the buffer length"))
    else WriteLoop(w, buffer, offset, count)
  }

  // ---------------------------------------------------------------------------
  // One message, written and read back
  // ---------------------------------------------------------------------------

  /**
   * The blocks that carry a message of `data`: as many full blocks as fit,
   * none of them last, then one block with the remaining bytes (possibly
   * none), marked `last`.
   */
  function MessageBlocks(data: seq<byte>, last: bool): (bs: seq<Block>)
    ensures AllFit(bs) && |bs| > 0
    decreases |data|
  {
    if |data| < MaxPayload then [Block(data, last)]
    else [Block(data[..MaxPayload], false)] + MessageBlocks(data[MaxPayload..], last)
  }

  /**
   * The shape of a message's blocks: one more block than the number of
   * whole blocks the message fills, every block but the final one full and
   * not last, the final one holding the remainder and carrying the flag,
   * and the payloads together giving back the message.
   */
  lemma {:induction false} MessageBlocksShape(data: seq<byte>, last: bool)
    ensures var bs := MessageBlocks(data, last);
            |bs| == |data| / MaxPayload + 1
            && (forall i :: 0 <= i < |bs| - 1 ==> |bs[i].payload| == MaxPayload && !bs[i].last)
            && bs[|bs| - 1].last == last && |bs[|bs| - 1].payload| == |data| % MaxPayload
            && Payloads(bs) == data
    decreases |data|
  {
    var bs := MessageBlocks(data, last);
    if |data| < MaxPayload {
      assert Payloads(bs) == data + Payloads([]);
    } else {
      var rest := data[MaxPayload..];
      MessageBlocksShape(rest, last);
      var tail := MessageBlocks(rest, last);
      assert bs == [Block(data[..MaxPayload], false)] + tail;
      assert bs[1..] == tail;
      assert Payloads(bs) == data[..MaxPayload] + Payloads(tail);
      assert data[..MaxPayload] + rest == data;
      assert |data| / MaxPayload == |rest| / MaxPayload + 1;
      assert |data| % MaxPayload == |rest| % MaxPayload;
      forall i | 0 <= i < |bs| - 1 ensures |bs[i].payload| == MaxPayload && !bs[i].last {
        if i > 0 { assert bs[i] == tail[i - 1]; }
      }
    }
  }

  lemma {:induction false} FrameAppend(xs: seq<Block>, ys: seq<Block>)
    requires AllFit(xs) && AllFit(ys)
    ensures AllFit(xs + ys) && Frame(xs + ys) == Frame(xs) + Frame(ys)
    decreases |xs|
  {
    assert AllFit(xs + ys) by {
      forall i | 0 <= i < |xs + ys| ensures Fits((xs + ys)[i]) {
        if i >= |xs| { assert (xs + ys)[i] == ys[i - |xs|]; }
      }
    }
    if |xs| > 0 {
      assert (xs + ys)[0] == xs[0] && (xs + ys)[1..] == xs[1..] + ys;
      FrameAppend(xs[1..], ys);
    } else {
      assert xs + ys == ys;
    }
  }

  lemma {:induction false} MessageBlocksSplit(data: seq<byte>, last: bool)
    requires |data| >= MaxPayload
    ensures MessageBlocks(data, last) == [Block(data[..MaxPayload], false)] + MessageBlocks(data[MaxPayload..], last)
  {
  }

  /** Fewer bytes than a block are copied to the start of the buffer and not sent. */
  lemma {:induction false} ShortWrite(w: Writer, buffer: seq<byte>, offset: int, count: int)
    requires w.Valid() && w.length == 0 && 0 <= offset && 0 <= count < MaxPayload && offset + count <= |buffer|
    ensures WriteLoop(w, buffer, offset, count).Ok?
    ensures var w1 := WriteLoop(w, buffer, offset, count).value;
            w1.Valid() && w1.length == count && w1.block[..count] == buffer[offset..offset + count]
            && w1.wire == w.wire && w1.needMore == w.needMore
  {
  }

  /** A whole block's worth of bytes is sent at once, as a block that is not last. */
  lemma {:induction false} FullWrite(w: Writer, buffer: seq<byte>, offset: int, count: int) returns (w2: Writer)
    requires w.Valid() && w.length == 0 && 0 <= offset && MaxPayload <= count && offset + count <= |buffer|
    ensures w2.Valid() && w2.length == 0 && w2.needMore == w.needMore
    ensures w2.wire == w.wire + Frame([Block(buffer[offset..offset + MaxPayload], false)])
    ensures WriteLoop(w, buffer, offset, count) == WriteLoop(w2, buffer, offset + MaxPayload, count - MaxPayload)
  {
    var w1 := w.(block := buffer[offset..offset + MaxPayload], length := MaxPayload);
    assert w1.block[..w1.length] == buffer[offset..offset + MaxPayload];
    w2 := EmitBlock(w1, false).value;
  }

  /**
   * The copy loop of `Write` on an empty buffer, followed by `Flush`, sends
   * exactly the blocks of the message: the flush marks the last one as last
   * unless the `NeedMore` flag was raised.
   */
  lemma {:induction false} WriteLoopFrames(w: Writer, buffer: seq<byte>, offset: int, count: int, data: seq<byte>)
    requires w.Valid() && w.length == 0 && 0 <= offset && 0 <= count && offset + count <= |buffer|
    requires data == buffer[offset..offset + count]
    ensures WriteLoop(w, buffer, offset, count).Ok?
    ensures var w1 := WriteLoop(w, buffer, offset, count).value;
            Flush(w1).Ok? && Flush(w1).value.wire == w.wire + Frame(MessageBlocks(data, !w.needMore.raised))
    decreases count
  {
    if count < MaxPayload {
      ShortFlush(w, buffer, offset, count);
    } else {
      var w2 := FullWrite(w, buffer, offset, count);
      WriteLoopFrames(w2, buffer, offset + MaxPayload, count - MaxPayload, buffer[offset + MaxPayload..offset + count]);
      FullStep(w, w2, buffer, offset, count);
    }
  }

  /** The step of `WriteLoopFrames` past one full block, given what the rest of the loop sends. */
  lemma {:induction false} FullStep(w: Writer, w2: Writer, buffer: seq<byte>, offset: int, count: int)
    requires w.Valid() && w.length == 0 && 0 <= offset && MaxPayload <= count && offset + count <= |buffer|
    requires w2.Valid() && w2.length == 0 && w2.needMore == w.needMore
    requires w2.wire == w.wire + Frame([Block(buffer[offset..offset + MaxPayload], false)])
    requires WriteLoop(w, buffer, offset, count) == WriteLoop(w2, buffer, offset + MaxPayload, count - MaxPayload)
    requires WriteLoop(w2, buffer, offset + MaxPayload, count - MaxPayload).Ok?
    requires var w1 := WriteLoop(w2, buffer, offset + MaxPayload, count - MaxPayload).value;
             Flush(w1).Ok?
             && Flush(w1).value.wire == w2.wire + Frame(MessageBlocks(buffer[offset + MaxPayload..offset + count], !w2.needMore.raised))
    ensures WriteLoop(w, buffer, offset, count).Ok?
    ensures var w1 := WriteLoop(w, buffer, offset, count).value;
            Flush(w1).Ok?
            && Flush(w1).value.wire == w.wire + Frame(MessageBlocks(buffer[offset..offset + count], !w.needMore.raised))
  {
    var last := !w.needMore.raised;
    var head := Frame([Block(buffer[offset..offset + MaxPayload], false)]);
    var rest := Frame(MessageBlocks(buffer[offset + MaxPayload..offset + count], last));
    FullFrames(buffer, offset, count, last);
    AppendAssoc(w.wire, head, rest);
  }

  /** A message shorter than a block is flushed as one block. */
  lemma {:induction false} ShortFlush(w: Writer, buffer: seq<byte>, offset: int, count: int)
    requires w.Valid() && w.length == 0 && 0 <= offset && 0 <= count < MaxPayload && offset + count <= |buffer|
    ensures WriteLoop(w, buffer, offset, count).Ok?
    ensures var w1 := WriteLoop(w, buffer, offset, count).value;
            Flush(w1).Ok?
            && Flush(w1).value.wire == w.wire + Frame(MessageBlocks(buffer[offset..offset + count], !w.needMore.raised))
  {
    ShortWrite(w, buffer, offset, count);
    var data := buffer[offset..offset + count];
    assert MessageBlocks(data, !w.needMore.raised) == [Block(data, !w.needMore.raised)];
  }

  /** The blocks of a message of at least a block: a full block, then the blocks of the remainder. */
  lemma {:induction false} FullFrames(buffer: seq<byte>, offset: int, count: int, last: bool)
    requires 0 <= offset && MaxPayload <= count && offset + count <= |buffer|
    ensures Frame([Block(buffer[offset..offset + MaxPayload], false)]) + Frame(MessageBlocks(buffer[offset + MaxPayload..offset + count], last))
            == Frame(MessageBlocks(buffer[offset..offset + count], last))
  {
    var data := buffer[offset..offset + count];
    var rest := buffer[offset + MaxPayload..offset + count];
    assert data[..MaxPayload] == buffer[offset..offset + MaxPayload];
    assert data[MaxPayload..] == rest;
    MessageBlocksSplit(data, last);
    MessageBlocksShape(rest, last);
    FrameAppend([Block(data[..MaxPayload], false)], MessageBlocks(rest, last));
  }

  /**
   * A single `Write` of `data` on an empty buffer, followed by `Flush`,
   * sends the message's blocks, and a reader splits the bytes sent back
   * into exactly those blocks.
   */
  lemma {:induction false} WriteThenFlush(w: Writer, data: seq<byte>)
    requires w.Valid() && w.length == 0
    ensures Write(w, data, 0, |data|).Ok? && Flush(Write(w, data, 0, |data|).value).Ok?
    ensures Flush(Write(w, data, 0, |data|).value).value.wire
            == w.wire + Frame(MessageBlocks(data, !w.needMore.raised))
    ensures !Flush(Write(w, data, 0, |data|).value).value.needMore.raised
  {
    WholeSlice(data);
    WriteLoopFrames(w, data, 0, |data|, data);
    WriteIsLoop(w, data);
  }

  lemma {:induction false} WriteIsLoop(w: Writer, data: seq<byte>)
    requires w.Valid()
    ensures Write(w, data, 0, |data|) == WriteLoop(w, data, 0, |data|)
  {
  }

  lemma {:induction false} WholeSlice(data: seq<byte>)
    ensures data[0..0 + |data|] == data
  {
  }

  /**
   * What the reader appends to a message: a newline when the final block's
   * payload is non-empty and does not end with one, then the prompt line.
   * When the message fills its blocks exactly, the final block is empty and
   * no newline is added, whatever the message ends with.
   */
  function Trailer(data: seq<byte>, prompt: byte): seq<byte>
  {
    if |data| % MaxPayload != 0 && data[|data| - 1] != NewLine then [NewLine, prompt, NewLine]
    else [prompt, NewLine]
  }

  lemma {:induction false} ReadableFinal(data: seq<byte>, prompt: byte)
    requires |data| < MaxPayload
    ensures ReadableAll([Block(data, true)], prompt) == data + Trailer(data, prompt)
  {
    assert ReadableAll([Block(data, true)], prompt) == Readable(Block(data, true), prompt) + [];
    assert |data| % MaxPayload == |data|;
  }

  lemma {:induction false} TrailerAfterBlock(data: seq<byte>, prompt: byte)
    requires |data| >= MaxPayload
    ensures Trailer(data, prompt) == Trailer(data[MaxPayload..], prompt)
  {
    var rest := data[MaxPayload..];
    assert |data| == |rest| + MaxPayload;
    assert |data| % MaxPayload == |rest| % MaxPayload;
    if |rest| > 0 {
      assert data[|data| - 1] == rest[|rest| - 1];
    }
  }

  lemma {:induction false} ReadableMessage(data: seq<byte>, prompt: byte)
    ensures ReadableAll(MessageBlocks(data, true), prompt) == data + Trailer(data, prompt)
    decreases |data|
  {
    if |data| < MaxPayload {
      ReadableFinal(data, prompt);
    } else {
      var rest := data[MaxPayload..];
      var head := Block(data[..MaxPayload], false);
      var tail := MessageBlocks(rest, true);
      ReadableMessage(rest, prompt);
      MessageBlocksSplit(data, true);
      assert ([head] + tail)[0] == head && ([head] + tail)[1..] == tail;
      assert ReadableAll([head] + tail, prompt) == data[..MaxPayload] + ReadableAll(tail, prompt);
      TrailerAfterBlock(data, prompt);
      AppendAssoc(data[..MaxPayload], rest, Trailer(rest, prompt));
      assert data[..MaxPayload] + rest == data;
    }
  }

  /**
   * Round trip: a reader over the bytes of one written message hands out
   * the message, then the trailer that ends it with a prompt line.
   */
  lemma {:induction false} ReadBack(data: seq<byte>, prompt: byte)
    ensures var r := NewReader(Frame(MessageBlocks(data, true)), prompt);
            Framed(r) && Pending(r) == data + Trailer(data, prompt) && MessageRest(r) == Pending(r)
  {
    var bs := MessageBlocks(data, true);
    BlocksOfFrame(bs);
    ReadableMessage(data, prompt);
    MessageBlocksShape(data, true);
    LastOnlyAtEnd(bs);
    assert bs[..|bs|] == bs;
  }

  lemma {:induction false} LastOnlyAtEnd(bs: seq<Block>)
    requires |bs| > 0 && bs[|bs| - 1].last && forall i :: 0 <= i < |bs| - 1 ==> !bs[i].last
    ensures FirstLast(bs) == |bs|
    decreases |bs|
  {
    if |bs| > 1 {
      LastOnlyAtEnd(bs[1..]);
    }
  }

  /**
   * The write position is never advanced: a second `Write` before `Flush`
   * copies over the start of the first, while the length to send grows by
   * both. The bytes sent are the second write, the rest of the first, and
   * as many bytes of the untouched buffer as the second write was long.
   */
  lemma {:induction false} SecondWriteOverwrites(a: seq<byte>, b: seq<byte>)
    requires |b| <= |a| < MaxPayload && |a| + |b| <= MaxPayload
    ensures var w1 := Write(NewWriter(), a, 0, |a|).value;
            var w2 := Write(w1, b, 0, |b|).value;
            Flush(w2).Ok? && Flush(w2).value.wire == Frame([Block(b + a[|b|..] + Zeros(|b|), true)])
  {
    var w1 := Write(NewWriter(), a, 0, |a|).value;
    assert a[0..|a|] == a && b[0..|b|] == b;
    assert w1.block == a + Zeros(MaxPayload)[|a|..] && w1.length == |a|;
    var w2 := Write(w1, b, 0, |b|).value;
    assert w2.block == b + w1.block[|b|..] && w2.length == |a| + |b|;
    assert w2.block[..w2.length] == b + a[|b|..] + Zeros(|b|);
  }

  /** Two writes that together exceed a block make the flush fail. */
  lemma {:induction false} TwoWritesOverrun(a: seq<byte>, b: seq<byte>)
    requires |a| < MaxPayload && |b| < MaxPayload && |a| + |b| > MaxPayload
    ensures var w1 := Write(NewWriter(), a, 0, |a|).value;
            var w2 := Write(w1, b, 0, |b|).value;
            Flush(w2) == Fail(BufferOverrun)
  {
    assert a[0..|a|] == a && b[0..|b|] == b;
  }

  /** `Seek` is not supported on a network stream. */
  function Seek(offset: int): (res: Result<int>)
    ensures res.Fail? && res.error.InvalidOperationException?
  {
    Fail(InvalidOperationException("Seeking not allowed on a network based stream"))
  }

  /** `SetLength` is not supported on a network stream. */
  function SetLength(value: int): (res: Result<()>)
    ensures res.Fail? && res.error.InvalidOperationException?
  {
    Fail(InvalidOperationException("SetLength is not valid on a network based stream"))
  }
}

=== FILE: command.dfy ===
/**
 * The command: writing parameter values into the SQL text
 * (`ApplyParameter`), the checks before a command is sent
 * (`ExecuteCommand`), and the two consumers of the reply that return a
 * single answer (`ExecuteNonQuery`, `ExecuteScalar`).
 *
 * Parameter substitution is modelled under two policies. `AsWritten` is the
 * source's loop: its quote counters only ever grow, a name is matched as a
 * bare prefix, and a text that ends in part of a name runs the comparison off
 * the end of the buffer. `Corrected` tracks whether the scan is inside a
 * quoted literal, matches only whole names, treats a name cut off by the
 * end of the text as absent, and finds an empty name nowhere. Everything
 * else is shared.
 */
module Command {
  import opened Wrappers
  import opened Text
  import Parameter
  import Connection
  import DataReader
  import ResultDecoder

  // ---------------------------------------------------------------------------
  // Scanning for a parameter name
  // ---------------------------------------------------------------------------

  /**
   * Where the scan stands with respect to quotes. Under `AsWritten` the
   * first quote of either kind moves it to `Frozen` for good; under
   * `Corrected` it moves in and out of single- and double-quoted literals.
   */
  datatype Quoting = Outside | InSingle | InDouble | Frozen

  predicate IsQuote(c: char) { c == '\'' || c == '"' }

  /** The quote state after looking at one more character. */
  function Track(policy: Policy, q: Quoting, c: char): (r: Quoting)
    ensures q == Frozen ==> r == Frozen
    ensures policy == AsWritten ==> (r == Outside <==> q == Outside && !IsQuote(c))
    ensures policy == Corrected && !IsQuote(c) ==> r == q
  {
    match policy
    case AsWritten => if q == Outside && !IsQuote(c) then Outside else Frozen
    case Corrected =>
      match q
      case Outside => if c == '\'' then InSingle else if c == '"' then InDouble else Outside
      case InSingle => if c == '\'' then Outside else InSingle
      case InDouble => if c == '"' then Outside else InDouble
      case Frozen => Frozen
  }

  /** A character that can continue a parameter name. */
  predicate IsNameChar(c: char)
  {
    'a' <= c <= 'z' || 'A' <= c <= 'Z' || IsDigit(c) || c == '_'
  }

  /** Position `k` of `s` ends a name: the text ends there or a non-name character follows. */
  predicate Boundary(s: string, k: int)
    requires 0 <= k <= |s|
  {
    k == |s| || !IsNameChar(s[k])
  }

  /**
   * The name is found at `i`: as a bare prefix as written, as a whole name
   * once corrected. Corrected, an empty name is found nowhere.
   */
  predicate Matches(policy: Policy, s: string, name: string, i: int)
  {
    OccursAt(s, name, i) && (policy == AsWritten || (|name| > 0 && Boundary(s, i + |name|)))
  }

  /**
   * The rest of the text from `i` is a proper prefix of the name: comparing
   * the name character by character reads past the end of the buffer.
   */
  predicate RunsOver(s: string, name: string, i: int)
    requires 0 <= i <= |s|
  {
    |s| - i < |name| && s[i..] == name[..|s| - i]
  }

  /**
   * The scan of `ApplyParameter` from position `i` in quote state `q`. A match
   * is replaced by the value and the scan looks at the same position again,
   * now the value's first character. Since a value may bring the name back
   * (or the name may be empty), the number of replacements is bounded by
   * `fuel`; running out is reported as `OutOfFuel`.
   */
  function Scan(policy: Policy, s: string, name: string, value: string, i: nat, q: Quoting, fuel: nat)
    : (r: Result<string>)
    requires i <= |s|
    ensures q == Frozen ==> r == Ok(s)
    ensures r.Ok? ==> |r.value| >= i && r.value[..i] == s[..i]
    ensures r.Fail? ==> r.error == OutOfFuel || (policy == AsWritten && r.error == IndexOutOfRangeException)
    decreases fuel, |s| - i
  {
    if i == |s| then Ok(s)
    else
      var q' := Track(policy, q, s[i]);
      if q' != Outside then Scan(policy, s, name, value, i + 1, q', fuel)
      else if Matches(policy, s, name, i) then
        if fuel == 0 then Fail(OutOfFuel)
        else
          var t := s[..i] + value + s[i + |name|..];
          assert t[..i] == s[..i];
          Scan(policy, t, name, value, i, q, fuel - 1)
      else if policy == AsWritten && RunsOver(s, name, i) then Fail(IndexOutOfRangeException)
      else Scan(policy, s, name, value, i + 1, Outside, fuel)
  }

  /** A scan result with `prefix` put in front of its text. */
  function Prefixed(prefix: string, r: Result<string>): Result<string>
  {
    match r
    case Ok(t) => Ok(prefix + t)
    case Fail(e) => Fail(e)
  }

  /** The scan never looks back: scanning from `i` is scanning the suffix from its start. */
  lemma {:induction false} ScanShift(policy: Policy, s: string, name: string, value: string, i: nat, q: Quoting, fuel: nat)
    requires i <= |s|
    ensures Scan(policy, s, name, value, i, q, fuel) == Prefixed(s[..i], Scan(policy, s[i..], name, value, 0, q, fuel))
    decreases fuel, |s| - i, 1
  {
    var t := s[i..];
    if i == |s| {
      assert s[..i] + t == s;
    } else {
      assert t[0] == s[i];
      var q' := Track(policy, q, s[i]);
      if q' != Outside {
        ScanShift(policy, s, name, value, i + 1, q', fuel);
        ShiftAdvance(policy, s, name, value, i, q', fuel);
      } else if Matches(policy, s, name, i) {
        ShiftMatch(policy, s, name, value, i, q, fuel);
      } else {
        SameTest(policy, s, name, i);
        if !(policy == AsWritten && RunsOver(s, name, i)) {
          ScanShift(policy, s, name, value, i + 1, Outside, fuel);
          ShiftAdvance(policy, s, name, value, i, Outside, fuel);
        }
      }
    }
  }

  /** Whether the name is found, or runs over the end, at `i` depends only on the suffix from `i`. */
  lemma {:induction false} SameTest(policy: Policy, s: string, name: string, i: nat)
    requires i <= |s|
    ensures Matches(policy, s, name, i) == Matches(policy, s[i..], name, 0)
    ensures RunsOver(s, name, i) == RunsOver(s[i..], name, 0)
  {
    var t := s[i..];
    if OccursAt(s, name, i) || OccursAt(t, name, 0) {
      assert t[..|name|] == s[i..i + |name|];
      if i + |name| < |s| {
        assert t[|name|] == s[i + |name|];
      }
    }
    assert t[0..] == s[i..];
  }

  lemma {:induction false} ShiftAdvance(policy: Policy, s: string, name: string, value: string, i: nat, q: Quoting, fuel: nat)
    requires i < |s|
    ensures Prefixed(s[..i + 1], Scan(policy, s[i + 1..], name, value, 0, q, fuel))
         == Prefixed(s[..i], Scan(policy, s[i..], name, value, 1, q, fuel))
    decreases fuel, |s| - i, 0
  {
    var t := s[i..];
    ScanShift(policy, t, name, value, 1, q, fuel);
    assert t[1..] == s[i + 1..];
    assert s[..i] + t[..1] == s[..i + 1];
    PrefixedTwice(s[..i], t[..1], Scan(policy, s[i + 1..], name, value, 0, q, fuel));
  }

  lemma {:induction false} ShiftMatch(policy: Policy, s: string, name: string, value: string, i: nat, q: Quoting, fuel: nat)
    requires i < |s| && Track(policy, q, s[i]) == Outside && Matches(policy, s, name, i)
    ensures Scan(policy, s, name, value, i, q, fuel) == Prefixed(s[..i], Scan(policy, s[i..], name, value, 0, q, fuel))
    decreases fuel, |s| - i, 0
  {
    var t := s[i..];
    SameTest(policy, s, name, i);
    assert t[0] == s[i];
    if fuel > 0 {
      var u := s[..i] + value + s[i + |name|..];
      var v := t[..0] + value + t[0 + |name|..];
      ScanShift(policy, u, name, value, i, q, fuel - 1);
      assert u[i..] == v;
      assert u[..i] == s[..i];
    }
  }

  lemma {:induction false} PrefixedTwice(a: string, b: string, r: Result<string>)
    ensures Prefixed(a, Prefixed(b, r)) == Prefixed(a + b, r)
  {
    if r.Ok? {
      assert a + (b + r.value) == (a + b) + r.value;
    }
  }

  /** Both a match and a run over the end start with the name's first character. */
  lemma {:induction false} NameHead(s: string, name: string, i: nat)
    requires i < |s| && |name| > 0
    ensures OccursAt(s, name, i) ==> s[i] == name[0]
    ensures RunsOver(s, name, i) ==> s[i] == name[0]
  {
    if OccursAt(s, name, i) {
      assert s[i..i + |name|][0] == s[i];
    }
    if RunsOver(s, name, i) {
      assert s[i..][0] == s[i];
    }
  }

  /** A stretch free of quotes and of the name's first character is passed over unchanged. */
  lemma {:induction false} SkipPlain(policy: Policy, s: string, name: string, value: string, i: nat, k: nat, fuel: nat)
    requires i <= k <= |s| && |name| > 0
    requires forall j :: i <= j < k ==> !IsQuote(s[j]) && s[j] != name[0]
    ensures Scan(policy, s, name, value, i, Outside, fuel) == Scan(policy, s, name, value, k, Outside, fuel)
    decreases k - i
  {
    if i < k {
      NameHead(s, name, i);
      SkipPlain(policy, s, name, value, i + 1, k, fuel);
    }
  }

  /** No proper prefix of the name ends the text. */
  predicate NoRunOver(t: string, name: string)
  {
    forall j :: 0 <= j <= |t| ==> !RunsOver(t, name, j)
  }

  /** Every occurrence of the name ends at a name boundary. */
  predicate WholeNames(t: string, name: string)
  {
    forall j :: 0 <= j && j + |name| <= |t| && OccursAt(t, name, j) ==> Boundary(t, j + |name|)
  }

  /**
   * On a text without quotes, with a value that has neither quotes nor the
   * name's first character, the scan replaces every occurrence left to right,
   * as `String.Replace` does, provided it never runs off the end and, when
   * corrected, every occurrence is a whole name.
   */
  lemma {:induction false} ScanIsReplace(policy: Policy, t: string, name: string, value: string, fuel: nat)
    requires |name| > 0 && !IsQuote(name[0]) && name[0] !in value
    requires forall j :: 0 <= j < |t| ==> !IsQuote(t[j])
    requires forall j :: 0 <= j < |value| ==> !IsQuote(value[j])
    requires NoRunOver(t, name)
    requires policy == Corrected ==> WholeNames(t, name)
    requires fuel >= |t|
    ensures Scan(policy, t, name, value, 0, Outside, fuel) == Ok(Replace(t, name, value))
    decreases |t|, 2
  {
    if |t| > 0 {
      if OccursAt(t, name, 0) {
        ReplaceAtMatch(policy, t, name, value, fuel);
      } else {
        ReplaceAtOther(policy, t, name, value, fuel);
      }
    }
  }

  lemma {:induction false} ReplaceAtMatch(policy: Policy, t: string, name: string, value: string, fuel: nat)
    requires |name| > 0 && !IsQuote(name[0]) && name[0] !in value
    requires forall j :: 0 <= j < |t| ==> !IsQuote(t[j])
    requires forall j :: 0 <= j < |value| ==> !IsQuote(value[j])
    requires NoRunOver(t, name)
    requires policy == Corrected ==> WholeNames(t, name)
    requires fuel >= |t|
    requires OccursAt(t, name, 0)
    ensures Scan(policy, t, name, value, 0, Outside, fuel) == Ok(Replace(t, name, value))
    decreases |t|, 1
  {
    MatchStep(policy, t, name, value, fuel);
    ReplaceHead(t, name, value);
    TailReplaced(policy, t, name, value, fuel);
  }

  /** After a match, the rest of the text is scanned as `String.Replace` would replace it. */
  lemma {:induction false} TailReplaced(policy: Policy, t: string, name: string, value: string, fuel: nat)
    requires |name| > 0 && !IsQuote(name[0]) && name[0] !in value
    requires forall j :: 0 <= j < |t| ==> !IsQuote(t[j])
    requires forall j :: 0 <= j < |value| ==> !IsQuote(value[j])
    requires NoRunOver(t, name)
    requires policy == Corrected ==> WholeNames(t, name)
    requires fuel >= |t|
    requires OccursAt(t, name, 0)
    ensures |name| <= |t| && fuel > 0
    ensures Prefixed(value, Scan(policy, t[|name|..], name, value, 0, Outside, fuel - 1))
         == Ok(value + Replace(t[|name|..], name, value))
    decreases |t|, 0
  {
    var rest := t[|name|..];
    SuffixConditions(policy, t, name, |name|);
    assert forall j :: 0 <= j < |rest| ==> rest[j] == t[j + |name|];
    ScanIsReplace(policy, rest, name, value, fuel - 1);
  }

  lemma {:induction false} PrefixedOk(prefix: string, r: Result<string>, x: string)
    requires r == Ok(x)
    ensures Prefixed(prefix, r) == Ok(prefix + x)
  {
  }

  lemma {:induction false} ReplaceAtOther(policy: Policy, t: string, name: string, value: string, fuel: nat)
    requires |name| > 0 && !IsQuote(name[0]) && name[0] !in value
    requires forall j :: 0 <= j < |t| ==> !IsQuote(t[j])
    requires forall j :: 0 <= j < |value| ==> !IsQuote(value[j])
    requires NoRunOver(t, name)
    requires policy == Corrected ==> WholeNames(t, name)
    requires fuel >= |t|
    requires |t| > 0 && !OccursAt(t, name, 0)
    ensures Scan(policy, t, name, value, 0, Outside, fuel) == Ok(Replace(t, name, value))
    decreases |t|, 0
  {
    assert !RunsOver(t, name, 0);
    AdvanceStep(policy, t, name, value, fuel);
    ReplaceHead(t, name, value);
    SuffixConditions(policy, t, name, 1);
    assert forall j :: 0 <= j < |t| - 1 ==> t[1..][j] == t[j + 1];
    ScanIsReplace(policy, t[1..], name, value, fuel);
  }

  /** One replacement: the value, then the scan of what follows the name. */
  lemma {:induction false} MatchStep(policy: Policy, t: string, name: string, value: string, fuel: nat)
    requires |name| > 0 && |t| > 0 && !IsQuote(t[0]) && fuel > 0
    requires Matches(policy, t, name, 0)
    requires forall j :: 0 <= j < |value| ==> !IsQuote(value[j]) && value[j] != name[0]
    ensures Scan(policy, t, name, value, 0, Outside, fuel)
         == Prefixed(value, Scan(policy, t[|name|..], name, value, 0, Outside, fuel - 1))
  {
    MatchUnfold(policy, t, name, value, fuel);
    PastValue(policy, value, t[|name|..], name, fuel - 1);
  }

  /** The inserted value holds no quote and no start of the name, so the scan passes over it unchanged. */
  lemma {:induction false} PastValue(policy: Policy, value: string, rest: string, name: string, fuel: nat)
    requires |name| > 0
    requires forall j :: 0 <= j < |value| ==> !IsQuote(value[j]) && value[j] != name[0]
    ensures Scan(policy, value + rest, name, value, 0, Outside, fuel)
         == Prefixed(value, Scan(policy, rest, name, value, 0, Outside, fuel))
  {
    SpliceFront(value, rest);
    SkipPlain(policy, value + rest, name, value, 0, |value|, fuel);
    ShiftValue(policy, value, rest, name, fuel);
  }

  /** Scanning past the inserted value is scanning the rest, with the value in front. */
  lemma {:induction false} ShiftValue(policy: Policy, value: string, rest: string, name: string, fuel: nat)
    ensures Scan(policy, value + rest, name, value, |value|, Outside, fuel)
         == Prefixed(value, Scan(policy, rest, name, value, 0, Outside, fuel))
  {
    SpliceFront(value, rest);
    ScanShift(policy, value + rest, name, value, |value|, Outside, fuel);
  }

  /** A match at the start of the text is replaced and the scan starts again there, with one less unit of fuel. */
  lemma {:induction false} MatchUnfold(policy: Policy, t: string, name: string, value: string, fuel: nat)
    requires |name| > 0 && |t| > 0 && !IsQuote(t[0]) && fuel > 0
    requires Matches(policy, t, name, 0)
    ensures |name| <= |t|
    ensures Scan(policy, t, name, value, 0, Outside, fuel)
         == Scan(policy, value + t[|name|..], name, value, 0, Outside, fuel - 1)
  {
    assert t[..0] + value + t[0 + |name|..] == value + t[|name|..];
  }

  /** The replacement text at the front of the rescanned text. */
  lemma {:induction false} SpliceFront(value: string, rest: string)
    ensures (value + rest)[..|value|] == value && (value + rest)[|value|..] == rest
    ensures forall j :: 0 <= j < |value| ==> (value + rest)[j] == value[j]
  {
  }

  /** One character kept: it, then the scan of the rest. */
  lemma {:induction false} AdvanceStep(policy: Policy, t: string, name: string, value: string, fuel: nat)
    requires |name| > 0 && |t| > 0 && !IsQuote(t[0])
    requires !Matches(policy, t, name, 0) && !RunsOver(t, name, 0)
    requires policy == Corrected ==> !OccursAt(t, name, 0)
    ensures Scan(policy, t, name, value, 0, Outside, fuel)
         == Prefixed([t[0]], Scan(policy, t[1..], name, value, 0, Outside, fuel))
  {
    ScanShift(policy, t, name, value, 1, Outside, fuel);
    assert t[..1] == [t[0]];
  }

  /** How `Replace` starts: with the replacement at a match, with the first character otherwise. */
  lemma {:induction false} ReplaceHead(t: string, pattern: string, value: string)
    requires |pattern| > 0 && |t| > 0
    ensures OccursAt(t, pattern, 0) ==> Replace(t, pattern, value) == value + Replace(t[|pattern|..], pattern, value)
    ensures !OccursAt(t, pattern, 0) ==> Replace(t, pattern, value) == [t[0]] + Replace(t[1..], pattern, value)
  {
    if |t| < |pattern| {
      assert t == [t[0]] + t[1..];
    }
  }

  /** The conditions of `ScanIsReplace` hold for every suffix. */
  lemma {:induction false} SuffixConditions(policy: Policy, t: string, name: string, k: nat)
    requires k <= |t|
    requires NoRunOver(t, name)
    requires policy == Corrected ==> WholeNames(t, name)
    ensures NoRunOver(t[k..], name)
    ensures policy == Corrected ==> WholeNames(t[k..], name)
  {
    var u := t[k..];
    forall j | 0 <= j <= |u|
      ensures !RunsOver(u, name, j)
    {
      assert u[j..] == t[k + j..];
      assert !RunsOver(t, name, k + j);
    }
    if policy == Corrected {
      forall j | 0 <= j && j + |name| <= |u| && OccursAt(u, name, j)
        ensures Boundary(u, j + |name|)
      {
        assert u[j..j + |name|] == t[k + j..k + j + |name|];
        assert OccursAt(t, name, k + j);
        if j + |name| < |u| {
          assert u[j + |name|] == t[k + j + |name|];
        }
      }
    }
  }

  /** Whatever the policy, a text without the name's first character comes back unchanged. */
  lemma {:induction false} AbsentNameUnchanged(policy: Policy, s: string, name: string, value: string, i: nat, q: Quoting, fuel: nat)
    requires i <= |s| && |name| > 0
    requires forall j :: i <= j < |s| ==> s[j] != name[0]
    ensures Scan(policy, s, name, value, i, q, fuel) == Ok(s)
    decreases |s| - i
  {
    if i < |s| {
      NameHead(s, name, i);
      AbsentNameUnchanged(policy, s, name, value, i + 1, Track(policy, q, s[i]), fuel);
    }
  }

  /**
   * An empty name matches everywhere, and the value is put in front of the
   * same position again and again: unless a quote stops it, the scan never
   * ends, whatever the fuel.
   */
  lemma {:induction false} EmptyNameNeverEnds(s: string, value: string, i: nat, fuel: nat)
    requires i < |s| && !IsQuote(s[i])
    requires |value| > 0 && !IsQuote(value[0])
    ensures Scan(AsWritten, s, "", value, i, Outside, fuel) == Fail(OutOfFuel)
    decreases fuel
  {
    assert OccursAt(s, "", i);
    if fuel > 0 {
      var t := s[..i] + value + s[i..];
      assert t[i] == value[0];
      assert s[i + |""|..] == s[i..];
      EmptyNameNeverEnds(t, value, i, fuel - 1);
    }
  }

  /** Corrected, an empty name leaves the text as it is. */
  lemma {:induction false} EmptyNameIgnored(s: string, value: string, i: nat, q: Quoting, fuel: nat)
    requires i <= |s|
    ensures Scan(Corrected, s, "", value, i, q, fuel) == Ok(s)
    decreases |s| - i
  {
    if i < |s| {
      EmptyNameIgnored(s, value, i + 1, Track(Corrected, q, s[i]), fuel);
      if Track(Corrected, q, s[i]) == Outside {
        EmptyNameIgnored(s, value, i + 1, Outside, fuel);
      }
    }
  }

  // ---------------------------------------------------------------------------
  // ApplyParameter and ExecuteCommand
  // ---------------------------------------------------------------------------

  /**
   * `ApplyParameter`: the scan, then every double-quoted occurrence of the
   * name (`"name"`) replaced by the value.
   */
  function ApplyParameter(policy: Policy, s: string, name: string, value: string, fuel: nat): (r: Result<string>)
    ensures r.Fail? ==> r.error == OutOfFuel || (policy == AsWritten && r.error == IndexOutOfRangeException)
  {
    var t :- Scan(policy, s, name, value, 0, Outside, fuel);
    Ok(Replace(t, "\"" + name + "\"", value))
  }

  /** The characters of a replacement come from the text or from the value. */
  lemma {:induction false} ReplaceDrawsFrom(t: string, pattern: string, value: string)
    requires |pattern| > 0
    ensures forall c :: c in Replace(t, pattern, value) ==> c in t || c in value
    decreases |t|
  {
    if |t| >= |pattern| {
      if OccursAt(t, pattern, 0) {
        ReplaceDrawsFrom(t[|pattern|..], pattern, value);
        assert forall c :: c in t[|pattern|..] ==> c in t;
      } else {
        ReplaceDrawsFrom(t[1..], pattern, value);
        assert forall c :: c in t[1..] ==> c in t;
      }
    }
  }

  /**
   * On quote-free text and value, applying a parameter is `String.Replace`
   * of the name by the value: the double-quoted pass finds nothing.
   */
  lemma {:induction false} PlainApplyIsReplace(policy: Policy, t: string, name: string, value: string, fuel: nat)
    requires |name| > 0 && !IsQuote(name[0]) && name[0] !in value
    requires '\'' !in t && '"' !in t && '\'' !in value && '"' !in value
    requires NoRunOver(t, name)
    requires policy == Corrected ==> WholeNames(t, name)
    requires fuel >= |t|
    ensures ApplyParameter(policy, t, name, value, fuel) == Ok(Replace(t, name, value))
  {
    ScanIsReplace(policy, t, name, value, fuel);
    var r := Replace(t, name, value);
    ReplaceDrawsFrom(t, name, value);
    var pattern := "\"" + name + "\"";
    assert '"' !in r;
    AbsentHead(r, pattern);
  }

  /** A text without a pattern's first character has no occurrence of it. */
  lemma {:induction false} AbsentHead(r: string, pattern: string)
    requires |pattern| > 0 && pattern[0] !in r
    ensures forall i :: !OccursAt(r, pattern, i)
  {
    forall i | 0 <= i && i + |pattern| <= |r|
      ensures !OccursAt(r, pattern, i)
    {
      assert r[i..i + |pattern|][0] == r[i];
      assert r[i] in r;
    }
  }

  /** The parameters applied in order, each with its rendered value. */
  function ApplyAll(policy: Policy, s: string, ps: seq<Parameter.Param>, fuel: nat): (r: Result<string>)
    ensures |ps| == 0 ==> r == Ok(s)
    ensures r.Fail? ==> r.error == OutOfFuel || (policy == AsWritten && r.error == IndexOutOfRangeException)
    decreases |ps|
  {
    if |ps| == 0 then Ok(s)
    else
      var t :- ApplyParameter(policy, s, ps[0].name, Parameter.Render(ps[0].value), fuel);
      ApplyAll(policy, t, ps[1..], fuel)
  }

  /** What `ExecuteCommand` hands to the socket: the connection after `PrepareExecution`, the reply-size command it sent first, if any, and the SQL. */
  datatype Sent = Sent(conn: Connection.Connection, control: Option<string>, sql: string)

  /**
   * `ExecuteCommand`: a missing or not-open connection is rejected before
   * anything else; then the parameters are applied, and the connection
   * prepares the execution and sends the text.
   */
  function ExecuteCommand(policy: Policy, conn: Option<Connection.Connection>, text: string,
                          ps: seq<Parameter.Param>, fuel: nat, peers: Connection.Peers): (r: Result<Sent>)
    ensures (conn.None? || conn.value.state != Connection.Open) ==>
      r == Fail(MonetDbException("Connection is closed"))
    ensures conn.Some? && conn.value.state == Connection.Open && ApplyAll(policy, text, ps, fuel).Fail? ==>
      r == Fail(ApplyAll(policy, text, ps, fuel).error)
    ensures conn.Some? && conn.value.state == Connection.Open && ApplyAll(policy, text, ps, fuel).Ok? ==>
      var e := Connection.ExecuteSql(conn.value, ApplyAll(policy, text, ps, fuel).value, peers);
      (r.Ok? <==> e.error.None?) && (r.Fail? ==> r.error == e.error.value)
    ensures r.Ok? ==> conn.Some? && r.value.conn.state == Connection.Open
    ensures r.Ok? ==> ApplyAll(policy, text, ps, fuel) == Ok(r.value.sql)
    ensures r.Ok? ==> r.value.conn.currentReplySize == r.value.conn.replySize
  {
    if conn.None? || conn.value.state != Connection.Open then Fail(MonetDbException("Connection is closed"))
    else
      var sql :- ApplyAll(policy, text, ps, fuel);
      var e := Connection.ExecuteSql(conn.value, sql, peers);
      if e.error.Some? then Fail(e.error.value) else Ok(Sent(e.conn, e.control, sql))
  }

  /** A command without parameters sends its text as it is. */
  lemma {:induction false} NoParametersVerbatim(policy: Policy, c: Connection.Connection, text: string, fuel: nat,
                                                peers: Connection.Peers)
    requires c.state == Connection.Open && Connection.ExecuteSql(c, text, peers).error.None?
    ensures ExecuteCommand(policy, Some(c), text, [], fuel, peers).Ok?
    ensures ExecuteCommand(policy, Some(c), text, [], fuel, peers).value.sql == text
  {
  }

  // ---------------------------------------------------------------------------
  // Quotes, name prefixes and names cut off by the end: as written and corrected
  // ---------------------------------------------------------------------------

  /** As written, once a quote has been seen the rest of the text is left as it is. */
  lemma {:induction false} QuoteEndsScan(s: string, name: string, value: string, k: nat, fuel: nat)
    requires k < |s| && IsQuote(s[k])
    ensures Scan(AsWritten, s, name, value, k, Outside, fuel) == Ok(s)
  {
    assert Track(AsWritten, Outside, s[k]) == Frozen;
  }

  /**
   * Corrected, a single-quoted literal is passed over as a whole: from inside
   * it, the scan resumes outside just after its closing quote.
   */
  lemma {:induction false} LiteralPassedOver(s: string, name: string, value: string, j: nat, k: nat, fuel: nat)
    requires j <= k < |s| && s[k] == '\'' && |name| > 0 && !IsQuote(name[0])
    requires forall m :: j <= m < k ==> s[m] != '\''
    ensures Scan(Corrected, s, name, value, j, InSingle, fuel) == Scan(Corrected, s, name, value, k + 1, Outside, fuel)
    decreases k - j
  {
    if j < k {
      assert Track(Corrected, InSingle, s[j]) == InSingle;
      LiteralPassedOver(s, name, value, j + 1, k, fuel);
    } else {
      NameHead(s, name, k);
    }
  }

  /** The text `'"' @p`: a literal holding a double quote, then the name `@p`. */
  const QuotedThenName: string := "'\"' @p"

  /** As written, applying `@p` to `'"' @p` leaves the text as it is: the first quote stopped the scan. */
  lemma {:induction false} LiteralStopsScan()
    ensures ApplyParameter(AsWritten, QuotedThenName, "@p", "1", 1) == Ok(QuotedThenName)
  {
    var s := QuotedThenName;
    QuoteEndsScan(s, "@p", "1", 0, 1);
    NoQuotedName(s);
  }

  /** Corrected, applying `@p` to `'"' @p` replaces the name after the literal. */
  lemma {:induction false} LiteralThenSubstituted()
    ensures ApplyParameter(Corrected, QuotedThenName, "@p", "1", 1) == Ok("'\"' 1")
  {
    var s := QuotedThenName;
    assert Track(Corrected, Outside, s[0]) == InSingle;
    assert Scan(Corrected, s, "@p", "1", 0, Outside, 1) == Scan(Corrected, s, "@p", "1", 1, InSingle, 1);
    LiteralPassedOver(s, "@p", "1", 1, 2, 1);
    assert !OccursAt(s, "@p", 3);
    assert Scan(Corrected, s, "@p", "1", 3, Outside, 1) == Scan(Corrected, s, "@p", "1", 4, Outside, 1);
    assert OccursAt(s, "@p", 4) && Boundary(s, 6);
    var t := "'\"' 1";
    assert s[..4] + "1" + s[6..] == t;
    assert Scan(Corrected, s, "@p", "1", 4, Outside, 1) == Scan(Corrected, t, "@p", "1", 4, Outside, 0);
    assert !OccursAt(t, "@p", 4);
    NoQuotedName(t);
  }

  /** `"@p"` does not occur in a text whose only double quote is followed by a single quote. */
  lemma {:induction false} NoQuotedName(t: string)
    requires |t| >= 3 && t[..3] == "'\"'" && '"' !in t[3..]
    ensures forall i :: !OccursAt(t, "\"@p\"", i)
  {
    var p := "\"@p\"";
    forall i | 0 <= i && i + |p| <= |t|
      ensures !OccursAt(t, p, i)
    {
      assert t[i..i + |p|][0] == t[i] && t[i..i + |p|][1] == t[i + 1];
      if i >= 3 {
        assert t[i] == t[3..][i - 3];
      } else {
        assert t[i] == t[..3][i];
      }
    }
  }

  /** As written, applying `@p` to `@p0 @p` rewrites the start of the longer name `@p0` too. */
  lemma {:induction false} PrefixNameRewritten()
    ensures Scan(AsWritten, "@p0 @p", "@p", "x", 0, Outside, 2) == Ok("x0 x")
  {
    var s := "@p0 @p";
    var u := "x0 @p";
    assert OccursAt(s, "@p", 0);
    assert s[..0] + "x" + s[2..] == u;
    assert !OccursAt(u, "@p", 0) && !OccursAt(u, "@p", 1) && !OccursAt(u, "@p", 2);
    assert OccursAt(u, "@p", 3);
    assert u[..3] + "x" + u[5..] == "x0 x";
  }

  /** Corrected, applying `@p` to `@p0 @p` leaves `@p0` alone and replaces the whole name only. */
  lemma {:induction false} WholeNameOnly()
    ensures Scan(Corrected, "@p0 @p", "@p", "x", 0, Outside, 2) == Ok("@p0 x")
  {
    var s := "@p0 @p";
    assert OccursAt(s, "@p", 0) && !Boundary(s, 2);
    assert !OccursAt(s, "@p", 1) && !OccursAt(s, "@p", 2) && !OccursAt(s, "@p", 3);
    assert OccursAt(s, "@p", 4) && Boundary(s, 6);
    assert s[..4] + "x" + s[6..] == "@p0 x";
  }

  /** As written, applying `@p0` to a text ending in `@p` reads past the end and raises. */
  lemma {:induction false} TruncatedNameRaises()
    ensures Scan(AsWritten, "@p", "@p0", "x", 0, Outside, 0) == Fail(IndexOutOfRangeException)
  {
    assert RunsOver("@p", "@p0", 0);
  }

  /** Corrected, a text ending in the start of the name simply does not contain it. */
  lemma {:induction false} TruncatedNameAbsent()
    ensures Scan(Corrected, "@p", "@p0", "x", 0, Outside, 0) == Ok("@p")
  {
    assert !OccursAt("@p", "@p0", 0) && !OccursAt("@p", "@p0", 1);
  }

  // ---------------------------------------------------------------------------
  // Consuming the reply
  // ---------------------------------------------------------------------------

  /** C#'s unchecked `int` addition: the sum wrapped into 32 bits. */
  function Wrap32(n: int): (r: int)
    ensures InInt32(r)
    ensures InInt32(n) ==> r == n
    ensures (r - n) % 0x1_0000_0000 == 0
  {
    (n - Int32Min) % 0x1_0000_0000 + Int32Min
  }

  lemma {:induction false} WrapAdd(a: int, b: int)
    ensures Wrap32(Wrap32(a) + b) == Wrap32(a + b)
  {
    var k := (a - Int32Min) / 0x1_0000_0000;
    assert Wrap32(a) == a - k * 0x1_0000_0000;
    assert Wrap32(a) + b - Int32Min == (a + b - Int32Min) - k * 0x1_0000_0000;
  }

  /** The records affected by every result set, added up. */
  function TotalAffected(batches: seq<DataReader.Batch>): int
  {
    if |batches| == 0 then 0 else TotalAffected(batches[..|batches| - 1]) + batches[|batches| - 1].info.recordsAffected
  }

  /** A reply whose every set reports no affected records adds up to zero. */
  lemma {:induction false} NoneAffected(batches: seq<DataReader.Batch>)
    requires forall i :: 0 <= i < |batches| ==> batches[i].info.recordsAffected == 0
    ensures TotalAffected(batches) == 0
    decreases |batches|
  {
    if |batches| > 0 {
      NoneAffected(batches[..|batches| - 1]);
    }
  }

  /**
   * `ExecuteNonQuery`: opens a reader on the reply and adds up the records
   * affected of each result set, moving on while `NextResult` says there is
   * one more. The counter is a C# `int`. An exception the enumeration raises
   * on the way propagates.
   */
  method ExecuteNonQuery(batches: seq<DataReader.Batch>, failure: Option<Exception>) returns (r: Result<int>)
    ensures failure.Some? ==> r == Fail(failure.value)
    ensures failure.None? && |batches| == 0 ==> r == Fail(NullReferenceException)
    ensures failure.None? && |batches| > 0 ==> r == Ok(Wrap32(TotalAffected(batches)))
  {
    var start := DataReader.Open(batches, failure);
    if start.Fail? {
      return Fail(start.error);
    }
    var rd := start.value;
    var cnt := 0;
    var more := true;
    while more
      invariant DataReader.Positioned(rd) && rd.batches == batches && rd.failure == failure
      invariant more ==> rd.current == Some(rd.produced - 1)
      invariant more ==> cnt == Wrap32(TotalAffected(batches[..rd.produced - 1]))
      invariant !more ==> cnt == Wrap32(TotalAffected(batches)) && failure.None?
      decreases |batches| - rd.produced + (if more then 1 else 0)
    {
      var k := rd.current.value;
      assert batches[..k + 1][..k] == batches[..k];
      WrapAdd(TotalAffected(batches[..k]), DataReader.RecordsAffected(rd));
      cnt := Wrap32(cnt + DataReader.RecordsAffected(rd));
      var next := DataReader.NextResult(rd);
      if next.Fail? {
        return Fail(next.error);
      }
      rd := next.value.0;
      more := next.value.1;
      if !more {
        assert batches[..k + 1] == batches;
      }
    }
    return Ok(cnt);
  }

  /**
   * `ExecuteNonQuery` on the reply's lines. It never reads a row, so the
   * enumeration runs without draining; no set of a reply reports affected
   * records, so the answer is zero unless the reply raises.
   */
  method ExecuteNonQueryOn(lines: seq<string>) returns (r: Result<int>)
    ensures var d := ResultDecoder.Decode(lines, false);
            r == if d.error.Some? then Fail(d.error.value) else Ok(0)
  {
    var d := ResultDecoder.Decode(lines, false);
    ResultDecoder.DecodeYield(lines, false);
    var batches := DataReader.Replay(d.sets);
    NoneAffected(batches);
    r := ExecuteNonQuery(batches, d.error);
  }

  /**
   * `ExecuteScalar`: the first column of the first row of the first result
   * set, decoded by `GetValue`, or null when that set has no rows.
   */
  function ExecuteScalar(batches: seq<DataReader.Batch>, failure: Option<Exception>): (r: Result<Option<DataReader.Value>>)
    ensures |batches| == 0 ==> r == Fail(if failure.Some? then failure.value else NullReferenceException)
    ensures |batches| > 0 && |batches[0].rows| == 0 ==> r == Ok(None)
    ensures |batches| > 0 && |batches[0].rows| > 0 ==>
      r == Prefer(DataReader.GetValue(batches[0].rows[0], batches[0].info.columns, 0))
  {
    var rd :- DataReader.Open(batches, failure);
    var (moved, found) := DataReader.Read(rd);
    if !found then Ok(None)
    else
      var v :- DataReader.GetValue(DataReader.CurrentRow(moved), moved.batches[moved.current.value].info.columns, 0);
      Ok(Some(v))
  }

  /** A decoded value as a present answer. */
  function Prefer(r: Result<DataReader.Value>): Result<Option<DataReader.Value>>
  {
    match r
    case Ok(v) => Ok(Some(v))
    case Fail(e) => Fail(e)
  }

  /** A scalar query on a null first field answers `DBNull`, not null. */
  lemma {:induction false} ScalarNull(b: DataReader.Batch, rest: seq<DataReader.Batch>, failure: Option<Exception>)
    requires |b.rows| > 0 && |b.rows[0]| > 0 && b.rows[0][0] == "NULL"
    ensures ExecuteScalar([b] + rest, failure) == Ok(Some(DataReader.DbNullValue))
  {
  }
}

=== FILE: connection.dfy ===
/**
 * The connection object: parsing the connection string, rewriting it for
 * `ChangeDatabase`, the Open/Closed state machine, and the reply-size control
 * command sent before a query. The connection string is the empty text while
 * it is null: the constructor and the setter refuse an empty string, so the
 * field is empty only when it was never set. The pool factory and the socket
 * are parameters: `Open` hands the factory the parsed settings and receives a
 * socket, a null socket, or an exception; `Close` and a failed execution hand
 * the socket back and learn whether that raised; a control command and a
 * query write learn whether the socket raised.
 */
module Connection {
  import opened Wrappers
  import opened Text
  import Pool
  import Factory

  /** The settings parsed from a connection string; `None` is a null field. */
  datatype Fields = Fields(
    host: Option<string>, port: int, username: Option<string>, password: Option<string>,
    database: Option<string>, minPool: int, maxPool: int)

  /** `ConnectionState` as far as the connection uses it. */
  datatype State = Closed | Connecting | Open

  datatype Connection = Connection(
    connectionString: string, fields: Fields, state: State, socket: Option<Pool.SocketId>,
    replySize: int, currentReplySize: int)

  /** The fields of a connection nobody has configured yet. */
  const Unset := Fields(None, 0, None, None, None, 3, 20)

  /** A connection as the parameterless constructor leaves it. */
  const Blank := Connection("", Unset, Closed, None, 0, -1)

  const DefaultPort := 50000

  /** The fields after a parse, and the exception that stopped it, if any. */
  datatype Parsed = Parsed(fields: Fields, error: Option<Exception>)

  // ---------------------------------------------------------------------------
  // Parsing
  // ---------------------------------------------------------------------------

  /** The key of a setting as the parser compares it: lowercased, then trimmed. */
  function KeyOf(raw: string): string
  {
    Trim(ToLower(raw), WhiteSpace)
  }

  /** The keys whose value is stored as text. */
  const TextKeys := {"host", "username", "password", "database"}

  /** Stores the value of a text key in its field. */
  function Store(f: Fields, key: string, value: string): (r: Fields)
    requires key in TextKeys
    ensures r.port == f.port && r.minPool == f.minPool && r.maxPool == f.maxPool
  {
    if key == "host" then f.(host := Some(value))
    else if key == "username" then f.(username := Some(value))
    else if key == "password" then f.(password := Some(value))
    else f.(database := Some(value))
  }

  /**
   * The settings loop: each setting must split on `=` (dropping empty parts)
   * into exactly a key and a value; known keys store the value verbatim, the
   * port must be an integer (a failed parse leaves it 0), and the pool bounds
   * are raised but never lowered. Unknown keys are ignored. Fields set before
   * a failing setting stay set.
   */
  function ParseSettings(f: Fields, settings: seq<string>): (r: Parsed)
    ensures r.fields.minPool >= f.minPool && r.fields.maxPool >= f.maxPool
    ensures r.error.Some? ==> r.error.value.ArgumentException?
    decreases |settings|
  {
    if |settings| == 0 then Parsed(f, None)
    else
      var kv := SplitNonEmpty(settings[0], '=');
      if |kv| != 2 then Parsed(f, Some(ArgumentException("ConnectionString is not well-formed: " + settings[0])))
      else
        var key := KeyOf(kv[0]);
        var value := kv[1];
        var rest := settings[1..];
        if key in TextKeys then ParseSettings(Store(f, key, value), rest)
        else if key == "port" then
          match TryParseInt32(value)
          case None => Parsed(f.(port := 0), Some(ArgumentException("Port is not a valid integer: " + value)))
          case Some(n) => ParseSettings(f.(port := n), rest)
        else if key == "poolminimum" then
          match TryParseInt32(value)
          case None => Parsed(f, Some(ArgumentException("poolminimum is not a valid integer: " + value)))
          case Some(n) => ParseSettings(f.(minPool := if n > f.minPool then n else f.minPool), rest)
        else if key == "poolmaximum" then
          match TryParseInt32(value)
          case None => Parsed(f, Some(ArgumentException("poolmaximum is not a valid integer: " + value)))
          case Some(n) => ParseSettings(f.(maxPool := if n > f.maxPool then n else f.maxPool), rest)
        else ParseSettings(f, rest)
  }

  /**
   * `ParseConnectionString`: host, user, password and database start out
   * null and the port 50000 on every parse, while the pool bounds carry
   * over; after the settings, a missing or empty database is an error.
   */
  function ParseConnectionString(f: Fields, text: string): (r: Parsed)
    ensures r.fields.minPool >= f.minPool && r.fields.maxPool >= f.maxPool
    ensures r.error.None? ==> r.fields.database.Some? && r.fields.database.value != ""
  {
    var start := f.(host := None, port := DefaultPort, username := None, password := None, database := None);
    var r := ParseSettings(start, SplitNonEmpty(text, ';'));
    if r.error.Some? then r
    else if r.fields.database.None? || r.fields.database.value == "" then
      Parsed(r.fields, Some(ArgumentException("Database name not specified. Please specify database.")))
    else r
  }

  /** A key made of lowercase ASCII letters. */
  predicate LowerWord(k: string)
  {
    |k| > 0 && forall i :: 0 <= i < |k| ==> 'a' <= k[i] <= 'z'
  }

  /** A value the parser keeps whole: not empty, no `;`, no `=`. */
  predicate PlainValue(v: string)
  {
    |v| > 0 && ';' !in v && '=' !in v
  }

  lemma {:induction false} KeyOfWord(k: string)
    requires LowerWord(k)
    ensures KeyOf(k) == k
  {
    assert ToLower(k) == k;
    TrimUnchanged(k, WhiteSpace);
  }

  /** `key=value` splits back into its key and value. */
  lemma {:induction false} SettingSplits(key: string, value: string)
    requires |key| > 0 && '=' !in key && PlainValue(value)
    ensures SplitNonEmpty(Setting(key, value), '=') == [key, value]
  {
    SplitJoin([key, value], '=');
    assert Join([key, value], "=") == key + "=" + value;
  }

  /** One `key=value` setting. */
  function Setting(key: string, value: string): string
  {
    key + "=" + value
  }

  /** The settings text for a host, user, password and database. */
  function Settings4(host: string, user: string, password: string, database: string): string
  {
    Join([Setting("host", host), Setting("username", user), Setting("password", password), Setting("database", database)], ";")
  }

  /**
   * A connection string naming host, user, password and database yields
   * exactly those values, the default port, and the earlier pool bounds.
   */
  lemma {:induction false} ParseFourSettings(f: Fields, host: string, user: string, password: string, database: string)
    requires PlainValue(host) && PlainValue(user) && PlainValue(password) && PlainValue(database)
    ensures ParseConnectionString(f, Settings4(host, user, password, database))
         == Parsed(Fields(Some(host), DefaultPort, Some(user), Some(password), Some(database), f.minPool, f.maxPool), None)
  {
    var start := f.(host := None, port := DefaultPort, username := None, password := None, database := None);
    FourChunks(host, user, password, database);
    FourSettings(start, host, user, password, database);
  }

  /** The settings text pieces for parallel lists of keys and values. */
  function SettingsOf(keys: seq<string>, values: seq<string>): (r: seq<string>)
    requires |keys| == |values|
    ensures |r| == |keys|
    ensures forall i :: 0 <= i < |r| ==> r[i] == Setting(keys[i], values[i])
  {
    if |keys| == 0 then [] else [Setting(keys[0], values[0])] + SettingsOf(keys[1..], values[1..])
  }

  /** The fields after storing each value under its key, in order. */
  function StoreAll(f: Fields, keys: seq<string>, values: seq<string>): Fields
    requires |keys| == |values| && forall i :: 0 <= i < |keys| ==> keys[i] in TextKeys
    decreases |keys|
  {
    if |keys| == 0 then f else StoreAll(Store(f, keys[0], values[0]), keys[1..], values[1..])
  }

  /** Text settings with plain values parse without error and store their values in order. */
  lemma {:induction false} TextSettings(f: Fields, keys: seq<string>, values: seq<string>)
    requires |keys| == |values|
    requires forall i :: 0 <= i < |keys| ==> keys[i] in TextKeys && PlainValue(values[i])
    ensures ParseSettings(f, SettingsOf(keys, values)) == Parsed(StoreAll(f, keys, values), None)
    decreases |keys|
  {
    if |keys| > 0 {
      var rest := SettingsOf(keys[1..], values[1..]);
      TextSettings(Store(f, keys[0], values[0]), keys[1..], values[1..]);
      TextSetting(f, keys[0], values[0], rest);
    }
  }

  /** The four settings, already split, store their four values in order. */
  lemma {:induction false} FourSettings(start: Fields, host: string, user: string, password: string, database: string)
    requires PlainValue(host) && PlainValue(user) && PlainValue(password) && PlainValue(database)
    ensures ParseSettings(start, [Setting("host", host), Setting("username", user), Setting("password", password), Setting("database", database)])
         == Parsed(start.(host := Some(host), username := Some(user), password := Some(password), database := Some(database)), None)
  {
    var keys := ["host", "username", "password", "database"];
    var values := [host, user, password, database];
    TextSettings(start, keys, values);
    assert SettingsOf(keys, values)
        == [Setting("host", host), Setting("username", user), Setting("password", password), Setting("database", database)];
    var f1 := Store(start, keys[0], values[0]);
    var f2 := Store(f1, keys[1], values[1]);
    var f3 := Store(f2, keys[2], values[2]);
    var f4 := Store(f3, keys[3], values[3]);
    assert StoreAll(f4, keys[4..], values[4..]) == f4;
    assert StoreAll(f3, keys[3..], values[3..]) == f4;
    assert StoreAll(f2, keys[2..], values[2..]) == f4;
    assert StoreAll(f1, keys[1..], values[1..]) == f4;
    assert StoreAll(start, keys, values) == f4;
  }

  /** The four-setting text splits into its four settings. */
  lemma {:induction false} FourChunks(host: string, user: string, password: string, database: string)
    requires PlainValue(host) && PlainValue(user) && PlainValue(password) && PlainValue(database)
    ensures SplitNonEmpty(Settings4(host, user, password, database), ';')
         == [Setting("host", host), Setting("username", user), Setting("password", password), Setting("database", database)]
  {
    var parts := [Setting("host", host), Setting("username", user), Setting("password", password), Setting("database", database)];
    NoSemicolon("host", host);
    NoSemicolon("username", user);
    NoSemicolon("password", password);
    NoSemicolon("database", database);
    SplitJoin(parts, ';');
    NonEmptyKeeps(parts);
  }

  lemma {:induction false} NoSemicolon(key: string, value: string)
    requires LowerWord(key) && PlainValue(value)
    ensures ';' !in Setting(key, value)
  {
    var t := Setting(key, value);
    forall k | 0 <= k < |t| ensures t[k] != ';' {
      if k > |key| {
        assert t[k] == value[k - |key| - 1];
      }
    }
  }

  /** A setting of a text key stores its value and parsing goes on with the rest. */
  lemma {:induction false} TextSetting(f: Fields, key: string, value: string, rest: seq<string>)
    requires key in TextKeys && PlainValue(value)
    ensures ParseSettings(f, [Setting(key, value)] + rest) == ParseSettings(Store(f, key, value), rest)
  {
    TextKeyWord(key);
    SettingSplits(key, value);
    KeyOfWord(key);
    StoreStep(f, Setting(key, value), rest, key, value);
  }

  /** The text keys are lower-case words, so they hold no `=`. */
  lemma {:induction false} TextKeyWord(key: string)
    requires key in TextKeys
    ensures LowerWord(key) && '=' !in key
  {
    assert LowerWord(key);
    forall i | 0 <= i < |key| ensures key[i] != '=' { }
  }

  /** A setting whose split yields a text key and a value stores the value and goes on with the rest. */
  lemma {:induction false} StoreStep(f: Fields, setting: string, rest: seq<string>, key: string, value: string)
    requires key in TextKeys && SplitNonEmpty(setting, '=') == [key, value] && KeyOf(key) == key
    ensures ParseSettings(f, [setting] + rest) == ParseSettings(Store(f, key, value), rest)
  {
    var all := [setting] + rest;
    assert all[0] == setting && all[1..] == rest;
  }

  /** A setting without `=` (such as `port` on its own) is not well-formed. */
  lemma {:induction false} LoneKeyRejected(f: Fields, key: string)
    requires LowerWord(key)
    ensures ParseSettings(f, [key]).error == Some(ArgumentException("ConnectionString is not well-formed: " + key))
  {
    assert '=' !in key by {
      forall i | 0 <= i < |key| ensures key[i] != '=' { }
    }
    SplitJoin([key], '=');
  }

  /** Pool bounds from an earlier parse are never lowered by a later one. */
  lemma {:induction false} BoundsOnlyRise(c: Connection, text: string)
    ensures ParseConnectionString(c.fields, text).fields.minPool >= c.fields.minPool
    ensures ParseConnectionString(ParseConnectionString(c.fields, text).fields, "database=d").fields.minPool
         >= c.fields.minPool
  {
  }

  // ---------------------------------------------------------------------------
  // The connection string property and the constructor
  // ---------------------------------------------------------------------------

  /** A connection after an operation, and the exception it raised, if any. */
  datatype Outcome = Outcome(conn: Connection, error: Option<Exception>)

  /**
   * The `ConnectionString` setter: an empty value raises and changes nothing;
   * otherwise the text is stored first and then parsed, so a parse error
   * leaves the new text and whatever the parse had set.
   */
  function SetConnectionString(c: Connection, value: string): (r: Outcome)
    ensures value == "" ==> r == Outcome(c, Some(ArgumentNullException("value")))
    ensures value != "" ==> r.conn.connectionString == value && r.conn.state == c.state
    ensures value != "" ==> r.conn.fields == ParseConnectionString(c.fields, value).fields
    ensures value != "" ==> r.error == ParseConnectionString(c.fields, value).error
  {
    if value == "" then Outcome(c, Some(ArgumentNullException("value")))
    else
      var p := ParseConnectionString(c.fields, value);
      Outcome(c.(connectionString := value, fields := p.fields), p.error)
  }

  /** The constructor taking a connection string: the text must be present and must parse. */
  function NewConnection(text: string): (r: Result<Connection>)
    ensures text == "" ==> r == Fail(ArgumentNullException("connectionString"))
    ensures r.Ok? ==> r.value.state == Closed && r.value.connectionString == text && r.value.socket.None?
    ensures r.Ok? <==> text != "" && ParseConnectionString(Unset, text).error.None?
  {
    if text == "" then Fail(ArgumentNullException("connectionString"))
    else
      var stored := SetConnectionString(Blank, text);
      if stored.error.Some? then Fail(stored.error.value) else Ok(stored.conn.(state := Closed))
  }

  // ---------------------------------------------------------------------------
  // Open, Close, ChangeDatabase
  // ---------------------------------------------------------------------------

  /** What the pool factory answers for a set of fields: a socket, a null socket, or an exception. */
  type SocketSource = Fields -> Result<Option<Pool.SocketId>>

  /**
   * `Open`: an open connection raises; an empty connection string raises and
   * leaves the state Closed. Otherwise the state is Connecting while the
   * factory is asked for a socket; if the factory raises, it stays
   * Connecting; if not, the connection is Open with the socket it got, which
   * may be null.
   */
  function OpenConnection(c: Connection, source: SocketSource): (r: Outcome)
    ensures c.state == Open ==> r == Outcome(c, Some(InvalidOperationException("Connection is already open")))
    ensures c.state != Open && c.connectionString == "" ==>
      r == Outcome(c.(state := Closed), Some(InvalidOperationException("ConnectionString has not been set. Cannot connect to database.")))
    ensures c.state != Open && c.connectionString != "" && source(c.fields).Fail? ==>
      r == Outcome(c.(state := Connecting), Some(source(c.fields).error))
    ensures r.error.None? <==> c.state != Open && c.connectionString != "" && source(c.fields).Ok?
    ensures r.error.None? ==> r.conn == c.(state := Open, socket := source(c.fields).value)
  {
    if c.state == Open then Outcome(c, Some(InvalidOperationException("Connection is already open")))
    else if c.connectionString == "" then
      Outcome(c.(state := Closed), Some(InvalidOperationException("ConnectionString has not been set. Cannot connect to database.")))
    else match source(c.fields)
      case Fail(e) => Outcome(c.(state := Connecting), Some(e))
      case Ok(socket) => Outcome(c.(state := Open, socket := socket), None)
  }

  /**
   * What the parts of the client outside this model answer a connection:
   * whether the socket raises on a control command, whether it raises while
   * writing a query, and whether the pool factory raises when handed a
   * socket back.
   */
  datatype Peers = Peers(control: string -> Option<Exception>, query: string -> Option<Exception>,
                         returned: Factory.PoolCall -> Option<Exception>)

  /** A connection after an operation that may hand its socket to the factory: the call made, and any exception. */
  datatype Released = Released(conn: Connection, call: Option<Factory.PoolCall>, error: Option<Exception>)

  /**
   * `Close`: a held socket is handed back to its pool, and the state becomes
   * Closed unless that raises; then the exception propagates and the
   * connection is left as it was, still Open if it was. The socket field is
   * cleared only by a callback the pool never calls, so it stays.
   */
  function CloseConnection(c: Connection, peers: Peers): (r: Released)
    ensures r.call == if c.socket.Some? then Some(Factory.FreeCall(c.socket.value)) else None
    ensures r.error.None? <==> c.socket.None? || peers.returned(Factory.FreeCall(c.socket.value)).None?
    ensures r.error.None? ==> r.conn == c.(state := Closed)
    ensures r.error.Some? ==> r.conn == c && r.error == peers.returned(r.call.value)
  {
    match c.socket
    case None => Released(c.(state := Closed), None, None)
    case Some(x) =>
      var call := Factory.FreeCall(x);
      match peers.returned(call)
      case Some(e) => Released(c, Some(call), Some(e))
      case None => Released(c.(state := Closed), Some(call), None)
  }

  /** Opening and then closing ends Closed when the pool takes the socket back, and returns the socket handed out. */
  lemma {:induction false} OpenThenClose(c: Connection, source: SocketSource, peers: Peers)
    requires c.state != Open && c.connectionString != "" && source(c.fields) == Ok(Some(7))
    requires peers.returned(Factory.FreeCall(7)).None?
    ensures var o := OpenConnection(c, source);
      o.error.None? && o.conn.state == Open
      && CloseConnection(o.conn, peers) == Released(o.conn.(state := Closed), Some(Factory.FreeCall(7)), None)
  {
  }

  /** `StartsWith(prefix, InvariantCultureIgnoreCase)` for ASCII text. */
  predicate StartsWithIgnoreCase(s: string, prefix: string)
  {
    |prefix| <= |s| && ToLower(s[..|prefix|]) == ToLower(prefix)
  }

  /** The chunks of the connection string with every `database=` chunk pointed at `name`. */
  function Rewrite(chunks: seq<string>, name: string): (r: seq<string>)
    ensures |r| == |chunks|
    ensures forall i :: 0 <= i < |r| ==>
      r[i] == if StartsWithIgnoreCase(chunks[i], "database=") then "database=" + name else chunks[i]
  {
    if |chunks| == 0 then []
    else
      [if StartsWithIgnoreCase(chunks[0], "database=") then "database=" + name else chunks[0]]
      + Rewrite(chunks[1..], name)
  }

  /** The connection string after `ChangeDatabase(name)`. */
  function ChangedString(text: string, name: string): string
  {
    Join(Rewrite(Split(text, ';'), name), ";")
  }

  /**
   * The rewritten string splits into the rewritten chunks: every chunk that
   * started with `database=` (in any case) now names the new database, and
   * every other chunk is as it was.
   */
  lemma {:induction false} ChangedChunks(text: string, name: string)
    requires ';' !in name
    ensures Split(ChangedString(text, name), ';') == Rewrite(Split(text, ';'), name)
  {
    var chunks := Split(text, ';');
    var r := Rewrite(chunks, name);
    var d := "database=" + name;
    assert ';' !in d by {
      forall k | 0 <= k < |d| ensures d[k] != ';' {
        if k >= 9 {
          assert d[k] == name[k - 9];
        }
      }
    }
    forall i | 0 <= i < |r| ensures ';' !in r[i] {
      assert r[i] == d || r[i] == chunks[i];
    }
    SplitJoin(r, ';');
  }

  /** A connection string whose only chunks are plain settings gains nothing and loses nothing. */
  lemma {:induction false} ChangedKeepsOthers(text: string, name: string)
    requires forall i :: 0 <= i < |Split(text, ';')| ==> !StartsWithIgnoreCase(Split(text, ';')[i], "database=")
    ensures ChangedString(text, name) == text
  {
    var chunks := Split(text, ';');
    assert Rewrite(chunks, name) == chunks;
    JoinSplit(text, ';');
  }

  /**
   * `ChangeDatabase`: an open connection is closed first, and an exception
   * from closing ends the call. A connection string that was never set is
   * null and splitting it raises. Otherwise the rewritten string goes
   * through the setter, and the connection is reopened only if it was open
   * before and the setter did not raise.
   */
  function ChangeDatabase(c: Connection, name: string, source: SocketSource, peers: Peers): (r: Released)
    ensures var reopen := c.state == Open;
      var closed := if reopen then CloseConnection(c, peers) else Released(c, None, None);
      var changed := SetConnectionString(closed.conn, ChangedString(c.connectionString, name));
      r.call == closed.call
      && (closed.error.Some? ==> r == closed)
      && (closed.error.None? && c.connectionString == "" ==>
            r.conn == closed.conn && r.error == Some(NullReferenceException))
      && (closed.error.None? && c.connectionString != "" ==>
            (changed.error.Some? ==> r.conn == changed.conn && r.error == changed.error)
            && (changed.error.None? && !reopen ==> r.conn == changed.conn && r.error.None?)
            && (changed.error.None? && reopen ==> r.conn == OpenConnection(changed.conn, source).conn))
  {
    var reopen := c.state == Open;
    var closed := if reopen then CloseConnection(c, peers) else Released(c, None, None);
    if closed.error.Some? then closed
    else if c.connectionString == "" then Released(closed.conn, closed.call, Some(NullReferenceException))
    else
      var changed := SetConnectionString(closed.conn, ChangedString(c.connectionString, name));
      if changed.error.Some? then Released(changed.conn, closed.call, changed.error)
      else if !reopen then Released(changed.conn, closed.call, None)
      else
        var reopened := OpenConnection(changed.conn, source);
        Released(reopened.conn, closed.call, reopened.error)
  }

  /** Changing the database of an open connection closes it, then opens it again with the new settings. */
  lemma {:induction false} ChangeDatabaseReopens(c: Connection, name: string, source: SocketSource, peers: Peers)
    requires c.state == Open && c.socket.Some? && peers.returned(Factory.FreeCall(c.socket.value)).None?
    requires ParseConnectionString(c.fields, ChangedString(c.connectionString, name)).error.None?
    requires c.connectionString != "" && ChangedString(c.connectionString, name) != ""
    ensures var r := ChangeDatabase(c, name, source, peers);
      r.call == Some(Factory.FreeCall(c.socket.value))
      && (r.error.None? <==> source(r.conn.fields).Ok?)
      && r.conn.fields == ParseConnectionString(c.fields, ChangedString(c.connectionString, name)).fields
  {
  }

  /**
   * A connection whose string was never set raises a null reference on
   * `ChangeDatabase`, not the setter's argument error, and stays as it was.
   */
  lemma {:induction false} ChangeDatabaseUnset(name: string, source: SocketSource, peers: Peers)
    ensures ChangeDatabase(Blank, name, source, peers) == Released(Blank, None, Some(NullReferenceException))
  {
  }

  /**
   * A chunk with a space before `database=` is not rewritten, but the parser
   * trims keys and still reads it as the database: `ChangeDatabase` then
   * leaves the database as it was.
   */
  lemma {:induction false} SpacedDatabaseKeyKept(kept: string, name: string)
    requires PlainValue(kept)
    ensures var t := Setting(" " + "database", kept);
      ChangedString(t, name) == t
      && ParseConnectionString(Unset, t).fields.database == Some(kept)
  {
    var t := Setting(" " + "database", kept);
    assert ';' !in t by {
      assert forall k :: 10 <= k < |t| ==> t[k] == kept[k - 10];
    }
    SplitJoin([t], ';');
    SpacedNotRewritten(t, name);
    SpacedParsed("database", t, kept);
  }

  /** The whole-text parse of a lone spaced `database` setting. */
  lemma {:induction false} SpacedParsed(k: string, t: string, kept: string)
    requires k == "database" && PlainValue(kept) && t == Setting(" " + k, kept) && Split(t, ';') == [t]
    ensures ParseConnectionString(Unset, t).fields.database == Some(kept)
  {
    var start := Unset.(host := None, port := DefaultPort, username := None, password := None, database := None);
    assert SplitNonEmpty(t, ';') == [t];
    assert k in TextKeys;
    assert LowerWord(k);
    SpacedSetting(start, k, t, kept);
    StoreDatabase(start, k, kept);
  }

  /** A lone setting whose text key is written after a space is stored under that key. */
  lemma {:induction false} SpacedSetting(f: Fields, k: string, t: string, kept: string)
    requires k in TextKeys && LowerWord(k) && PlainValue(kept) && t == Setting(" " + k, kept)
    ensures ParseSettings(f, [t]) == Parsed(Store(f, k, kept), None)
  {
    LeadingSpaceKey(k);
    SpacedNoEquals(k);
    SettingSplits(" " + k, kept);
    assert [t][1..] == [];
  }

  lemma {:induction false} SpacedNoEquals(k: string)
    requires LowerWord(k)
    ensures '=' !in " " + k
  {
    var s := " " + k;
    forall i | 0 <= i < |s| ensures s[i] != '=' {
      if i > 0 {
        assert s[i] == k[i - 1];
      }
    }
  }

  lemma {:induction false} StoreDatabase(f: Fields, k: string, value: string)
    requires k == "database"
    ensures Store(f, k, value) == f.(database := Some(value))
  {
    assert k != "host" && k != "username" && k != "password" by {
      assert k[0] == 'd';
    }
  }

  /** A setting whose key reads as a text key stores its value, whatever spacing or case the key was written in. */
  lemma {:induction false} RawSetting(f: Fields, raw: string, value: string, rest: seq<string>)
    requires |raw| > 0 && '=' !in raw && KeyOf(raw) in TextKeys && PlainValue(value)
    ensures ParseSettings(f, [Setting(raw, value)] + rest) == ParseSettings(Store(f, KeyOf(raw), value), rest)
  {
    SettingSplits(raw, value);
    assert ([Setting(raw, value)] + rest)[1..] == rest;
  }

  lemma {:induction false} SpacedNotRewritten(t: string, name: string)
    requires |t| >= 9 && t[0] == ' '
    ensures Rewrite([t], name) == [t]
  {
    assert ToLower(t[..9])[0] == ' ';
    assert ToLower("database=")[0] == 'd';
  }

  /** A key written with a leading space is read as the key itself. */
  lemma {:induction false} LeadingSpaceKey(k: string)
    requires LowerWord(k)
    ensures KeyOf(" " + k) == k
  {
    var s := " " + k;
    LowerSpaced(k);
    assert 'a' <= k[0] <= 'z' && 'a' <= k[|k| - 1] <= 'z';
    TrimOneFront(' ', k, WhiteSpace);
  }

  lemma {:induction false} LowerSpaced(k: string)
    requires LowerWord(k)
    ensures ToLower(" " + k) == " " + k
  {
    var s := " " + k;
    forall i | 0 <= i < |s| ensures ToLower(s)[i] == s[i] {
      if i > 0 {
        assert s[i] == k[i - 1];
      }
    }
  }

  // ---------------------------------------------------------------------------
  // Reply size
  // ---------------------------------------------------------------------------

  /** A connection after `PrepareExecution`: the control command it sent, if any, and the exception raised, if any. */
  datatype Prepared = Prepared(conn: Connection, control: Option<string>, error: Option<Exception>)

  /**
   * `PrepareExecution`: when the requested reply size differs from the one
   * last sent, a control command is sent, and the requested size is
   * recorded only once the command has gone through; if the socket raises,
   * the size stays as it was. The command carries the size that was current
   * before, not the requested one. A null socket raises before anything is
   * sent.
   */
  function PrepareExecution(c: Connection, peers: Peers): (r: Prepared)
    ensures c.currentReplySize == c.replySize ==> r == Prepared(c, None, None)
    ensures c.currentReplySize != c.replySize && c.socket.None? ==> r == Prepared(c, None, Some(NullReferenceException))
    ensures c.currentReplySize != c.replySize && c.socket.Some? ==>
      r.control == Some("reply_size " + IntToString(c.currentReplySize))
      && r.error == peers.control(r.control.value)
    ensures r.error.Some? ==> r.conn == c
    ensures r.error.None? ==> r.conn == c.(currentReplySize := c.replySize)
  {
    if c.currentReplySize == c.replySize then Prepared(c, None, None)
    else if c.socket.None? then Prepared(c, None, Some(NullReferenceException))
    else
      var command := "reply_size " + IntToString(c.currentReplySize);
      match peers.control(command)
      case Some(e) => Prepared(c, Some(command), Some(e))
      case None => Prepared(c.(currentReplySize := c.replySize), Some(command), None)
  }

  /** After one preparation that went through, the sizes agree, so a second preparation sends nothing. */
  lemma {:induction false} PrepareOnce(c: Connection, peers: Peers)
    requires PrepareExecution(c, peers).error.None?
    ensures PrepareExecution(PrepareExecution(c, peers).conn, peers) == Prepared(PrepareExecution(c, peers).conn, None, None)
  {
  }

  /** After a control command the socket refused, the next preparation sends the same command again. */
  lemma {:induction false} RefusedPrepareRepeats(c: Connection, peers: Peers)
    requires PrepareExecution(c, peers).control.Some? && PrepareExecution(c, peers).error.Some?
    ensures PrepareExecution(PrepareExecution(c, peers).conn, peers) == PrepareExecution(c, peers)
  {
  }

  /** A fresh connection holding a socket and asked for 100 rows per reply first sends `reply_size -1`. */
  lemma {:induction false} FirstReplySizeIsStale(socket: Pool.SocketId, peers: Peers)
    ensures PrepareExecution(Blank.(replySize := 100, socket := Some(socket)), peers).control == Some("reply_size -1")
  {
    assert DigitChar(1) == '1';
    assert NatToString(1) == "1";
    assert IntToString(-1) == "-1";
    assert "reply_size " + "-1" == "reply_size -1";
  }

  /** A connection after `ExecuteSql` has written the query: the control command sent, the pool call made, and any exception. */
  datatype Executed = Executed(conn: Connection, control: Option<string>, call: Option<Factory.PoolCall>, error: Option<Exception>)

  /**
   * The exception the guarded part of `ExecuteSql` raises, if any: the
   * preparation's, else a null socket's, else the query write's.
   */
  function Raised(c: Connection, sql: string, peers: Peers): Option<Exception>
  {
    var p := PrepareExecution(c, peers);
    if p.error.Some? then p.error
    else if c.socket.None? then Some(NullReferenceException)
    else peers.query(sql)
  }

  /**
   * `ExecuteSql` up to reading the reply: the execution is prepared and the
   * query is written; an I/O failure in either step hands the socket to the
   * factory for removal and is rethrown, unless the removal itself raises,
   * whose exception then takes its place. Any other exception propagates as
   * it is, and a null socket raises when the query is written. Nothing but
   * the reply size changes, and it changes only once the preparation went
   * through.
   */
  function ExecuteSql(c: Connection, sql: string, peers: Peers): (r: Executed)
    ensures var p := PrepareExecution(c, peers);
      r.control == p.control
      && (r.error.None? <==> c.socket.Some? && p.error.None? && peers.query(sql).None?)
      && (r.error.None? ==> r.conn.currentReplySize == r.conn.replySize)
      && (p.error.Some? ==> r.conn == c)
      && (p.error.None? ==> r.conn == c.(currentReplySize := c.replySize))
    ensures r.call.Some? <==> Raised(c, sql, peers).Some? && Raised(c, sql, peers).value.IOException?
    ensures r.call.Some? ==>
      c.socket.Some? && r.call.value == Factory.RemoveCall(c.socket.value)
      && r.error == (if peers.returned(r.call.value).Some? then peers.returned(r.call.value)
                     else Raised(c, sql, peers))
    ensures r.call.None? ==> r.error == Raised(c, sql, peers)
    ensures r.conn == c.(currentReplySize := r.conn.currentReplySize)
  {
    var p := PrepareExecution(c, peers);
    var raised := if p.error.Some? then p.error
                  else if c.socket.None? then Some(NullReferenceException)
                  else peers.query(sql);
    match raised
    case Some(e) =>
      if e.IOException? && c.socket.Some? then
        var call := Factory.RemoveCall(c.socket.value);
        var removal := peers.returned(call);
        Executed(p.conn, p.control, Some(call), if removal.Some? then removal else raised)
      else Executed(p.conn, p.control, None, raised)
    case None => Executed(p.conn, p.control, None, None)
  }

  /** A socket that fails with an I/O error on the reply-size command is handed to the factory for removal, and the error reaches the caller. */
  lemma {:induction false} BrokenSocketRemoved(c: Connection, sql: string, peers: Peers, message: string)
    requires c.socket.Some? && c.currentReplySize != c.replySize
    requires peers.control("reply_size " + IntToString(c.currentReplySize)) == Some(IOException(message))
    requires peers.returned(Factory.RemoveCall(c.socket.value)).None?
    ensures ExecuteSql(c, sql, peers) == Executed(c, Some("reply_size " + IntToString(c.currentReplySize)),
                                                  Some(Factory.RemoveCall(c.socket.value)), Some(IOException(message)))
  {
  }

  /**
   * A socket that fails with an I/O error while the query is written is
   * handed to the factory for removal too, and the error reaches the caller;
   * the reply size recorded by the preparation stays recorded.
   */
  lemma {:induction false} BrokenWriteRemoved(c: Connection, sql: string, peers: Peers, message: string)
    requires c.socket.Some? && PrepareExecution(c, peers).error.None?
    requires peers.query(sql) == Some(IOException(message))
    requires peers.returned(Factory.RemoveCall(c.socket.value)).None?
    ensures ExecuteSql(c, sql, peers) == Executed(c.(currentReplySize := c.replySize), PrepareExecution(c, peers).control,
                                                  Some(Factory.RemoveCall(c.socket.value)), Some(IOException(message)))
  {
  }
}

=== FILE: data_reader.dfy ===
/**
 * The data reader: decoding raw row tokens (`IsDBNull`, `GetString`,
 * `GetValue`), looking up columns by name, splitting a column's table name
 * into schema and table, and walking the result sets of a reply
 * (`NextResult`, `Read`, `RecordsAffected`, `FieldCount`).
 *
 * The reader works over what the reply's enumeration yields (see
 * `ResultDecoder.Decode`): the result sets, each its description and its
 * rows of raw tokens as the row tokenizer produced them, and the exception
 * that stopped the enumeration, if one did.
 */
module DataReader {
  import opened Wrappers
  import opened Text
  import opened QueryResponse
  import ResultDecoder

  /** A result set as the reader sees it. */
  datatype Batch = Batch(info: Info, rows: seq<seq<string>>)

  // ---------------------------------------------------------------------------
  // Tokens
  // ---------------------------------------------------------------------------

  /** `IsDBNull`: only the exact token `NULL` is null. */
  predicate IsDbNull(token: string)
  {
    token == "NULL"
  }

  /** `String.Substring(start, length)` with its argument checks. */
  function Substring(s: string, start: int, length: int): (r: Result<string>)
    ensures r.Ok? <==> 0 <= start <= |s| && 0 <= length <= |s| - start
    ensures r.Ok? ==> |r.value| == length && s[start..start + length] == r.value
  {
    if start < 0 || start > |s| then Fail(ArgumentOutOfRangeException("startIndex"))
    else if length < 0 || start > |s| - length then Fail(ArgumentOutOfRangeException("length"))
    else Ok(s[start..start + length])
  }

  /**
   * `GetString`: null for a `NULL` token, otherwise the token without its
   * first and last characters (the quotes of a quoted value). A token too
   * short to lose two characters makes `Substring` raise.
   */
  function GetString(token: string): (r: Result<Option<string>>)
    ensures IsDbNull(token) ==> r == Ok(None)
    ensures !IsDbNull(token) ==> (r.Ok? <==> |token| >= 2)
    ensures r.Ok? && r.value.Some? ==> token == [token[0]] + r.value.value + [token[|token| - 1]]
  {
    if IsDbNull(token) then Ok(None)
    else
      var body :- Substring(token, 1, |token| - 2);
      assert token == [token[0]] + body + [token[|token| - 1]];
      Ok(Some(body))
  }

  /** A quoted value reads back as the text between its quotes. */
  lemma {:induction false} GetStringQuoted(s: string)
    ensures GetString("\"" + s + "\"") == Ok(Some(s))
  {
    var t := "\"" + s + "\"";
    assert t[0] == '"';
    assert !IsDbNull(t);
    assert t[1..|t| - 1] == s;
  }

  /** The lowercase `null` the tokenizer keeps is not a null: it reads as the text `ul`. */
  lemma {:induction false} LowercaseNullIsText()
    ensures !IsDbNull("null")
    ensures GetString("null") == Ok(Some("ul"))
  {
    assert "null"[1..3] == "ul";
  }

  // ---------------------------------------------------------------------------
  // Columns
  // ---------------------------------------------------------------------------

  /** The row indexer `Current[i]`: the list indexer raises outside the row. */
  function Field(row: seq<string>, i: int): (r: Result<string>)
    ensures r.Ok? <==> 0 <= i < |row|
    ensures r.Ok? ==> r.value == row[i]
    ensures r.Fail? ==> r.error == ArgumentOutOfRangeException("index")
  {
    if 0 <= i < |row| then Ok(row[i]) else Fail(ArgumentOutOfRangeException("index"))
  }

  /** `GetOrdinal(name)`: the first column whose name is exactly `name`, or -1. */
  function OrdinalIn(cs: seq<ColumnInfo>, name: string): (k: int)
    ensures -1 <= k < |cs|
    ensures k >= 0 ==> cs[k].name == Some(name) && forall j :: 0 <= j < k ==> cs[j].name != Some(name)
    ensures k == -1 <==> forall j :: 0 <= j < |cs| ==> cs[j].name != Some(name)
  {
    if |cs| == 0 then -1
    else if cs[0].name == Some(name) then 0
    else
      var k := OrdinalIn(cs[1..], name);
      if k < 0 then -1 else k + 1
  }

  /** `GetOrdinal` on the current description; a description without columns raises. */
  function GetOrdinal(columns: Option<seq<ColumnInfo>>, name: string): (r: Result<int>)
    ensures r.Fail? <==> columns.None?
    ensures r.Ok? ==> r.value == OrdinalIn(columns.value, name)
  {
    match columns
    case None => Fail(NullReferenceException)
    case Some(cs) => Ok(OrdinalIn(cs, name))
  }

  /** Looking up the name of a column that is the only one so named finds that column. */
  lemma {:induction false} OrdinalOfUniqueName(cs: seq<ColumnInfo>, k: int)
    requires 0 <= k < |cs| && cs[k].name.Some?
    requires forall j :: 0 <= j < |cs| && j != k ==> cs[j].name != cs[k].name
    ensures OrdinalIn(cs, cs[k].name.value) == k
  {
  }

  /** The typed accessor `GetValue` hands a token to. */
  datatype Accessor =
    | ByteAccessor | Int16Accessor | Int32Accessor | Int64Accessor | BooleanAccessor
    | CharAccessor | FloatAccessor | DateTimeAccessor | StringAccessor

  /** The `switch` on the column's type name; a null name matches no case. */
  function AccessorFor(typeName: Option<string>): Accessor
  {
    match typeName
    case None => StringAccessor
    case Some(t) =>
      match t
      case "tinyint" => ByteAccessor
      case "smallint" => Int16Accessor
      case "int" => Int32Accessor
      case "integer" => Int32Accessor
      case "bigint" => Int64Accessor
      case "boolean" => BooleanAccessor
      case "character" => CharAccessor
      case "char" => CharAccessor
      case "double" => FloatAccessor
      case "double precision" => FloatAccessor
      case "numeric" => FloatAccessor
      case "dec" => FloatAccessor
      case "decimal" => FloatAccessor
      case "float" => FloatAccessor
      case "real" => FloatAccessor
      case "daytime" => DateTimeAccessor
      case "time" => DateTimeAccessor
      case "time with time zone" => DateTimeAccessor
      case "date" => DateTimeAccessor
      case "timestamp" => DateTimeAccessor
      case "timestamp with time zone" => DateTimeAccessor
      case _ => StringAccessor
  }

  /** The type names that select a floating point or a date accessor. */
  const FloatNames: set<string> := {"double", "double precision", "numeric", "dec", "decimal", "float", "real"}
  const DateTimeNames: set<string> := {"daytime", "time", "time with time zone", "date", "timestamp", "timestamp with time zone"}

  /** Every type name the dispatch knows, apart from the string types, which share the default. */
  const TypedNames: set<string> :=
    {"tinyint", "smallint", "int", "integer", "bigint", "boolean", "character", "char"} + FloatNames + DateTimeNames

  /** The dispatch table: which names select which accessor, and that every other name reads as a string. */
  lemma {:induction false} AccessorTable(t: string)
    ensures t in FloatNames ==> AccessorFor(Some(t)) == FloatAccessor
    ensures t in DateTimeNames ==> AccessorFor(Some(t)) == DateTimeAccessor
    ensures t == "int" || t == "integer" ==> AccessorFor(Some(t)) == Int32Accessor
    ensures t == "character" || t == "char" ==> AccessorFor(Some(t)) == CharAccessor
    ensures t !in TypedNames <==> AccessorFor(Some(t)) == StringAccessor
  {
  }

  /** What `GetValue` returns; values whose parsing .NET does are the token and the accessor it goes to. */
  datatype Value =
    | DbNullValue
    | StringValue(s: Option<string>)
    | CharValue(c: char)
    | Int32Value(n: int)
    | Parsed(accessor: Accessor, token: string)

  /**
   * `GetValue(i)`: a `NULL` token is `DBNull` whatever the column's type;
   * otherwise the column's type name picks the accessor. Strings, characters
   * and 32-bit integers are decoded here; the other accessors are .NET
   * parsers and are left as the token they receive.
   */
  function GetValue(row: seq<string>, columns: Option<seq<ColumnInfo>>, i: int): (r: Result<Value>)
    ensures r.Ok? ==> 0 <= i < |row|
    ensures 0 <= i < |row| && IsDbNull(row[i]) ==> r == Ok(DbNullValue)
    ensures r.Ok? && r.value.StringValue? ==> r.value.s.Some? && GetString(row[i]) == Ok(r.value.s)
  {
    var token :- Field(row, i);
    if IsDbNull(token) then Ok(DbNullValue)
    else if columns.None? then Fail(NullReferenceException)
    else if !(0 <= i < |columns.value|) then Fail(ArgumentOutOfRangeException("index"))
    else
      match AccessorFor(columns.value[i].dataType)
      case StringAccessor =>
        var s :- GetString(token);
        Ok(StringValue(s))
      case CharAccessor =>
        if |token| == 0 then Fail(IndexOutOfRangeException) else Ok(CharValue(token[0]))
      case Int32Accessor =>
        var n :- ParseInt32(token);
        Ok(Int32Value(n))
      case other => Ok(Parsed(other, token))
  }

  /**
   * Which accessor a non-null value goes to: the first character for a
   * character column, `int.Parse` for an integer column, `GetString` for a
   * string column, and the token itself, handed to its .NET parser, for every
   * other accessor.
   */
  lemma {:induction false} GetValueDispatch(row: seq<string>, columns: Option<seq<ColumnInfo>>, i: int)
    requires 0 <= i < |row| && !IsDbNull(row[i]) && columns.Some? && i < |columns.value|
    ensures match AccessorFor(columns.value[i].dataType)
      case CharAccessor => GetValue(row, columns, i) == if |row[i]| == 0 then Fail(IndexOutOfRangeException) else Ok(CharValue(row[i][0]))
      case Int32Accessor => GetValue(row, columns, i) == (match ParseInt32(row[i]) case Ok(n) => Ok(Int32Value(n)) case Fail(e) => Fail(e))
      case StringAccessor => GetValue(row, columns, i) == (match GetString(row[i]) case Ok(s) => Ok(StringValue(s)) case Fail(e) => Fail(e))
      case a => GetValue(row, columns, i) == Ok(Parsed(a, row[i]))
  {
  }

  /** `IsDBNull` agrees with the null answers of `GetString` and `GetValue`. */
  lemma {:induction false} DbNullAgrees(row: seq<string>, columns: Option<seq<ColumnInfo>>, i: int)
    requires 0 <= i < |row|
    ensures IsDbNull(row[i]) <==> GetString(row[i]) == Ok(None)
    ensures IsDbNull(row[i]) <==> GetValue(row, columns, i) == Ok(DbNullValue)
  {
  }

  /** An integer column reads back the number the server wrote. */
  lemma {:induction false} IntegerColumn(n: int, c: ColumnInfo)
    requires InInt32(n) && AccessorFor(c.dataType) == Int32Accessor
    ensures GetValue([IntToString(n)], Some([c]), 0) == Ok(Int32Value(n))
  {
    var t := IntToString(n);
    ParseIntToString(n);
    assert !IsDbNull(t) by {
      assert t[0] == '-' || IsDigit(t[0]);
    }
    assert Field([t], 0) == Ok(t);
    assert [c][0] == c;
  }

  /** A quoted value in a column of any type the dispatch does not know reads as its text. */
  lemma {:induction false} StringColumn(s: string, c: ColumnInfo)
    requires c.dataType.None? || c.dataType.value !in TypedNames
    ensures GetValue(["\"" + s + "\""], Some([c]), 0) == Ok(StringValue(Some(s)))
  {
    GetStringQuoted(s);
    if c.dataType.Some? {
      AccessorTable(c.dataType.value);
    }
    assert ("\"" + s + "\"")[0] == '"';
  }

  // ---------------------------------------------------------------------------
  // Schema and table names
  // ---------------------------------------------------------------------------

  /**
   * The base table name of a column in the schema table: a name with a `.`
   * is schema `.` table (later segments are dropped); a name without one has
   * an empty schema. A column without a table name raises.
   */
  function SplitTableName(full: Option<string>): (r: Result<(string, string)>)
    ensures r.Fail? <==> full.None?
    ensures full.Some? && '.' !in full.value ==> r == Ok(("", full.value))
    ensures full.Some? && '.' in full.value ==> '.' !in r.value.0 && '.' !in r.value.1
  {
    match full
    case None => Fail(NullReferenceException)
    case Some(t) =>
      if IndexOf(t, '.') != -1 then
        var s := Split(t, '.');
        CountPositive(t, '.');
        Ok((s[0], s[1]))
      else Ok(("", t))
  }

  lemma {:induction false} CountPositive(s: string, c: char)
    requires c in s
    ensures Count(s, c) > 0
  {
    var k := IndexOf(s, c);
    assert s == s[..k] + s[k..];
    CountAppend(s[..k], s[k..], c);
  }

  /** A schema-qualified name splits back into its schema and table. */
  lemma {:induction false} SplitQualified(schema: string, table: string)
    requires '.' !in schema && '.' !in table
    ensures SplitTableName(Some(schema + "." + table)) == Ok((schema, table))
  {
    var t := schema + "." + table;
    assert t[|schema|] == '.';
    SplitJoin([schema, table], '.');
    assert Join([schema, table], ".") == t;
  }

  /** A name with two dots keeps only its first two segments. */
  lemma {:induction false} ThirdSegmentDropped(a: string, b: string, c: string)
    requires '.' !in a && '.' !in b && '.' !in c
    ensures SplitTableName(Some(a + "." + b + "." + c)) == Ok((a, b))
  {
    var t := a + "." + b + "." + c;
    assert t[|a|] == '.';
    var parts := [a, b, c];
    assert Join(parts, ".") == t by {
      assert Join(parts[2..], ".") == c;
      assert Join(parts[1..], ".") == b + "." + c;
    }
    SplitJoin(parts, '.');
  }

  // ---------------------------------------------------------------------------
  // Walking the result sets
  // ---------------------------------------------------------------------------

  /**
   * The reader's position over a reply: the result sets the reply's
   * enumeration yields, the exception it raises after the last of them (if
   * any), how many sets it has handed out, which one is current (`None`
   * while none is), and where the row enumerator of the current one stands
   * (-1 before the first `Read`, the number of rows once they are used up).
   */
  datatype Reader = Reader(batches: seq<Batch>, failure: Option<Exception>, produced: nat, current: Option<nat>, row: int)

  /** A reader whose positions lie within its result sets. */
  predicate Positioned(r: Reader)
  {
    r.produced <= |r.batches|
    && r.current.Some? && r.current.value < |r.batches|
    && -1 <= r.row <= |r.batches[r.current.value].rows|
  }

  /**
   * `NextResult`: advances the result enumerator, then takes its current
   * set and restarts the rows. Advancing past the last set raises the
   * enumeration's exception if it has one; otherwise the enumerator's
   * current value stays the last set handed out, and its rows restart from
   * the line that ended the reply, which is not a row, so there are none
   * left to read. Before any set, the current value is null and taking its
   * rows raises.
   */
  function NextResult(r: Reader): (o: Result<(Reader, bool)>)
    requires r.produced <= |r.batches|
    ensures o.Fail? <==> r.produced == |r.batches| && (r.failure.Some? || r.produced == 0)
    ensures o.Fail? ==> o.error == (if r.failure.Some? then r.failure.value else NullReferenceException)
    ensures o.Ok? ==> Positioned(o.value.0) && o.value.0.batches == r.batches && o.value.0.failure == r.failure
    ensures o.Ok? ==> (o.value.1 <==> r.produced < |r.batches|)
    ensures o.Ok? && o.value.1 ==>
      o.value.0.current == Some(r.produced) && o.value.0.produced == r.produced + 1 && o.value.0.row == -1
    ensures o.Ok? && !o.value.1 ==>
      o.value.0.current == Some(r.produced - 1) && o.value.0.produced == r.produced
      && o.value.0.row == |r.batches[r.produced - 1].rows|
  {
    if r.produced < |r.batches| then Ok((Reader(r.batches, r.failure, r.produced + 1, Some(r.produced), -1), true))
    else if r.failure.Some? then Fail(r.failure.value)
    else if r.produced == 0 then Fail(NullReferenceException)
    else Ok((r.(current := Some(r.produced - 1), row := |r.batches[r.produced - 1].rows|), false))
  }

  /**
   * The reader's constructor: positions on the first result set; a reply
   * that yields none raises its exception, or a null reference.
   */
  function Open(batches: seq<Batch>, failure: Option<Exception>): (o: Result<Reader>)
    ensures o.Ok? <==> |batches| > 0
    ensures o.Ok? ==> o.value == Reader(batches, failure, 1, Some(0), -1)
    ensures o.Fail? ==> o.error == (if failure.Some? then failure.value else NullReferenceException)
  {
    var next :- NextResult(Reader(batches, failure, 0, None, -1));
    Ok(next.0)
  }

  /** `Read`: moves to the next row of the current set; false once the rows are used up. */
  function Read(r: Reader): (o: (Reader, bool))
    requires Positioned(r)
    ensures Positioned(o.0) && o.0.batches == r.batches && o.0.current == r.current && o.0.produced == r.produced
    ensures o.0.failure == r.failure
    ensures o.1 <==> r.row + 1 < |r.batches[r.current.value].rows|
    ensures o.1 ==> o.0.row == r.row + 1
  {
    var rows := r.batches[r.current.value].rows;
    if r.row + 1 < |rows| then (r.(row := r.row + 1), true) else (r.(row := |rows|), false)
  }

  /** The row `Read` last moved to. */
  function CurrentRow(r: Reader): seq<string>
    requires Positioned(r) && 0 <= r.row < |r.batches[r.current.value].rows|
  {
    r.batches[r.current.value].rows[r.row]
  }

  /** `RecordsAffected` and `FieldCount`: those of the current result set. */
  function RecordsAffected(r: Reader): int
    requires Positioned(r)
  {
    r.batches[r.current.value].info.recordsAffected
  }

  function FieldCount(r: Reader): int
    requires Positioned(r)
  {
    ColumnCount(r.batches[r.current.value].info)
  }

  /**
   * After `NextResult` moves to a new set, `RecordsAffected` and
   * `FieldCount` report that set, and the first `Read` lands on its first row.
   */
  lemma {:induction false} NextResultReports(r: Reader)
    requires r.produced < |r.batches|
    ensures NextResult(r).Ok? && NextResult(r).value.1
    ensures var o := NextResult(r).value.0;
      RecordsAffected(o) == r.batches[r.produced].info.recordsAffected
      && FieldCount(o) == ColumnCount(r.batches[r.produced].info)
    ensures var o := NextResult(r).value.0;
      |r.batches[r.produced].rows| > 0 ==> Read(o).1 && CurrentRow(Read(o).0) == r.batches[r.produced].rows[0]
  {
  }

  /** `Read` called `n` times; the flag is the last call's. From a fresh set, the n-th call lands on the n-th row. */
  function ReadTimes(r: Reader, n: nat): (o: (Reader, bool))
    requires Positioned(r)
    ensures Positioned(o.0) && o.0.batches == r.batches && o.0.current == r.current && o.0.produced == r.produced
    ensures n > 0 && r.row == -1 && n <= |r.batches[r.current.value].rows| ==>
      o.1 && o.0.row == n - 1 && CurrentRow(o.0) == r.batches[r.current.value].rows[n - 1]
  {
    if n == 0 then (r, false)
    else if n == 1 then Read(r)
    else Read(ReadTimes(r, n - 1).0)
  }

  /** After the last row, `Read` keeps answering false. */
  lemma {:induction false} ReadPastEnd(r: Reader)
    requires Positioned(r) && r.row + 1 >= |r.batches[r.current.value].rows|
    ensures !Read(r).1 && !Read(Read(r).0).1
  {
  }

  /**
   * After the last set of a reply that ends without an exception,
   * `NextResult` answers false, the last set stays current, and it has no
   * rows left to read, however many were read before.
   */
  lemma {:induction false} NextResultPastEnd(r: Reader)
    requires Positioned(r) && r.produced == |r.batches| && r.failure.None?
    ensures NextResult(r).Ok? && !NextResult(r).value.1
    ensures NextResult(r).value.0.current == Some(|r.batches| - 1)
    ensures !Read(NextResult(r).value.0).1
  {
  }

  // ---------------------------------------------------------------------------
  // Reading a decoded reply
  // ---------------------------------------------------------------------------

  /** The sets of a decoded reply as the reader walks them; a set whose rows were never enumerated has none to read. */
  function Replay(sets: seq<ResultDecoder.ResultSet>): (bs: seq<Batch>)
    ensures |bs| == |sets|
    ensures forall i :: 0 <= i < |sets| ==> bs[i].info == sets[i].info
    ensures forall i :: 0 <= i < |sets| && sets[i].rows.Some? ==> bs[i].rows == sets[i].rows.value
  {
    seq(|sets|, i requires 0 <= i < |sets| => Batch(sets[i].info, if sets[i].rows.Some? then sets[i].rows.value else []))
  }

  /** A reader on the reply's lines, as its enumeration yields them. */
  function OpenReply(lines: seq<string>, drain: bool): Result<Reader>
  {
    var d := ResultDecoder.Decode(lines, drain);
    Open(Replay(d.sets), d.error)
  }

  /**
   * A reader opens on a reply exactly when the reply yields a set, and
   * otherwise raises the reply's own exception; every set it walks reports
   * no affected records and carries its columns.
   */
  lemma {:induction false} ReplyOpens(lines: seq<string>, drain: bool)
    ensures var d := ResultDecoder.Decode(lines, drain);
            OpenReply(lines, drain).Ok? <==> |d.sets| > 0
    ensures var d := ResultDecoder.Decode(lines, drain);
            OpenReply(lines, drain).Fail? ==> d.error.Some? && OpenReply(lines, drain).error == d.error.value
    ensures var bs := Replay(ResultDecoder.Decode(lines, drain).sets);
            forall i :: 0 <= i < |bs| ==> bs[i].info.recordsAffected == 0 && bs[i].info.columns.Some?
  {
    ResultDecoder.DecodeYield(lines, drain);
  }
}

=== FILE: factory.dfy ===
/**
 * The connection factory: argument checks, the pool key, the registry of
 * pools (get or create), handing out a socket from a pool, and handing it
 * back. The registry is a map held by the caller instead of a static
 * dictionary. As written, pools are registered under the text key;
 * corrected, under the connection target.
 */
module Factory {
  import opened Wrappers
  import opened Text
  import opened Pool

  // ---------------------------------------------------------------------------
  // The pool key
  // ---------------------------------------------------------------------------

  /** `GetConnectionPoolKey`: host, port, user name and database joined by `_`. */
  function PoolKey(host: string, port: int, username: string, database: string): (key: string)
    ensures var fields := [host, IntToString(port), username, database];
      '_' !in host && '_' !in username && '_' !in database ==> Split(key, '_') == fields
  {
    var key := host + "_" + IntToString(port) + "_" + username + "_" + database;
    var fields := [host, IntToString(port), username, database];
    if '_' !in host && '_' !in username && '_' !in database then
      assert '_' !in IntToString(port) by { NoUnderscoreInNumber(port); }
      assert Join(fields, "_") == key by {
        assert Join(fields[3..], "_") == database;
        assert Join(fields[2..], "_") == username + "_" + database;
        assert Join(fields[1..], "_") == IntToString(port) + "_" + (username + "_" + database);
      }
      SplitJoin(fields, '_');
      key
    else key
  }

  lemma {:induction false} NoUnderscoreInNumber(n: int)
    ensures '_' !in IntToString(n)
  {
    var d := if n < 0 then NatToString(-n) else NatToString(n);
    assert forall i :: 0 <= i < |d| ==> IsDigit(d[i]);
    if n < 0 {
      assert IntToString(n) == "-" + d;
      assert forall i :: 0 <= i < |IntToString(n)| ==> IntToString(n)[i] == '-' || IsDigit(IntToString(n)[i]);
    }
  }

  /**
   * The text key does not separate its fields: a user `a_b` on database `c`
   * and a user `a` on database `b_c` get the same key, so they would share
   * one pool whose sockets are logged in as whoever came first.
   */
  lemma {:induction false} PoolKeyCollides()
    ensures PoolKey("h", 50000, "a_b", "c") == PoolKey("h", 50000, "a", "b_c")
  {
  }

  /** What a pool is shared by: the connection target without the password. */
  datatype Identity = Identity(host: string, port: int, username: string, database: string)

  function IdentityOf(s: Settings): Identity
  {
    Identity(s.host, s.port, s.username, s.database)
  }

  /** Two settings share a pool exactly when host, port, user and database agree; the password never matters. */
  lemma {:induction false} IdentitySeparates(a: Settings, b: Settings)
    ensures IdentityOf(a) == IdentityOf(b) <==>
      a.host == b.host && a.port == b.port && a.username == b.username && a.database == b.database
  {
  }

  // ---------------------------------------------------------------------------
  // The registry
  // ---------------------------------------------------------------------------

  /**
   * The name a pool is registered under. As written it is the text key,
   * which does not keep its fields apart; corrected it is the target itself.
   */
  datatype PoolName = KeyText(key: string) | TargetName(target: Identity)

  function NameOf(policy: Policy, s: Settings): PoolName
  {
    match policy
    case AsWritten => KeyText(PoolKey(s.host, s.port, s.username, s.database))
    case Corrected => TargetName(IdentityOf(s))
  }

  /** The registered pools, by name. */
  type Registry = map<PoolName, ConnectionPool>

  /** The registry after an operation, and what the operation returned or raised. */
  datatype Registered<T> = Registered(registry: Registry, result: Result<T>)

  /**
   * `GetPool`: the pool registered under the settings' name, unchanged, or
   * a new pool whose constructor tops it up and which is registered only if
   * that succeeds.
   */
  function GetPool(policy: Policy, reg: Registry, s: Settings, min: int, max: int, connect: Connector)
    : (r: Registered<ConnectionPool>)
    ensures NameOf(policy, s) in reg ==> r == Registered(reg, Ok(reg[NameOf(policy, s)]))
    ensures NameOf(policy, s) !in reg ==>
      var created := Init(ConnectionPool(s, min, max, [], [], 0), connect);
      (r.result.Ok? <==> created.result.Ok?)
      && (r.result.Ok? ==> r.result.value == created.pool && r.registry == reg[NameOf(policy, s) := created.pool])
      && (r.result.Fail? ==> r.registry == reg)
  {
    var key := NameOf(policy, s);
    if key in reg then Registered(reg, Ok(reg[key]))
    else
      var created := Init(ConnectionPool(s, min, max, [], [], 0), connect);
      if created.result.Fail? then Registered(reg, Fail(created.result.error))
      else Registered(reg[key := created.pool], Ok(created.pool))
  }

  /** A later request for a registered target reuses the first pool, whatever its password and bounds. */
  lemma {:induction false} GetPoolReuses(policy: Policy, reg: Registry, s: Settings, min: int, max: int, password: string,
                      min2: int, max2: int, connect: Connector)
    requires GetPool(policy, reg, s, min, max, connect).result.Ok?
    ensures var first := GetPool(policy, reg, s, min, max, connect);
      GetPool(policy, first.registry, s.(password := password), min2, max2, connect)
        == Registered(first.registry, Ok(first.result.value))
  {
  }

  /**
   * As written, the new pool of user `a_b` on database `c` is handed to user
   * `a` on database `b_c` as well: the second request finds the first
   * request's text key and gets a pool that logs in as someone else.
   */
  lemma {:induction false} OtherUsersPool(password: string, password2: string, min: int, max: int, connect: Connector)
    requires GetPool(AsWritten, map[], Settings("h", 50000, "a_b", password, "c"), min, max, connect).result.Ok?
    ensures var first := GetPool(AsWritten, map[], Settings("h", 50000, "a_b", password, "c"), min, max, connect);
      var second := GetPool(AsWritten, first.registry, Settings("h", 50000, "a", password2, "b_c"), min, max, connect);
      second == Registered(first.registry, Ok(first.result.value))
      && second.result.value.settings.username == "a_b" && second.result.value.settings.database == "c"
  {
    PoolKeyCollides();
  }

  /** Every pool is registered under its own target. */
  ghost predicate Faithful(reg: Registry)
  {
    forall n :: n in reg ==> n == TargetName(IdentityOf(reg[n].settings))
  }

  /** Corrected, a request always gets a pool for its own target, and the registry stays faithful. */
  lemma {:induction false} OwnPool(reg: Registry, s: Settings, min: int, max: int, connect: Connector)
    requires Faithful(reg)
    ensures var r := GetPool(Corrected, reg, s, min, max, connect);
      Faithful(r.registry) && (r.result.Ok? ==> IdentityOf(r.result.value.settings) == IdentityOf(s))
  {
    var n := NameOf(Corrected, s);
    if n in reg {
      assert n == TargetName(IdentityOf(reg[n].settings));
    } else {
      var created := Init(ConnectionPool(s, min, max, [], [], 0), connect);
      assert created.pool.settings == s;
    }
  }

  /**
   * `GetConnection`: the bounds are checked first (minimum, then maximum,
   * then their order) and nothing is touched if they are wrong; then the
   * pool for the settings hands out a socket with `Dequeue`, and the registry
   * keeps the pool as `Dequeue` left it.
   */
  function GetConnection(policy: Policy, reg: Registry, s: Settings, minConn: int, maxConn: int, connect: Connector)
    : (r: Registered<Option<SocketId>>)
    ensures minConn < 1 ==> r == Registered(reg, Fail(ArgumentOutOfRangeException("minConn")))
    ensures 1 <= minConn && maxConn < 1 ==> r == Registered(reg, Fail(ArgumentOutOfRangeException("maxConn")))
    ensures 1 <= maxConn < minConn ==> r.registry == reg && r.result.Fail? && r.result.error.ArgumentException?
    ensures 1 <= minConn <= maxConn ==>
      var got := GetPool(policy, reg, s, minConn, maxConn, connect);
      (got.result.Fail? ==> r == Registered(got.registry, Fail(got.result.error)))
      && (got.result.Ok? ==>
            var d := Dequeue(got.result.value, connect);
            r == Registered(got.registry[NameOf(policy, s) := d.pool], d.result))
  {
    if minConn < 1 then Registered(reg, Fail(ArgumentOutOfRangeException("minConn")))
    else if maxConn < 1 then Registered(reg, Fail(ArgumentOutOfRangeException("maxConn")))
    else if minConn > maxConn then
      Registered(reg, Fail(ArgumentException(
        "The maximum number of connections cannot be greater than the minimum number of connections")))
    else
      var got := GetPool(policy, reg, s, minConn, maxConn, connect);
      if got.result.Fail? then Registered(got.registry, Fail(got.result.error))
      else
        var d := Dequeue(got.result.value, connect);
        Registered(got.registry[NameOf(policy, s) := d.pool], d.result)
  }

  /** Every pool in the registry has sound bookkeeping. */
  ghost predicate AllValid(reg: Registry)
  {
    forall k :: k in reg ==> Valid(reg[k])
  }

  /** Handing out connections keeps every registered pool sound. */
  lemma {:induction false} GetConnectionValid(policy: Policy, reg: Registry, s: Settings, minConn: int, maxConn: int,
                                              connect: Connector)
    requires AllValid(reg)
    ensures AllValid(GetConnection(policy, reg, s, minConn, maxConn, connect).registry)
  {
    if 1 <= minConn <= maxConn {
      var got := GetPool(policy, reg, s, minConn, maxConn, connect);
      if NameOf(policy, s) !in reg {
        InitValid(ConnectionPool(s, minConn, maxConn, [], [], 0), connect);
      }
      if got.result.Ok? {
        assert Valid(got.result.value);
        DequeueValid(got.result.value, connect);
      }
    }
  }

  /**
   * Corrected, a socket handed out is busy in a pool that connects to the
   * target asked for, and the registry stays faithful.
   */
  lemma {:induction false} GetConnectionOwnPool(reg: Registry, s: Settings, minConn: int, maxConn: int, connect: Connector)
    requires Faithful(reg)
    ensures var r := GetConnection(Corrected, reg, s, minConn, maxConn, connect);
      var n := NameOf(Corrected, s);
      Faithful(r.registry)
      && (r.result.Ok? && r.result.value.Some? ==>
            n in r.registry && r.result.value.value in r.registry[n].busy
            && IdentityOf(r.registry[n].settings) == IdentityOf(s))
  {
    OwnPool(reg, s, minConn, maxConn, connect);
    if 1 <= minConn <= maxConn {
      var got := GetPool(Corrected, reg, s, minConn, maxConn, connect);
      if got.result.Ok? {
        var d := Dequeue(got.result.value, connect);
        assert d.pool.settings == got.result.value.settings;
        var r := got.registry[NameOf(Corrected, s) := d.pool];
        forall n | n in r ensures n == TargetName(IdentityOf(r[n].settings)) {
          if n != NameOf(Corrected, s) {
            assert n in got.registry;
          }
        }
      }
    }
  }

  /** The first connection to a new target, with working connections, is socket 0 of a pool of `minConn`. */
  lemma {:induction false} FirstConnection(policy: Policy, s: Settings, minConn: int, maxConn: int, connect: Connector)
    requires AlwaysConnects(connect) && 1 <= minConn <= maxConn
    ensures var r := GetConnection(policy, map[], s, minConn, maxConn, connect);
      var n := NameOf(policy, s);
      r.result == Ok(Some(0))
      && n in r.registry
      && |r.registry[n].active| == minConn - 1
      && r.registry[n].busy == [0]
  {
    var p := ConnectionPool(s, minConn, maxConn, [], [], 0);
    NewPool(s, minConn, maxConn, connect);
    var created := Init(p, connect).pool;
    assert !Wants(created);
    assert Init(created, connect) == Step(created, Ok(()));
  }

  // ---------------------------------------------------------------------------
  // Returning sockets
  // ---------------------------------------------------------------------------

  /** The pool operation a socket is handed to when it is closed or removed. */
  datatype PoolCall = FreeCall(socket: SocketId) | RemoveCall(socket: SocketId)

  /** The same registry, except possibly for the pool named `n`. */
  predicate OthersKept(reg: Registry, after: Registry, n: PoolName)
  {
    after.Keys == reg.Keys && forall m :: m in reg && m != n ==> after[m] == reg[m]
  }

  /**
   * `CloseConnection`: a socket whose pool reference is null is left alone;
   * otherwise its pool frees it, and a socket that is not busy makes `Free`
   * raise and changes nothing. `pool` names the pool the socket refers to.
   */
  function CloseConnection(reg: Registry, pool: Option<PoolName>, socket: SocketId): (r: Registered<()>)
    requires pool.Some? ==> pool.value in reg
    ensures pool.None? ==> r == Registered(reg, Ok(()))
    ensures pool.Some? ==> (r.result.Ok? <==> socket in reg[pool.value].busy)
    ensures r.result.Fail? ==> r.registry == reg && r.result.error == GeneralException("Socket is not busy")
    ensures r.result.Ok? && pool.Some? ==>
      var n := pool.value;
      OthersKept(reg, r.registry, n)
      && r.registry[n].active == reg[n].active + [socket] && Total(r.registry[n]) == Total(reg[n])
  {
    match pool
    case None => Registered(reg, Ok(()))
    case Some(n) =>
      match Free(reg[n], socket)
      case Fail(e) => Registered(reg, Fail(e))
      case Ok(p) => Registered(reg[n := p], Ok(()))
  }

  /**
   * A socket `GetConnection` handed out goes back with `CloseConnection` to
   * the back of its pool's idle queue, and the pool owns as many sockets as
   * before.
   */
  lemma {:induction false} GetThenClose(policy: Policy, reg: Registry, s: Settings, minConn: int, maxConn: int,
                                        connect: Connector)
    requires GetConnection(policy, reg, s, minConn, maxConn, connect).result.Ok?
    requires GetConnection(policy, reg, s, minConn, maxConn, connect).result.value.Some?
    ensures var g := GetConnection(policy, reg, s, minConn, maxConn, connect);
      var n := NameOf(policy, s);
      var x := g.result.value.value;
      n in g.registry
      && CloseConnection(g.registry, Some(n), x).result.Ok?
      && CloseConnection(g.registry, Some(n), x).registry[n].active == g.registry[n].active + [x]
      && Total(CloseConnection(g.registry, Some(n), x).registry[n]) == Total(g.registry[n])
  {
    var got := GetPool(policy, reg, s, minConn, maxConn, connect);
    var d := Dequeue(got.result.value, connect);
    assert d.result.value.value in d.pool.busy;
  }

  /**
   * `RemoveConnection`: a socket whose pool reference is null is left alone;
   * otherwise its pool's `Remove` drops it. That method is not part of this
   * model, so what it does to the pool is the parameter `remove`.
   */
  function RemoveConnection(reg: Registry, pool: Option<PoolName>, socket: SocketId,
                            remove: (ConnectionPool, SocketId) -> Result<ConnectionPool>): (r: Registered<()>)
    requires pool.Some? ==> pool.value in reg
    ensures pool.None? ==> r == Registered(reg, Ok(()))
    ensures pool.Some? ==> (r.result.Ok? <==> remove(reg[pool.value], socket).Ok?)
    ensures r.result.Fail? ==> r.registry == reg && r.result.error == remove(reg[pool.value], socket).error
    ensures r.result.Ok? && pool.Some? ==>
      OthersKept(reg, r.registry, pool.value) && r.registry[pool.value] == remove(reg[pool.value], socket).value
  {
    match pool
    case None => Registered(reg, Ok(()))
    case Some(n) =>
      match remove(reg[n], socket)
      case Fail(e) => Registered(reg, Fail(e))
      case Ok(p) => Registered(reg[n := p], Ok(()))
  }
}

=== FILE: lexer.dfy ===
/**
 * The tuple lexer: splits one data line such as `[ 1,\t"a",\tNULL\t]` into
 * its field tokens. The scanner works on the text remaining after the
 * current character, so each reading function takes the unread suffix and
 * returns the token it built together with the suffix it leaves unread.
 */
module Lexer {
  import opened Wrappers
  import opened Text

  /** The error raised for a character sequence the lexer cannot read. */
  function SequenceError(val: string): Exception
  {
    ArgumentException("Unrecognized char sequence '" + val + "'")
  }

  /** The error raised when a keyword does not match. */
  function WordError(word: string): Exception
    requires |word| > 0
  {
    ArgumentException("Unrecognized char '" + [word[0]] + "'")
  }

  /** `CharEnumerator.Current` read after the text has been exhausted. */
  const EnumerationEnded: Exception := InvalidOperationException("Enumeration already finished.")

  predicate IsKeyword(t: string)
  {
    t == "true" || t == "TRUE" || t == "false" || t == "FALSE" || t == "null" || t == "NULL"
  }

  /** The keyword a character introduces, or "" when it introduces none. */
  function KeywordFor(c: char): (w: string)
    ensures w == "" || (IsKeyword(w) && w[0] == c)
  {
    if c == 't' then "true"
    else if c == 'T' then "TRUE"
    else if c == 'f' then "false"
    else if c == 'F' then "FALSE"
    else if c == 'n' then "null"
    else if c == 'N' then "NULL"
    else ""
  }

  predicate StartsNumber(c: char) { IsDigit(c) || c == '.' || c == '-' || c == '+' }

  /** A character that ends a number or a date: tab, comma or the closing delimiter. */
  predicate IsTerminator(c: char, end: char) { c == '\t' || c == ',' || c == end }

  /** The three shapes a token can have: a keyword, a quoted string, or a number or date. */
  predicate WellShaped(t: string)
  {
    |t| > 0 && (IsKeyword(t) || t[0] == '"' || StartsNumber(t[0]))
  }

  /** Appends the pending value when it is not empty. */
  function Emit(acc: seq<string>, val: string): seq<string>
  {
    if |val| > 0 then acc + [val] else acc
  }

  predicate IsSuffix(rem: string, s: string) { |rem| <= |s| && rem == s[|s| - |rem|..] }

  lemma {:induction false} PrefixTransitive(a: string, b: string, c: string)
    requires a <= b && b <= c
    ensures a <= c
  {
  }

  lemma {:induction false} SuffixTransitive(a: string, b: string, c: string)
    requires IsSuffix(a, b) && IsSuffix(b, c)
    ensures IsSuffix(a, c)
  {
    assert c[|c| - |b|..][|b| - |a|..] == c[|c| - |a|..];
  }

  /** The text after the first occurrence of `start`; empty when there is none. */
  function SkipToStart(s: string, start: char): (rest: string)
    ensures IsSuffix(rest, s)
    ensures start !in s ==> rest == ""
    ensures start in s ==> |rest| < |s| && s[|s| - |rest| - 1] == start
  {
    if |s| == 0 then ""
    else if s[0] == start then s[1..]
    else
      var rest := SkipToStart(s[1..], start);
      SuffixTransitive(rest, s[1..], s);
      rest
  }

  // ---------------------------------------------------------------------------
  // Quoted strings
  // ---------------------------------------------------------------------------

  /**
   * Reads the body of a quoted string. A backslash is dropped and the
   * character after it kept verbatim; the first unescaped `"` is kept and
   * ends the string. Running out of text simply ends it.
   */
  function ReadQuoted(rem: string, val: string, escape: bool): (r: (string, string))
    ensures val <= r.0
    ensures IsSuffix(r.1, rem)
    decreases |rem|
  {
    if |rem| == 0 then (val, "")
    else
      var c := rem[0];
      var r :=
        if c == '\\' && !escape then ReadQuoted(rem[1..], val, true)
        else if escape then ReadQuoted(rem[1..], val + [c], false)
        else if c == '"' then (val + [c], rem[1..])
        else ReadQuoted(rem[1..], val + [c], false);
      SuffixTransitive(r.1, rem[1..], rem);
      r
  }

  // ---------------------------------------------------------------------------
  // Numbers and dates
  // ---------------------------------------------------------------------------

  datatype CharClass = Digit | Exactly(c: char)

  predicate Accepts(k: CharClass, c: char)
  {
    match k
    case Digit => IsDigit(c)
    case Exactly(x) => c == x
  }

  function Digits(n: nat): (p: seq<CharClass>)
    ensures |p| == n && forall i :: 0 <= i < n ==> p[i] == Digit
  {
    seq(n, _ => Digit)
  }

  /** `MM-dd` after the year and its dash. */
  const DatePattern: seq<CharClass> := Digits(2) + [Exactly('-')] + Digits(2)

  /** `HH:mm:ss.ffffff` after the date and its separator. */
  const TimePattern: seq<CharClass> :=
    Digits(2) + [Exactly(':')] + Digits(2) + [Exactly(':')] + Digits(2) + [Exactly('.')] + Digits(6)

  /** Reads one character per class of `pat`, each of which must be accepted. */
  function ReadPattern(rem: string, val: string, pat: seq<CharClass>): (r: Result<(string, string)>)
    ensures r.Ok? ==> val <= r.value.0 && |r.value.1| + |pat| == |rem| && r.value.1 == rem[|pat|..]
    ensures r.Ok? ==> r.value.0 == val + rem[..|pat|] && IsSuffix(r.value.1, rem)
    ensures |rem| < |pat| && (forall i :: 0 <= i < |rem| ==> Accepts(pat[i], rem[i])) ==> r == Fail(EnumerationEnded)
    decreases |pat|
  {
    if |pat| == 0 then Ok((val, rem))
    else if |rem| == 0 then Fail(EnumerationEnded)
    else if Accepts(pat[0], rem[0]) then
      var r := ReadPattern(rem[1..], val + [rem[0]], pat[1..]);
      assert r.Ok? ==> rem[1..][..|pat| - 1] == rem[1..|pat|];
      assert r.Ok? ==> val + [rem[0]] + rem[1..|pat|] == val + rem[..|pat|];
      r
    else Fail(SequenceError(val + [rem[0]]))
  }

  /** A pattern read succeeds exactly when the text is long enough and every character is accepted. */
  lemma {:induction false} ReadPatternSucceeds(rem: string, val: string, pat: seq<CharClass>)
    ensures ReadPattern(rem, val, pat).Ok? <==> |rem| >= |pat| && forall i :: 0 <= i < |pat| ==> Accepts(pat[i], rem[i])
    decreases |pat|
  {
    if |pat| > 0 && |rem| > 0 && Accepts(pat[0], rem[0]) {
      ReadPatternSucceeds(rem[1..], val + [rem[0]], pat[1..]);
      assert forall i :: 1 <= i < |pat| && i < |rem| ==> pat[1..][i - 1] == pat[i] && rem[1..][i - 1] == rem[i];
    }
  }

  /**
   * The rest of a date after `yyyy-`: the month and day, then either a
   * terminator (a plain date) or one separator character followed by the
   * time. Only a space separator is kept in the token.
   */
  function ReadDate(rem: string, val: string, end: char): (r: Result<(string, string)>)
    ensures r.Ok? ==> val <= r.value.0 && |r.value.1| < |rem| && IsSuffix(r.value.1, rem)
  {
    var p :- ReadPattern(rem, val, DatePattern);
    var rm := p.1;
    if |rm| == 0 then Fail(EnumerationEnded)
    else
      SuffixTransitive(rm[1..], rm, rem);
      if rm[0] == ' ' then
        var r := ReadPattern(rm[1..], p.0 + " ", TimePattern);
        if r.Ok? then SuffixTransitive(r.value.1, rm[1..], rem); r else r
      else if IsTerminator(rm[0], end) then Ok((p.0, rm[1..]))
      else
        var r := ReadPattern(rm[1..], p.0, TimePattern);
        if r.Ok? then SuffixTransitive(r.value.1, rm[1..], rem); r else r
  }

  /**
   * The loop of `ReadNumber` after its first character: digits, at most one
   * dot, at most one exponent marker followed by a digit or sign, and a `-`
   * that turns the number into a date. A terminator ends the number and is
   * consumed with it.
   */
  function NumberLoop(rem: string, val: string, hasDot: bool, hasE: bool, end: char): (r: Result<(string, string)>)
    ensures r.Ok? ==> val <= r.value.0 && IsSuffix(r.value.1, rem)
    decreases |rem|
  {
    if |rem| == 0 then Ok((val, ""))
    else
      var c := rem[0];
      if IsTerminator(c, end) then Ok((val, rem[1..]))
      else if c == '.' then
        if hasDot then Fail(SequenceError(val + [c]))
        else Extended(val, [c], rem, 1, NumberLoop(rem[1..], val + [c], true, hasE, end))
      else if c == 'e' || c == 'E' then
        if hasE then Fail(SequenceError(val + [c]))
        else if |rem| < 2 then Fail(EnumerationEnded)
        else if !(IsDigit(rem[1]) || rem[1] == '-' || rem[1] == '+') then Fail(SequenceError(val + [c] + [rem[1]]))
        else Extended(val, [c, rem[1]], rem, 2, NumberLoop(rem[2..], val + [c, rem[1]], hasDot, true, end))
      else if c == '-' then Extended(val, [c], rem, 1, ReadDate(rem[1..], val + [c], end))
      else if !IsDigit(c) then Fail(SequenceError(val + [c]))
      else Extended(val, [c], rem, 1, NumberLoop(rem[1..], val + [c], hasDot, hasE, end))
  }

  /**
   * The result of reading on after `w`, the first `k` characters of `rem`:
   * the same result, now known to extend `val` and to leave a suffix of `rem`.
   */
  function Extended(val: string, w: string, rem: string, k: nat, r: Result<(string, string)>): (e: Result<(string, string)>)
    requires k <= |rem|
    requires r.Ok? ==> val + w <= r.value.0 && IsSuffix(r.value.1, rem[k..])
    ensures e == r
    ensures e.Ok? ==> val <= e.value.0 && IsSuffix(e.value.1, rem)
  {
    if r.Ok? then
      SuffixTransitive(r.value.1, rem[k..], rem);
      PrefixTransitive(val, val + w, r.value.0);
      r
    else r
  }

  /** Reads a number or date whose first character is `rest[0]`, appending it to `val`. */
  function ReadNumber(rest: string, val: string, end: char): (r: Result<(string, string)>)
    requires |rest| > 0
    ensures r.Ok? ==> val + [rest[0]] <= r.value.0 && |r.value.1| < |rest| && IsSuffix(r.value.1, rest)
  {
    var r := NumberLoop(rest[1..], val + [rest[0]], rest[0] == '.', false, end);
    if r.Ok? then SuffixTransitive(r.value.1, rest[1..], rest); r else r
  }

  // ---------------------------------------------------------------------------
  // The scanner
  // ---------------------------------------------------------------------------

  /**
   * The main loop of `Parse`. `val` holds a quoted string that has been read
   * but not yet emitted; it is emitted at the next comma or at the end.
   * Keywords and numbers are emitted as soon as they are read.
   */
  function Scan(rest: string, end: char, val: string, acc: seq<string>): (r: Result<seq<string>>)
    requires val == "" || val[0] == '"'
    requires forall i :: 0 <= i < |acc| ==> WellShaped(acc[i])
    ensures r.Ok? ==> acc <= r.value
    ensures r.Ok? ==> forall i :: 0 <= i < |r.value| ==> WellShaped(r.value[i])
    decreases |rest|
  {
    if |rest| == 0 then Ok(Emit(acc, val))
    else
      var c := rest[0];
      if c == end then Ok(Emit(acc, val))
      else if c == ',' then Scan(rest[1..], end, "", Emit(acc, val))
      else if KeywordFor(c) != "" then
        var w := KeywordFor(c);
        if |rest| > |w| && rest[..|w|] == w then Scan(rest[|w| + 1..], end, val, acc + [w])
        else Fail(WordError(w))
      else if c == ' ' || c == '\t' then Scan(rest[1..], end, val, acc)
      else if StartsNumber(c) then
        match ReadNumber(rest, val, end)
        case Fail(e) => Fail(e)
        case Ok(p) => Scan(p.1, end, "", acc + [p.0])
      else if c == '"' then
        var q := ReadQuoted(rest[1..], val + [c], false);
        Scan(q.1, end, q.0, acc)
      else Fail(SequenceError(val))
  }

  /**
   * `Lexer.Parse(s, start, end)`, materialised: the tokens of the text after
   * the first `start`, up to `end`, or the exception the enumeration raises.
   */
  function Parse(s: string, start: char, end: char): (r: Result<seq<string>>)
    ensures start !in s ==> r == Ok([])
    ensures r.Ok? ==> forall i :: 0 <= i < |r.value| ==> WellShaped(r.value[i])
  {
    Scan(SkipToStart(s, start), end, "", [])
  }

  /** Anything before the first opening delimiter is ignored. */
  lemma {:induction false} PrefixIgnored(junk: string, s: string, start: char, end: char)
    requires start !in junk
    ensures Parse(junk + s, start, end) == Parse(s, start, end)
    decreases |junk|
  {
    if |junk| > 0 {
      assert (junk + s)[1..] == junk[1..] + s;
      assert start !in junk[1..] by { assert forall x :: x in junk[1..] ==> x in junk; }
      PrefixIgnored(junk[1..], s, start, end);
    } else {
      assert junk + s == s;
    }
  }
}

=== FILE: lexer_quirks.dfy ===
/**
 * How the lexer treats malformed or unusual input: the rejections of the
 * number grammar, and the places where it is more permissive than the
 * literal grammar of the round-trip theorem.
 */
module LexerQuirks {
  import opened Wrappers
  import opened Text
  import opened Lexer
  import opened LexerRoundTrip

  lemma {:induction false} Opened(body: string)
    ensures Parse("[" + body, '[', ']') == Scan(body, ']', "", [])
  {
    assert ("[" + body)[0] == '[' && ("[" + body)[1..] == body;
  }

  /** A number whose reading fails makes the whole line fail with the same error. */
  lemma {:induction false} ScanNumberFails(text: string, acc: seq<string>)
    requires |text| > 0 && (IsDigit(text[0]) || text[0] == '-' || text[0] == '+') && AllShaped(acc)
    requires ReadNumber(text, "", ']').Fail?
    ensures Scan(text, ']', "", acc) == Fail(ReadNumber(text, "", ']').error)
  {
  }

  /** The digits of a number, read from its first character. */
  lemma {:induction false} LeadingDigits(a: string, x: string)
    requires |a| > 0 && AllDigits(a)
    ensures ReadNumber(a + x, "", ']') == NumberLoop(x, a, false, false, ']')
  {
    var t := a + x;
    assert t[0] == a[0];
    assert t[1..] == a[1..] + x;
    ReadNumberStart(t, "");
    assert ReadNumber(t, "", ']') == NumberLoop(a[1..] + x, "" + [a[0]], false, false, ']');
    assert "" + [a[0]] == [a[0]];
    DigitRun(a[1..], x, [a[0]], false, false);
    assert [a[0]] + a[1..] == a;
  }

  /** A number that fails to read makes the whole line fail with the same error. */
  lemma {:induction false} NumberRejected(body: string, e: Exception)
    requires |body| > 0 && IsDigit(body[0])
    requires ReadNumber(body, "", ']') == Fail(e)
    ensures Parse("[" + body, '[', ']') == Fail(e)
  {
    Opened(body);
    ScanNumberFails(body, []);
  }

  lemma {:induction false} DotAfterDot(x: string, val: string, hasE: bool)
    ensures NumberLoop("." + x, val, true, hasE, ']') == Fail(SequenceError(val + "."))
  {
    assert ("." + x)[0] == '.';
  }

  lemma {:induction false} MarkerAfterMarker(x: string, val: string, hasDot: bool)
    ensures NumberLoop("e" + x, val, hasDot, true, ']') == Fail(SequenceError(val + "e"))
  {
    assert ("e" + x)[0] == 'e';
  }

  lemma {:induction false} SpaceInLoop(x: string, val: string, hasDot: bool, hasE: bool)
    ensures NumberLoop(" " + x, val, hasDot, hasE, ']') == Fail(SequenceError(val + " "))
  {
    assert (" " + x)[0] == ' ';
  }

  lemma {:induction false} SecondDotNumber(a: string, b: string, x: string)
    requires |a| > 0 && AllDigits(a) && AllDigits(b)
    ensures ReadNumber(a + "." + b + "." + x, "", ']') == Fail(SequenceError(a + "." + b + "."))
  {
    var tail := FractionText(Some(b)) + ("." + x);
    assert a + "." + b + "." + x == a + tail;
    LeadingDigits(a, tail);
    FractionRun(Some(b), "." + x, a, false);
    assert a + FractionText(Some(b)) == a + "." + b;
    DotAfterDot(x, a + "." + b, false);
    assert ReadNumber(a + tail, "", ']') == NumberLoop("." + x, a + "." + b, true, false, ']');
  }

  /** A second dot is rejected, and the error names the text read up to and including it. */
  lemma {:induction false} SecondDotRejected(a: string, b: string, x: string)
    requires |a| > 0 && AllDigits(a) && AllDigits(b)
    ensures Parse("[" + a + "." + b + "." + x, '[', ']') == Fail(SequenceError(a + "." + b + "."))
  {
    var body := a + "." + b + "." + x;
    assert "[" + a + "." + b + "." + x == "[" + body;
    assert body[0] == a[0];
    SecondDotNumber(a, b, x);
    NumberRejected(body, SequenceError(a + "." + b + "."));
  }

  lemma {:induction false} SecondExponentNumber(a: string, d: string, x: string)
    requires |a| > 0 && AllDigits(a) && |d| > 0 && AllDigits(d)
    ensures ReadNumber(a + "e" + d + "e" + x, "", ']') == Fail(SequenceError(a + "e" + d + "e"))
  {
    var e := Some(Exponent('e', "", d));
    var tail := ExponentText(e) + ("e" + x);
    assert a + "e" + d + "e" + x == a + tail;
    LeadingDigits(a, tail);
    ExponentRun(e, "e" + x, a, false);
    assert a + ExponentText(e) == a + "e" + d;
    MarkerAfterMarker(x, a + "e" + d, false);
  }

  /** A second exponent marker is rejected. */
  lemma {:induction false} SecondExponentRejected(a: string, d: string, x: string)
    requires |a| > 0 && AllDigits(a) && |d| > 0 && AllDigits(d)
    ensures Parse("[" + a + "e" + d + "e" + x, '[', ']') == Fail(SequenceError(a + "e" + d + "e"))
  {
    var body := a + "e" + d + "e" + x;
    assert "[" + a + "e" + d + "e" + x == "[" + body;
    assert body[0] == a[0];
    SecondExponentNumber(a, d, x);
    NumberRejected(body, SequenceError(a + "e" + d + "e"));
  }

  /** A space inside a number is not a separator: the number is rejected. */
  lemma {:induction false} SpaceInsideNumber(a: string, x: string)
    requires |a| > 0 && AllDigits(a)
    ensures Parse("[" + a + " " + x, '[', ']') == Fail(SequenceError(a + " "))
  {
    var body := a + " " + x;
    assert "[" + a + " " + x == "[" + body;
    assert body == a + (" " + x);
    assert body[0] == a[0];
    LeadingDigits(a, " " + x);
    SpaceInLoop(x, a, false, false);
    NumberRejected(body, SequenceError(a + " "));
  }

  /**
   * The closing delimiter right after a number is consumed as the number's
   * terminator, so scanning carries on with whatever follows it.
   */
  lemma {:induction false} CloseConsumedByNumber(a: string, x: string)
    requires |a| > 0 && AllDigits(a)
    ensures Parse("[" + a + "]" + x, '[', ']') == Scan(x, ']', "", [a])
  {
    var body := a + "]" + x;
    CloseSplit(a, x);
    Opened(body);
    LeadingDigits(a, "]" + x);
    NumberEnds("]" + x, a, false, false);
    ScanNumber(body, [], a, x);
  }

  lemma {:induction false} CloseSplit(a: string, x: string)
    ensures "[" + a + "]" + x == "[" + (a + "]" + x)
    ensures a + "]" + x == a + ("]" + x) && ("]" + x)[1..] == x
    ensures [] + [a] == [a]
  {
  }

  /** A quoted string that is never closed is still emitted, without a closing quote. */
  lemma {:induction false} UnterminatedQuote(c: string, val: string)
    requires '"' !in c && '\\' !in c
    ensures ReadQuoted(c, val, false) == (val + c, "")
    decreases |c|
  {
    if |c| == 0 {
      assert val + c == val;
    } else {
      assert c[0] in c;
      assert forall ch :: ch in c[1..] ==> ch in c;
      UnterminatedQuote(c[1..], val + [c[0]]);
      assert val + [c[0]] + c[1..] == val + c;
    }
  }

  lemma {:induction false} QuoteOpen(c: string)
    ensures "[\"" + c == "[" + ("\"" + c)
    ensures ("\"" + c)[0] == '"' && ("\"" + c)[1..] == c
    ensures "" + ['"'] == "\""
  {
  }

  lemma {:induction false} UnterminatedQuoteAccepted(c: string)
    requires '"' !in c && '\\' !in c
    ensures Parse("[\"" + c, '[', ']') == Ok(["\"" + c])
  {
    var body := "\"" + c;
    QuoteOpen(c);
    Opened(body);
    UnterminatedQuote(c, "\"");
    assert Scan(body, ']', "", []) == Scan("", ']', "\"" + c, []);
    ScanClose("", "\"" + c, []);
    assert Emit([], "\"" + c) == ["\"" + c];
    assert Parse("[\"" + c, '[', ']') == Parse("[" + body, '[', ']');
  }

  /** After `MM-dd`, a separator other than a space is read and not kept. */
  lemma {:induction false} SeparatedTime(md: string, sep: char, tt: string, rest: string, val: string)
    requires Matches(DatePattern, md) && Matches(TimePattern, tt)
    requires sep != ' ' && !IsTerminator(sep, ']')
    ensures ReadDate(md + ([sep] + tt + rest), val, ']') == Ok((val + md + tt, rest))
  {
    var z := [sep] + tt + rest;
    ReadDateAfterDay(md, z, val);
    assert z[0] == sep && z[1..] == tt + rest;
    PatternRun(TimePattern, tt, rest, val + md);
  }

  lemma {:induction false} SeparatedDate(y: string, md: string, sep: char, tt: string)
    requires |y| > 0 && AllDigits(y) && Matches(DatePattern, md) && Matches(TimePattern, tt)
    requires sep != ' ' && !IsTerminator(sep, ']')
    ensures ReadNumber(y + "-" + md + [sep] + tt + "]", "", ']') == Ok((y + "-" + md + tt, "]"))
  {
    var z := md + ([sep] + tt + "]");
    var text := y + "-" + md + [sep] + tt + "]";
    assert text == [y[0]] + (y[1..] + "-" + z);
    assert text[1..] == y[1..] + "-" + z;
    assert "" + [text[0]] == [y[0]];
    ReadNumberStart(text, "");
    YearRun(y[1..], z, [y[0]]);
    assert [y[0]] + y[1..] + "-" == y + "-";
    SeparatedTime(md, sep, tt, "]", y + "-");
  }

  lemma {:induction false} SeparatedParse(y: string, md: string, sep: char, tt: string)
    requires |y| > 0 && AllDigits(y) && Matches(DatePattern, md) && Matches(TimePattern, tt)
    requires sep != ' ' && !IsTerminator(sep, ']')
    ensures Parse("[" + (y + "-" + md + [sep] + tt + "]"), '[', ']') == Ok([y + "-" + md + tt])
  {
    var tok := y + "-" + md + tt;
    var body := y + "-" + md + [sep] + tt + "]";
    assert body[0] == y[0];
    Opened(body);
    SeparatedDate(y, md, sep, tt);
    ScanNumber(body, [], tok, "]");
    ScanClose("]", "", [] + [tok]);
    assert [] + [tok] == [tok];
  }

  /**
   * Any character other than a space or a terminator may separate a date
   * from its time; it is read and dropped, so it does not appear in the token.
   */
  lemma {:induction false} TimeSeparatorDropped(y: string, m: string, d: string, sep: char, t: Time)
    requires |y| > 0 && AllDigits(y) && DigitsOf(m, 2) && DigitsOf(d, 2) && WellFormedTime(t)
    requires sep != ' ' && !IsTerminator(sep, ']')
    ensures Parse("[" + y + "-" + m + "-" + d + [sep] + TimeText(Some(t))[1..] + "]", '[', ']')
         == Ok([y + "-" + m + "-" + d + TimeText(Some(t))[1..]])
  {
    var tt := TimeText(Some(t))[1..];
    DateMatches(m, d);
    TimeMatches(t);
    SeparatedParse(y, m + "-" + d, sep, tt);
    DateRegroup(y, m, d, sep, tt);
  }

  lemma {:induction false} DateRegroup(y: string, m: string, d: string, sep: char, tt: string)
    ensures "[" + (y + "-" + (m + "-" + d) + [sep] + tt + "]") == "[" + y + "-" + m + "-" + d + [sep] + tt + "]"
    ensures y + "-" + (m + "-" + d) + tt == y + "-" + m + "-" + d + tt
  {
  }

  /** A keyword cut short is rejected with its first letter. */
  lemma {:induction false} TruncatedKeyword()
    ensures Parse("[tru]", '[', ']') == Fail(WordError("true"))
  {
  }

  /** A keyword must be followed by at least one more character. */
  lemma {:induction false} KeywordAtEnd()
    ensures Parse("[true", '[', ']') == Fail(WordError("true"))
  {
  }

  /** An unexpected character fails with the pending value, not with the character. */
  lemma {:induction false} UnknownCharacter()
    ensures Parse("[x]", '[', ']') == Fail(SequenceError(""))
  {
  }

  /** An exponent marker at the very end of the text reads past it. */
  lemma {:induction false} ExponentAtEnd()
    ensures Parse("[1e", '[', ']') == Fail(EnumerationEnded)
  {
  }
}

=== FILE: lexer_roundtrip.dfy ===
/**
 * What the lexer promises for the lines the server writes: a list of
 * literals (keywords, numbers, dates, timestamps and quoted strings), joined
 * by `,` or by `\t,\t` and bracketed, lexes back into one token per literal.
 */
module LexerRoundTrip {
  import opened Wrappers
  import opened Text
  import opened Lexer

  datatype Exponent = Exponent(marker: char, sign: string, digits: string)

  datatype Time = Time(hour: string, minute: string, second: string, fraction: string)

  datatype Literal =
    | Keyword(word: string)
    | Number(sign: string, whole: string, fraction: Option<string>, exponent: Option<Exponent>)
    | Date(year: string, month: string, day: string, time: Option<Time>)
    | Quoted(content: string)

  predicate IsSign(s: string) { s == "" || s == "-" || s == "+" }

  predicate DigitsOf(s: string, n: nat) { |s| == n && AllDigits(s) }

  predicate WellFormedTime(t: Time)
  {
    DigitsOf(t.hour, 2) && DigitsOf(t.minute, 2) && DigitsOf(t.second, 2) && DigitsOf(t.fraction, 6)
  }

  predicate WellFormedExponent(e: Exponent)
  {
    (e.marker == 'e' || e.marker == 'E') && IsSign(e.sign) && AllDigits(e.digits)
    && (|e.sign| > 0 || |e.digits| > 0)
  }

  /** The literals the server writes in a data line. */
  predicate WellFormed(l: Literal)
  {
    match l
    case Keyword(w) => IsKeyword(w)
    case Number(sign, whole, f, e) =>
      IsSign(sign) && |whole| > 0 && AllDigits(whole)
      && (f.Some? ==> AllDigits(f.value)) && (e.Some? ==> WellFormedExponent(e.value))
    case Date(y, m, d, t) =>
      |y| > 0 && AllDigits(y) && DigitsOf(m, 2) && DigitsOf(d, 2) && (t.Some? ==> WellFormedTime(t.value))
    case Quoted(_) => true
  }

  predicate AllWellFormed(xs: seq<Literal>) { forall i :: 0 <= i < |xs| ==> WellFormed(xs[i]) }

  predicate AllShaped(acc: seq<string>) { forall i :: 0 <= i < |acc| ==> WellShaped(acc[i]) }

  /** Backslash-escapes the quote and backslash characters of a string body. */
  function Escape(s: string): string
  {
    if |s| == 0 then ""
    else if s[0] == '"' || s[0] == '\\' then ['\\', s[0]] + Escape(s[1..])
    else [s[0]] + Escape(s[1..])
  }

  function FractionText(f: Option<string>): string { if f.Some? then "." + f.value else "" }

  function ExponentText(e: Option<Exponent>): string
  {
    if e.Some? then [e.value.marker] + e.value.sign + e.value.digits else ""
  }

  function TimeText(t: Option<Time>): string
  {
    if t.Some? then " " + t.value.hour + ":" + t.value.minute + ":" + t.value.second + "." + t.value.fraction
    else ""
  }

  /** How the literal appears on the wire. */
  function Render(l: Literal): string
  {
    match l
    case Keyword(w) => w
    case Number(sign, whole, f, e) => sign + whole + FractionText(f) + ExponentText(e)
    case Date(y, m, d, t) => y + "-" + m + "-" + d + TimeText(t)
    case Quoted(c) => "\"" + Escape(c) + "\""
  }

  /** The token the lexer should produce for the literal: quoted strings keep their quotes but lose their escapes. */
  function Token(l: Literal): (t: string)
    ensures WellFormed(l) ==> WellShaped(t)
  {
    match l
    case Quoted(c) => "\"" + c + "\""
    case _ => Render(l)
  }

  function Renders(xs: seq<Literal>): (r: seq<string>)
    ensures |r| == |xs|
  {
    if |xs| == 0 then [] else [Render(xs[0])] + Renders(xs[1..])
  }

  function Tokens(xs: seq<Literal>): (r: seq<string>)
    ensures |r| == |xs|
  {
    if |xs| == 0 then [] else [Token(xs[0])] + Tokens(xs[1..])
  }

  // ---------------------------------------------------------------------------
  // Reading the pieces of a number or date
  // ---------------------------------------------------------------------------

  lemma {:induction false} DigitRun(d: string, x: string, val: string, hasDot: bool, hasE: bool)
    requires AllDigits(d)
    ensures NumberLoop(d + x, val, hasDot, hasE, ']') == NumberLoop(x, val + d, hasDot, hasE, ']')
    decreases |d|
  {
    if |d| == 0 {
      assert d + x == x && val + d == val;
    } else {
      assert (d + x)[0] == d[0];
      assert (d + x)[1..] == d[1..] + x;
      DigitRun(d[1..], x, val + [d[0]], hasDot, hasE);
      assert val + [d[0]] + d[1..] == val + d;
    }
  }

  lemma {:induction false} NumberEnds(x: string, val: string, hasDot: bool, hasE: bool)
    requires |x| > 0 && IsTerminator(x[0], ']')
    ensures NumberLoop(x, val, hasDot, hasE, ']') == Ok((val, x[1..]))
  {
  }

  lemma {:induction false} DotSplit(digits: string, x: string, val: string)
    ensures ("." + digits + x)[0] == '.' && ("." + digits + x)[1..] == digits + x
    ensures val + "." + digits == val + ("." + digits)
  {
  }

  lemma {:induction false} FractionRun(f: Option<string>, x: string, val: string, hasE: bool)
    requires f.Some? ==> AllDigits(f.value)
    ensures NumberLoop(FractionText(f) + x, val, false, hasE, ']')
         == NumberLoop(x, val + FractionText(f), f.Some?, hasE, ']')
  {
    if f.Some? {
      DotSplit(f.value, x, val);
      DigitRun(f.value, x, val + ".", true, hasE);
    } else {
      assert FractionText(f) + x == x && val + FractionText(f) == val;
    }
  }

  lemma {:induction false} ExponentHead(m: char, c: char, y: string, val: string, hasDot: bool)
    requires (m == 'e' || m == 'E') && (IsDigit(c) || c == '-' || c == '+')
    ensures NumberLoop([m, c] + y, val, hasDot, false, ']') == NumberLoop(y, val + [m, c], hasDot, true, ']')
  {
    var t := [m, c] + y;
    assert t[0] == m && t[1] == c && t[2..] == y;
    assert val + [m] + [c] == val + [m, c];
  }

  lemma {:induction false} ExponentRun(e: Option<Exponent>, x: string, val: string, hasDot: bool)
    requires e.Some? ==> WellFormedExponent(e.value)
    ensures NumberLoop(ExponentText(e) + x, val, hasDot, false, ']')
         == NumberLoop(x, val + ExponentText(e), hasDot, e.Some?, ']')
  {
    if e.Some? {
      ExponentSome(e.value, x, val, hasDot);
    } else {
      assert ExponentText(e) + x == x && val + ExponentText(e) == val;
    }
  }

  lemma {:induction false} ExponentSome(ex: Exponent, x: string, val: string, hasDot: bool)
    requires WellFormedExponent(ex)
    ensures NumberLoop([ex.marker] + ex.sign + ex.digits + x, val, hasDot, false, ']')
         == NumberLoop(x, val + ([ex.marker] + ex.sign + ex.digits), hasDot, true, ']')
  {
    var m, sg, ds := ex.marker, ex.sign, ex.digits;
    if |sg| > 0 {
      assert sg == [sg[0]];
      ExponentLead(m, sg[0], ds, x, val, hasDot);
      SplitHead(m, sg[0], ds, x, val);
    } else {
      assert sg == [];
      assert AllDigits(ds[1..]);
      ExponentLead(m, ds[0], ds[1..], x, val, hasDot);
      assert ds == [ds[0]] + ds[1..];
      SplitHead(m, ds[0], ds[1..], x, val);
      assert [m] + sg + ds == [m] + [ds[0]] + ds[1..];
    }
  }

  /** The marker, its first follower, then digits, at the head of a number's rest. */
  lemma {:induction false} ExponentLead(m: char, c: char, ds: string, x: string, val: string, hasDot: bool)
    requires (m == 'e' || m == 'E') && (IsDigit(c) || c == '-' || c == '+') && AllDigits(ds)
    ensures NumberLoop([m, c] + (ds + x), val, hasDot, false, ']') == NumberLoop(x, val + [m, c] + ds, hasDot, true, ']')
  {
    ExponentHead(m, c, ds + x, val, hasDot);
    DigitRun(ds, x, val + [m, c], hasDot, true);
  }

  lemma {:induction false} SplitHead(m: char, c: char, ds: string, x: string, val: string)
    ensures [m] + [c] + ds + x == [m, c] + (ds + x)
    ensures val + [m, c] + ds == val + ([m] + [c] + ds)
  {
    assert [m] + [c] == [m, c];
  }

  lemma {:induction false} ReadNumberStart(text: string, val: string)
    requires |text| > 0 && text[0] != '.'
    ensures ReadNumber(text, val, ']') == NumberLoop(text[1..], val + [text[0]], false, false, ']')
  {
  }

  /** The digits of a number after its first character, then its fraction and exponent. */
  lemma {:induction false} NumberBody(whole: string, f: Option<string>, e: Option<Exponent>, rest: string, val: string)
    requires AllDigits(whole) && (f.Some? ==> AllDigits(f.value)) && (e.Some? ==> WellFormedExponent(e.value))
    requires |rest| > 0 && IsTerminator(rest[0], ']')
    ensures NumberLoop(whole + FractionText(f) + ExponentText(e) + rest, val, false, false, ']')
         == Ok((val + whole + FractionText(f) + ExponentText(e), rest[1..]))
  {
    var ft, et := FractionText(f), ExponentText(e);
    assert whole + ft + et + rest == whole + (ft + (et + rest));
    DigitRun(whole, ft + (et + rest), val, false, false);
    FractionRun(f, et + rest, val + whole, false);
    ExponentRun(e, rest, val + whole + ft, f.Some?);
    NumberEnds(rest, val + whole + ft + et, f.Some?, e.Some?);
  }

  lemma {:induction false} ReadNumberParts(sign: string, whole: string, f: Option<string>, e: Option<Exponent>, rest: string)
    requires IsSign(sign) && |whole| > 0 && AllDigits(whole)
    requires (f.Some? ==> AllDigits(f.value)) && (e.Some? ==> WellFormedExponent(e.value))
    requires |rest| > 0 && IsTerminator(rest[0], ']')
    ensures ReadNumber(sign + whole + FractionText(f) + ExponentText(e) + rest, "", ']')
         == Ok((sign + whole + FractionText(f) + ExponentText(e), rest[1..]))
  {
    if |sign| > 0 {
      SignedParts(sign, whole, f, e, rest);
    } else {
      assert sign + whole == whole;
      UnsignedParts(whole, f, e, rest);
    }
  }

  lemma {:induction false} SignedParts(sign: string, whole: string, f: Option<string>, e: Option<Exponent>, rest: string)
    requires |sign| == 1 && sign[0] != '.' && AllDigits(whole)
    requires (f.Some? ==> AllDigits(f.value)) && (e.Some? ==> WellFormedExponent(e.value))
    requires |rest| > 0 && IsTerminator(rest[0], ']')
    ensures ReadNumber(sign + whole + FractionText(f) + ExponentText(e) + rest, "", ']')
         == Ok((sign + whole + FractionText(f) + ExponentText(e), rest[1..]))
  {
    var ft, et := FractionText(f), ExponentText(e);
    var body := whole + ft + et + rest;
    assert sign + whole + ft + et + rest == sign + body by {
      Regroup(sign, whole, ft, et + rest);
      Regroup(whole, ft, et, rest);
      Regroup(sign, whole + ft, et, rest);
    }
    ReadSigned(sign, body);
    NumberBody(whole, f, e, rest, sign);
  }

  lemma {:induction false} UnsignedParts(whole: string, f: Option<string>, e: Option<Exponent>, rest: string)
    requires |whole| > 0 && AllDigits(whole)
    requires (f.Some? ==> AllDigits(f.value)) && (e.Some? ==> WellFormedExponent(e.value))
    requires |rest| > 0 && IsTerminator(rest[0], ']')
    ensures ReadNumber(whole + FractionText(f) + ExponentText(e) + rest, "", ']')
         == Ok((whole + FractionText(f) + ExponentText(e), rest[1..]))
  {
    var ft, et := FractionText(f), ExponentText(e);
    UnsignedRegroup(whole, ft, et, rest);
    ReadUnsigned(whole, ft + et + rest);
    NumberBody(whole[1..], f, e, rest, [whole[0]]);
  }

  /** A sign opens the number, which goes on with the rest of the text. */
  lemma {:induction false} ReadSigned(sign: string, body: string)
    requires |sign| == 1 && sign[0] != '.'
    ensures ReadNumber(sign + body, "", ']') == NumberLoop(body, sign, false, false, ']')
  {
    var text := sign + body;
    assert text[0] == sign[0] && text[1..] == body;
    assert "" + [text[0]] == sign;
    ReadNumberStart(text, "");
  }

  /** An unsigned number's first digit opens it, and the reading goes on after that digit. */
  lemma {:induction false} ReadUnsigned(whole: string, tail: string)
    requires |whole| > 0 && whole[0] != '.'
    ensures ReadNumber(whole + tail, "", ']') == NumberLoop(whole[1..] + tail, [whole[0]], false, false, ']')
  {
    var text := whole + tail;
    assert text[0] == whole[0] && text[1..] == whole[1..] + tail;
    assert "" + [text[0]] == [whole[0]];
    ReadNumberStart(text, "");
  }

  lemma {:induction false} UnsignedRegroup(whole: string, ft: string, et: string, rest: string)
    requires |whole| > 0
    ensures whole + ft + et + rest == whole + (ft + et + rest)
    ensures whole[1..] + (ft + et + rest) == whole[1..] + ft + et + rest
    ensures [whole[0]] + whole[1..] + ft + et == whole + ft + et
  {
    assert [whole[0]] + whole[1..] == whole;
  }

  lemma {:induction false} ReadNumberLiteral(l: Literal, rest: string)
    requires l.Number? && WellFormed(l) && |rest| > 0 && IsTerminator(rest[0], ']')
    ensures ReadNumber(Render(l) + rest, "", ']') == Ok((Render(l), rest[1..]))
  {
    ReadNumberParts(l.sign, l.whole, l.fraction, l.exponent, rest);
  }

  /** The text matches the pattern character by character. */
  predicate Matches(pat: seq<CharClass>, text: string)
  {
    |text| == |pat| && forall i :: 0 <= i < |pat| ==> Accepts(pat[i], text[i])
  }

  lemma {:induction false} MatchesConcat(p1: seq<CharClass>, t1: string, p2: seq<CharClass>, t2: string)
    requires Matches(p1, t1) && Matches(p2, t2)
    ensures Matches(p1 + p2, t1 + t2)
  {
    forall i | 0 <= i < |p1 + p2|
      ensures Accepts((p1 + p2)[i], (t1 + t2)[i])
    {
      if i >= |p1| {
        assert (p1 + p2)[i] == p2[i - |p1|] && (t1 + t2)[i] == t2[i - |t1|];
      }
    }
  }

  lemma {:induction false} PatternRun(pat: seq<CharClass>, text: string, x: string, val: string)
    requires Matches(pat, text)
    ensures ReadPattern(text + x, val, pat) == Ok((val + text, x))
  {
    ReadPatternSucceeds(text + x, val, pat);
    assert (text + x)[..|pat|] == text && (text + x)[|pat|..] == x;
  }

  lemma {:induction false} DateMatches(m: string, d: string)
    requires DigitsOf(m, 2) && DigitsOf(d, 2)
    ensures Matches(DatePattern, m + "-" + d)
  {
    MatchesConcat(Digits(2), m, [Exactly('-')], "-");
    MatchesConcat(Digits(2) + [Exactly('-')], m + "-", Digits(2), d);
  }

  lemma {:induction false} TimeMatches(t: Time)
    requires WellFormedTime(t)
    ensures Matches(TimePattern, TimeText(Some(t))[1..])
  {
    var p := Digits(2);
    MatchesConcat(p, t.hour, [Exactly(':')], ":");
    MatchesConcat(p + [Exactly(':')], t.hour + ":", p, t.minute);
    MatchesConcat(p + [Exactly(':')] + p, t.hour + ":" + t.minute, [Exactly(':')], ":");
    MatchesConcat(p + [Exactly(':')] + p + [Exactly(':')], t.hour + ":" + t.minute + ":", p, t.second);
    MatchesConcat(p + [Exactly(':')] + p + [Exactly(':')] + p, t.hour + ":" + t.minute + ":" + t.second,
                  [Exactly('.')], ".");
    MatchesConcat(p + [Exactly(':')] + p + [Exactly(':')] + p + [Exactly('.')],
                  t.hour + ":" + t.minute + ":" + t.second + ".", Digits(6), t.fraction);
    assert TimeText(Some(t))[1..] == t.hour + ":" + t.minute + ":" + t.second + "." + t.fraction;
  }

  /** The year's digits, then the dash that switches the number into a date. */
  lemma {:induction false} YearRun(y: string, z: string, val: string)
    requires AllDigits(y)
    ensures NumberLoop(y + "-" + z, val, false, false, ']') == ReadDate(z, val + y + "-", ']')
  {
    assert y + "-" + z == y + ("-" + z);
    DigitRun(y, "-" + z, val, false, false);
    var t := "-" + z;
    assert t[0] == '-' && t[1..] == z;
  }

  /** ReadDate after a successful `MM-dd`, looking at the character that follows. */
  lemma {:induction false} ReadDateAfterDay(md: string, z: string, val: string)
    requires Matches(DatePattern, md) && |z| > 0
    ensures ReadDate(md + z, val, ']')
         == (if z[0] == ' ' then ReadPattern(z[1..], val + md + " ", TimePattern)
             else if IsTerminator(z[0], ']') then Ok((val + md, z[1..]))
             else ReadPattern(z[1..], val + md, TimePattern))
  {
    PatternRun(DatePattern, md, z, val);
  }

  /** Month, day and the optional time after `yyyy-`. */
  lemma {:induction false} DateRun(m: string, d: string, t: Option<Time>, rest: string, val: string)
    requires DigitsOf(m, 2) && DigitsOf(d, 2) && (t.Some? ==> WellFormedTime(t.value))
    requires |rest| > 0 && IsTerminator(rest[0], ']')
    ensures ReadDate(m + "-" + d + TimeText(t) + rest, val, ']')
         == Ok((val + m + "-" + d + TimeText(t), if t.Some? then rest else rest[1..]))
  {
    var md, tt := m + "-" + d, TimeText(t);
    assert m + "-" + d + tt + rest == md + (tt + rest);
    assert val + md + tt == val + m + "-" + d + tt;
    DateMatches(m, d);
    if t.Some? {
      TimeMatches(t.value);
      DateRunTimed(md, tt, rest, val);
    } else {
      assert tt + rest == rest;
      assert val + md + tt == val + md;
      DateRunPlain(md, rest, val);
    }
  }

  /** A date followed by a time is read up to the end of the time; the terminator stays. */
  lemma {:induction false} DateRunTimed(md: string, tt: string, rest: string, val: string)
    requires Matches(DatePattern, md) && |tt| > 0 && tt[0] == ' ' && Matches(TimePattern, tt[1..])
    ensures ReadDate(md + (tt + rest), val, ']') == Ok((val + md + tt, rest))
  {
    var z := tt + rest;
    SpaceHead(tt, rest);
    ReadDateAfterDay(md, z, val);
    PatternRun(TimePattern, tt[1..], rest, val + md + " ");
    SpaceJoin(val + md, tt);
  }

  lemma {:induction false} SpaceHead(tt: string, rest: string)
    requires |tt| > 0 && tt[0] == ' '
    ensures (tt + rest)[0] == ' ' && (tt + rest)[1..] == tt[1..] + rest
  {
  }

  lemma {:induction false} SpaceJoin(a: string, tt: string)
    requires |tt| > 0 && tt[0] == ' '
    ensures a + " " + tt[1..] == a + tt
  {
    assert tt == " " + tt[1..];
  }

  /** A date followed directly by a terminator is read up to it, and the terminator is consumed. */
  lemma {:induction false} DateRunPlain(md: string, rest: string, val: string)
    requires Matches(DatePattern, md) && |rest| > 0 && IsTerminator(rest[0], ']')
    ensures ReadDate(md + rest, val, ']') == Ok((val + md, rest[1..]))
  {
    ReadDateAfterDay(md, rest, val);
  }

  lemma {:induction false} ReadDateParts(y: string, m: string, d: string, t: Option<Time>, rest: string)
    requires |y| > 0 && AllDigits(y) && DigitsOf(m, 2) && DigitsOf(d, 2) && (t.Some? ==> WellFormedTime(t.value))
    requires |rest| > 0 && IsTerminator(rest[0], ']')
    ensures ReadNumber(y + "-" + m + "-" + d + TimeText(t) + rest, "", ']')
         == Ok((y + "-" + m + "-" + d + TimeText(t), if t.Some? then rest else rest[1..]))
  {
    var z := m + "-" + d + TimeText(t) + rest;
    var text := y + "-" + m + "-" + d + TimeText(t) + rest;
    assert text == [y[0]] + (y[1..] + "-" + z);
    assert text[1..] == y[1..] + "-" + z;
    assert "" + [text[0]] == [y[0]];
    ReadNumberStart(text, "");
    YearRun(y[1..], z, [y[0]]);
    assert [y[0]] + y[1..] + "-" == y + "-";
    DateRun(m, d, t, rest, y + "-");
  }

  lemma {:induction false} ReadDateLiteral(l: Literal, rest: string)
    requires l.Date? && WellFormed(l) && |rest| > 0 && IsTerminator(rest[0], ']')
    ensures ReadNumber(Render(l) + rest, "", ']')
         == Ok((Render(l), if l.time.Some? then rest else rest[1..]))
  {
    ReadDateParts(l.year, l.month, l.day, l.time, rest);
  }

  lemma {:induction false} QuotedRun(c: string, x: string, val: string)
    ensures ReadQuoted(Escape(c) + "\"" + x, val, false) == (val + c + "\"", x)
    decreases |c|
  {
    var t := Escape(c) + "\"" + x;
    if |c| == 0 {
      assert t == "\"" + x && t[1..] == x;
      assert val + c == val;
    } else if c[0] == '"' || c[0] == '\\' {
      assert t == ['\\', c[0]] + (Escape(c[1..]) + "\"" + x);
      assert t[2..] == Escape(c[1..]) + "\"" + x;
      QuotedRun(c[1..], x, val + [c[0]]);
      assert val + [c[0]] + c[1..] == val + c;
    } else {
      assert t == [c[0]] + (Escape(c[1..]) + "\"" + x);
      assert t[1..] == Escape(c[1..]) + "\"" + x;
      QuotedRun(c[1..], x, val + [c[0]]);
      assert val + [c[0]] + c[1..] == val + c;
    }
  }

  // ---------------------------------------------------------------------------
  // One literal, then one separator
  // ---------------------------------------------------------------------------

  /**
   * Where the scanner stands after reading one literal from the front of
   * `rest`: numbers, plain dates and keywords consume the following
   * terminator, timestamps do not, and a quoted string is still pending.
   */
  function After(l: Literal, rest: string, acc: seq<string>): Result<seq<string>>
    requires WellFormed(l) && |rest| > 0 && AllShaped(acc)
  {
    if l.Quoted? then Scan(rest, ']', Token(l), acc)
    else if l.Date? && l.time.Some? then Scan(rest, ']', "", acc + [Token(l)])
    else Scan(rest[1..], ']', "", acc + [Token(l)])
  }

  // One unfolding of the scanner for each kind of first character.

  lemma {:induction false} ScanBlank(rest: string, val: string, acc: seq<string>)
    requires |rest| > 0 && (rest[0] == ' ' || rest[0] == '\t')
    requires (val == "" || val[0] == '"') && AllShaped(acc)
    ensures Scan(rest, ']', val, acc) == Scan(rest[1..], ']', val, acc)
  {
  }

  lemma {:induction false} ScanComma(rest: string, val: string, acc: seq<string>)
    requires |rest| > 0 && rest[0] == ','
    requires (val == "" || val[0] == '"') && AllShaped(acc)
    ensures Scan(rest, ']', val, acc) == Scan(rest[1..], ']', "", Emit(acc, val))
  {
  }

  lemma {:induction false} ScanClose(rest: string, val: string, acc: seq<string>)
    requires |rest| == 0 || rest[0] == ']'
    requires (val == "" || val[0] == '"') && AllShaped(acc)
    ensures Scan(rest, ']', val, acc) == Ok(Emit(acc, val))
  {
  }

  lemma {:induction false} ScanKeyword(w: string, rest: string, acc: seq<string>)
    requires IsKeyword(w) && |rest| > 0 && AllShaped(acc)
    ensures Scan(w + rest, ']', "", acc) == Scan(rest[1..], ']', "", acc + [w])
  {
    var text := w + rest;
    assert text[0] == w[0] && text[..|w|] == w && text[|w| + 1..] == rest[1..];
  }

  lemma {:induction false} ScanNumber(text: string, acc: seq<string>, tok: string, rem: string)
    requires |text| > 0 && (IsDigit(text[0]) || text[0] == '-' || text[0] == '+') && AllShaped(acc)
    requires ReadNumber(text, "", ']') == Ok((tok, rem))
    ensures Scan(text, ']', "", acc) == Scan(rem, ']', "", acc + [tok])
  {
  }

  lemma {:induction false} ScanQuote(c: string, rest: string, acc: seq<string>)
    requires AllShaped(acc)
    ensures Scan("\"" + Escape(c) + "\"" + rest, ']', "", acc) == Scan(rest, ']', "\"" + c + "\"", acc)
  {
    QuoteSplit(Escape(c), rest);
    QuotedRun(c, rest, "\"");
  }

  lemma {:induction false} QuoteSplit(e: string, rest: string)
    ensures var text := "\"" + e + "\"" + rest; text[0] == '"' && text[1..] == e + "\"" + rest
    ensures "" + ['"'] == "\""
  {
    var text := "\"" + e + "\"" + rest;
    assert text == "\"" + (e + "\"" + rest);
  }

  /** A rendered number or date starts with a digit or a sign. */
  lemma {:induction false} RenderHead(l: Literal, rest: string)
    requires (l.Number? || l.Date?) && WellFormed(l)
    ensures |Render(l) + rest| > 0
    ensures var c := (Render(l) + rest)[0]; IsDigit(c) || c == '-' || c == '+'
  {
    if l.Number? {
      NumberHead(l.sign, l.whole, FractionText(l.fraction), ExponentText(l.exponent), rest);
    } else {
      DateHead(l.year, l.month, l.day, TimeText(l.time), rest);
    }
  }

  lemma {:induction false} NumberHead(sign: string, whole: string, ft: string, et: string, rest: string)
    requires IsSign(sign) && |whole| > 0 && AllDigits(whole)
    ensures var t := sign + whole + ft + et + rest; |t| > 0 && (IsDigit(t[0]) || t[0] == '-' || t[0] == '+')
  {
    var t := sign + whole + ft + et + rest;
    if |sign| > 0 {
      assert t[0] == sign[0];
    } else {
      assert t[0] == whole[0];
    }
  }

  lemma {:induction false} DateHead(y: string, m: string, d: string, tt: string, rest: string)
    requires |y| > 0 && AllDigits(y)
    ensures var t := y + "-" + m + "-" + d + tt + rest; |t| > 0 && IsDigit(t[0])
  {
    var t := y + "-" + m + "-" + d + tt + rest;
    assert t[0] == y[0];
  }

  lemma {:induction false} NumberStep(l: Literal, rest: string, acc: seq<string>)
    requires l.Number? && WellFormed(l) && |rest| > 0 && IsTerminator(rest[0], ']') && AllShaped(acc)
    ensures Scan(Render(l) + rest, ']', "", acc) == Scan(rest[1..], ']', "", acc + [Render(l)])
  {
    RenderHead(l, rest);
    ReadNumberLiteral(l, rest);
    ScanNumber(Render(l) + rest, acc, Render(l), rest[1..]);
  }

  lemma {:induction false} DateStep(l: Literal, rest: string, acc: seq<string>)
    requires l.Date? && WellFormed(l) && |rest| > 0 && IsTerminator(rest[0], ']') && AllShaped(acc)
    ensures Scan(Render(l) + rest, ']', "", acc)
         == Scan(if l.time.Some? then rest else rest[1..], ']', "", acc + [Render(l)])
  {
    RenderHead(l, rest);
    ReadDateLiteral(l, rest);
    ScanNumber(Render(l) + rest, acc, Render(l), if l.time.Some? then rest else rest[1..]);
  }

  lemma {:induction false} LiteralStep(l: Literal, rest: string, acc: seq<string>)
    requires WellFormed(l) && |rest| > 0 && IsTerminator(rest[0], ']') && AllShaped(acc)
    ensures Scan(Render(l) + rest, ']', "", acc) == After(l, rest, acc)
  {
    if l.Keyword? {
      ScanKeyword(l.word, rest, acc);
    } else if l.Number? {
      NumberStep(l, rest, acc);
    } else if l.Date? {
      DateStep(l, rest, acc);
    } else {
      ScanQuote(l.content, rest, acc);
    }
  }

  lemma {:induction false} AfterSeparator(l: Literal, sep: string, tail: string, acc: seq<string>)
    requires WellFormed(l) && (sep == "," || sep == "\t,\t") && AllShaped(acc)
    ensures After(l, sep + tail, acc) == Scan(tail, ']', "", acc + [Token(l)])
  {
    var t := sep + tail;
    var tok := Token(l);
    var acc' := acc + [tok];
    if sep == "," {
      assert t[0] == ',' && t[1..] == tail;
      if l.Quoted? {
        ScanComma(t, tok, acc);
      } else if l.Date? && l.time.Some? {
        ScanComma(t, "", acc');
      }
    } else {
      assert t[0] == '\t' && t[1..] == ",\t" + tail;
      var t1 := ",\t" + tail;
      assert t1[0] == ',' && t1[1..] == "\t" + tail;
      var t2 := "\t" + tail;
      assert t2[0] == '\t' && t2[1..] == tail;
      if l.Quoted? {
        ScanBlank(t, tok, acc);
        ScanComma(t1, tok, acc);
        ScanBlank(t2, "", acc');
      } else if l.Date? && l.time.Some? {
        ScanBlank(t, "", acc');
        ScanComma(t1, "", acc');
        ScanBlank(t2, "", acc');
      } else {
        ScanComma(t1, "", acc');
        ScanBlank(t2, "", acc');
      }
    }
  }

  lemma {:induction false} AfterClose(l: Literal, close: string, acc: seq<string>)
    requires WellFormed(l) && (close == "]" || close == "\t]") && AllShaped(acc)
    ensures After(l, close, acc) == Ok(acc + [Token(l)])
  {
    var tok := Token(l);
    var acc' := acc + [tok];
    if close == "]" {
      if l.Quoted? {
        ScanClose(close, tok, acc);
      } else if l.Date? && l.time.Some? {
        ScanClose(close, "", acc');
      } else {
        ScanClose(close[1..], "", acc');
      }
    } else {
      assert close[1..] == "]";
      if l.Quoted? {
        ScanBlank(close, tok, acc);
        ScanClose("]", tok, acc);
      } else if l.Date? && l.time.Some? {
        ScanBlank(close, "", acc');
        ScanClose("]", "", acc');
      } else {
        ScanClose("]", "", acc');
      }
    }
  }

  // ---------------------------------------------------------------------------
  // Whole lines
  // ---------------------------------------------------------------------------

  lemma {:induction false} JoinRenders(xs: seq<Literal>, sep: string)
    requires |xs| > 0
    ensures |xs| == 1 ==> Join(Renders(xs), sep) == Render(xs[0])
    ensures |xs| > 1 ==> Join(Renders(xs), sep) == Render(xs[0]) + sep + Join(Renders(xs[1..]), sep)
  {
    assert Renders(xs)[0] == Render(xs[0]) && Renders(xs)[1..] == Renders(xs[1..]);
  }

  lemma {:induction false} Regroup(a: string, b: string, c: string, d: string)
    ensures a + b + c + d == a + (b + (c + d))
    ensures a + (b + c) + d == a + b + c + d
  {
  }

  lemma {:induction false} TokensCons(xs: seq<Literal>, acc: seq<string>)
    requires |xs| > 0
    ensures acc + [Token(xs[0])] + Tokens(xs[1..]) == acc + Tokens(xs)
  {
  }

  /** A literal followed by a separator: the scanner emits its token and resumes after the separator. */
  lemma {:induction false} SeparatedStep(x: Literal, sep: string, rest: string, acc: seq<string>)
    requires WellFormed(x) && (sep == "," || sep == "\t,\t") && AllShaped(acc)
    ensures Scan(Render(x) + (sep + rest), ']', "", acc) == Scan(rest, ']', "", acc + [Token(x)])
  {
    assert (sep + rest)[0] == sep[0];
    LiteralStep(x, sep + rest, acc);
    AfterSeparator(x, sep, rest, acc);
  }

  /** The last literal followed by the closing text. */
  lemma {:induction false} ClosingStep(x: Literal, close: string, acc: seq<string>)
    requires WellFormed(x) && (close == "]" || close == "\t]") && AllShaped(acc)
    ensures Scan(Render(x) + close, ']', "", acc) == Ok(acc + [Token(x)])
  {
    LiteralStep(x, close, acc);
    AfterClose(x, close, acc);
  }

  lemma {:induction false} WellFormedTail(xs: seq<Literal>)
    requires |xs| > 0 && AllWellFormed(xs)
    ensures WellFormed(xs[0]) && AllWellFormed(xs[1..])
  {
    assert forall i :: 0 <= i < |xs| - 1 ==> xs[1..][i] == xs[i + 1];
  }

  lemma {:induction false} ShapedAppend(acc: seq<string>, x: Literal)
    requires AllShaped(acc) && WellFormed(x)
    ensures AllShaped(acc + [Token(x)])
  {
  }

  lemma {:induction false} ScanSingle(xs: seq<Literal>, sep: string, close: string, acc: seq<string>)
    requires |xs| == 1 && AllWellFormed(xs) && AllShaped(acc) && (close == "]" || close == "\t]")
    ensures Scan(Join(Renders(xs), sep) + close, ']', "", acc) == Ok(acc + Tokens(xs))
  {
    WellFormedTail(xs);
    JoinRenders(xs, sep);
    ClosingStep(xs[0], close, acc);
    assert Tokens(xs) == [Token(xs[0])];
  }

  lemma {:induction false} ScanCons(xs: seq<Literal>, sep: string, close: string, acc: seq<string>)
    requires |xs| > 1 && AllWellFormed(xs) && AllShaped(acc) && (sep == "," || sep == "\t,\t")
    ensures AllWellFormed(xs[1..]) && AllShaped(acc + [Token(xs[0])])
    ensures Scan(Join(Renders(xs), sep) + close, ']', "", acc)
         == Scan(Join(Renders(xs[1..]), sep) + close, ']', "", acc + [Token(xs[0])])
    ensures acc + [Token(xs[0])] + Tokens(xs[1..]) == acc + Tokens(xs)
  {
    var x := xs[0];
    WellFormedTail(xs);
    ShapedAppend(acc, x);
    JoinRenders(xs, sep);
    TokensCons(xs, acc);
    var rest := Join(Renders(xs[1..]), sep) + close;
    Regroup(Render(x), sep, Join(Renders(xs[1..]), sep), close);
    SeparatedStep(x, sep, rest, acc);
  }

  lemma {:induction false} ScanJoined(xs: seq<Literal>, sep: string, close: string, acc: seq<string>)
    requires |xs| > 0 && AllWellFormed(xs) && AllShaped(acc)
    requires (sep == "," || sep == "\t,\t") && (close == "]" || close == "\t]")
    ensures Scan(Join(Renders(xs), sep) + close, ']', "", acc) == Ok(acc + Tokens(xs))
    decreases |xs|
  {
    if |xs| == 1 {
      ScanSingle(xs, sep, close, acc);
    } else {
      ScanCons(xs, sep, close, acc);
      ScanJoined(xs[1..], sep, close, acc + [Token(xs[0])]);
    }
  }

  lemma {:induction false} ParseOpened(body: string)
    ensures Parse("[" + body, '[', ']') == Scan(body, ']', "", [])
  {
    assert ("[" + body)[0] == '[' && ("[" + body)[1..] == body;
  }

  /** `[x1,x2,...,xn]` lexes into the tokens of the literals. */
  lemma {:induction false} ParseCommaJoined(xs: seq<Literal>)
    requires AllWellFormed(xs)
    ensures Parse("[" + Join(Renders(xs), ",") + "]", '[', ']') == Ok(Tokens(xs))
  {
    var body := Join(Renders(xs), ",") + "]";
    assert "[" + Join(Renders(xs), ",") + "]" == "[" + body;
    ParseOpened(body);
    if |xs| == 0 {
      assert body == "]";
      ScanClose(body, "", []);
    } else {
      ScanJoined(xs, ",", "]", []);
      assert [] + Tokens(xs) == Tokens(xs);
    }
  }

  /** `[\tx1\t,\tx2\t,\t...\txn\t]` lexes into the tokens of the literals. */
  lemma {:induction false} ParseTabJoined(xs: seq<Literal>)
    requires AllWellFormed(xs)
    ensures Parse("[\t" + Join(Renders(xs), "\t,\t") + "\t]", '[', ']') == Ok(Tokens(xs))
  {
    var body := Join(Renders(xs), "\t,\t") + "\t]";
    TabOpened(Join(Renders(xs), "\t,\t"), "\t]");
    ParseOpened("\t" + body);
    ScanBlank("\t" + body, "", []);
    if |xs| == 0 {
      TabClosed(body);
    } else {
      ScanJoined(xs, "\t,\t", "\t]", []);
      assert [] + Tokens(xs) == Tokens(xs);
    }
  }

  lemma {:induction false} TabOpened(j: string, close: string)
    ensures "[\t" + j + close == "[" + ("\t" + (j + close))
    ensures ("\t" + (j + close))[0] == '\t' && ("\t" + (j + close))[1..] == j + close
  {
  }

  /** The empty list's body, `\t]`, closes the scan with no tokens. */
  lemma {:induction false} TabClosed(body: string)
    requires body == "\t]"
    ensures Scan(body, ']', "", []) == Ok([])
  {
    assert body[1..] == "]";
    ScanBlank(body, "", []);
    ScanClose("]", "", []);
  }

  // ---------------------------------------------------------------------------
  // The literals of the lexer's unit test
  // ---------------------------------------------------------------------------

  const TestLiterals: seq<string> := [
    "123", "2.32", "-5.3", "+2", "-2.007e10", "true", "null",
    "2018-08-20", "2018-08-20 10:00:00.000000"]

  /** The literal each test string stands for; any other text is read as a quoted body. */
  function LiteralOf(s: string): Literal
  {
    if s == "123" then Number("", "123", None, None)
    else if s == "2.32" then Number("", "2", Some("32"), None)
    else if s == "-5.3" then Number("-", "5", Some("3"), None)
    else if s == "+2" then Number("+", "2", None, None)
    else if s == "-2.007e10" then Number("-", "2", Some("007"), Some(Exponent('e', "", "10")))
    else if s == "true" || s == "null" then Keyword(s)
    else if s == "2018-08-20" then Date("2018", "08", "20", None)
    else if s == "2018-08-20 10:00:00.000000" then Date("2018", "08", "20", Some(Time("10", "00", "00", "000000")))
    else Quoted(s)
  }

  lemma {:induction false} TimestampRenders()
    ensures var l := Date("2018", "08", "20", Some(Time("10", "00", "00", "000000")));
            WellFormed(l) && Render(l) == "2018-08-20 10:00:00.000000"
  {
    var t := Time("10", "00", "00", "000000");
    TestTimeWellFormed(t);
    TestTimeText(t);
    assert "2018" + "-" + "08" + "-" + "20" == "2018-08-20";
  }

  lemma {:induction false} TestTimeWellFormed(t: Time)
    requires t == Time("10", "00", "00", "000000")
    ensures WellFormedTime(t)
  {
    assert DigitsOf("10", 2) && DigitsOf("00", 2) && DigitsOf("000000", 6);
  }

  lemma {:induction false} TestTimeText(t: Time)
    requires t == Time("10", "00", "00", "000000")
    ensures TimeText(Some(t)) == " 10:00:00.000000"
  {
  }

  lemma {:induction false} ExponentRenders()
    ensures var l := Number("-", "2", Some("007"), Some(Exponent('e', "", "10")));
            WellFormed(l) && Render(l) == "-2.007e10"
  {
  }

  /** The test string stands for a well-formed literal that renders, and lexes, as the string itself. */
  predicate RendersBack(s: string)
  {
    WellFormed(LiteralOf(s)) && Render(LiteralOf(s)) == s && Token(LiteralOf(s)) == s
  }

  lemma {:induction false} TestLiteralRenders(s: string)
    requires s in TestLiterals
    ensures RendersBack(s)
  {
    if s == "2018-08-20 10:00:00.000000" {
      TimestampRenders();
    } else if s == "-2.007e10" {
      ExponentRenders();
    } else if s == "2018-08-20" {
      DateRendersBack(s);
    } else if s == "123" || s == "+2" {
      WholeRendersBack(s);
    } else if s == "2.32" || s == "-5.3" {
      FractionRendersBack(s);
    }
  }

  lemma {:induction false} DateRendersBack(s: string)
    requires s == "2018-08-20"
    ensures RendersBack(s)
  {
    assert Render(LiteralOf(s)) == "2018" + "-" + "08" + "-" + "20";
  }

  lemma {:induction false} WholeRendersBack(s: string)
    requires s == "123" || s == "+2"
    ensures RendersBack(s)
  {
    if s == "123" {
      assert Render(LiteralOf(s)) == "" + "123";
    } else {
      assert Render(LiteralOf(s)) == "+" + "2";
    }
  }

  lemma {:induction false} FractionRendersBack(s: string)
    requires s == "2.32" || s == "-5.3"
    ensures RendersBack(s)
  {
    if s == "2.32" {
      assert Render(LiteralOf(s)) == "" + "2" + "." + "32";
    } else {
      assert Render(LiteralOf(s)) == "-" + "5" + "." + "3";
    }
  }

  function LiteralsOf(p: seq<string>): (xs: seq<Literal>)
    ensures |xs| == |p|
  {
    if |p| == 0 then [] else [LiteralOf(p[0])] + LiteralsOf(p[1..])
  }

  lemma {:induction false} TestLiteralsRender(p: seq<string>)
    requires forall i :: 0 <= i < |p| ==> p[i] in TestLiterals
    ensures AllWellFormed(LiteralsOf(p)) && Renders(LiteralsOf(p)) == p && Tokens(LiteralsOf(p)) == p
    decreases |p|
  {
    if |p| > 0 {
      TestLiteralRenders(p[0]);
      TestLiteralsRender(p[1..]);
      var xs := LiteralsOf(p);
      assert xs[1..] == LiteralsOf(p[1..]);
      assert p == [p[0]] + p[1..];
    }
  }

  /**
   * The lexer unit test: every ordering of the nine test literals, joined
   * either way, lexes back into exactly that ordering.
   */
  lemma {:induction false} TestLexerPermutations(p: seq<string>)
    requires multiset(p) == multiset(TestLiterals)
    ensures Parse("[" + Join(p, ",") + "]", '[', ']') == Ok(p)
    ensures Parse("[\t" + Join(p, "\t,\t") + "\t]", '[', ']') == Ok(p)
  {
    forall i | 0 <= i < |p| ensures p[i] in TestLiterals {
      assert p[i] in multiset(p);
    }
    TestLiteralsRender(p);
    ParseCommaJoined(LiteralsOf(p));
    ParseTabJoined(LiteralsOf(p));
  }
}

=== FILE: need_more.dfy ===
/**
 * The `NeedMore` flag: a boolean that is cleared by the act of reading it.
 * The block stream consults it when a message is flushed, and the session
 * consults its own copy before it sends a query.
 */
module NeedMoreFlag {

  datatype NeedMore = NeedMore(raised: bool)

  /** A fresh flag is clear. */
  const Clear := NeedMore(false)

  /** The conversion from `bool`: a new flag holding the value. */
  function FromBool(b: bool): (f: NeedMore)
    ensures f.raised == b
    ensures b ==> f != Clear
  {
    NeedMore(b)
  }

  /**
   * The conversion to `bool`: the value the flag held, and the flag as it is
   * afterwards. A raised flag reads as true exactly once.
   */
  function Consume(f: NeedMore): (r: (bool, NeedMore))
    ensures r.0 == f.raised
    ensures r.1 == Clear
  {
    if f.raised then (true, NeedMore(false)) else (false, f)
  }

  /** Reading a clear flag leaves it as it was. */
  lemma {:induction false} ConsumeClear(f: NeedMore)
    requires !f.raised
    ensures Consume(f) == (false, f)
  {
  }

  /** Raising the flag and reading it twice gives true, then false. */
  lemma {:induction false} ReadOnce(b: bool)
    ensures Consume(FromBool(b)).0 == b
    ensures !Consume(Consume(FromBool(b)).1).0
  {
  }
}

=== FILE: parameter.dfy ===
/**
 * Command parameters: how a parameter value is written into SQL text
 * (`GetProperParameter`) and the name-keyed operations of the parameter
 * collection (`Contains`, `IndexOf`, `RemoveAt(name)`, the string indexer).
 */
module Parameter {
  import opened Wrappers
  import opened Text

  // ---------------------------------------------------------------------------
  // SQL literals
  // ---------------------------------------------------------------------------

  /**
   * A parameter value as far as its SQL rendering depends on it. A date is
   * given by its `yyyy-MM-dd HH:mm:ss` text and any other value by its
   * `ToString()` text; both are formatted by .NET, outside this model.
   */
  datatype Value = DbNull | Text(s: string) | Date(formatted: string) | Other(shown: string)

  /** A parameter: its name and its value. */
  datatype Param = Param(name: string, value: Value)

  const Quote: char := '\''

  /** Every single quote written twice, every other character kept. */
  function Doubled(s: string): (r: string)
    ensures |r| == |s| + Count(s, Quote)
  {
    if |s| == 0 then ""
    else (if s[0] == Quote then "''" else [s[0]]) + Doubled(s[1..])
  }

  /** `GetProperParameter`: `NULL`, a quoted string with its quotes doubled, a quoted date, or the value's own text. */
  function Render(v: Value): (r: string)
    ensures v.DbNull? ==> r == "NULL"
    ensures v.Text? || v.Date? ==> |r| >= 2 && r[0] == Quote && r[|r| - 1] == Quote
    ensures v.Text? ==> |r| == |v.s| + Count(v.s, Quote) + 2
  {
    match v
    case DbNull => "NULL"
    case Text(s) =>
      DoubledIsReplace(s);
      "'" + Replace(s, "'", "''") + "'"
    case Date(formatted) => "'" + formatted + "'"
    case Other(shown) => shown
  }

  /** `Replace("'", "''")` is the doubling of quotes. */
  lemma {:induction false} DoubledIsReplace(s: string)
    ensures Replace(s, "'", "''") == Doubled(s)
    decreases |s|
  {
    if |s| > 0 {
      DoubledIsReplace(s[1..]);
      if s[0] == Quote {
        assert OccursAt(s, "'", 0);
        assert s[1..] == s[|"'"|..];
      } else {
        assert !OccursAt(s, "'", 0);
      }
    }
  }

  /** Quotes only ever come in adjacent pairs: there is no lone quote. */
  predicate Paired(body: string)
    decreases |body|
  {
    if |body| == 0 then true
    else if body[0] == Quote then |body| >= 2 && body[1] == Quote && Paired(body[2..])
    else Paired(body[1..])
  }

  /** Collapses each doubled quote back to one. */
  function Undoubled(body: string): string
    decreases |body|
  {
    if |body| == 0 then ""
    else if |body| >= 2 && body[0] == Quote && body[1] == Quote then "'" + Undoubled(body[2..])
    else [body[0]] + Undoubled(body[1..])
  }

  /** Reads a rendered string literal back: strips the outer quotes and collapses the doubled ones. */
  function Unquote(literal: string): Option<string>
  {
    if |literal| >= 2 && literal[0] == Quote && literal[|literal| - 1] == Quote then
      Some(Undoubled(literal[1..|literal| - 1]))
    else None
  }

  lemma {:induction false} DoubledShape(s: string)
    ensures Paired(Doubled(s))
    ensures Undoubled(Doubled(s)) == s
    decreases |s|
  {
    if |s| > 0 {
      DoubledShape(s[1..]);
      var d := Doubled(s);
      var rest := Doubled(s[1..]);
      if s[0] == Quote {
        assert d == "''" + rest;
        assert d[2..] == rest;
        assert Undoubled(d) == "'" + s[1..];
      } else {
        assert d == [s[0]] + rest;
        assert d[1..] == rest;
      }
      assert s == [s[0]] + s[1..];
    }
  }

  /** The rendered literal of a string reads back as that string, and its body has no lone quote. */
  lemma {:induction false} RenderRoundTrip(s: string)
    ensures Unquote(Render(Text(s))) == Some(s)
    ensures Paired(Render(Text(s))[1..|Render(Text(s))| - 1])
  {
    var r := Render(Text(s));
    DoubledIsReplace(s);
    DoubledShape(s);
    assert r[1..|r| - 1] == Doubled(s);
  }

  /** Different strings give different literals. */
  lemma {:induction false} RenderInjective(a: string, b: string)
    requires Render(Text(a)) == Render(Text(b))
    ensures a == b
  {
    RenderRoundTrip(a);
    RenderRoundTrip(b);
  }

  // ---------------------------------------------------------------------------
  // The parameter collection
  // ---------------------------------------------------------------------------

  /** `IndexOf(name)`: the first position of a parameter with that name, or -1. */
  function IndexOf(ps: seq<Param>, name: string): (k: int)
    ensures -1 <= k < |ps|
    ensures k >= 0 ==> ps[k].name == name && forall j :: 0 <= j < k ==> ps[j].name != name
    ensures k == -1 <==> forall j :: 0 <= j < |ps| ==> ps[j].name != name
  {
    if |ps| == 0 then -1
    else if ps[0].name == name then 0
    else
      var k := IndexOf(ps[1..], name);
      if k < 0 then -1 else k + 1
  }

  /** `Contains(name)`: some parameter has that name. */
  predicate Contains(ps: seq<Param>, name: string)
  {
    exists p :: p in ps && p.name == name
  }

  /** A name is contained exactly when `IndexOf` finds it. */
  lemma {:induction false} ContainsIndexOf(ps: seq<Param>, name: string)
    ensures Contains(ps, name) <==> IndexOf(ps, name) >= 0
  {
    if Contains(ps, name) {
      var p :| p in ps && p.name == name;
      var j :| 0 <= j < |ps| && ps[j] == p;
      assert ps[j].name == name;
    }
  }

  /** The number of parameters with a name. */
  function Occurrences(ps: seq<Param>, name: string): nat
  {
    if |ps| == 0 then 0 else (if ps[0].name == name then 1 else 0) + Occurrences(ps[1..], name)
  }

  lemma {:induction false} OccurrencesSplit(a: seq<Param>, b: seq<Param>, name: string)
    ensures Occurrences(a + b, name) == Occurrences(a, name) + Occurrences(b, name)
    decreases |a|
  {
    if |a| > 0 {
      assert (a + b)[1..] == a[1..] + b;
      OccurrencesSplit(a[1..], b, name);
    } else {
      assert a + b == b;
    }
  }

  lemma {:induction false} OccurrencesNone(ps: seq<Param>, name: string)
    requires forall j :: 0 <= j < |ps| ==> ps[j].name != name
    ensures Occurrences(ps, name) == 0
    decreases |ps|
  {
    if |ps| > 0 {
      OccurrencesNone(ps[1..], name);
    }
  }

  /** `RemoveAt(name)`: drops the first parameter with the name, if any; the others keep their order. */
  function RemoveNamed(ps: seq<Param>, name: string): (r: seq<Param>)
    ensures IndexOf(ps, name) == -1 ==> r == ps
    ensures IndexOf(ps, name) >= 0 ==> |r| == |ps| - 1
    ensures var k := IndexOf(ps, name);
      k >= 0 ==> (forall j :: 0 <= j < k ==> r[j] == ps[j]) && (forall j :: k <= j < |r| ==> r[j] == ps[j + 1])
  {
    var k := IndexOf(ps, name);
    if k > -1 then ps[..k] + ps[k + 1..] else ps
  }

  /**
   * Removing by name takes away exactly one parameter with that name when
   * there is one, and leaves the count of every other name as it was.
   */
  lemma {:induction false} RemoveNamedCounts(ps: seq<Param>, name: string, other: string)
    requires other != name
    ensures Occurrences(RemoveNamed(ps, name), name) == if Contains(ps, name) then Occurrences(ps, name) - 1 else 0
    ensures Occurrences(RemoveNamed(ps, name), other) == Occurrences(ps, other)
  {
    ContainsIndexOf(ps, name);
    var k := IndexOf(ps, name);
    if k >= 0 {
      assert ps == ps[..k] + ([ps[k]] + ps[k + 1..]);
      OccurrencesSplit(ps[..k], [ps[k]] + ps[k + 1..], name);
      OccurrencesSplit(ps[..k], [ps[k]] + ps[k + 1..], other);
      OccurrencesSplit(ps[..k], ps[k + 1..], name);
      OccurrencesSplit(ps[..k], ps[k + 1..], other);
      assert ([ps[k]] + ps[k + 1..])[1..] == ps[k + 1..];
    } else {
      OccurrencesNone(ps, name);
    }
  }

  /** The string indexer's getter: the first parameter with the name, or null. */
  function Get(ps: seq<Param>, name: string): (r: Option<Param>)
    ensures r.None? <==> !Contains(ps, name)
    ensures r.Some? ==> r.value.name == name && r.value in ps
    ensures IndexOf(ps, name) >= 0 ==> r == Some(ps[IndexOf(ps, name)])
  {
    ContainsIndexOf(ps, name);
    var k := IndexOf(ps, name);
    if k >= 0 then Some(ps[k]) else None
  }

  /**
   * The string indexer's setter: the first parameter with the name is
   * replaced in place, otherwise the new one is appended. The new parameter
   * keeps its own name, which need not be the one it was stored under.
   */
  function Set(ps: seq<Param>, name: string, p: Param): (r: seq<Param>)
    ensures |ps| <= |r| <= |ps| + 1
    ensures |r| == |ps| <==> Contains(ps, name)
  {
    ContainsIndexOf(ps, name);
    var k := IndexOf(ps, name);
    if k > -1 then ps[k := p] else ps + [p]
  }

  /** Storing a parameter under its own name and reading it back gives that parameter; the rest keep their places. */
  lemma {:induction false} SetThenGet(ps: seq<Param>, p: Param)
    ensures Get(Set(ps, p.name, p), p.name) == Some(p)
    ensures forall j :: 0 <= j < |ps| && ps[j].name != p.name ==> Set(ps, p.name, p)[j] == ps[j]
  {
    var r := Set(ps, p.name, p);
    var k := IndexOf(ps, p.name);
    if k >= 0 {
      assert r[k] == p;
      assert forall j :: 0 <= j < k ==> r[j] == ps[j];
      assert IndexOf(r, p.name) == k;
    } else {
      assert r[|ps|] == p;
      assert IndexOf(r, p.name) == |ps|;
    }
  }

  /** Removing a name that was just stored takes the stored parameter away again when the name was new. */
  lemma {:induction false} SetNewThenRemove(ps: seq<Param>, p: Param)
    requires !Contains(ps, p.name)
    ensures RemoveNamed(Set(ps, p.name, p), p.name) == ps
  {
    ContainsIndexOf(ps, p.name);
    var r := Set(ps, p.name, p);
    assert r == ps + [p];
    assert forall j :: 0 <= j < |ps| ==> r[j] == ps[j];
    assert r[|ps|] == p;
    assert IndexOf(r, p.name) == |ps|;
    assert r[..|ps|] == ps;
  }
}

=== FILE: pool.dfy ===
/**
 * The connection pool: an idle FIFO queue (`active`) and a busy list, topped
 * up toward a minimum and a maximum. Each operation is one atomic step on an
 * immutable pool value. Opening a socket is abstract: a `Connector` says, for
 * the identity a new socket would get, whether connecting succeeds or which
 * exception it raises. Identities are handed out from a counter, so a new
 * socket is always fresh.
 */
module Pool {
  import opened Wrappers

  type SocketId = int

  /** The settings every socket of the pool connects with. */
  datatype Settings = Settings(host: string, port: int, username: string, password: string, database: string)

  datatype ConnectionPool = ConnectionPool(
    settings: Settings, min: int, max: int,
    active: seq<SocketId>, busy: seq<SocketId>, next: SocketId)

  /** What happens when the pool opens a socket. */
  datatype Creation = Connected | Failed(error: Exception)

  type Connector = SocketId -> Creation

  /** The pool after an operation, and what the operation returned or raised. */
  datatype Step<T> = Step(pool: ConnectionPool, result: Result<T>)

  /** The message `Init` wraps an I/O failure in. */
  const ConnectProblem := "Problem connecting to the MonetDB server."

  /** The number of sockets the pool owns. */
  function Total(p: ConnectionPool): nat
  {
    |p.active| + |p.busy|
  }

  /** The identities `from`, `from + 1`, ..., `to - 1`. */
  function Range(from: int, to: int): (r: seq<SocketId>)
    requires from <= to
    ensures |r| == to - from
    ensures forall k :: 0 <= k < |r| ==> r[k] == from + k
  {
    seq(to - from, k requires 0 <= k < to - from => from + k)
  }

  /** No identity occurs twice. */
  predicate Distinct(s: seq<SocketId>)
  {
    forall x :: x in s ==> multiset(s)[x] <= 1
  }

  /**
   * The pool's bookkeeping is sound: no socket is both idle and busy, none is
   * listed twice, and every socket's identity was handed out already.
   */
  predicate Valid(p: ConnectionPool)
  {
    Distinct(p.active + p.busy) && forall x :: x in p.active + p.busy ==> x < p.next
  }

  /** The top-up loop's condition: below the minimum, or nothing idle and below the maximum. */
  predicate Wants(p: ConnectionPool)
  {
    Total(p) < p.min || (|p.active| == 0 && Total(p) < p.max)
  }

  function Bound(p: ConnectionPool): int
  {
    if p.min > p.max then p.min else p.max
  }

  /**
   * `Init`: opens sockets and enqueues them while the pool wants more. An I/O
   * failure is rethrown as MonetDbException, any other failure as it is;
   * either way the sockets enqueued before the failure stay.
   */
  function Init(p: ConnectionPool, connect: Connector): (r: Step<()>)
    ensures r.pool == p.(active := r.pool.active, next := r.pool.next)
    ensures p.next <= r.pool.next && r.pool.active == p.active + Range(p.next, r.pool.next)
    ensures r.result.Ok? ==> !Wants(r.pool)
    ensures r.result.Fail? ==>
      connect(r.pool.next).Failed?
      && r.result.error == (if connect(r.pool.next).error.IOException? then MonetDbException(ConnectProblem)
                            else connect(r.pool.next).error)
    decreases Bound(p) - Total(p)
  {
    if !Wants(p) then Step(p, Ok(()))
    else match connect(p.next)
      case Connected =>
        var r := Init(p.(active := p.active + [p.next], next := p.next + 1), connect);
        assert p.active + [p.next] + Range(p.next + 1, r.pool.next) == p.active + Range(p.next, r.pool.next);
        r
      case Failed(e) =>
        assert p.active + Range(p.next, p.next) == p.active;
        Step(p, Fail(if e.IOException? then MonetDbException(ConnectProblem) else e))
  }

  /** Every attempt to open a socket succeeds. */
  ghost predicate AlwaysConnects(connect: Connector)
  {
    forall id :: connect(id) == Connected
  }

  /** How many sockets the pool owns once `Init` has topped it up without failure. */
  function Target(p: ConnectionPool): int
  {
    if Total(p) < p.min then p.min
    else if |p.active| == 0 && Total(p) < p.max then Total(p) + 1
    else Total(p)
  }

  /** When every connection succeeds, `Init` succeeds and brings the pool to its target size. */
  lemma {:induction false} InitTotal(p: ConnectionPool, connect: Connector)
    requires AlwaysConnects(connect)
    ensures Init(p, connect).result.Ok?
    ensures Total(Init(p, connect).pool) == Target(p)
    decreases Bound(p) - Total(p)
  {
    if Wants(p) {
      var q := p.(active := p.active + [p.next], next := p.next + 1);
      assert connect(p.next) == Connected;
      InitTotal(q, connect);
      assert Target(q) == Target(p);
    }
  }

  /** A new pool whose bounds satisfy `1 <= min <= max` opens exactly `min` idle sockets. */
  lemma {:induction false} NewPool(settings: Settings, min: int, max: int, connect: Connector)
    requires AlwaysConnects(connect) && 1 <= min <= max
    ensures var r := Init(ConnectionPool(settings, min, max, [], [], 0), connect);
      r.result.Ok? && r.pool.active == Range(0, min) && r.pool.busy == []
  {
    InitTotal(ConnectionPool(settings, min, max, [], [], 0), connect);
  }

  /** `Init` never takes a pool that respects its maximum beyond it, whatever the connections do. */
  lemma {:induction false} InitWithinMax(p: ConnectionPool, connect: Connector)
    requires p.min <= p.max && Total(p) <= p.max
    ensures Total(Init(p, connect).pool) <= p.max
    decreases Bound(p) - Total(p)
  {
    if Wants(p) && connect(p.next).Connected? {
      InitWithinMax(p.(active := p.active + [p.next], next := p.next + 1), connect);
    }
  }

  lemma {:induction false} InValid(p: ConnectionPool, x: SocketId)
    requires Valid(p)
    ensures x in p.active || x in p.busy ==> x < p.next
  {
    if x in p.active || x in p.busy {
      assert x in p.active + p.busy;
    }
  }

  /** `Init` keeps the bookkeeping sound: the sockets it adds are fresh. */
  lemma {:induction false} InitValid(p: ConnectionPool, connect: Connector)
    requires Valid(p)
    ensures Valid(Init(p, connect).pool)
    decreases Bound(p) - Total(p)
  {
    if Wants(p) && connect(p.next).Connected? {
      var q := p.(active := p.active + [p.next], next := p.next + 1);
      var all := p.active + p.busy;
      var all' := q.active + q.busy;
      assert p.next !in all by { InValid(p, p.next); }
      var added: multiset<SocketId> := multiset{p.next};
      assert multiset(all') == multiset(all) + added;
      forall x | x in all'
        ensures x < q.next
      {
        if x != p.next {
          assert x in multiset(all);
          InValid(p, x);
        }
      }
      InitValid(q, connect);
    }
  }

  /**
   * `Dequeue`: tops the pool up, then moves the front idle socket to the end
   * of the busy list and returns it; `None` (a null socket) only when nothing
   * is idle even after topping up.
   */
  function Dequeue(p: ConnectionPool, connect: Connector): (r: Step<Option<SocketId>>)
    ensures var i := Init(p, connect);
      if i.result.Fail? then r == Step(i.pool, Fail(i.result.error))
      else if |i.pool.active| == 0 then r == Step(i.pool, Ok(None))
      else (r.result == Ok(Some(i.pool.active[0]))
        && r.pool == i.pool.(active := i.pool.active[1..], busy := i.pool.busy + [i.pool.active[0]]))
  {
    var i := Init(p, connect);
    if i.result.Fail? then Step(i.pool, Fail(i.result.error))
    else if |i.pool.active| == 0 then Step(i.pool, Ok(None))
    else
      var socket := i.pool.active[0];
      Step(i.pool.(active := i.pool.active[1..], busy := i.pool.busy + [socket]), Ok(Some(socket)))
  }

  /** `Dequeue` returns null only when the pool may not grow: its maximum is reached. */
  lemma {:induction false} DequeueNull(p: ConnectionPool, connect: Connector)
    requires Dequeue(p, connect).result == Ok(None)
    ensures Total(Dequeue(p, connect).pool) >= p.max && Total(Dequeue(p, connect).pool) >= p.min
  {
  }

  /** `Dequeue` keeps the bookkeeping sound and the maximum respected. */
  lemma {:induction false} DequeueValid(p: ConnectionPool, connect: Connector)
    requires Valid(p)
    ensures Valid(Dequeue(p, connect).pool)
    ensures p.min <= p.max && Total(p) <= p.max ==> Total(Dequeue(p, connect).pool) <= p.max
  {
    InitValid(p, connect);
    var i := Init(p, connect).pool;
    if p.min <= p.max && Total(p) <= p.max {
      InitWithinMax(p, connect);
    }
    if Init(p, connect).result.Ok? && |i.active| > 0 {
      var q := Dequeue(p, connect).pool;
      assert i.active == [i.active[0]] + i.active[1..];
      assert multiset(q.active + q.busy) == multiset(i.active + i.busy);
      forall x | x in q.active + q.busy ensures x < q.next {
        assert x in multiset(i.active + i.busy);
        InValid(i, x);
      }
    }
  }

  /** With `min = max = 2` and working connections, one `Dequeue` on a new pool leaves one idle socket. */
  lemma {:induction false} DequeueFromPairPool(settings: Settings, connect: Connector)
    requires AlwaysConnects(connect)
    ensures var created := Init(ConnectionPool(settings, 2, 2, [], [], 0), connect).pool;
      |Dequeue(created, connect).pool.active| == 1 && |Dequeue(created, connect).pool.busy| == 1
  {
    var created := Init(ConnectionPool(settings, 2, 2, [], [], 0), connect);
    NewPool(settings, 2, 2, connect);
    assert !Wants(created.pool);
  }

  /** `busy` without its first occurrence of `x`. */
  function RemoveFirst(s: seq<SocketId>, x: SocketId): (r: seq<SocketId>)
    ensures x in s ==> |r| == |s| - 1
    ensures x !in s ==> r == s
    ensures x in s ==> multiset(r) + multiset{x} == multiset(s)
  {
    if |s| == 0 then []
    else if s[0] == x then
      assert s == [x] + s[1..];
      s[1..]
    else
      assert s == [s[0]] + s[1..];
      [s[0]] + RemoveFirst(s[1..], x)
  }

  /** Removing the first occurrence keeps everything else, in order. */
  lemma {:induction false} RemoveFirstSplit(s: seq<SocketId>, x: SocketId, k: nat)
    requires k < |s| && s[k] == x && x !in s[..k]
    ensures RemoveFirst(s, x) == s[..k] + s[k + 1..]
  {
    if k > 0 {
      assert s[1..][..k - 1] == s[1..k];
      assert x !in s[1..][..k - 1];
      RemoveFirstSplit(s[1..], x, k - 1);
      assert s[..k] == [s[0]] + s[1..k];
    }
  }

  /**
   * `Free`: a socket that is not busy raises "Socket is not busy" and the
   * pool stays as it was; otherwise the socket leaves the busy list and joins
   * the back of the idle queue.
   */
  function Free(p: ConnectionPool, socket: SocketId): (r: Result<ConnectionPool>)
    ensures r.Fail? <==> socket !in p.busy
    ensures r.Fail? ==> r.error == GeneralException("Socket is not busy")
    ensures r.Ok? ==> (r.value.active == p.active + [socket] && Total(r.value) == Total(p)
      && r.value == p.(active := r.value.active, busy := r.value.busy))
  {
    if socket !in p.busy then Fail(GeneralException("Socket is not busy"))
    else Ok(p.(busy := RemoveFirst(p.busy, socket), active := p.active + [socket]))
  }

  /** `Free` keeps the bookkeeping sound. */
  lemma {:induction false} FreeValid(p: ConnectionPool, socket: SocketId)
    requires Valid(p) && Free(p, socket).Ok?
    ensures Valid(Free(p, socket).value)
  {
    var q := Free(p, socket).value;
    assert multiset(q.active + q.busy) == multiset(p.active + p.busy);
    forall x | x in q.active + q.busy ensures x < q.next {
      assert x in multiset(p.active + p.busy);
      InValid(p, x);
    }
  }

  /** A socket taken by `Dequeue` and handed back by `Free` ends at the back of the idle queue. */
  lemma {:induction false} DequeueThenFree(p: ConnectionPool, connect: Connector)
    requires Valid(p) && !Wants(p) && |p.active| > 0
    ensures var d := Dequeue(p, connect);
      d.result == Ok(Some(p.active[0]))
      && Free(d.pool, p.active[0]) == Ok(p.(active := p.active[1..] + [p.active[0]]))
  {
    var d := Dequeue(p, connect);
    var x := p.active[0];
    assert Init(p, connect) == Step(p, Ok(()));
    assert d.pool == p.(active := p.active[1..], busy := p.busy + [x]);
    assert x !in p.busy by {
      assert multiset(p.active + p.busy)[x] <= 1;
      assert p.active == [x] + p.active[1..];
      assert multiset(p.active + p.busy) == multiset{x} + multiset(p.active[1..]) + multiset(p.busy);
    }
    RemoveFirstSplit(p.busy + [x], x, |p.busy|);
    assert (p.busy + [x])[..|p.busy|] == p.busy;
    assert (p.busy + [x])[|p.busy| + 1..] == [];
    assert p.busy + [] == p.busy;
  }

  /**
   * `Clear`: peeks at the front idle socket once per socket above the minimum
   * (while anything is idle) and closes it if the age test holds; closing does
   * not dequeue, so the same socket is closed every time. `aged` stands for the
   * creation-time comparison against the clock, which the source evaluates
   * afresh on every pass; one answer is taken for the whole call.
   */
  function Clear(p: ConnectionPool, aged: bool): (closed: seq<SocketId>)
    ensures |closed| <= if Total(p) > p.min then Total(p) - p.min else 0
    ensures |closed| > 0 ==> |p.active| > 0 && forall k :: 0 <= k < |closed| ==> closed[k] == p.active[0]
    ensures aged && |p.active| > 0 ==> |closed| == (if Total(p) > p.min then Total(p) - p.min else 0)
  {
    if !aged || |p.active| == 0 || Total(p) <= p.min then []
    else seq(Total(p) - p.min, _ => p.active[0])
  }

  /**
   * `Clear` as evidently intended: the front idle sockets are dequeued and
   * closed, in queue order, until the pool is down to its minimum or
   * nothing is idle; nothing is closed unless the age test holds.
   */
  function ClearDequeuing(p: ConnectionPool, aged: bool): (r: (ConnectionPool, seq<SocketId>))
    ensures r.1 + r.0.active == p.active && r.0 == p.(active := r.0.active)
    ensures !aged ==> r.1 == []
    ensures Total(p) >= p.min ==> Total(r.0) >= p.min
    ensures aged && Total(p) >= p.min ==> Total(r.0) == if |p.busy| > p.min then |p.busy| else p.min
    ensures Total(p) <= p.min ==> r.1 == []
  {
    var surplus := if Total(p) > p.min then Total(p) - p.min else 0;
    var k := if !aged then 0 else if surplus < |p.active| then surplus else |p.active|;
    assert p.active[..k] + p.active[k..] == p.active;
    (p.(active := p.active[k..]), p.active[..k])
  }

  /** Clearing as intended closes each socket at most once and keeps the bookkeeping sound. */
  lemma {:induction false} ClearOnceEach(p: ConnectionPool, aged: bool)
    requires Valid(p)
    ensures Valid(ClearDequeuing(p, aged).0) && Distinct(ClearDequeuing(p, aged).1)
  {
    var (q, closed) := ClearDequeuing(p, aged);
    assert p.active + p.busy == closed + (q.active + q.busy);
    assert multiset(p.active + p.busy) == multiset(closed) + multiset(q.active + q.busy);
    forall x | x in closed ensures multiset(closed)[x] <= 1 {
      assert x in p.active + p.busy;
    }
    forall x | x in q.active + q.busy ensures multiset(q.active + q.busy)[x] <= 1 && x < q.next {
      assert x in p.active + p.busy;
    }
  }

  /**
   * With three idle sockets for which the age test holds and a minimum of
   * one, `Clear` as written closes socket 0 twice and leaves the pool as it was; as intended, sockets 0 and
   * 1 are closed and socket 2 stays idle.
   */
  lemma {:induction false} ClearRepeatsFront(s: Settings)
    ensures Clear(ConnectionPool(s, 1, 3, [0, 1, 2], [], 3), true) == [0, 0]
    ensures !Distinct([0, 0])
    ensures ClearDequeuing(ConnectionPool(s, 1, 3, [0, 1, 2], [], 3), true) == (ConnectionPool(s, 1, 3, [2], [], 3), [0, 1])
  {
    var p := ConnectionPool(s, 1, 3, [0, 1, 2], [], 3);
    assert Total(p) == 3;
    assert seq(2, _ => p.active[0]) == [0, 0];
    assert multiset([0, 0])[0] == 2;
    assert p.active[..2] == [0, 1] && p.active[2..] == [2];
  }

  /** `Dispose`: every idle socket is dequeued and closed, in queue order; busy sockets stay. */
  function Dispose(p: ConnectionPool): (r: (ConnectionPool, seq<SocketId>))
    ensures r.0.active == [] && r.0.busy == p.busy && r.0.next == p.next
    ensures r.1 == p.active
  {
    (p.(active := []), p.active)
  }

  /** A valid pool stays valid when disposed. */
  lemma {:induction false} DisposeValid(p: ConnectionPool)
    requires Valid(p)
    ensures Valid(Dispose(p).0)
  {
    var q := Dispose(p).0;
    assert q.active + q.busy == p.busy;
    assert multiset(p.active + p.busy) == multiset(p.active) + multiset(p.busy);
    forall x | x in p.busy ensures x < q.next && multiset(p.busy)[x] <= 1 {
      assert x in p.active + p.busy;
    }
  }
}

=== FILE: query_response.dfy ===
/**
 * The description of one result set: `QueryResponseInfo`, its column
 * metadata, and the parse of a response header line
 * (`MonetExt.ToQueryResponseInfo`).
 */
module QueryResponse {
  import opened Wrappers
  import opened Text

  /**
   * The metadata of one column. The column class is not part of this model;
   * its fields are taken to start out as .NET defaults (`None` for null).
   */
  datatype ColumnInfo = ColumnInfo(tableName: Option<string>, name: Option<string>, dataType: Option<string>, length: int)

  const NewColumn := ColumnInfo(None, None, None, 0)

  /**
   * `QueryResponseInfo` without its row data, which the result decoder pairs
   * with it. `columnCount` is the backing field of the `ColumnCount`
   * property; `None` means it was never set.
   */
  datatype Info = Info(
    id: int,
    columnCount: Option<int>,
    rowCount: int,
    tupleCount: int,
    recordsAffected: int,
    columns: Option<seq<ColumnInfo>>)

  /** `new QueryResponseInfo()`. */
  const DefaultInfo := Info(0, None, 0, 0, 0, None)

  /**
   * The `ColumnCount` getter: the value set, if any; otherwise the number of
   * columns, or 0 when there are no columns.
   */
  function ColumnCount(info: Info): (n: int)
    ensures info.columnCount.Some? ==> n == info.columnCount.value
    ensures info.columnCount.None? && info.columns.Some? ==> n == |info.columns.value|
    ensures info.columnCount.None? && info.columns.None? ==> n == 0
  {
    match info.columnCount
    case Some(v) => v
    case None => if info.columns.Some? then |info.columns.value| else 0
  }

  /** The `ColumnCount` setter: stores the value and nothing else. */
  function SetColumnCount(info: Info, value: int): (r: Info)
    ensures r.columnCount == Some(value)
    ensures r.(columnCount := info.columnCount) == info
  {
    info.(columnCount := Some(value))
  }

  /** Once set, the count is the value set, whatever the columns are. */
  lemma {:induction false} SetThenGet(info: Info, value: int, columns: Option<seq<ColumnInfo>>)
    ensures ColumnCount(SetColumnCount(info, value)) == value
    ensures ColumnCount(SetColumnCount(info, value).(columns := columns)) == value
  {
  }

  /** Until set, the count follows the columns. */
  lemma {:induction false} UnsetFollowsColumns(info: Info, columns: seq<ColumnInfo>)
    requires info.columnCount.None?
    ensures ColumnCount(info.(columns := Some(columns))) == |columns|
    ensures ColumnCount(info.(columns := None)) == 0
  {
  }

  // ---------------------------------------------------------------------------
  // Parsing a response header line
  // ---------------------------------------------------------------------------

  /** The kinds of response whose header line carries counts. */
  predicate CountedKind(kind: string) { kind == "1" || kind == "5" }

  /** Field `i` of the split line as an integer; a missing field is an array index error. */
  function Field(parts: seq<string>, i: nat): (r: Result<int>)
    ensures r.Ok? <==> i < |parts| && ParseInt32(parts[i]).Ok?
    ensures r.Ok? ==> r == ParseInt32(parts[i])
    ensures r.Fail? ==> r.error in {IndexOutOfRangeException, FormatException, OverflowException}
  {
    if i < |parts| then ParseInt32(parts[i]) else Fail(IndexOutOfRangeException)
  }

  /**
   * `ToQueryResponseInfo`: drops the line's first character and splits the
   * rest on single spaces. For kinds 1 and 5, fields 1 to 4 are the id, the
   * tuple count, the column count and the row count, read in that order;
   * any other kind gives a default record.
   */
  function ToQueryResponseInfo(line: string): (r: Result<Info>)
    ensures |line| == 0 <==> r == Fail(ArgumentOutOfRangeException("startIndex"))
    ensures |line| > 0 ==> r == FromParts(Split(line[1..], ' '))
  {
    if |line| == 0 then Fail(ArgumentOutOfRangeException("startIndex"))
    else FromParts(Split(line[1..], ' '))
  }

  /**
   * The record a split header line describes: for a counted kind, the four
   * fields after the kind, each of which must be an integer; otherwise the
   * default record.
   */
  function FromParts(parts: seq<string>): (r: Result<Info>)
    requires |parts| > 0
    ensures r.Ok? ==> r.value.recordsAffected == 0
  {
    if CountedKind(parts[0]) then
      var id :- Field(parts, 1);
      var tuples :- Field(parts, 2);
      var columns :- Field(parts, 3);
      var rows :- Field(parts, 4);
      Ok(Info(id, Some(columns), rows, tuples, 0, None))
    else Ok(DefaultInfo)
  }

  /**
   * A kind that does not count gives the default record; for a counted
   * kind the record is read iff fields 1 to 4 are all integers, and holds
   * them as the id, the tuple count, the column count and the row count.
   */
  lemma {:induction false} FromPartsMeaning(parts: seq<string>)
    requires |parts| > 0
    ensures !CountedKind(parts[0]) ==> FromParts(parts) == Ok(DefaultInfo)
    ensures CountedKind(parts[0]) ==>
              (FromParts(parts).Ok? <==> Field(parts, 1).Ok? && Field(parts, 2).Ok? && Field(parts, 3).Ok? && Field(parts, 4).Ok?)
    ensures CountedKind(parts[0]) && FromParts(parts).Ok? ==>
              FromParts(parts).value == Info(Field(parts, 1).value, Some(Field(parts, 3).value),
                                             Field(parts, 4).value, Field(parts, 2).value, 0, None)
    ensures FromParts(parts).Fail? ==> FromParts(parts).error in {IndexOutOfRangeException, FormatException, OverflowException}
  {
    if CountedKind(parts[0]) {
      if Field(parts, 1).Ok? && Field(parts, 2).Ok? && Field(parts, 3).Ok? && Field(parts, 4).Ok? {
        CountedRead(parts, Field(parts, 1).value, Field(parts, 2).value, Field(parts, 3).value, Field(parts, 4).value);
      } else {
        CountedRefused(parts);
      }
    }
  }

  /** Four integer fields after a counted kind are read as the id, tuple, column and row counts. */
  lemma {:induction false} CountedRead(parts: seq<string>, id: int, tuples: int, columns: int, rows: int)
    requires |parts| > 0 && CountedKind(parts[0])
    requires Field(parts, 1) == Ok(id) && Field(parts, 2) == Ok(tuples)
    requires Field(parts, 3) == Ok(columns) && Field(parts, 4) == Ok(rows)
    ensures FromParts(parts) == Ok(Info(id, Some(columns), rows, tuples, 0, None))
  {
  }

  /** A counted kind with a missing or non-integer field is refused with that field's error. */
  lemma {:induction false} CountedRefused(parts: seq<string>)
    requires |parts| > 0 && CountedKind(parts[0])
    requires !(Field(parts, 1).Ok? && Field(parts, 2).Ok? && Field(parts, 3).Ok? && Field(parts, 4).Ok?)
    ensures FromParts(parts).Fail?
    ensures FromParts(parts).error in {IndexOutOfRangeException, FormatException, OverflowException}
  {
    if Field(parts, 1).Fail? {
      assert FromParts(parts) == Fail(Field(parts, 1).error);
    } else if Field(parts, 2).Fail? {
      assert FromParts(parts) == Fail(Field(parts, 2).error);
    } else if Field(parts, 3).Fail? {
      assert FromParts(parts) == Fail(Field(parts, 3).error);
    } else {
      assert FromParts(parts) == Fail(Field(parts, 4).error);
    }
  }

  /** Only whether the kind counts, and the fields after it, matter. */
  lemma {:induction false} FromPartsAlike(p: seq<string>, q: seq<string>)
    requires |p| > 0 && |q| > 0 && CountedKind(p[0]) == CountedKind(q[0]) && p[1..] == q[1..]
    ensures FromParts(p) == FromParts(q)
  {
    forall i | 1 <= i ensures Field(p, i) == Field(q, i) {
      if i < |p| { assert p[i] == p[1..][i - 1] && q[i] == q[1..][i - 1]; }
    }
  }

  /** A header line as the server writes it: a marker, the kind, then the counts. */
  function InfoLine(marker: char, kind: string, id: int, tuples: int, columns: int, rows: int): string
  {
    [marker] + Join([kind, IntToString(id), IntToString(tuples), IntToString(columns), IntToString(rows)], " ")
  }

  lemma {:induction false} NoSpaceInNumber(n: int)
    ensures ' ' !in IntToString(n)
  {
  }

  /** Reading a header line gives back the counts written into it. */
  lemma {:induction false} InfoLineRoundTrip(marker: char, kind: string, id: int, tuples: int, columns: int, rows: int)
    requires CountedKind(kind)
    requires InInt32(id) && InInt32(tuples) && InInt32(columns) && InInt32(rows)
    ensures ToQueryResponseInfo(InfoLine(marker, kind, id, tuples, columns, rows))
            == Ok(Info(id, Some(columns), rows, tuples, 0, None))
  {
    InfoLineSplits(marker, kind, id, tuples, columns, rows);
    CountedParts(kind, id, tuples, columns, rows);
  }

  /** The header line splits back into the kind and the four numbers as text. */
  lemma {:induction false} InfoLineSplits(marker: char, kind: string, id: int, tuples: int, columns: int, rows: int)
    requires CountedKind(kind)
    ensures var line := InfoLine(marker, kind, id, tuples, columns, rows);
            |line| > 0
            && Split(line[1..], ' ') == [kind, IntToString(id), IntToString(tuples), IntToString(columns), IntToString(rows)]
  {
    var parts := [kind, IntToString(id), IntToString(tuples), IntToString(columns), IntToString(rows)];
    NoSpaceInNumber(id);
    NoSpaceInNumber(tuples);
    NoSpaceInNumber(columns);
    NoSpaceInNumber(rows);
    assert ' ' !in kind;
    SplitJoin(parts, ' ');
  }

  /** The four numbers, written as text after a counted kind, are read back. */
  lemma {:induction false} CountedParts(kind: string, id: int, tuples: int, columns: int, rows: int)
    requires CountedKind(kind)
    requires InInt32(id) && InInt32(tuples) && InInt32(columns) && InInt32(rows)
    ensures FromParts([kind, IntToString(id), IntToString(tuples), IntToString(columns), IntToString(rows)])
            == Ok(Info(id, Some(columns), rows, tuples, 0, None))
  {
    ParseIntToString(id);
    ParseIntToString(tuples);
    ParseIntToString(columns);
    ParseIntToString(rows);
    CountedTexts(kind, IntToString(id), IntToString(tuples), IntToString(columns), IntToString(rows), id, tuples, columns, rows);
  }

  /** Four texts that parse as integers, after a counted kind, give those integers as the counts. */
  lemma {:induction false} CountedTexts(kind: string, a: string, b: string, c: string, d: string,
                                        id: int, tuples: int, columns: int, rows: int)
    requires CountedKind(kind)
    requires ParseInt32(a) == Ok(id) && ParseInt32(b) == Ok(tuples)
    requires ParseInt32(c) == Ok(columns) && ParseInt32(d) == Ok(rows)
    ensures FromParts([kind, a, b, c, d]) == Ok(Info(id, Some(columns), rows, tuples, 0, None))
  {
    var parts := [kind, a, b, c, d];
    FieldParsed(parts, 1, a, id);
    FieldParsed(parts, 2, b, tuples);
    FieldParsed(parts, 3, c, columns);
    FieldParsed(parts, 4, d, rows);
    CountedRead(parts, id, tuples, columns, rows);
  }

  lemma {:induction false} FieldParsed(parts: seq<string>, i: nat, text: string, n: int)
    requires i < |parts| && parts[i] == text && ParseInt32(text) == Ok(n)
    ensures Field(parts, i) == Ok(n)
  {
  }

  /** Kinds 1 and 5 are read alike: only the kind character differs. */
  lemma {:induction false} KindsAlike(marker: char, rest: string)
    ensures ToQueryResponseInfo([marker] + "1" + rest) == ToQueryResponseInfo([marker] + "5" + rest)
  {
    var one, five := ([marker] + "1" + rest)[1..], ([marker] + "5" + rest)[1..];
    assert one == ['1'] + rest && five == ['5'] + rest;
    SplitPrepend('1', rest, ' ');
    SplitPrepend('5', rest, ' ');
    var tail := Split(rest, ' ');
    assert Split(one, ' ')[0] == "1" <==> tail[0] == "";
    assert Split(five, ' ')[0] == "5" <==> tail[0] == "";
    assert Split(one, ' ')[1..] == Split(five, ' ')[1..];
    FromPartsAlike(Split(one, ' '), Split(five, ' '));
  }

  /**
   * A row line, which starts with a bracket and a space, splits into an
   * empty first field and so gives a default record.
   */
  lemma {:induction false} RowLineInfo(rest: string)
    ensures ToQueryResponseInfo("[ " + rest) == Ok(DefaultInfo)
  {
    assert ("[ " + rest)[1..] == [' '] + rest;
  }
}

=== FILE: result_decoder.dfy ===
/**
 * The response decoder (`ResultEnumerator`): reads the text lines of a
 * server reply, dispatches on their first character, builds column
 * metadata from the header lines and pairs each result set with its rows,
 * which the row tokenizer reads from the bracketed lines.
 */
module ResultDecoder {
  import opened Wrappers
  import opened Text
  import Lexer
  import opened QueryResponse

  // ---------------------------------------------------------------------------
  // Header lines: `% v1,\tv2,\t... # key`
  // ---------------------------------------------------------------------------

  /** The characters `Trim(' ', '\t')` removes from a header value. */
  const Padding: set<char> := {' ', '\t'}

  /** `SplitCommaTabs`: the comma-separated pieces, each trimmed of spaces and tabs. */
  function SplitCommaTabs(s: string): (vs: seq<string>)
    ensures |vs| == |Split(s, ',')|
    ensures forall i :: 0 <= i < |vs| ==> vs[i] == Trim(Split(s, ',')[i], Padding)
  {
    TrimAll(Split(s, ','))
  }

  function TrimAll(pieces: seq<string>): (vs: seq<string>)
    ensures |vs| == |pieces|
    ensures forall i :: 0 <= i < |vs| ==> vs[i] == Trim(pieces[i], Padding)
  {
    if |pieces| == 0 then [] else [Trim(pieces[0], Padding)] + TrimAll(pieces[1..])
  }

  /**
   * `ExtractValuesList(s, "%", "#")`: the text strictly between the first
   * `%` and the first `#`, split into values. When the first `#` does not
   * come after the first `%` (or is missing) the substring has a negative
   * length and fails.
   */
  function ValuesList(s: string): (r: Result<seq<string>>)
    ensures r.Ok? <==> IndexOf(s, '#') > IndexOf(s, '%')
    ensures r.Ok? ==> r.value == SplitCommaTabs(s[IndexOf(s, '%') + 1..IndexOf(s, '#')])
    ensures r.Fail? ==> r.error == ArgumentOutOfRangeException("length")
  {
    var start, end := IndexOf(s, '%'), IndexOf(s, '#');
    if end - start - 1 < 0 then Fail(ArgumentOutOfRangeException("length"))
    else Ok(SplitCommaTabs(s[start + 1..end]))
  }

  /**
   * `SplitColumnInfoLine`: the key after the first `#`, trimmed of white
   * space (the whole line when there is no `#`), and the values.
   */
  function HeaderLine(s: string): (r: Result<(string, seq<string>)>)
    ensures r.Ok? <==> ValuesList(s).Ok?
    ensures r.Ok? ==> r.value.0 == HeaderKey(s) && r.value.1 == ValuesList(s).value
    ensures r.Ok? ==> |r.value.1| > 0
  {
    match ValuesList(s)
    case Fail(e) => Fail(e)
    case Ok(values) => Ok((HeaderKey(s), values))
  }

  /** The text after the first `#` (the whole line when there is none), trimmed of white space. */
  function HeaderKey(s: string): string
  {
    var h := IndexOf(s, '#');
    Trim(s[h + 1..], WhiteSpace)
  }

  /** A header line laid out from raw pieces and a key. */
  function RenderHeader(pieces: seq<string>, key: string): string
  {
    "%" + Join(pieces, ",") + "#" + key
  }

  /**
   * Reading a header line gives back its key, trimmed, and its pieces,
   * each trimmed of spaces and tabs.
   */
  lemma {:induction false} HeaderLineRoundTrip(pieces: seq<string>, key: string)
    requires |pieces| > 0
    requires forall i :: 0 <= i < |pieces| ==> ',' !in pieces[i] && '%' !in pieces[i] && '#' !in pieces[i]
    ensures HeaderLine(RenderHeader(pieces, key)) == Ok((Trim(key, WhiteSpace), TrimAll(pieces)))
  {
    var body := Join(pieces, ",");
    JoinAvoids(pieces, ",", '%');
    JoinAvoids(pieces, ",", '#');
    HeaderOf(body, key);
    SplitJoin(pieces, ',');
  }

  lemma {:induction false} HeaderOf(body: string, key: string)
    requires '%' !in body && '#' !in body
    ensures HeaderLine("%" + body + "#" + key) == Ok((Trim(key, WhiteSpace), SplitCommaTabs(body)))
  {
    var s := "%" + body + "#" + key;
    var k := |body| + 1;
    assert s[0] == '%';
    assert s[k] == '#';
    assert s[..k] == "%" + body;
    IndexOfFirst(s, '#', k);
    assert s[1..k] == body;
    assert s[k + 1..] == key;
  }

  lemma {:induction false} JoinAvoids(parts: seq<string>, sep: string, c: char)
    requires c !in sep
    requires forall i :: 0 <= i < |parts| ==> c !in parts[i]
    ensures c !in Join(parts, sep)
    decreases |parts|
  {
    if |parts| > 1 {
      JoinAvoids(parts[1..], sep, c);
    }
  }

  lemma {:induction false} IndexOfFirst(s: string, c: char, k: int)
    requires 0 <= k < |s| && s[k] == c && c !in s[..k]
    ensures IndexOf(s, c) == k
  {
  }

  /** The layout the server uses, `% v1,\tv2 # key`, gives back exactly its values. */
  lemma {:induction false} ServerHeaderLine(values: seq<string>, key: string)
    requires |values| > 0
    requires forall i :: 0 <= i < |values| ==> Plain(values[i])
    ensures HeaderLine(RenderHeader(ServerPieces(values), " " + key)) == Ok((Trim(key, WhiteSpace), values))
  {
    var pieces := ServerPieces(values);
    PiecesPlain(values);
    HeaderLineRoundTrip(pieces, " " + key);
    LeadingSpaceTrimmed(key);
    ServerTrimmed(values);
  }

  /** Trimming the server's pieces gives back the values. */
  lemma {:induction false} ServerTrimmed(values: seq<string>)
    requires forall i :: 0 <= i < |values| ==> Plain(values[i])
    ensures TrimAll(ServerPieces(values)) == values
  {
    var pieces := ServerPieces(values);
    forall i | 0 <= i < |pieces| ensures TrimAll(pieces)[i] == values[i] {
      PieceTrimmed(i, values[i]);
    }
  }

  lemma {:induction false} LeadingSpaceTrimmed(key: string)
    ensures Trim(" " + key, WhiteSpace) == Trim(key, WhiteSpace)
  {
    assert (" " + key)[1..] == key;
  }

  lemma {:induction false} PieceTrimmed(i: int, v: string)
    requires Plain(v)
    ensures Trim(PieceLead(i) + v + " ", Padding) == v
  {
    TrimSurrounded(PieceLead(i), v, " ", Padding);
  }

  /** A header value with no separators in it and nothing to trim around it. */
  predicate Plain(v: string)
  {
    |v| > 0 && v[0] !in Padding && v[|v| - 1] !in Padding && ',' !in v && '%' !in v && '#' !in v
  }

  function PieceLead(i: int): string { if i == 0 then " " else "\t" }

  /** `[" v1 ", "\tv2 ", ...]`: joined with `,` this is the server's value list. */
  function ServerPieces(values: seq<string>): (ps: seq<string>)
    requires forall i :: 0 <= i < |values| ==> Plain(values[i])
    ensures |ps| == |values|
    ensures forall i :: 0 <= i < |ps| ==> ps[i] == PieceLead(i) + values[i] + " "
  {
    seq(|values|, i requires 0 <= i < |values| => PieceLead(i) + values[i] + " ")
  }

  lemma {:induction false} PiecesPlain(values: seq<string>)
    requires forall i :: 0 <= i < |values| ==> Plain(values[i])
    ensures forall i :: 0 <= i < |values| ==> var p := ServerPieces(values)[i]; ',' !in p && '%' !in p && '#' !in p
  {
    forall i | 0 <= i < |values|
      ensures var p := ServerPieces(values)[i]; ',' !in p && '%' !in p && '#' !in p
    {
      var p := ServerPieces(values)[i];
      assert p == PieceLead(i) + values[i] + " ";
      forall c | c in p ensures c in PieceLead(i) || c in values[i] || c == ' ' {
      }
    }
  }

  // ---------------------------------------------------------------------------
  // Column metadata
  // ---------------------------------------------------------------------------

  /** The keys `GetColumnInfo` understands. */
  predicate KnownKey(key: string) { key in {"table_name", "name", "type", "length"} }

  /** The effect of one header value on one column. */
  function Assign(c: ColumnInfo, key: string, value: string): (r: Result<ColumnInfo>)
    ensures !KnownKey(key) ==> r == Ok(c)
    ensures key == "table_name" ==> r == Ok(c.(tableName := Some(value)))
    ensures key == "name" ==> r == Ok(c.(name := Some(value)))
    ensures key == "type" ==> r == Ok(c.(dataType := Some(value)))
    ensures key == "length" ==> r.Ok? == ParseInt32(value).Ok?
    ensures key == "length" && r.Ok? ==> r.value == c.(length := ParseInt32(value).value)
  {
    match key
    case "table_name" => Ok(c.(tableName := Some(value)))
    case "name" => Ok(c.(name := Some(value)))
    case "type" => Ok(c.(dataType := Some(value)))
    case "length" => var n :- ParseInt32(value); Ok(c.(length := n))
    case _ => Ok(c)
  }

  /**
   * The inner loop of `GetColumnInfo` from value `i` on: value `j` is
   * assigned to column `j`. A known key with more values than columns runs
   * off the end of the column list.
   */
  function ApplyLine(cols: seq<ColumnInfo>, key: string, values: seq<string>, i: nat): (r: Result<seq<ColumnInfo>>)
    requires i <= |values|
    ensures !KnownKey(key) ==> r == Ok(cols)
    ensures KnownKey(key) && |values| > |cols| && i <= |cols| ==> r.Fail?
    ensures r.Ok? ==> |r.value| == |cols|
    ensures r.Ok? ==> forall j :: 0 <= j < |cols| && !(i <= j < |values|) ==> r.value[j] == cols[j]
    ensures r.Ok? ==> forall j :: i <= j < |values| && j < |cols| ==> Assign(cols[j], key, values[j]) == Ok(r.value[j])
    decreases |values| - i
  {
    if i == |values| then Ok(cols)
    else if !KnownKey(key) then ApplyLine(cols, key, values, i + 1)
    else if i >= |cols| then Fail(ArgumentOutOfRangeException("index"))
    else
      var c :- Assign(cols[i], key, values[i]);
      ApplyLine(cols[i := c], key, values, i + 1)
  }

  /** `new MonetDbColumnInfo()` for each value of the first header line. */
  function FreshColumns(n: nat): (cols: seq<ColumnInfo>)
    ensures |cols| == n && forall j :: 0 <= j < n ==> cols[j] == NewColumn
  {
    seq(n, _ => NewColumn)
  }

  /** The header lines, each split into its key and values (`headerInfo.Select(SplitColumnInfoLine)`). */
  function HeaderLines(header: seq<string>): (infos: seq<Result<(string, seq<string>)>>)
    ensures |infos| == |header|
  {
    seq(|header|, k requires 0 <= k < |header| => HeaderLine(header[k]))
  }

  /**
   * `GetColumnInfo` from header line `k` on, with the columns built so far:
   * the first line makes one column per value, and every line assigns its
   * values to the columns under its key. A line is split only when the loop
   * reaches it, so a malformed line fails after the lines before it.
   */
  function ColumnsFrom(infos: seq<Result<(string, seq<string>)>>, k: nat, cols: seq<ColumnInfo>): (r: Result<seq<ColumnInfo>>)
    requires k <= |infos|
    requires forall i :: 0 <= i < |infos| && infos[i].Ok? ==> |infos[i].value.1| > 0
    ensures r.Ok? && |cols| > 0 ==> |r.value| == |cols|
    ensures r.Ok? && |cols| == 0 && k < |infos| ==> infos[k].Ok? && |r.value| == |infos[k].value.1|
    decreases |infos| - k
  {
    if k == |infos| then Ok(cols)
    else
      var (key, values) :- infos[k];
      var list := if |cols| == 0 then FreshColumns(|values|) else cols;
      var next :- ApplyLine(list, key, values, 0);
      ColumnsFrom(infos, k + 1, next)
  }

  /** The columns a run of header lines describes. */
  function Columns(header: seq<string>): (r: Result<seq<ColumnInfo>>)
    ensures |header| == 0 ==> r == Ok([])
    ensures r.Ok? && |header| > 0 ==> HeaderLine(header[0]).Ok? && |r.value| == |HeaderLine(header[0]).value.1|
  {
    ColumnsFrom(HeaderLines(header), 0, [])
  }

  /**
   * Split header lines that all parse, each with `n` values, and whose
   * `length` values are all integers.
   */
  predicate Uniform(infos: seq<Result<(string, seq<string>)>>, n: nat)
  {
    forall k :: 0 <= k < |infos| ==>
      infos[k].Ok? && |infos[k].value.1| == n
      && (infos[k].value.0 == "length" ==> forall j :: 0 <= j < n ==> ParseInt32(infos[k].value.1[j]).Ok?)
  }

  /**
   * Column-wise reading of a header: column `j` after value `j` of each
   * line from line `k` on has been applied to it, in order.
   */
  function Overlay(c: ColumnInfo, infos: seq<Result<(string, seq<string>)>>, k: nat, n: nat, j: nat): ColumnInfo
    requires k <= |infos| && Uniform(infos, n) && j < n
    decreases |infos| - k
  {
    if k == |infos| then c
    else
      var (key, values) := infos[k].value;
      Overlay(Assign(c, key, values[j]).value, infos, k + 1, n, j)
  }

  lemma {:induction false} ApplyLineOk(cols: seq<ColumnInfo>, key: string, values: seq<string>, i: nat)
    requires i <= |values| <= |cols|
    requires key == "length" ==> forall j :: i <= j < |values| ==> ParseInt32(values[j]).Ok?
    ensures ApplyLine(cols, key, values, i).Ok?
    decreases |values| - i
  {
    if i < |values| && KnownKey(key) {
      var c := Assign(cols[i], key, values[i]).value;
      ApplyLineOk(cols[i := c], key, values, i + 1);
    }
  }

  lemma {:induction false} ColumnsFromWise(infos: seq<Result<(string, seq<string>)>>, k: nat, cols: seq<ColumnInfo>)
    requires k <= |infos| && |cols| > 0 && Uniform(infos, |cols|)
    ensures ColumnsFrom(infos, k, cols).Ok?
    ensures var r := ColumnsFrom(infos, k, cols).value;
            |r| == |cols| && forall j :: 0 <= j < |cols| ==> r[j] == Overlay(cols[j], infos, k, |cols|, j)
    decreases |infos| - k
  {
    var n := |cols|;
    if k < |infos| {
      var key, values := infos[k].value.0, infos[k].value.1;
      ApplyLineOk(cols, key, values, 0);
      var next := ApplyLine(cols, key, values, 0).value;
      assert ColumnsFrom(infos, k, cols) == ColumnsFrom(infos, k + 1, next);
      ColumnsFromWise(infos, k + 1, next);
      forall j | 0 <= j < n ensures Overlay(cols[j], infos, k, n, j) == Overlay(next[j], infos, k + 1, n, j) {
        assert Assign(cols[j], key, values[j]) == Ok(next[j]);
      }
    }
  }

  /**
   * The line-by-line loop of `GetColumnInfo` agrees with reading the header
   * column by column: there are as many columns as the first line has
   * values, and column `j` is a fresh column with value `j` of every line
   * applied under that line's key, in order, so the last line with a key
   * wins and lines with unknown keys change nothing.
   */
  lemma {:induction false} ColumnsWise(header: seq<string>, n: nat)
    requires |header| > 0 && n > 0 && Uniform(HeaderLines(header), n)
    ensures Columns(header).Ok?
    ensures var r := Columns(header).value;
            |r| == n && forall j :: 0 <= j < n ==> r[j] == Overlay(NewColumn, HeaderLines(header), 0, n, j)
  {
    var infos := HeaderLines(header);
    StartFresh(infos, n);
    ColumnsFromWise(infos, 0, FreshColumns(n));
    WiseFresh(infos, n, ColumnsFrom(infos, 0, FreshColumns(n)));
  }

  lemma {:induction false} WiseFresh(infos: seq<Result<(string, seq<string>)>>, n: nat, r: Result<seq<ColumnInfo>>)
    requires Uniform(infos, n) && r.Ok? && |r.value| == n
    requires forall j :: 0 <= j < n ==> r.value[j] == Overlay(FreshColumns(n)[j], infos, 0, n, j)
    ensures forall j :: 0 <= j < n ==> r.value[j] == Overlay(NewColumn, infos, 0, n, j)
  {
    forall j | 0 <= j < n ensures r.value[j] == Overlay(NewColumn, infos, 0, n, j) {
      assert FreshColumns(n)[j] == NewColumn;
    }
  }

  /** Starting without columns is starting with as many fresh columns as the first line has values. */
  lemma {:induction false} StartFresh(infos: seq<Result<(string, seq<string>)>>, n: nat)
    requires |infos| > 0 && n > 0 && Uniform(infos, n)
    ensures ColumnsFrom(infos, 0, []) == ColumnsFrom(infos, 0, FreshColumns(n))
  {
    assert |infos[0].value.1| == n;
  }

  // ---------------------------------------------------------------------------
  // Reading a reply (`GetResults`, `GetRows`)
  // ---------------------------------------------------------------------------

  /**
   * One yielded result set: its description and, when the consumer
   * enumerated its rows, the rows read (`None` when they never were).
   */
  datatype ResultSet = ResultSet(info: Info, rows: Option<seq<seq<string>>>)

  /** The result sets yielded before the enumeration stopped, and the exception that stopped it. */
  datatype Decoded = Decoded(sets: seq<ResultSet>, error: Option<Exception>)

  /** The row tokenizer's reading of some lines up to one, with its exception, and where it stopped. */
  datatype Run = Run(rows: seq<seq<string>>, error: Option<Exception>, end: nat)

  /** `Environment.NewLine`. */
  const EnvironmentNewLine := "\n"

  /** The set yielded for a reply without any bracketed line: no columns, no rows. */
  const EmptySet := ResultSet(DefaultInfo.(columns := Some([])), Some([]))

  predicate HeaderText(l: string) { |l| > 0 && (l[0] == '%' || l[0] == '#') }
  predicate RowText(l: string) { |l| > 0 && l[0] == '[' }
  /** A line the dispatch sends to its default branch. */
  predicate OtherText(l: string) { |l| > 0 && l[0] !in {'!', '%', '#', '&', '['} }

  /**
   * The loop after an error line: each further line up to one equal to "."
   * adds a line break and the line without its first character to the
   * message. Running out of lines reads `null`, whose `Substring` fails;
   * an empty line has no character to drop.
   */
  function ErrorBlock(lines: seq<string>, pos: nat, message: string): (e: Exception)
    ensures e.MonetDbException? || e == NullReferenceException || e == ArgumentOutOfRangeException("startIndex")
    decreases |lines| - pos
  {
    if pos >= |lines| then NullReferenceException
    else if lines[pos] == "." then MonetDbException(message)
    else if |lines[pos]| == 0 then ArgumentOutOfRangeException("startIndex")
    else ErrorBlock(lines, pos + 1, message + EnvironmentNewLine + lines[pos][1..])
  }

  /** Each line without its first character. */
  function Tails(ls: seq<string>): (ts: seq<string>)
    requires forall i :: 0 <= i < |ls| ==> |ls[i]| > 0
    ensures |ts| == |ls| && forall i :: 0 <= i < |ls| ==> ts[i] == ls[i][1..]
  {
    seq(|ls|, i requires 0 <= i < |ls| => ls[i][1..])
  }

  /**
   * An error block closed by "." gives a `MonetDbException` whose message is
   * the error line's text and the continuation lines' tails, one per line.
   */
  lemma {:induction false} ErrorBlockMessage(lines: seq<string>, pos: nat, m: nat, message: string)
    requires pos + m < |lines| && lines[pos + m] == "."
    requires forall i :: pos <= i < pos + m ==> |lines[i]| > 0 && lines[i] != "."
    ensures ErrorBlock(lines, pos, message) == MonetDbException(Join([message] + Tails(lines[pos..pos + m]), EnvironmentNewLine))
    decreases m
  {
    if m == 0 {
      assert [message] + Tails(lines[pos..pos]) == [message];
    } else {
      var t := lines[pos][1..];
      var next := message + EnvironmentNewLine + t;
      ErrorBlockMessage(lines, pos + 1, m - 1, next);
      var rest := Tails(lines[pos + 1..pos + m]);
      assert Tails(lines[pos..pos + m]) == [t] + rest;
      JoinCons(message, t, rest, EnvironmentNewLine);
    }
  }

  lemma {:induction false} JoinCons(a: string, b: string, rest: seq<string>, sep: string)
    ensures Join([a + sep + b] + rest, sep) == Join([a] + ([b] + rest), sep)
  {
    if |rest| > 0 {
      assert ([a + sep + b] + rest)[1..] == rest;
      assert ([a] + ([b] + rest))[1..] == [b] + rest;
      assert ([b] + rest)[1..] == rest;
    } else {
      assert [a] + ([b] + rest) == [a, b];
    }
  }

  /**
   * `GetRows` from the line at `pos`, the bracketed line that started the
   * set: every line that starts with a bracket is one row, tokenized between
   * brackets; the first other line ends the run. Running out of lines is
   * an end-of-stream error, and an empty line has no first character.
   */
  function RowRun(lines: seq<string>, pos: nat): (r: Run)
    requires pos < |lines|
    ensures pos <= r.end < |lines| && |r.rows| <= r.end - pos + 1
    ensures r.error.None? ==> OtherOrHeader(lines[r.end]) && forall i :: pos <= i < r.end ==> RowText(lines[i])
    ensures r.error.None? ==> |r.rows| == r.end - pos
    decreases |lines| - pos
  {
    var l := lines[pos];
    if |l| == 0 then Run([], Some(IndexOutOfRangeException), pos)
    else if l[0] != '[' then Run([], None, pos)
    else
      match Lexer.Parse(l, '[', ']')
      case Fail(e) => Run([], Some(e), pos)
      case Ok(row) =>
        if pos + 1 == |lines| then Run([row], Some(IOException("Cannot read closed stream")), pos)
        else
          var rest := RowRun(lines, pos + 1);
          Run([row] + rest.rows, rest.error, rest.end)
  }

  /** A non-empty line that does not start with a bracket. */
  predicate OtherOrHeader(l: string) { |l| > 0 && l[0] != '[' }

  /** Each line tokenized between brackets. */
  function ParsedRows(ls: seq<string>): (rows: seq<seq<string>>)
    requires forall i :: 0 <= i < |ls| ==> Lexer.Parse(ls[i], '[', ']').Ok?
    ensures |rows| == |ls| && forall i :: 0 <= i < |ls| ==> rows[i] == Lexer.Parse(ls[i], '[', ']').value
  {
    seq(|ls|, i requires 0 <= i < |ls| => Lexer.Parse(ls[i], '[', ']').value)
  }

  /**
   * A run of bracketed lines that all tokenize, closed by another non-empty
   * line, reads as exactly their rows and stops at the closing line.
   */
  lemma {:induction false} RowRunParsed(lines: seq<string>, pos: nat, m: nat)
    requires pos + m < |lines| && OtherOrHeader(lines[pos + m])
    requires forall i :: pos <= i < pos + m ==> RowText(lines[i]) && Lexer.Parse(lines[i], '[', ']').Ok?
    ensures RowRun(lines, pos) == Run(ParsedRows(lines[pos..pos + m]), None, pos + m)
    decreases m
  {
    if m > 0 {
      RowRunParsed(lines, pos + 1, m - 1);
      assert ParsedRows(lines[pos..pos + m]) == [Lexer.Parse(lines[pos], '[', ']').value] + ParsedRows(lines[pos + 1..pos + m]);
    }
  }

  /** A yielded set followed by what the rest of the enumeration yields. */
  function Yield(s: ResultSet, rest: Decoded): (d: Decoded)
    ensures d.sets == [s] + rest.sets && d.error == rest.error
  {
    Decoded([s] + rest.sets, rest.error)
  }

  /**
   * The description of the set a bracketed line starts: the line's own
   * reading, then the columns of the buffered header lines.
   */
  function Describe(l: string, header: seq<string>): (r: Result<Info>)
    ensures r.Ok? ==> r.value.recordsAffected == 0 && r.value.columns.Some?
  {
    var info :- ToQueryResponseInfo(l);
    var columns :- Columns(header);
    Ok(info.(columns := Some(columns)))
  }

  /**
   * A bracketed line's reading fails first; otherwise the header's columns
   * fail, or the set is described by the line's counts and the header's
   * columns.
   */
  lemma {:induction false} DescribeMeaning(l: string, header: seq<string>)
    ensures ToQueryResponseInfo(l).Fail? ==> Describe(l, header) == Fail(ToQueryResponseInfo(l).error)
    ensures ToQueryResponseInfo(l).Ok? && Columns(header).Fail? ==> Describe(l, header) == Fail(Columns(header).error)
    ensures ToQueryResponseInfo(l).Ok? && Columns(header).Ok? ==>
              Describe(l, header) == Ok(ToQueryResponseInfo(l).value.(columns := Some(Columns(header).value)))
  {
  }

  /**
   * How a set is described from its bracketed line and the buffered header
   * lines. The enumeration below is stated for any such function, and
   * `Decode` fixes it to `Describe`.
   */
  type Describer = (string, seq<string>) -> Result<Info>

  /** Every description leaves the affected-record count at zero and sets the columns. */
  ghost predicate Sound(describe: Describer)
  {
    forall l, header :: describe(l, header).Ok? ==>
      describe(l, header).value.recordsAffected == 0 && describe(l, header).value.columns.Some?
  }

  /**
   * `GetResults` from line `pos`, with `count` sets yielded so far, `first`
   * still set before the first line, and the header lines buffered so far.
   * A position past the last line reads `null`.
   *
   * The row data of a set is read lazily from the same line reader, so what
   * the enumeration yields depends on the consumer. With `drain`, the
   * consumer enumerates every set's rows before asking for the next set;
   * the line that ended the rows is then overwritten by the next read.
   * Without it, the consumer never enumerates rows, and the line after a
   * bracketed line is read next.
   */
  function Results(lines: seq<string>, pos: nat, count: nat, first: bool, header: seq<string>, drain: bool, describe: Describer): (d: Decoded)
    decreases |lines| - pos
  {
    if pos >= |lines| then Decoded([], Some(IOException("Unexpected end of stream")))
    else
      var l := lines[pos];
      if |l| == 0 then Decoded([], Some(IndexOutOfRangeException))
      else if l[0] == '!' then Decoded([], Some(ErrorBlock(lines, pos + 1, "Error! " + l)))
      else if l[0] == '%' || l[0] == '#' then Results(lines, pos + 1, count, false, header + [l], drain, describe)
      else if l[0] == '&' then Results(lines, pos + 1, count, false, header, drain, describe)
      else if l[0] == '[' then
        match describe(l, header)
        case Fail(e) => Decoded([], Some(e))
        case Ok(described) =>
          if drain then
            var run := RowRun(lines, pos);
            var yielded := ResultSet(described, Some(run.rows));
            if run.error.Some? then Decoded([yielded], run.error)
            else Yield(yielded, Results(lines, run.end + 1, count + 1, false, [], drain, describe))
          else Yield(ResultSet(described, None), Results(lines, pos + 1, count + 1, false, [], drain, describe))
      else if first then Results(lines, pos + 1, count, false, header, drain, describe)
      else Decoded(if count == 0 then [EmptySet] else [], None)
  }

  /** The enumeration of a whole reply. */
  function Decode(lines: seq<string>, drain: bool): Decoded
  {
    Results(lines, 0, 0, true, [], drain, Describe)
  }

  /** Every set carries its columns and no affected-record count. */
  predicate Described(d: Decoded)
  {
    forall i :: 0 <= i < |d.sets| ==> d.sets[i].info.recordsAffected == 0 && d.sets[i].info.columns.Some?
  }

  lemma {:induction false} DescribedYield(s: ResultSet, rest: Decoded)
    requires s.info.recordsAffected == 0 && s.info.columns.Some? && Described(rest)
    ensures Described(Yield(s, rest))
  {
  }

  lemma {:induction false} HeaderStep(lines: seq<string>, pos: nat, count: nat, first: bool, header: seq<string>, drain: bool, describe: Describer)
    requires pos < |lines| && HeaderText(lines[pos])
    ensures Results(lines, pos, count, first, header, drain, describe)
            == Results(lines, pos + 1, count, false, header + [lines[pos]], drain, describe)
  {
  }

  lemma {:induction false} SkipStep(lines: seq<string>, pos: nat, count: nat, first: bool, header: seq<string>, drain: bool, describe: Describer)
    requires pos < |lines| && |lines[pos]| > 0 && (lines[pos][0] == '&' || (first && OtherText(lines[pos])))
    ensures Results(lines, pos, count, first, header, drain, describe) == Results(lines, pos + 1, count, false, header, drain, describe)
  {
  }

  lemma {:induction false} DrainedStep(lines: seq<string>, pos: nat, count: nat, first: bool, header: seq<string>, describe: Describer)
    requires pos < |lines| && RowText(lines[pos]) && describe(lines[pos], header).Ok?
    requires RowRun(lines, pos).error.None?
    ensures Results(lines, pos, count, first, header, true, describe)
            == Yield(ResultSet(describe(lines[pos], header).value, Some(RowRun(lines, pos).rows)),
                     Results(lines, RowRun(lines, pos).end + 1, count + 1, false, [], true, describe))
  {
  }

  lemma {:induction false} UndrainedStep(lines: seq<string>, pos: nat, count: nat, first: bool, header: seq<string>, describe: Describer)
    requires pos < |lines| && RowText(lines[pos]) && describe(lines[pos], header).Ok?
    ensures Results(lines, pos, count, first, header, false, describe)
            == Yield(ResultSet(describe(lines[pos], header).value, None), Results(lines, pos + 1, count + 1, false, [], false, describe))
  {
  }

  lemma {:induction false} DrainedYield(lines: seq<string>, pos: nat, count: nat, first: bool, header: seq<string>, describe: Describer)
    requires Sound(describe) && pos < |lines| && RowText(lines[pos]) && describe(lines[pos], header).Ok?
    requires RowRun(lines, pos).error.None?
    requires Described(Results(lines, RowRun(lines, pos).end + 1, count + 1, false, [], true, describe))
    ensures Described(Results(lines, pos, count, first, header, true, describe))
    ensures |Results(lines, pos, count, first, header, true, describe).sets| > 0
  {
    DrainedStep(lines, pos, count, first, header, describe);
    DescribedYield(ResultSet(describe(lines[pos], header).value, Some(RowRun(lines, pos).rows)),
                   Results(lines, RowRun(lines, pos).end + 1, count + 1, false, [], true, describe));
  }

  lemma {:induction false} UndrainedYield(lines: seq<string>, pos: nat, count: nat, first: bool, header: seq<string>, describe: Describer)
    requires Sound(describe) && pos < |lines| && RowText(lines[pos]) && describe(lines[pos], header).Ok?
    requires Described(Results(lines, pos + 1, count + 1, false, [], false, describe))
    ensures Described(Results(lines, pos, count, first, header, false, describe))
    ensures |Results(lines, pos, count, first, header, false, describe).sets| > 0
  {
    UndrainedStep(lines, pos, count, first, header, describe);
    DescribedYield(ResultSet(describe(lines[pos], header).value, None), Results(lines, pos + 1, count + 1, false, [], false, describe));
  }

  /**
   * Every yielded set has its columns set and no affected-record count
   * (the header line's reading never sets one), and an enumeration that
   * ends without an exception has yielded at least one set.
   */
  lemma {:induction false} ResultsYield(lines: seq<string>, pos: nat, count: nat, first: bool, header: seq<string>, drain: bool, describe: Describer)
    requires Sound(describe)
    ensures var d := Results(lines, pos, count, first, header, drain, describe);
            Described(d) && (d.error.None? && count == 0 ==> |d.sets| > 0)
    decreases |lines| - pos
  {
    if pos < |lines| {
      var l := lines[pos];
      if |l| > 0 {
        if l[0] == '%' || l[0] == '#' {
          HeaderStep(lines, pos, count, first, header, drain, describe);
          ResultsYield(lines, pos + 1, count, false, header + [l], drain, describe);
        } else if l[0] == '&' || (first && OtherText(l)) {
          SkipStep(lines, pos, count, first, header, drain, describe);
          ResultsYield(lines, pos + 1, count, false, header, drain, describe);
        } else if l[0] == '[' && describe(l, header).Ok? {
          if drain {
            var run := RowRun(lines, pos);
            if run.error.None? {
              ResultsYield(lines, run.end + 1, count + 1, false, [], drain, describe);
              DrainedYield(lines, pos, count, first, header, describe);
            }
          } else {
            ResultsYield(lines, pos + 1, count + 1, false, [], drain, describe);
            UndrainedYield(lines, pos, count, first, header, describe);
          }
        }
      }
    }
  }

  /**
   * Whatever the consumer does, every set of a decoded reply has its
   * columns and an affected-record count of zero, so `ExecuteNonQuery`,
   * which adds those counts up, returns zero; and a reply that decodes
   * without an exception yields at least one set.
   */
  lemma {:induction false} DecodeYield(lines: seq<string>, drain: bool)
    ensures Described(Decode(lines, drain))
    ensures Decode(lines, drain).error.None? ==> |Decode(lines, drain).sets| > 0
  {
    ResultsYield(lines, 0, 0, true, [], drain, Describe);
  }

  /** Header lines are buffered, in order, and nothing is yielded for them. */
  lemma {:induction false} HeaderBuffered(lines: seq<string>, pos: nat, m: nat, count: nat, first: bool, header: seq<string>, drain: bool, describe: Describer)
    requires pos + m <= |lines|
    requires forall i :: pos <= i < pos + m ==> HeaderText(lines[i])
    ensures Results(lines, pos, count, first, header, drain, describe)
            == Results(lines, pos + m, count, first && m == 0, header + lines[pos..pos + m], drain, describe)
    decreases m
  {
    if m > 0 {
      var buffered := header + [lines[pos]];
      HeaderStep(lines, pos, count, first, header, drain, describe);
      HeaderBuffered(lines, pos + 1, m - 1, count, false, buffered, drain, describe);
      assert buffered + lines[pos + 1..pos + m] == header + lines[pos..pos + m];
    } else {
      assert header + lines[pos..pos] == header;
    }
  }

  /**
   * A reply that is a `&` line (or any first line of another kind) and then
   * a line of another kind yields exactly one empty set: the reply to a
   * statement without a result table.
   */
  lemma {:induction false} StatementReply(lines: seq<string>, drain: bool)
    requires |lines| >= 2 && |lines[0]| > 0 && (lines[0][0] == '&' || OtherText(lines[0]))
    requires OtherText(lines[1])
    ensures Decode(lines, drain) == Decoded([EmptySet], None)
  {
    SkipStep(lines, 0, 0, true, [], drain, Describe);
  }

  /**
   * A reply starting with an error line and closed by "." raises a
   * `MonetDbException` whose message is "Error! ", the error line, and the
   * tails of the continuation lines, one per line; nothing is yielded.
   */
  lemma {:induction false} ErrorReply(lines: seq<string>, m: nat, drain: bool)
    requires 1 + m < |lines| && |lines[0]| > 0 && lines[0][0] == '!' && lines[1 + m] == "."
    requires forall i :: 1 <= i < 1 + m ==> |lines[i]| > 0 && lines[i] != "."
    ensures Decode(lines, drain)
            == Decoded([], Some(MonetDbException(Join(["Error! " + lines[0]] + Tails(lines[1..1 + m]), EnvironmentNewLine))))
  {
    ErrorBlockMessage(lines, 1, m, "Error! " + lines[0]);
  }

  lemma {:induction false} QueryReplyDrainedWith(header: seq<string>, rows: seq<string>, closing: string, describe: Describer)
    requires forall i :: 0 <= i < |header| ==> HeaderText(header[i])
    requires |rows| > 0 && forall i :: 0 <= i < |rows| ==> RowText(rows[i]) && Lexer.Parse(rows[i], '[', ']').Ok?
    requires OtherText(closing) && describe(rows[0], header).Ok?
    ensures Results(header + rows + [closing], 0, 0, true, [], true, describe)
            == Decoded([ResultSet(describe(rows[0], header).value, Some(ParsedRows(rows)))], Some(IOException("Unexpected end of stream")))
  {
    var lines := header + rows + [closing];
    var h, n := |header|, |rows|;
    ReplyLayout(header, rows, closing);
    HeaderBuffered(lines, 0, h, 0, true, [], true, describe);
    RowRunParsed(lines, h, n);
    DrainedStep(lines, h, 0, h == 0, header, describe);
    assert Results(lines, h + n + 1, 1, false, [], true, describe) == Decoded([], Some(IOException("Unexpected end of stream")));
  }

  /** Where the header, the row lines and the closing line sit in a reply. */
  lemma {:induction false} ReplyLayout(header: seq<string>, rows: seq<string>, closing: string)
    requires |rows| > 0
    ensures var lines := header + rows + [closing];
      var h, n := |header|, |rows|;
      |lines| == h + n + 1 && [] + lines[0..h] == header && lines[h] == rows[0]
      && lines[h..h + n] == rows && lines[h + 1..h + n] == rows[1..] && lines[h + n] == closing
      && (forall i :: 0 <= i < h ==> lines[i] == header[i])
      && (forall i :: h <= i < h + n ==> lines[i] == rows[i - h])
  {
    var lines := header + rows + [closing];
    assert lines[0..|header|] == header;
    assert lines[|header|..|header| + |rows|] == rows;
  }

  /**
   * The reply to a query, read by a consumer that enumerates the rows: the
   * header lines, the bracketed row lines and one closing line yield one
   * set with the header's columns and every row. The closing line ends
   * the rows and is then overwritten by the next read, so the enumeration
   * goes on to read past the reply.
   */
  lemma {:induction false} QueryReplyDrained(header: seq<string>, rows: seq<string>, closing: string)
    requires forall i :: 0 <= i < |header| ==> HeaderText(header[i])
    requires |rows| > 0 && forall i :: 0 <= i < |rows| ==> RowText(rows[i]) && Lexer.Parse(rows[i], '[', ']').Ok?
    requires OtherText(closing)
    requires ToQueryResponseInfo(rows[0]).Ok? && Columns(header).Ok?
    ensures Decode(header + rows + [closing], true)
            == Decoded([ResultSet(ToQueryResponseInfo(rows[0]).value.(columns := Some(Columns(header).value)), Some(ParsedRows(rows)))],
                       Some(IOException("Unexpected end of stream")))
  {
    DescribeMeaning(rows[0], header);
    QueryReplyDrainedWith(header, rows, closing, Describe);
  }

  /** The sets a consumer that never enumerates rows sees for bracketed lines after the first set. */
  function Unread(ls: seq<string>, describe: Describer): (sets: seq<ResultSet>)
    requires forall i :: 0 <= i < |ls| ==> describe(ls[i], []).Ok?
    ensures |sets| == |ls|
    ensures forall i :: 0 <= i < |ls| ==> sets[i] == ResultSet(describe(ls[i], []).value, None)
  {
    seq(|ls|, i requires 0 <= i < |ls| => ResultSet(describe(ls[i], []).value, None))
  }

  lemma {:induction false} UnreadRows(lines: seq<string>, pos: nat, m: nat, count: nat, describe: Describer)
    requires count > 0 && pos + m < |lines| && OtherText(lines[pos + m])
    requires forall i :: pos <= i < pos + m ==> RowText(lines[i]) && describe(lines[i], []).Ok?
    ensures Results(lines, pos, count, false, [], false, describe) == Decoded(Unread(lines[pos..pos + m], describe), None)
    decreases m
  {
    if m > 0 {
      UndrainedStep(lines, pos, count, false, [], describe);
      UnreadRows(lines, pos + 1, m - 1, count + 1, describe);
      assert Unread(lines[pos..pos + m], describe) == [ResultSet(describe(lines[pos], []).value, None)] + Unread(lines[pos + 1..pos + m], describe);
    }
  }

  lemma {:induction false} QueryReplyUndrainedWith(header: seq<string>, rows: seq<string>, closing: string, describe: Describer)
    requires forall i :: 0 <= i < |header| ==> HeaderText(header[i])
    requires |rows| > 0 && forall i :: 0 <= i < |rows| ==> RowText(rows[i])
    requires OtherText(closing) && describe(rows[0], header).Ok?
    requires forall i :: 1 <= i < |rows| ==> describe(rows[i], []).Ok?
    ensures Results(header + rows + [closing], 0, 0, true, [], false, describe)
            == Decoded([ResultSet(describe(rows[0], header).value, None)] + Unread(rows[1..], describe), None)
  {
    var lines := header + rows + [closing];
    var h, n := |header|, |rows|;
    ReplyLayout(header, rows, closing);
    HeaderBuffered(lines, 0, h, 0, true, [], false, describe);
    UndrainedStep(lines, h, 0, h == 0, header, describe);
    UnreadRows(lines, h + 1, n - 1, 1, describe);
  }

  /**
   * The same reply read by a consumer that never enumerates rows (as
   * `ExecuteNonQuery` does): every row line is taken for the start of a
   * set of its own, the first with the header's columns and the others
   * with none, and the closing line ends the enumeration without error.
   */
  lemma {:induction false} QueryReplyUndrained(header: seq<string>, rows: seq<string>, closing: string)
    requires forall i :: 0 <= i < |header| ==> HeaderText(header[i])
    requires |rows| > 0 && forall i :: 0 <= i < |rows| ==> RowText(rows[i]) && ToQueryResponseInfo(rows[i]).Ok?
    requires OtherText(closing)
    requires Columns(header).Ok?
    ensures Decode(header + rows + [closing], false).error.None?
    ensures |Decode(header + rows + [closing], false).sets| == |rows|
    ensures Decode(header + rows + [closing], false).sets[0]
            == ResultSet(ToQueryResponseInfo(rows[0]).value.(columns := Some(Columns(header).value)), None)
    ensures forall i :: 1 <= i < |rows| ==>
              Decode(header + rows + [closing], false).sets[i] == ResultSet(ToQueryResponseInfo(rows[i]).value.(columns := Some([])), None)
  {
    UndrainedShape(header, rows);
    QueryReplyUndrainedWith(header, rows, closing, Describe);
  }

  /** The sets `QueryReplyUndrainedWith` describes, one per row line, read through `Describe`. */
  lemma {:induction false} UndrainedShape(header: seq<string>, rows: seq<string>)
    requires |rows| > 0 && forall i :: 0 <= i < |rows| ==> ToQueryResponseInfo(rows[i]).Ok?
    requires Columns(header).Ok?
    ensures Describe(rows[0], header).Ok?
    ensures forall i :: 1 <= i < |rows| ==> Describe(rows[i], []).Ok?
    ensures var sets := [ResultSet(Describe(rows[0], header).value, None)] + Unread(rows[1..], Describe);
      |sets| == |rows| && sets[0] == ResultSet(ToQueryResponseInfo(rows[0]).value.(columns := Some(Columns(header).value)), None)
      && forall i :: 1 <= i < |rows| ==> sets[i] == ResultSet(ToQueryResponseInfo(rows[i]).value.(columns := Some([])), None)
  {
    DescribeMeaning(rows[0], header);
    forall i | 1 <= i < |rows| ensures Describe(rows[i], []) == Ok(ToQueryResponseInfo(rows[i]).value.(columns := Some([]))) {
      DescribeMeaning(rows[i], []);
    }
    var later := rows[1..];
    var u := Unread(later, Describe);
    assert |u| == |later| == |rows| - 1;
    var sets := [ResultSet(Describe(rows[0], header).value, None)] + u;
    assert |sets| == |rows|;
    assert sets[0] == ResultSet(ToQueryResponseInfo(rows[0]).value.(columns := Some(Columns(header).value)), None);
    forall i | 1 <= i < |rows| ensures sets[i] == ResultSet(ToQueryResponseInfo(rows[i]).value.(columns := Some([])), None) {
      assert sets[i] == u[i - 1];
      assert later[i - 1] == rows[i];
    }
  }
}

=== FILE: session.dfy ===
/**
 * The session logic of the client socket: how a query is cut into chunks and
 * flushed, how the server's challenge is checked, how the handshake reply is
 * classified, which redirect is followed, how the client waits for a prompt
 * and what a cancel request does.
 *
 * The transport is a sequence of text lines (`lines[pos]` is the next line
 * `ReadLine` returns; a position past the end stands for `null`) and a
 * sequence of writer flushes. The line-type characters for a prompt, an info
 * line and a redirect are parameters; only the error character `!` is fixed.
 */
module Session {
  import opened Wrappers
  import opened Text
  import opened NeedMoreFlag

  /** The largest piece of a query written before a flush. */
  const MaxQuerySize: nat := 1020

  /** The part of the socket's state the query path reads and writes. */
  datatype Socket = Socket(needMore: NeedMore, pending: string, processId: int)

  /**
   * One flush of the socket's writer: the text handed to the block stream,
   * and whether the stream's own NeedMore flag was raised just before, which
   * makes the block go out as a non-final block.
   */
  datatype Flush = Flush(text: string, more: bool)

  /** Everything the writer handed to the stream, in order. */
  function Concat(fs: seq<Flush>): string
  {
    if |fs| == 0 then "" else fs[0].text + Concat(fs[1..])
  }

  // ---------------------------------------------------------------------------
  // ExecuteSql: the write plan of a query
  // ---------------------------------------------------------------------------

  /** The text written before the query: `s` unless the socket's NeedMore flag is set. */
  function Prefix(f: NeedMore): string
  {
    if f.raised then "" else "s"
  }

  /**
   * The flushes of the chunk loop from position `i`: a full chunk of
   * `MaxQuerySize` characters goes out as a non-final block; a shorter tail
   * has its trailing `;` trimmed, gets exactly one `;` and a newline, and is
   * flushed normally.
   */
  function Chunks(sql: string, i: nat): (fs: seq<Flush>)
    requires i <= |sql|
    ensures |fs| == 0 <==> i == |sql|
    decreases |sql| - i
  {
    if i == |sql| then []
    else if i + MaxQuerySize > |sql| then [Flush(TrimEnd(sql[i..], {';'}) + ";" + "\n", false)]
    else [Flush(sql[i..i + MaxQuerySize], true)] + Chunks(sql, i + MaxQuerySize)
  }

  /**
   * What the server receives for a query, independently of how it is cut:
   * the text itself when its length is a multiple of the chunk size (no
   * terminator is ever written then), otherwise the text whose last partial
   * chunk has lost its trailing semicolons and gained `;` and a newline.
   */
  function Body(sql: string): string
  {
    var tail := |sql| % MaxQuerySize;
    if tail == 0 then sql
    else sql[..|sql| - tail] + TrimEnd(sql[|sql| - tail..], {';'}) + ";\n"
  }

  /** The result of `ExecuteSql` on the sending side. */
  datatype Sent = Sent(socket: Socket, flushes: seq<Flush>)

  /**
   * `ExecuteSql` up to the point where the reply is read. Reading the NeedMore
   * flag clears it; the prefix and any text the writer still holds go out
   * with the first flush. An empty query flushes nothing, so the prefix stays
   * in the writer. The process id is reset to 0.
   */
  function ExecuteSql(s: Socket, sql: string): (r: Sent)
    ensures r.socket.needMore == Clear && r.socket.processId == 0
    ensures |r.flushes| == 0 <==> |sql| == 0
    ensures |sql| == 0 ==> r.socket.pending == s.pending + Prefix(s.needMore)
    ensures |sql| > 0 ==> r.socket.pending == ""
  {
    var (more, flag) := Consume(s.needMore);
    var head := s.pending + (if more then "" else "s");
    var fs := Chunks(sql, 0);
    if |fs| == 0 then Sent(Socket(flag, head, 0), [])
    else Sent(Socket(flag, "", 0), [fs[0].(text := head + fs[0].text)] + fs[1..])
  }

  lemma {:induction false} ModOfChunk(i: nat, d: nat)
    requires i % MaxQuerySize == 0 && 0 < d < MaxQuerySize
    ensures (i + d) % MaxQuerySize == d
  {
  }

  lemma {:induction false} Regroup(a: string, b: string, c: string, ab: string)
    requires a + b == ab
    ensures a + (b + c) == ab + c
  {
  }

  /** When the last chunk is partial, the body ends with that chunk, trimmed and terminated. */
  lemma {:induction false} BodyPartial(sql: string, i: nat)
    requires i % MaxQuerySize == 0 && i < |sql| < i + MaxQuerySize
    ensures Body(sql) == sql[..i] + TrimEnd(sql[i..], {';'}) + ";\n"
  {
    ModOfChunk(i, |sql| - i);
  }

  /** The chunks from a chunk boundary carry exactly the rest of `Body(sql)`. */
  lemma {:induction false} ChunksText(sql: string, i: nat)
    requires i <= |sql| && i % MaxQuerySize == 0
    ensures sql[..i] + Concat(Chunks(sql, i)) == Body(sql)
    decreases |sql| - i
  {
    if i == |sql| {
      assert sql[..i] == sql;
      assert Concat(Chunks(sql, i)) == "";
    } else if i + MaxQuerySize > |sql| {
      LastChunkText(sql, i);
    } else {
      var j := i + MaxQuerySize;
      ChunksText(sql, j);
      FullChunkText(sql, i);
      TakeSplit(sql, i, j);
      Regroup(sql[..i], sql[i..j], Concat(Chunks(sql, j)), sql[..j]);
    }
  }

  /** A last, partial chunk carries the trimmed and terminated end of the text. */
  lemma {:induction false} LastChunkText(sql: string, i: nat)
    requires i % MaxQuerySize == 0 && i < |sql| < i + MaxQuerySize
    ensures sql[..i] + Concat(Chunks(sql, i)) == Body(sql)
  {
    BodyPartial(sql, i);
    var last := TrimEnd(sql[i..], {';'}) + ";" + "\n";
    assert Chunks(sql, i) == [Flush(last, false)];
    assert Concat(Chunks(sql, i)) == last + Concat([]);
  }

  /** A full chunk carries its slice of the text, ahead of the chunks after it. */
  lemma {:induction false} FullChunkText(sql: string, i: nat)
    requires i + MaxQuerySize <= |sql|
    ensures Concat(Chunks(sql, i)) == sql[i..i + MaxQuerySize] + Concat(Chunks(sql, i + MaxQuerySize))
  {
    var fs := Chunks(sql, i);
    assert fs[1..] == Chunks(sql, i + MaxQuerySize);
  }

  lemma {:induction false} TakeSplit(s: string, i: nat, j: nat)
    requires i <= j <= |s|
    ensures s[..i] + s[i..j] == s[..j]
  {
  }

  /**
   * The shape of the chunk flushes: one per started chunk; all but the last
   * are the consecutive full chunks and leave as non-final blocks; the last
   * leaves as a non-final block exactly when it is a full chunk too.
   */
  lemma {:induction false} ChunksShape(sql: string, i: nat)
    requires i <= |sql|
    ensures |Chunks(sql, i)| == (|sql| - i + MaxQuerySize - 1) / MaxQuerySize
    ensures forall j :: 0 <= j < |Chunks(sql, i)| - 1 ==>
      Chunks(sql, i)[j] == Flush(sql[i + MaxQuerySize * j..i + MaxQuerySize * j + MaxQuerySize], true)
    ensures |Chunks(sql, i)| > 0 ==>
      Chunks(sql, i)[|Chunks(sql, i)| - 1].more == ((|sql| - i) % MaxQuerySize == 0)
    decreases |sql| - i
  {
    if i + MaxQuerySize <= |sql| {
      var k := i + MaxQuerySize;
      ChunksShape(sql, k);
      var rest := Chunks(sql, k);
      var fs := Chunks(sql, i);
      assert fs == [Flush(sql[i..k], true)] + rest;
      ChunkCount(|sql| - i);
      FullChunksShifted(sql, i, fs, rest);
    } else {
      ShortChunks(sql, i);
    }
  }

  /** One full chunk less is one chunk less, with the same remainder. */
  lemma {:induction false} ChunkCount(n: nat)
    requires n >= MaxQuerySize
    ensures (n + MaxQuerySize - 1) / MaxQuerySize == 1 + (n - MaxQuerySize + MaxQuerySize - 1) / MaxQuerySize
    ensures (n - MaxQuerySize) % MaxQuerySize == n % MaxQuerySize
  {
  }

  /** Less than a full chunk from `i`: at most one chunk, final, and partial unless empty. */
  lemma {:induction false} ShortChunks(sql: string, i: nat)
    requires i <= |sql| < i + MaxQuerySize
    ensures |Chunks(sql, i)| == (|sql| - i + MaxQuerySize - 1) / MaxQuerySize
    ensures |Chunks(sql, i)| > 0 ==>
      Chunks(sql, i)[|Chunks(sql, i)| - 1].more == ((|sql| - i) % MaxQuerySize == 0)
  {
  }

  /** The full chunks after the first one are the full chunks from the next boundary, one place on. */
  lemma {:induction false} FullChunksShifted(sql: string, i: nat, fs: seq<Flush>, rest: seq<Flush>)
    requires i + MaxQuerySize <= |sql|
    requires fs == [Flush(sql[i..i + MaxQuerySize], true)] + rest
    requires |rest| == (|sql| - (i + MaxQuerySize) + MaxQuerySize - 1) / MaxQuerySize
    requires forall j :: 0 <= j < |rest| - 1 ==>
      rest[j] == Flush(sql[i + MaxQuerySize + MaxQuerySize * j..i + MaxQuerySize + MaxQuerySize * j + MaxQuerySize], true)
    ensures forall j :: 0 <= j < |fs| - 1 ==>
      fs[j] == Flush(sql[i + MaxQuerySize * j..i + MaxQuerySize * j + MaxQuerySize], true)
  {
    forall j | 0 <= j < |fs| - 1
      ensures fs[j] == Flush(sql[i + MaxQuerySize * j..i + MaxQuerySize * j + MaxQuerySize], true)
    {
      if j > 0 {
        assert fs[j] == rest[j - 1];
        assert i + MaxQuerySize + MaxQuerySize * (j - 1) == i + MaxQuerySize * j;
      }
    }
  }

  /**
   * Everything `ExecuteSql` hands to the stream, followed by what it leaves in
   * the writer, is the old writer content, the prefix, and the query body.
   */
  lemma {:induction false} ExecuteSqlText(s: Socket, sql: string)
    ensures Concat(ExecuteSql(s, sql).flushes) + ExecuteSql(s, sql).socket.pending
         == s.pending + Prefix(s.needMore) + Body(sql)
  {
    ChunksText(sql, 0);
    assert sql[..0] == "";
    var fs := Chunks(sql, 0);
    var head := s.pending + Prefix(s.needMore);
    var r := ExecuteSql(s, sql);
    if |fs| == 0 {
      assert |sql| == 0 && sql == "";
      assert r.socket.pending == head && r.flushes == [];
      assert Body(sql) == "";
      assert Concat(r.flushes) == "";
    } else {
      var first := fs[0].(text := head + fs[0].text);
      assert r.flushes == [first] + fs[1..];
      assert r.socket.pending == "";
      assert ([first] + fs[1..])[1..] == fs[1..];
      var tail := Concat(fs[1..]);
      assert Concat(r.flushes) == (head + fs[0].text) + tail;
      assert Concat(fs) == fs[0].text + tail;
      assert "" + Concat(fs) == Body(sql);
      assert fs[0].text + tail == Body(sql);
      Regroup(head, fs[0].text, tail, head + fs[0].text);
      assert Concat(r.flushes) + r.socket.pending == head + Body(sql);
    }
  }

  /**
   * The flushes of `ExecuteSql`: one per started chunk of the query, every
   * one but the last a non-final block, the last one final unless the length
   * is a positive multiple of the chunk size.
   */
  lemma {:induction false} ExecuteSqlBlocks(s: Socket, sql: string)
    ensures |ExecuteSql(s, sql).flushes| == (|sql| + MaxQuerySize - 1) / MaxQuerySize
    ensures forall j :: 0 <= j < |ExecuteSql(s, sql).flushes| - 1 ==> ExecuteSql(s, sql).flushes[j].more
    ensures |sql| > 0 ==>
      ExecuteSql(s, sql).flushes[|ExecuteSql(s, sql).flushes| - 1].more == (|sql| % MaxQuerySize == 0)
  {
    ChunksShape(sql, 0);
    var fs := Chunks(sql, 0);
    var r := ExecuteSql(s, sql);
    if |fs| > 0 {
      assert forall j :: 0 < j < |fs| ==> r.flushes[j] == fs[j];
      assert r.flushes[0].more == fs[0].more;
    }
  }

  /** A query that fits one chunk, after an idle socket, is one final flush of `s`, the query, `;` and a newline. */
  lemma {:induction false} ShortQuery(sql: string)
    requires 0 < |sql| < MaxQuerySize && sql[|sql| - 1] != ';'
    ensures ExecuteSql(Socket(Clear, "", 7), sql).flushes == [Flush("s" + sql + ";\n", false)]
  {
    assert sql[0..] == sql;
    assert TrimEnd(sql, {';'}) == sql;
    assert Chunks(sql, 0) == [Flush(sql + ";" + "\n", false)];
    assert "s" + (sql + ";" + "\n") == "s" + sql + ";\n";
    var fs := Chunks(sql, 0);
    assert fs[1..] == [];
    assert "" + "s" == "s";
    assert ExecuteSql(Socket(Clear, "", 7), sql).flushes == [fs[0].(text := "" + "s" + fs[0].text)] + fs[1..];
  }

  // ---------------------------------------------------------------------------
  // The handshake: challenge, reply loop, redirects
  // ---------------------------------------------------------------------------

  /** The protocol versions registered with the protocol factory. */
  const Registered: set<int> := {8, 9}

  /** An accepted challenge: the protocol version and the tokens handed to it. */
  datatype Challenge = Challenge(version: int, tokens: seq<string>)

  /**
   * `GetChallengeResponse` up to the point where the protocol builds the
   * response: at least five `:`-separated tokens, an integer at token 2, and a
   * registered protocol for that version.
   */
  function CheckChallenge(challenge: string): (r: Result<Challenge>)
    ensures r.Ok? <==>
      var t := Split(challenge, ':');
      |t| > 4 && TryParseInt32(t[2]).Some? && TryParseInt32(t[2]).value in Registered
    ensures r.Ok? ==> r.value.tokens == Split(challenge, ':') && r.value.version == ParseInt32(r.value.tokens[2]).value
    ensures r.Fail? ==> r.error.MonetDbException?
  {
    var tokens := Split(challenge, ':');
    if |tokens| <= 4 then
      Fail(MonetDbException("Server challenge unusable! Challenge contains too few tokens: " + challenge))
    else match TryParseInt32(tokens[2])
      case None => Fail(MonetDbException("Unknown Mapi protocol " + tokens[2]))
      case Some(version) =>
        if version !in Registered then Fail(MonetDbException("Unsupported protocol version " + IntToString(version)))
        else Ok(Challenge(version, tokens))
  }

  /**
   * A challenge the server builds from at least five colon-free fields, with
   * a registered version written in decimal at position 2, is accepted with
   * that version and exactly those fields.
   */
  lemma {:induction false} ChallengeAccepted(fields: seq<string>, version: int)
    requires |fields| > 4 && fields[2] == IntToString(version) && version in Registered
    requires forall i :: 0 <= i < |fields| ==> ':' !in fields[i]
    ensures CheckChallenge(Join(fields, ":")) == Ok(Challenge(version, fields))
  {
    SplitJoin(fields, ':');
    ParseIntToString(version);
  }

  /** A challenge with at most four fields is refused, whatever they hold. */
  lemma {:induction false} ChallengeTooShort(fields: seq<string>)
    requires 0 < |fields| <= 4
    requires forall i :: 0 <= i < |fields| ==> ':' !in fields[i]
    ensures CheckChallenge(Join(fields, ":")).Fail?
  {
    SplitJoin(fields, ':');
  }

  /** The characters that classify a server line; an error line starts with `!`. */
  datatype LineKinds = LineKinds(prompt: char, info: char, redirect: char)

  /** Distinct line types, as the enumeration's case labels must be. */
  predicate Distinct(k: LineKinds)
  {
    k.prompt != k.info && k.prompt != k.redirect && k.info != k.redirect
    && k.prompt != '!' && k.info != '!' && k.redirect != '!'
  }

  /** The warnings and the redirect addresses gathered from a reply. */
  datatype Reply = Reply(warnings: seq<string>, redirects: seq<string>)

  /**
   * The reply loop of `Connect` from line `pos`: it stops at a line equal to
   * `.`; a missing or empty line means the connection was lost, an error line
   * raises its text, info lines add warnings, redirect lines add redirects,
   * and any other line is skipped.
   */
  function ReplyLoop(lines: seq<string>, pos: nat, kinds: LineKinds, acc: Reply): (r: Result<Reply>)
    ensures r.Ok? ==> |r.value.warnings| >= |acc.warnings| && |r.value.redirects| >= |acc.redirects|
    ensures r.Fail? ==> r.error.MonetDbException?
    decreases |lines| - pos
  {
    if pos >= |lines| || |lines[pos]| == 0 then Fail(MonetDbException("Connection to the server was lost"))
    else
      var l := lines[pos];
      if l == "." then Ok(acc)
      else if l[0] == '!' then Fail(MonetDbException(l[1..]))
      else if l[0] == kinds.info then ReplyLoop(lines, pos + 1, kinds, acc.(warnings := acc.warnings + [l[1..]]))
      else if l[0] == kinds.redirect then ReplyLoop(lines, pos + 1, kinds, acc.(redirects := acc.redirects + [l[1..]]))
      else ReplyLoop(lines, pos + 1, kinds, acc)
  }

  /** The payloads (text after the type character) of the lines of type `c`. */
  function Payloads(ls: seq<string>, c: char): seq<string>
  {
    if |ls| == 0 then []
    else (if |ls[0]| > 0 && ls[0][0] == c then [ls[0][1..]] else []) + Payloads(ls[1..], c)
  }

  /** A line the reply loop reads past: present, not the terminator, not an error. */
  predicate Passable(l: string)
  {
    |l| > 0 && l != "." && l[0] != '!'
  }

  /**
   * A reply made of passable lines and then `.` yields exactly the info
   * payloads as warnings and the redirect payloads as redirects, in order.
   */
  lemma {:induction false} ReplyLoopCollects(lines: seq<string>, pos: nat, end: nat, kinds: LineKinds, acc: Reply)
    requires Distinct(kinds)
    requires pos <= end < |lines| && lines[end] == "."
    requires forall j :: pos <= j < end ==> Passable(lines[j])
    ensures ReplyLoop(lines, pos, kinds, acc)
         == Ok(Reply(acc.warnings + Payloads(lines[pos..end], kinds.info),
                     acc.redirects + Payloads(lines[pos..end], kinds.redirect)))
    decreases end - pos
  {
    if pos == end {
      assert lines[pos..end] == [];
      assert acc.warnings + [] == acc.warnings && acc.redirects + [] == acc.redirects;
    } else {
      var l := lines[pos];
      assert lines[pos..end][1..] == lines[pos + 1..end];
      assert lines[pos..end][0] == l;
      var next :=
        if l[0] == kinds.info then acc.(warnings := acc.warnings + [l[1..]])
        else if l[0] == kinds.redirect then acc.(redirects := acc.redirects + [l[1..]])
        else acc;
      ReplyLoopCollects(lines, pos + 1, end, kinds, next);
      assert ReplyLoop(lines, pos, kinds, acc) == ReplyLoop(lines, pos + 1, kinds, next);
      var ws := Payloads(lines[pos + 1..end], kinds.info);
      var rs := Payloads(lines[pos + 1..end], kinds.redirect);
      var here := lines[pos..end];
      assert here == [l] + lines[pos + 1..end];
      assert Payloads(here, kinds.info) == (if l[0] == kinds.info then [l[1..]] else []) + ws;
      assert Payloads(here, kinds.redirect) == (if l[0] == kinds.redirect then [l[1..]] else []) + rs;
      if l[0] == kinds.info {
        assert acc.warnings + [l[1..]] + ws == acc.warnings + ([l[1..]] + ws);
        assert [] + rs == rs;
      } else if l[0] == kinds.redirect {
        assert acc.redirects + [l[1..]] + rs == acc.redirects + ([l[1..]] + rs);
        assert [] + ws == ws;
      } else {
        assert [] + ws == ws;
        assert [] + rs == rs;
      }
    }
  }

  /** A reply that breaks off before `.` is a lost connection. */
  lemma {:induction false} ReplyLoopLost(lines: seq<string>, pos: nat, kinds: LineKinds, acc: Reply)
    requires forall j :: pos <= j < |lines| ==> Passable(lines[j])
    ensures ReplyLoop(lines, pos, kinds, acc) == Fail(MonetDbException("Connection to the server was lost"))
    decreases |lines| - pos
  {
    if pos < |lines| {
      var l := lines[pos];
      var next :=
        if l[0] == kinds.info then acc.(warnings := acc.warnings + [l[1..]])
        else if l[0] == kinds.redirect then acc.(redirects := acc.redirects + [l[1..]])
        else acc;
      ReplyLoopLost(lines, pos + 1, kinds, next);
    }
  }

  /** What `System.Uri` makes of a redirect address: the parts the client reads. */
  datatype Uri = Uri(scheme: string, host: string, port: int, query: string)

  /** Where a redirect leads, and whether a new TCP connection is opened for it. */
  datatype Target = Target(host: string, port: int, database: string, reconnect: bool)

  /**
   * The database named by the query pairs: the value of the first pair whose
   * key is `database`. A pair `database` without `=` has no value and indexing
   * it throws.
   */
  function QueryDatabase(pairs: seq<string>): (r: Result<Option<string>>)
    ensures r.Ok? && r.value.Some? ==> '=' !in r.value.value
    ensures r.Fail? ==> r.error == IndexOutOfRangeException
  {
    if |pairs| == 0 then Ok(None)
    else
      var x := Split(pairs[0], '=');
      if x[0] == "database" then
        if |x| < 2 then Fail(IndexOutOfRangeException) else Ok(Some(x[1]))
      else QueryDatabase(pairs[1..])
  }

  /** The key of a query pair. */
  function Key(pair: string): string
  {
    Split(pair, '=')[0]
  }

  /** The first `database=` pair decides, whatever follows it. */
  lemma {:induction false} QueryDatabaseFirst(pre: seq<string>, name: string, post: seq<string>)
    requires forall i :: 0 <= i < |pre| ==> Key(pre[i]) != "database"
    requires '=' !in name
    ensures QueryDatabase(pre + ["database=" + name] + post) == Ok(Some(name))
    decreases |pre|
  {
    var all := pre + ["database=" + name] + post;
    if |pre| == 0 {
      assert all[0] == "database" + ("=" + name);
      SplitPrependAll("database", "=" + name, '=');
      assert ("=" + name) == ['='] + name;
      SplitPrependAll("", name, '=');
      assert "" + name == name;
      assert Split(['='] + name, '=') == [""] + Split(name, '=');
      SplitJoin([name], '=');
      assert Split("" + name, '=') == [name];
    } else {
      QueryDatabaseFirst(pre[1..], name, post);
      assert all[1..] == pre[1..] + ["database=" + name] + post;
    }
  }

  /** Without a `database` key the query names no database. */
  lemma {:induction false} QueryDatabaseAbsent(pairs: seq<string>)
    requires forall i :: 0 <= i < |pairs| ==> Key(pairs[i]) != "database"
    ensures QueryDatabase(pairs) == Ok(None)
    decreases |pairs|
  {
    if |pairs| > 0 {
      QueryDatabaseAbsent(pairs[1..]);
    }
  }

  /**
   * `FollowRedirects` up to the new `Connect`: only the first address is
   * used; it must start with `mapi:`; a `merovingian` address keeps the
   * current port and the open connection; the database is the one the query
   * names, otherwise the current one.
   */
  function FollowRedirect(redirects: seq<string>, parse: string -> Uri, port: int, database: string): (r: Result<Target>)
    requires |redirects| > 0
    ensures r.Ok? ==> StartsWith(redirects[0], "mapi:")
    ensures !StartsWith(redirects[0], "mapi:") ==> r == Fail(MonetDbException("Unknown Mapi redirect " + redirects[0]))
    ensures r.Ok? ==> r.value.host == parse(redirects[0][5..]).host
    ensures r.Ok? ==> (r.value.reconnect <==> parse(redirects[0][5..]).scheme != "merovingian")
    ensures r.Ok? ==> r.value.port == if r.value.reconnect then parse(redirects[0][5..]).port else port
  {
    var suri := redirects[0];
    if !StartsWith(suri, "mapi:") then Fail(MonetDbException("Unknown Mapi redirect " + suri))
    else
      var uri := parse(suri[5..]);
      var merovingian := uri.scheme == "merovingian";
      var named :- QueryDatabase(Split(TrimStart(uri.query, {'?'}), '&'));
      Ok(Target(uri.host, if merovingian then port else uri.port, named.GetOr(database), !merovingian))
  }

  /** The redirect's database is the first `database=` value of its query, otherwise the current one. */
  lemma {:induction false} RedirectDatabase(redirects: seq<string>, parse: string -> Uri, port: int, database: string)
    requires |redirects| > 0 && StartsWith(redirects[0], "mapi:")
    ensures
      var pairs := Split(TrimStart(parse(redirects[0][5..]).query, {'?'}), '&');
      var r := FollowRedirect(redirects, parse, port, database);
      (r.Ok? <==> QueryDatabase(pairs).Ok?)
      && (r.Ok? ==> r.value.database == QueryDatabase(pairs).value.GetOr(database))
  {
  }

  // ---------------------------------------------------------------------------
  // Waiting for the prompt, control commands, the whole handshake
  // ---------------------------------------------------------------------------

  /** `(byte)c`: the cast keeps the low eight bits of the character. */
  function ByteOf(c: char): int
  {
    c as int % 256
  }

  /** A line `WaitForPrompt` reads past: present, and neither a prompt nor an error by its first byte. */
  predicate Skipped(l: string, prompt: char)
  {
    |l| > 0 && ByteOf(l[0]) != ByteOf(prompt) && ByteOf(l[0]) != ByteOf('!')
  }

  /**
   * `WaitForPrompt` from line `pos`: the position after the first prompt
   * line. A missing line is a lost connection, an empty line has no first
   * character, and an error line raises its text. Lines are classified by
   * the low byte of their first character.
   */
  function WaitForPrompt(lines: seq<string>, pos: nat, prompt: char): (r: Result<nat>)
    ensures r.Ok? ==> (pos < r.value <= |lines| && |lines[r.value - 1]| > 0
      && ByteOf(lines[r.value - 1][0]) == ByteOf(prompt)
      && forall j :: pos <= j < r.value - 1 ==> Skipped(lines[j], prompt))
    ensures r.Fail? ==> (r.error in {IOException("Connection to server lost!"), IndexOutOfRangeException}
      || r.error.MonetDbException?)
    decreases |lines| - pos
  {
    if pos >= |lines| then Fail(IOException("Connection to server lost!"))
    else if |lines[pos]| == 0 then Fail(IndexOutOfRangeException)
    else if ByteOf(lines[pos][0]) == ByteOf(prompt) then Ok(pos + 1)
    else if ByteOf(lines[pos][0]) == ByteOf('!') then Fail(MonetDbException(lines[pos][1..]))
    else WaitForPrompt(lines, pos + 1, prompt)
  }

  /** Conversely, skipped lines followed by a prompt line lead exactly past that prompt. */
  lemma {:induction false} WaitForPromptFinds(lines: seq<string>, pos: nat, k: nat, prompt: char)
    requires pos <= k < |lines| && |lines[k]| > 0 && ByteOf(lines[k][0]) == ByteOf(prompt)
    requires forall j :: pos <= j < k ==> Skipped(lines[j], prompt)
    ensures WaitForPrompt(lines, pos, prompt) == Ok(k + 1)
    decreases k - pos
  {
    if pos < k {
      WaitForPromptFinds(lines, pos + 1, k, prompt);
    }
  }

  /** Skipped lines and then an error line raise that line's text. */
  lemma {:induction false} WaitForPromptError(lines: seq<string>, pos: nat, k: nat, prompt: char)
    requires ByteOf(prompt) != ByteOf('!')
    requires pos <= k < |lines| && |lines[k]| > 0 && lines[k][0] == '!'
    requires forall j :: pos <= j < k ==> Skipped(lines[j], prompt)
    ensures WaitForPrompt(lines, pos, prompt) == Fail(MonetDbException(lines[k][1..]))
    decreases k - pos
  {
    if pos < k {
      WaitForPromptError(lines, pos + 1, k, prompt);
    }
  }

  /** The cast to a byte makes a character beyond Latin-1 whose low byte is `!` an error line. */
  lemma {:induction false} WideErrorLine(prompt: char, rest: string)
    requires ByteOf(prompt) != 0x21
    ensures WaitForPrompt(["\U{121}" + rest], 0, prompt) == Fail(MonetDbException(rest))
  {
    assert ("\U{121}" + rest)[1..] == rest;
  }

  /** The result of a control command: the socket, the flush it made, and where reading stops. */
  datatype Control = Control(socket: Socket, flush: Flush, wait: Result<nat>)

  /** `ExecuteControlSql`: `X` and the command as one line, a normal flush, then the wait for the prompt. */
  function ExecuteControlSql(s: Socket, sql: string, lines: seq<string>, pos: nat, prompt: char): (r: Control)
    ensures r.flush.text == s.pending + "X" + sql + "\n" && !r.flush.more
    ensures r.socket == s.(pending := "")
    ensures r.wait == WaitForPrompt(lines, pos, prompt)
  {
    Control(s.(pending := ""), Flush(s.pending + "X" + sql + "\n", false), WaitForPrompt(lines, pos, prompt))
  }

  /** How a successful handshake ends: with the server's warnings, or at a redirect. */
  datatype Outcome = Warnings(warnings: seq<string>) | Redirected(target: Target)

  /** A successful handshake: the line sent in answer to the challenge, and the outcome. */
  datatype Handshake = Handshake(response: Flush, outcome: Outcome)

  /**
   * `Connect` after the TCP connection exists: the first line is the
   * challenge; the client waits for a prompt, checks the challenge, sends
   * the protocol's response line, and runs the reply loop. Without redirects
   * it returns the warnings; otherwise it follows the first redirect. The
   * protocol's response text and the URI parser are parameters.
   */
  function Connect(lines: seq<string>, kinds: LineKinds, respond: Challenge -> string,
                   parse: string -> Uri, port: int, database: string): (r: Result<Handshake>)
    ensures r.Ok? ==> |lines| > 0 && CheckChallenge(lines[0]).Ok? && WaitForPrompt(lines, 1, kinds.prompt).Ok?
    ensures r.Ok? ==> r.value.response == Flush(respond(CheckChallenge(lines[0]).value) + "\n", false)
  {
    var after :- WaitForPrompt(lines, 1, kinds.prompt);
    var challenge :- CheckChallenge(lines[0]);
    var response := Flush(respond(challenge) + "\n", false);
    var reply :- ReplyLoop(lines, after, kinds, Reply([], []));
    if |reply.redirects| == 0 then Ok(Handshake(response, Warnings(reply.warnings)))
    else
      var target :- FollowRedirect(reply.redirects, parse, port, database);
      Ok(Handshake(response, Redirected(target)))
  }

  /**
   * A well-formed exchange without redirect lines: a valid challenge, skipped
   * lines, a prompt, passable reply lines and `.`. The handshake succeeds and
   * returns the info payloads as warnings.
   */
  lemma {:induction false} ConnectWarnings(lines: seq<string>, k: nat, end: nat, kinds: LineKinds, respond: Challenge -> string,
                        parse: string -> Uri, port: int, database: string)
    requires Distinct(kinds)
    requires |lines| > 0 && CheckChallenge(lines[0]).Ok?
    requires 1 <= k < end < |lines| && |lines[k]| > 0 && ByteOf(lines[k][0]) == ByteOf(kinds.prompt)
    requires forall j :: 1 <= j < k ==> Skipped(lines[j], kinds.prompt)
    requires lines[end] == "." && forall j :: k < j < end ==> Passable(lines[j])
    requires Payloads(lines[k + 1..end], kinds.redirect) == []
    ensures Connect(lines, kinds, respond, parse, port, database)
         == Ok(Handshake(Flush(respond(CheckChallenge(lines[0]).value) + "\n", false),
                         Warnings(Payloads(lines[k + 1..end], kinds.info))))
  {
    WaitForPromptFinds(lines, 1, k, kinds.prompt);
    ReplyLoopCollects(lines, k + 1, end, kinds, Reply([], []));
    assert [] + Payloads(lines[k + 1..end], kinds.info) == Payloads(lines[k + 1..end], kinds.info);
  }

  // ---------------------------------------------------------------------------
  // CancelRequest
  // ---------------------------------------------------------------------------

  /** The ambient close strategy, passed in rather than read from global configuration. */
  datatype CloseStrategy = NoStrategy | TerminateSession

  /** What a cancel does to the socket, in order. */
  datatype CancelStep = RemoveFromPool | Dispose

  /**
   * `CancelRequest`: under `TerminateSession` the socket leaves its pool and
   * is disposed, in that order; nothing is sent to the server. Any other
   * strategy is not implemented.
   */
  function CancelRequest(strategy: CloseStrategy): (r: Result<seq<CancelStep>>)
    ensures r.Ok? <==> strategy == TerminateSession
    ensures r.Ok? ==> r.value == [RemoveFromPool, Dispose]
    ensures r.Fail? ==> r.error == NotImplementedException
  {
    match strategy
    case TerminateSession => Ok([RemoveFromPool, Dispose])
    case NoStrategy => Fail(NotImplementedException)
  }
}

=== FILE: text.dfy ===
/**
 * The handful of .NET string and integer primitives the client relies on:
 * `String.Split`, `String.Join`, `Trim`, `IndexOf`, `Replace`,
 * `ToLowerInvariant` (ASCII letters only), and `Int32.Parse` /
 * `Int32.TryParse` / `Int32.ToString` with the invariant culture.
 */
module Text {
  import opened Wrappers

  predicate IsDigit(c: char) { '0' <= c <= '9' }

  predicate AllDigits(s: string) { forall i :: 0 <= i < |s| ==> IsDigit(s[i]) }

  /** Number of occurrences of `c` in `s`. */
  function Count(s: string, c: char): nat
  {
    if |s| == 0 then 0 else (if s[0] == c then 1 else 0) + Count(s[1..], c)
  }

  lemma {:induction false} CountAppend(a: string, b: string, c: char)
    ensures Count(a + b, c) == Count(a, c) + Count(b, c)
  {
    if |a| == 0 {
      assert a + b == b;
    } else {
      assert (a + b)[1..] == a[1..] + b;
      CountAppend(a[1..], b, c);
    }
  }

  lemma {:induction false} CountAbsent(s: string, c: char)
    requires c !in s
    ensures Count(s, c) == 0
  {
    if |s| > 0 {
      assert s[0] != c;
      assert forall x :: x in s[1..] ==> x in s;
      CountAbsent(s[1..], c);
    }
  }

  // ---------------------------------------------------------------------------
  // Split and Join
  // ---------------------------------------------------------------------------

  /** `s.Split(sep)`: the pieces between separators, empty pieces included. */
  function Split(s: string, sep: char): (parts: seq<string>)
    ensures |parts| == Count(s, sep) + 1
    ensures forall i :: 0 <= i < |parts| ==> sep !in parts[i]
    decreases |s|
  {
    if |s| == 0 then [""]
    else
      var rest := Split(s[1..], sep);
      if s[0] == sep then [""] + rest
      else [[s[0]] + rest[0]] + rest[1..]
  }

  /** `String.Join(sep, parts)`. */
  function Join(parts: seq<string>, sep: string): string
  {
    if |parts| == 0 then ""
    else if |parts| == 1 then parts[0]
    else parts[0] + sep + Join(parts[1..], sep)
  }

  /** Joining the pieces of a split with the same separator restores the text. */
  lemma {:induction false} JoinSplit(s: string, sep: char)
    ensures Join(Split(s, sep), [sep]) == s
    decreases |s|
  {
    if |s| > 0 {
      var rest := Split(s[1..], sep);
      JoinSplit(s[1..], sep);
      if s[0] == sep {
        assert s == [sep] + s[1..];
      } else {
        var parts := Split(s, sep);
        assert parts == [[s[0]] + rest[0]] + rest[1..];
        if |rest| == 1 {
          assert s == [s[0]] + rest[0];
        } else {
          assert Join(rest, [sep]) == rest[0] + [sep] + Join(rest[1..], [sep]);
          assert parts[1..] == rest[1..];
          assert s == [s[0]] + s[1..];
        }
      }
    }
  }

  lemma {:induction false} SplitPrepend(c: char, s: string, sep: char)
    requires c != sep
    ensures Split([c] + s, sep) == [[c] + Split(s, sep)[0]] + Split(s, sep)[1..]
  {
    assert ([c] + s)[1..] == s;
  }

  lemma {:induction false} SplitPrependAll(a: string, s: string, sep: char)
    requires sep !in a
    ensures Split(a + s, sep) == [a + Split(s, sep)[0]] + Split(s, sep)[1..]
    decreases |a|
  {
    if |a| == 0 {
      assert a + s == s;
      assert a + Split(s, sep)[0] == Split(s, sep)[0];
      assert [Split(s, sep)[0]] + Split(s, sep)[1..] == Split(s, sep);
    } else {
      assert a + s == [a[0]] + (a[1..] + s);
      SplitPrependAll(a[1..], s, sep);
      SplitPrepend(a[0], a[1..] + s, sep);
      assert [a[0]] + (a[1..] + Split(s, sep)[0]) == a + Split(s, sep)[0];
    }
  }

  /** Splitting a join of separator-free pieces gives the pieces back. */
  lemma {:induction false} SplitJoin(parts: seq<string>, sep: char)
    requires |parts| > 0
    requires forall i :: 0 <= i < |parts| ==> sep !in parts[i]
    ensures Split(Join(parts, [sep]), sep) == parts
    decreases |parts|
  {
    if |parts| == 1 {
      SplitPrependAll(parts[0], "", sep);
      assert parts[0] + "" == parts[0];
    } else {
      var tail := Join(parts[1..], [sep]);
      SplitJoin(parts[1..], sep);
      assert Join(parts, [sep]) == parts[0] + ([sep] + tail);
      SplitPrependAll(parts[0], [sep] + tail, sep);
      assert ([sep] + tail)[1..] == tail;
      assert Split([sep] + tail, sep) == [""] + parts[1..];
      assert parts[0] + "" == parts[0];
    }
  }

  /** The pieces of `parts` that are not empty (`StringSplitOptions.RemoveEmptyEntries`). */
  function NonEmpty(parts: seq<string>): (r: seq<string>)
    ensures |r| <= |parts|
    ensures forall i :: 0 <= i < |r| ==> |r[i]| > 0 && r[i] in parts
    ensures forall i :: 0 <= i < |parts| && |parts[i]| > 0 ==> parts[i] in r
  {
    if |parts| == 0 then []
    else if |parts[0]| == 0 then NonEmpty(parts[1..])
    else [parts[0]] + NonEmpty(parts[1..])
  }

  /** Pieces that are all non-empty are kept as they are. */
  lemma {:induction false} NonEmptyKeeps(parts: seq<string>)
    requires forall i :: 0 <= i < |parts| ==> |parts[i]| > 0
    ensures NonEmpty(parts) == parts
  {
    if |parts| > 0 {
      NonEmptyKeeps(parts[1..]);
      assert [parts[0]] + parts[1..] == parts;
    }
  }

  /** `s.Split(sep, StringSplitOptions.RemoveEmptyEntries)`. */
  function SplitNonEmpty(s: string, sep: char): seq<string>
  {
    NonEmpty(Split(s, sep))
  }

  // ---------------------------------------------------------------------------
  // Trimming, searching, replacing
  // ---------------------------------------------------------------------------

  /** The characters `Char.IsWhiteSpace` accepts, which `String.Trim()` removes. */
  const WhiteSpace: set<char> := {
    '\t', '\n', '\U{B}', '\U{C}', '\r', ' ', '\U{85}', '\U{A0}', '\U{1680}',
    '\U{2000}', '\U{2001}', '\U{2002}', '\U{2003}', '\U{2004}', '\U{2005}',
    '\U{2006}', '\U{2007}', '\U{2008}', '\U{2009}', '\U{200A}',
    '\U{2028}', '\U{2029}', '\U{202F}', '\U{205F}', '\U{3000}' }

  /** `s.TrimStart(chars)`: drops the longest prefix made of `chars`. */
  function TrimStart(s: string, chars: set<char>): (r: string)
    ensures |r| <= |s| && r == s[|s| - |r|..]
    ensures forall i :: 0 <= i < |s| - |r| ==> s[i] in chars
    ensures |r| > 0 ==> r[0] !in chars
  {
    if |s| > 0 && s[0] in chars then TrimStart(s[1..], chars) else s
  }

  /** `s.TrimEnd(chars)`: drops the longest suffix made of `chars`. */
  function TrimEnd(s: string, chars: set<char>): (r: string)
    ensures |r| <= |s| && r == s[..|r|]
    ensures forall i :: |r| <= i < |s| ==> s[i] in chars
    ensures |r| > 0 ==> r[|r| - 1] !in chars
  {
    if |s| > 0 && s[|s| - 1] in chars then TrimEnd(s[..|s| - 1], chars) else s
  }

  /** `s.Trim(chars)`. */
  function Trim(s: string, chars: set<char>): string
  {
    TrimEnd(TrimStart(s, chars), chars)
  }

  /** A text that neither starts nor ends with a trimmed character is its own trim. */
  lemma {:induction false} TrimUnchanged(s: string, chars: set<char>)
    requires |s| == 0 || (s[0] !in chars && s[|s| - 1] !in chars)
    ensures Trim(s, chars) == s
  {
  }

  /** A trimmed character in front of an untrimmed text is all that trimming removes. */
  lemma {:induction false} TrimOneFront(c: char, s: string, chars: set<char>)
    requires c in chars && |s| > 0 && s[0] !in chars && s[|s| - 1] !in chars
    ensures Trim([c] + s, chars) == s
  {
    assert ([c] + s)[1..] == s;
    assert TrimStart([c] + s, chars) == TrimStart(s, chars);
    TrimUnchanged(s, chars);
  }

  /** Trimming removes exactly the surrounding characters of `chars`. */
  lemma {:induction false} TrimSurrounded(pre: string, s: string, post: string, chars: set<char>)
    requires forall i :: 0 <= i < |pre| ==> pre[i] in chars
    requires forall i :: 0 <= i < |post| ==> post[i] in chars
    requires |s| > 0 && s[0] !in chars && s[|s| - 1] !in chars
    ensures Trim(pre + s + post, chars) == s
  {
    assert pre + s + post == pre + (s + post);
    TrimStartPrefix(pre, s + post, chars);
    TrimEndSuffix(s, post, chars);
  }

  lemma {:induction false} TrimStartPrefix(pre: string, x: string, chars: set<char>)
    requires forall i :: 0 <= i < |pre| ==> pre[i] in chars
    requires |x| > 0 && x[0] !in chars
    ensures TrimStart(pre + x, chars) == x
    decreases |pre|
  {
    if |pre| > 0 {
      assert (pre + x)[1..] == pre[1..] + x;
      TrimStartPrefix(pre[1..], x, chars);
    } else {
      assert pre + x == x;
    }
  }

  lemma {:induction false} TrimEndSuffix(x: string, post: string, chars: set<char>)
    requires forall i :: 0 <= i < |post| ==> post[i] in chars
    requires |x| > 0 && x[|x| - 1] !in chars
    ensures TrimEnd(x + post, chars) == x
    decreases |post|
  {
    if |post| > 0 {
      var n := |post| - 1;
      assert (x + post)[..|x + post| - 1] == x + post[..n];
      TrimEndSuffix(x, post[..n], chars);
    } else {
      assert x + post == x;
    }
  }

  /** `s.IndexOf(c)`: the first position of `c`, or -1. */
  function IndexOf(s: string, c: char): (k: int)
    ensures -1 <= k < |s|
    ensures k == -1 <==> c !in s
    ensures k >= 0 ==> s[k] == c && c !in s[..k]
  {
    if |s| == 0 then -1
    else if s[0] == c then 0
    else
      var k := IndexOf(s[1..], c);
      assert s[1..][..k + 1] == s[1..k + 2] by { if k >= 0 { assert s[1..][..k] == s[1..k + 1]; } }
      if k < 0 then -1 else k + 1
  }

  predicate StartsWith(s: string, prefix: string) { prefix <= s }

  /** `pattern` occurs in `s` at position `i`. */
  predicate OccursAt(s: string, pattern: string, i: int)
  {
    0 <= i && i + |pattern| <= |s| && s[i..i + |pattern|] == pattern
  }

  /** `s.Replace(pattern, replacement)`: every occurrence, left to right, without overlap or rescan. */
  function Replace(s: string, pattern: string, replacement: string): (r: string)
    requires |pattern| > 0
    ensures (forall i :: !OccursAt(s, pattern, i)) ==> r == s
    decreases |s|
  {
    if |s| < |pattern| then s
    else if OccursAt(s, pattern, 0) then replacement + Replace(s[|pattern|..], pattern, replacement)
    else
      assert forall i :: OccursAt(s[1..], pattern, i) ==> OccursAt(s, pattern, i + 1);
      [s[0]] + Replace(s[1..], pattern, replacement)
  }

  function LowerChar(c: char): char
  {
    if 'A' <= c <= 'Z' then (c as int + 32) as char else c
  }

  /** `s.ToLowerInvariant()` restricted to ASCII letters. */
  function ToLower(s: string): (r: string)
    ensures |r| == |s|
    ensures forall i :: 0 <= i < |s| ==> r[i] == LowerChar(s[i])
  {
    if |s| == 0 then "" else [LowerChar(s[0])] + ToLower(s[1..])
  }

  // ---------------------------------------------------------------------------
  // Int32 parsing and formatting
  // ---------------------------------------------------------------------------

  const Int32Min: int := -0x8000_0000
  const Int32Max: int := 0x7FFF_FFFF

  predicate InInt32(n: int) { Int32Min <= n <= Int32Max }

  /** The white space `NumberStyles.Integer` allows around a number. */
  const NumberWhite: set<char> := {'\t', '\n', '\U{B}', '\U{C}', '\r', ' '}

  function DigitValue(c: char): nat requires IsDigit(c) { c as int - '0' as int }

  /** The value of a decimal digit string, most significant digit first. */
  function DigitsValue(ds: string): nat
    requires AllDigits(ds)
  {
    if |ds| == 0 then 0 else 10 * DigitsValue(ds[..|ds| - 1]) + DigitValue(ds[|ds| - 1])
  }

  /** Splits an optional leading sign off a text: (negative, rest). */
  function SignAndDigits(t: string): (bool, string)
  {
    if |t| > 0 && (t[0] == '-' || t[0] == '+') then (t[0] == '-', t[1..]) else (false, t)
  }

  /** `int.Parse(s)` with the invariant culture. */
  function ParseInt32(s: string): (r: Result<int>)
    ensures r.Ok? ==> InInt32(r.value)
    ensures r.Fail? ==> r.error == FormatException || r.error == OverflowException
  {
    var t := Trim(s, NumberWhite);
    var (neg, ds) := SignAndDigits(t);
    if |ds| == 0 || !AllDigits(ds) then Fail(FormatException)
    else
      var m: int := DigitsValue(ds);
      var v := if neg then 0 - m else m;
      if InInt32(v) then Ok(v) else Fail(OverflowException)
  }

  /** `int.TryParse(s, out n)`: the same grammar, without exceptions. */
  function TryParseInt32(s: string): Option<int>
  {
    match ParseInt32(s)
    case Ok(n) => Some(n)
    case Fail(_) => None
  }

  function DigitChar(d: nat): char requires d < 10 { ('0' as int + d) as char }

  /** Decimal digits of a natural number, without leading zeros. */
  function NatToString(n: nat): (s: string)
    ensures |s| > 0 && AllDigits(s) && DigitsValue(s) == n
    ensures |s| > 1 ==> s[0] != '0'
  {
    if n < 10 then [DigitChar(n)]
    else
      var s := NatToString(n / 10) + [DigitChar(n % 10)];
      assert s[..|s| - 1] == NatToString(n / 10);
      s
  }

  /** `n.ToString()`. */
  function IntToString(n: int): string
  {
    if n < 0 then "-" + NatToString(-n) else NatToString(n)
  }

  /** `int.Parse` reads back what `ToString` wrote, for every Int32. */
  lemma {:induction false} ParseIntToString(n: int)
    requires InInt32(n)
    ensures ParseInt32(IntToString(n)) == Ok(n)
  {
    var s := IntToString(n);
    assert s[0] !in NumberWhite && s[|s| - 1] !in NumberWhite;
    TrimUnchanged(s, NumberWhite);
    if n < 0 {
      assert SignAndDigits(s) == (true, NatToString(-n));
    }
  }
}

=== FILE: transaction.dfy ===
/**
 * Transactions: the checks `BeginDbTransaction` and the transaction's
 * constructor make, and the statements `Start`, `Commit` and `Rollback`
 * send through a parameterless command. The reply to those statements is
 * read and discarded by `ExecuteNonQuery`; the model stops at the statement
 * handed to the connection.
 *
 * The transaction's connection is the caller's connection object; here the
 * caller passes its current state to each operation.
 */
module Transaction {
  import opened Wrappers
  import opened Text
  import Connection
  import Command

  // ---------------------------------------------------------------------------
  // Isolation levels
  // ---------------------------------------------------------------------------

  /** `System.Data.IsolationLevel`, by its underlying values. */
  const Unspecified: int := -1
  const Chaos: int := 16
  const ReadUncommitted: int := 256
  const ReadCommitted: int := 4096
  const RepeatableRead: int := 65536
  const Serializable: int := 1048576
  const Snapshot: int := 16777216

  /** How an isolation level is written in a message: its name, or its number when it has none. */
  function LevelName(level: int): (r: string)
    ensures |r| > 0
  {
    if level == Unspecified then "Unspecified"
    else if level == Chaos then "Chaos"
    else if level == ReadUncommitted then "ReadUncommitted"
    else if level == ReadCommitted then "ReadCommitted"
    else if level == RepeatableRead then "RepeatableRead"
    else if level == Serializable then "Serializable"
    else if level == Snapshot then "Snapshot"
    else IntToString(level)
  }

  /** A number that names no isolation level, such as 0, is written as that number. */
  lemma {:induction false} UnnamedLevel()
    ensures LevelName(0) == "0"
    ensures LevelName(Serializable) == "Serializable"
  {
    assert NatToString(0) == "0";
  }

  function Unsupported(level: int): Exception
  {
    ArgumentException("Isolation level " + LevelName(level) + " is not supported")
  }

  // ---------------------------------------------------------------------------
  // Statements
  // ---------------------------------------------------------------------------

  /** `CheckConnection`: a missing or not-open connection is rejected. */
  function CheckConnection(conn: Option<Connection.Connection>): (r: Result<Connection.Connection>)
    ensures r.Ok? <==> conn.Some? && conn.value.state == Connection.Open
    ensures r.Ok? ==> r.value == conn.value
    ensures r.Fail? ==> r.error == MonetDbException("Connection unexpectedly disposed or closed")
  {
    if conn.None? || conn.value.state != Connection.Open then
      Fail(MonetDbException("Connection unexpectedly disposed or closed"))
    else Ok(conn.value)
  }

  /** One transaction statement: the check, then a parameterless command with that text. */
  function Statement(conn: Option<Connection.Connection>, sql: string, peers: Connection.Peers): (r: Result<Command.Sent>)
    ensures r.Ok? <==> conn.Some? && conn.value.state == Connection.Open && Connection.ExecuteSql(conn.value, sql, peers).error.None?
    ensures (conn.None? || conn.value.state != Connection.Open) ==>
      r == Fail(MonetDbException("Connection unexpectedly disposed or closed"))
    ensures r.Ok? ==> r.value.sql == sql && r.value.conn.state == Connection.Open
  {
    var c :- CheckConnection(conn);
    Command.ExecuteCommand(AsWritten, Some(c), sql, [], 0, peers)
  }

  /**
   * A transaction as far as it holds state of its own: the isolation level
   * it reports. The constructor reads the level from its own not yet
   * assigned field; `Corrected` stores the level it was given.
   */
  datatype Transaction = Transaction(isolation: int)

  function StoredIsolation(policy: Policy, level: int): int
  {
    match policy
    case AsWritten => 0
    case Corrected => level
  }

  /**
   * The constructor: only `Serializable` is accepted, checked before the
   * connection; then `START TRANSACTION;` is sent.
   */
  function Begin(policy: Policy, conn: Option<Connection.Connection>, level: int, peers: Connection.Peers)
    : (r: Result<(Transaction, Command.Sent)>)
    ensures level != Serializable ==> r == Fail(Unsupported(level))
    ensures level == Serializable && conn.None? ==> r == Fail(ArgumentNullException("connection"))
    ensures r.Ok? <==> level == Serializable && conn.Some? && conn.value.state == Connection.Open
                       && Connection.ExecuteSql(conn.value, "START TRANSACTION;", peers).error.None?
    ensures r.Ok? ==> r.value.1.sql == "START TRANSACTION;"
  {
    if level != Serializable then Fail(Unsupported(level))
    else if conn.None? then Fail(ArgumentNullException("connection"))
    else
      var sent :- Statement(conn, "START TRANSACTION;", peers);
      Ok((Transaction(StoredIsolation(policy, level)), sent))
  }

  /** `BeginDbTransaction`: the connection must be open, then the level must be `Serializable`. */
  function BeginDbTransaction(policy: Policy, c: Connection.Connection, level: int, peers: Connection.Peers)
    : (r: Result<(Transaction, Command.Sent)>)
    ensures c.state != Connection.Open ==> r == Fail(InvalidOperationException("Connection is not open"))
    ensures c.state == Connection.Open && level != Serializable ==> r == Fail(Unsupported(level))
    ensures r.Ok? <==> c.state == Connection.Open && level == Serializable
                       && Connection.ExecuteSql(c, "START TRANSACTION;", peers).error.None?
  {
    if c.state != Connection.Open then Fail(InvalidOperationException("Connection is not open"))
    else if level != Serializable then Fail(Unsupported(level))
    else Begin(policy, Some(c), level, peers)
  }

  /** `Commit`: `COMMIT;` on a connection that is still open. */
  function Commit(conn: Option<Connection.Connection>, peers: Connection.Peers): (r: Result<Command.Sent>)
    ensures r.Ok? <==> conn.Some? && conn.value.state == Connection.Open && Connection.ExecuteSql(conn.value, "COMMIT;", peers).error.None?
    ensures r.Ok? ==> r.value.sql == "COMMIT;"
  {
    Statement(conn, "COMMIT;", peers)
  }

  /** `Rollback`: `ROLLBACK;` on a connection that is still open. */
  function Rollback(conn: Option<Connection.Connection>, peers: Connection.Peers): (r: Result<Command.Sent>)
    ensures r.Ok? <==> conn.Some? && conn.value.state == Connection.Open && Connection.ExecuteSql(conn.value, "ROLLBACK;", peers).error.None?
    ensures r.Ok? ==> r.value.sql == "ROLLBACK;"
  {
    Statement(conn, "ROLLBACK;", peers)
  }

  /**
   * A transaction begun on an open connection sends `START TRANSACTION;`;
   * the commit after it then fails only if writing `COMMIT;` raises, and is
   * not preceded by a second reply-size command.
   */
  lemma {:induction false} BeginThenCommit(policy: Policy, c: Connection.Connection, peers: Connection.Peers)
    requires c.state == Connection.Open && Connection.ExecuteSql(c, "START TRANSACTION;", peers).error.None?
    ensures var b := BeginDbTransaction(policy, c, Serializable, peers);
      b.Ok? && b.value.1.sql == "START TRANSACTION;"
      && (Commit(Some(b.value.1.conn), peers).Ok? <==> peers.query("COMMIT;").None?)
      && (Commit(Some(b.value.1.conn), peers).Ok? ==>
            Commit(Some(b.value.1.conn), peers).value.sql == "COMMIT;"
            && Commit(Some(b.value.1.conn), peers).value.control.None?)
  {
    var b := BeginDbTransaction(policy, c, Serializable, peers);
    Connection.PrepareOnce(c, peers);
  }

  /** A transaction cannot be started on a closed connection, whatever the level. */
  lemma {:induction false} ClosedRefused(policy: Policy, c: Connection.Connection, level: int, peers: Connection.Peers)
    requires c.state != Connection.Open
    ensures BeginDbTransaction(policy, c, level, peers).Fail?
    ensures Commit(Some(c), peers).Fail? && Rollback(Some(c), peers).Fail?
  {
  }

  /** As written, a serializable transaction reports isolation level 0, which names no level. */
  lemma {:induction false} IsolationNotKept(c: Connection.Connection, peers: Connection.Peers)
    requires c.state == Connection.Open && Connection.ExecuteSql(c, "START TRANSACTION;", peers).error.None?
    ensures BeginDbTransaction(AsWritten, c, Serializable, peers).value.0.isolation == 0
  {
  }

  /** Corrected, the transaction reports the level it was begun with. */
  lemma {:induction false} IsolationKept(c: Connection.Connection, level: int, peers: Connection.Peers)
    requires BeginDbTransaction(Corrected, c, level, peers).Ok?
    ensures BeginDbTransaction(Corrected, c, level, peers).value.0.isolation == level == Serializable
  {
  }
}

=== FILE: wrappers.dfy ===
/**
 * Optional values, results and the .NET exceptions the client raises.
 * Every fallible operation of the model returns a `Result`, whose failure
 * side carries the exception the C# code would throw.
 */
module Wrappers {

  datatype Option<+T> = None | Some(value: T)
  {
    predicate IsFailure() { None? }

    function PropagateFailure<U>(): Option<U>
      requires None?
    {
      None
    }

    function Extract(): T
      requires Some?
    {
      value
    }

    function GetOr(default: T): T
    {
      match this
      case Some(v) => v
      case None => default
    }
  }

  /** The exception types the modelled code raises, with their messages. */
  datatype Exception =
    | ArgumentException(message: string)
    | ArgumentNullException(message: string)
    | ArgumentOutOfRangeException(message: string)
    | InvalidOperationException(message: string)
    | IndexOutOfRangeException
    | NullReferenceException
    | FormatException
    | OverflowException
    | NotImplementedException
    | IOException(message: string)
    | MonetDbException(message: string)
    | GeneralException(message: string)
    | SocketException
    /** Not an exception: the source loops forever waiting for bytes that never come. */
    | TransportStalled
    /** Not an exception: a loop the source may repeat forever ran past its fuel bound. */
    | OutOfFuel

  /**
   * Which behaviour a model of a defective spot follows: the code as
   * written, or the behaviour its authors evidently intended.
   */
  datatype Policy = AsWritten | Corrected

  datatype Result<+T> = Ok(value: T) | Fail(error: Exception)
  {
    predicate IsFailure() { Fail? }

    function PropagateFailure<U>(): Result<U>
      requires Fail?
    {
      Fail(error)
    }

    function Extract(): T
      requires Ok?
    {
      value
    }
  }
}
